=== FILE: README.md ===
# CoinGecko market pipeline — a Dafny model

This project models the deterministic core of a small Python data pipeline. The pipeline:

- pulls cryptocurrency data from the CoinGecko REST API;
- shapes each response into a pandas table;
- merges the tables into one market history;
- derives a handful of analysis features from that history.

The network, the clock and the sleep between requests are parameters of the model. Everything else is written out as pure Dafny functions over immutable data, and the behaviour the code promises is proved about them.

| module | file | what it models |
|---|---|---|
| `Wrappers` | wrappers.dfy | `Option` and `Result` |
| `Text` | text.dfy | ASCII case mapping, `','.join` and splitting, `str(int)`, decimal parsing |
| `Values` | values.dfy | JSON / cell values, dictionary lookup, the cell casts (`astype(float)`, `astype('int64')`, `to_datetime(unit=…)`, `.str.lower()`/`.str.upper()`, `$`/`,` stripping) |
| `Calendar` | calendar.dfy | the proleptic Gregorian calendar and UTC epoch seconds |
| `UnixTime` | unixtime.dfy | `convert_unix`: `strptime('%Y-%m-%d %H:%M:%S')`, `strftime`, length dispatch, output formats, error cases |
| `Frames` | frames.dfy | tables as labels plus rows: column lookup, `insert`, `df[required]`, `rename`, `drop`, `concat`, record tables, row filters |
| `Join` | join.dfy | `pd.merge(how='left', indicator=True)` over key projections |
| `Steps` | steps.dfy | a run of per-column cast statements, and staging (inserted columns plus `df[required]`) |
| `Fetch` | fetch.dfy | what every fetcher shares: "any failure gives the empty table", the time stamp, boolean parameters, records |
| `Markets` | markets.dfy | `cg_fetch_coins_markets` (both as written and corrected) and the older `cg_fetch_market_data` |
| `Charts` | charts.dfy | the market-chart fetchers: the positional zip, dropping the newest date, the `mkch_` rename; also the older top-level variant |
| `ChartRange` | range.dfy | `cg_fetch_coins_market_chart_range` and its `mrag_` rename |
| `Ohlc` | ohlc.dfy | `cg_fetch_coins_ohlc` |
| `Trending` | trending.dfy | `cg_fetch_search_trending` (both copies) and the older `cg_fetch_trending_search` |
| `SimplePrice` | simpleprice.dfy | `cg_fetch_simple_price` |
| `Pipeline` | pipeline.dfy | `cg_data_a_merge_init`: the coin universe, OHLC window snapping, `fetch_loop`, the three tagged left joins |
| `Features` | features.dfy | `cg_data_c_processed` lines 25-57: placeholders, derived ratios, classifiers, replacing ±inf |

Modelling choices:

- A table is `Frame(columns, rows)`. A cell is read by label through `Frames.At`, which takes the first column with that label, as pandas positional lookup does.
- The empty `pd.DataFrame()` is `Frames.Empty()`.
- Every fetcher is a function of its arguments, the time stamp `now`, and the decoded response or a transport failure (`Response`). The API call is a function from the query parameters to a response.
- Cell conversions return `Cast(v)`, `RaisesValueError` or `RaisesTypeError`. A failing cast therefore reaches the fetcher's generic `except` as a `Failure`, which becomes the empty table.
- Dates are integer epoch milliseconds (`VTime`). Floats are `real`.
- `fetch_data/cg_fetch_search_trending.py` is identical line for line to `cg_fetch_search_trending.py`, so one model serves both files. Rows below cite either file.
- `cg_data_a_merge_init.py` imports the top-level fetchers. The top-level `cg_fetch_coins_markets` is not part of this model: the run takes the markets fetcher as an opaque function. `ohlc_day_options` is a parameter.

## Model

| member | source | states |
|---|---|---|
| Text.Lower | fetch_data/cg_fetch_coins_markets.py:124 | lower-casing keeps the length, leaves only lower-case letters, and changes nothing but upper-case letters |
| Text.Upper | fetch_data/cg_fetch_coins_markets.py:125-126 | upper-casing keeps the length, leaves only upper-case letters, and changes nothing but lower-case letters |
| Text.LowerIdempotent | fetch_data/cg_fetch_coins_market_chart.py:74 | lower-casing an id that is already lower-case changes nothing |
| Text.UpperIdempotent | cg_fetch_search_trending.py:100-101 | upper-casing twice is upper-casing once |
| Text.SplitJoin | fetch_data/cg_fetch_coins_markets.py:47 | the comma-joined `ids` parameter splits back into exactly the ids, provided none contains a comma |
| Text.RemoveChars | cg_fetch_search_trending.py:94 | removing characters leaves none of them and never lengthens the text |
| Text.RemoveCharsNoop | cg_fetch_search_trending.py:94 | text without `$` or `,` is unchanged by the stripping |
| Text.NatToString | fetch_data/cg_fetch_coins_market_chart_range.py:23 | `str` of a natural is a non-empty digit string without a leading zero |
| Text.NatToStringValue | fetch_data/cg_fetch_coins_market_chart_range.py:23-25 | the digits of `str(n)` read back as n, so `int(str(value))` is the value again |
| Text.NatToStringLength | fetch_data/cg_fetch_coins_market_chart_range.py:24-26 | the text of n has at most k digits exactly when n < 10^k |
| Text.IntToString | fetch_data/cg_fetch_coins_market_chart_range.py:23 | `str` of an integer starts with `-` exactly when the integer is negative |
| Text.IntToStringLength | fetch_data/cg_fetch_coins_market_chart_range.py:23-29 | `len(str(i)) == k` exactly when i lies in the k-digit range (negative numbers spend one character on the sign) |
| Text.ParseIntToString | fetch_data/cg_fetch_coins_markets.py:49 | the integer query parameter reads back as the same integer |
| Text.ParseDecimalNat | cg_fetch_search_trending.py:94 | a digit string casts to the float of its value |
| Text.Trim | fetch_data/cg_fetch_coins_markets.py:119-120 | the text the casts read is the input without its leading and trailing whitespace (Python's `str.isspace`), the middle kept |
| Text.TrimPlain | fetch_data/cg_fetch_coins_markets.py:119-120 | text with no whitespace at either end is its own stripped form |
| Text.TrimIdempotent | fetch_data/cg_fetch_coins_markets.py:119-120 | stripping twice is stripping once |
| Text.ParseDecimalExponent | cg_fetch_search_trending.py:94 | digits followed by `e` and a signed exponent read as m × 10^e |
| Text.ParseDecimalExamples | cg_fetch_search_trending.py:94 | `"1e-05"` is 0.00001, and `" 12 "` reads as 12 for both the float and the integer cast |
| Text.SignedDigitsInt | fetch_data/cg_fetch_coins_markets.py:49 | the text of every integer, sign included, reads back as that integer |
| Text.LeadNotNumber | cg_fetch_search_trending.py:90-94 | text starting with anything but a digit, a sign or a point is no float, so `"$1,234"` raises ValueError |
| Values.Get | cg_fetch_search_trending.py:36-37 | a dictionary lookup finds a value exactly when the key is present, and the value is stored under that key |
| Values.Put | cg_fetch_search_trending.py:38 | assigning a key makes it read back as the new value and leaves every other key alone; a new key is appended |
| Values.FloatCast | fetch_data/cg_fetch_coins_markets.py:119-120 | `astype(float)` gives a float or NaN: an integer gives its value, a decimal text (sign, fraction, exponent, surrounding whitespace) the number it spells; ValueError exactly for any other text and for a list (numpy's "setting an array element with a sequence"), TypeError exactly for dates and objects |
| Values.Truncate | fetch_data/cg_fetch_coins_markets.py:122 | a float cast to int64 truncates toward zero |
| Values.IntCast | fetch_data/cg_fetch_coins_markets.py:122 | `astype('int64')` gives an integer: a float truncated toward zero, an integer text (surrounding whitespace allowed) its value; ValueError exactly for a missing value, any other text, or a list, TypeError exactly for dates and objects |
| Values.LowerCell | fetch_data/cg_fetch_coins_markets.py:124 | `.str.lower()` gives lower-case text for text and NaN for anything else |
| Values.UpperCell | fetch_data/cg_fetch_coins_markets.py:125-126 | `.str.upper()` gives upper-case text for text and NaN for anything else |
| Values.StripMoney | cg_fetch_search_trending.py:94 | the stripped text holds no `$` and no `,`; non-text becomes NaN |
| Values.MillisCast | fetch_data/cg_fetch_coins_market_chart.py:50 | `to_datetime(unit='ms')` of an integer is that instant; ValueError exactly for text that is neither a NaT spelling nor a decimal, TypeError exactly for booleans, dates, lists and objects |
| Values.SecondsCast | cg_fetch_simple_price.py:53 | `to_datetime(unit='s')` of an integer is the instant a thousand times later in milliseconds; ValueError exactly for text that is neither a NaT spelling nor a decimal, TypeError exactly for booleans, dates, lists and objects |
| Values.StripMoneyExample | cg_fetch_search_trending.py:90-94 | `"$1,234"` fails the direct float cast with ValueError and casts to 1234.0 once stripped |
| Values.StrAcceptsCases | cg_fetch_search_trending.py:99-101 | `.str` accepts a column holding some text or some list, or nothing present, and refuses one holding only integers or only booleans besides missing values |
| Values.ConstantTextAccepted | fetch_data/cg_fetch_coins_market_chart.py:74 | a column of one repeated text is accepted by `.str` |
| Values.NumberColumnRefused | cg_fetch_simple_price.py:70 | numeric ids alone are refused by `.str`; mixed with text, or all missing, they are accepted |
| Values.UnitCast | fetch_data/cg_fetch_coins_market_chart.py:50 | `to_datetime(unit=...)`: an integer n gives n units, a number or numeric text its count truncated to the millisecond; ValueError exactly for other non-NaT text, TypeError exactly for booleans, dates, lists and objects |
| Values.SecondsAreMillis | cg_fetch_simple_price.py:53 | the seconds conversion is the millisecond one of a thousand times the value, and the two succeed together |
| Calendar.DaysInMonth | fetch_data/cg_fetch_coins_market_chart_range.py:39 | every month has 28 to 31 days |
| Calendar.DaysBeforeMonth | fetch_data/cg_fetch_coins_market_chart_range.py:39 | January starts the year, and December ends exactly at the year's length |
| Calendar.DaysBeforeYearStep | fetch_data/cg_fetch_coins_market_chart_range.py:44 | consecutive year starts differ by the length of the year (365, or 366 in a leap year) |
| Calendar.LocateYear | fetch_data/cg_fetch_coins_market_chart_range.py:32 | the year search returns a year and a day inside it that denote the same day |
| Calendar.LocateYearUnique | fetch_data/cg_fetch_coins_market_chart_range.py:32 | the year containing a day is unique |
| Calendar.LocateMonth | fetch_data/cg_fetch_coins_market_chart_range.py:32 | the month search returns the month containing the day of the year |
| Calendar.LocateMonthUnique | fetch_data/cg_fetch_coins_market_chart_range.py:32 | the month containing a day of the year is unique |
| Calendar.FromDays | fetch_data/cg_fetch_coins_market_chart_range.py:32 | every day number names a valid date of the year whose days contain it |
| Calendar.FromDaysToDays | fetch_data/cg_fetch_coins_market_chart_range.py:32-33 | day number → date → day number is the identity |
| Calendar.ToDaysFromDays | fetch_data/cg_fetch_coins_market_chart_range.py:39-44 | valid date → day number → date is the identity |
| Calendar.FromEpoch | fetch_data/cg_fetch_coins_market_chart_range.py:32 | every epoch second names a valid UTC date and a time of day |
| Calendar.FromEpochToEpoch | fetch_data/cg_fetch_coins_market_chart_range.py:32-44 | epoch → date-time → epoch is the identity for all integers, negative ones included |
| Calendar.ToEpochFromEpoch | fetch_data/cg_fetch_coins_market_chart_range.py:39-44 | a valid date-time → epoch → date-time is the identity |
| Calendar.FromEpochYear | fetch_data/cg_fetch_coins_market_chart_range.py:32 | an epoch between two year starts falls in a year between them |
| UnixTime.Format | fetch_data/cg_fetch_coins_market_chart_range.py:33 | `strftime("%Y-%m-%d %H:%M:%S")` is nineteen characters long |
| UnixTime.FormatIsStamp | fetch_data/cg_fetch_coins_market_chart_range.py:32-35 | the `'unix'` output is always `YYYY-MM-DD HH:MM:SS`: digits, with `-`, space and `:` at their places |
| UnixTime.Match | fetch_data/cg_fetch_coins_market_chart_range.py:39 | a matched string gives fields within strptime's ranges: month 1-12, day 1-31, hour, minute, second 0-61 |
| UnixTime.Strptime | fetch_data/cg_fetch_coins_market_chart_range.py:38-41 | a parsed date-time is always a real calendar date with a valid time |
| UnixTime.StrptimeFormat | fetch_data/cg_fetch_coins_market_chart_range.py:33-39 | strptime reads back what strftime wrote, and accepts it exactly when it is a valid date-time |
| UnixTime.UnixSeconds | fetch_data/cg_fetch_coins_market_chart_range.py:22-29 | a `'unix'` value that converts gives seconds within the ten-character range |
| UnixTime.UnixRange | fetch_data/cg_fetch_coins_market_chart_range.py:24-26 | a ten- or thirteen-character integer lies strictly between -10^(n-1) and 10^n |
| UnixTime.UnixYears | fetch_data/cg_fetch_coins_market_chart_range.py:32 | every accepted timestamp falls in the years 1938-2286, so it always renders with four year digits |
| UnixTime.ConvertUnix | fetch_data/cg_fetch_coins_market_chart_range.py:12-54 | `'unix'` gives a stamp text, `'human_date'` gives an epoch number, any other `ori_format` raises |
| UnixTime.UnixLengthDispatch | fetch_data/cg_fetch_coins_market_chart_range.py:22-29 | a `'unix'` integer converts exactly when `str(value)` has 10 or 13 characters, spelled out as integer ranges |
| UnixTime.SecondsRoundTrip | fetch_data/cg_fetch_coins_market_chart_range.py:22-47 | a rendered date converts to its epoch seconds, and a ten-digit epoch converts back to the same text |
| UnixTime.MillisecondsRoundTrip | fetch_data/cg_fetch_coins_market_chart_range.py:22-49 | a rendered date converts to a thousand times its epoch seconds, and a thirteen-digit value converts back to the same text |
| UnixTime.UnixRoundTrip | fetch_data/cg_fetch_coins_market_chart_range.py:22-49 | a ten-digit epoch's text parses back to it; a thirteen-digit one parses back with its milliseconds within the second lost |
| UnixTime.MillisecondsAreSeconds | fetch_data/cg_fetch_coins_market_chart_range.py:44-49 | `'milliseconds'` succeeds exactly when `'seconds'` does, and is always a thousand times it |
| UnixTime.HumanDateErrors | fetch_data/cg_fetch_coins_market_chart_range.py:37-51 | a non-text value raises; a string strptime rejects raises the fixed format error; an unknown output format raises only after a successful parse |
| UnixTime.DocumentedExample | fetch_data/cg_fetch_coins_market_chart_range.py:18 | the documented 1692583200000 converts to `2023-08-21 02:00:00` |
| UnixTime.DocumentedText | fetch_data/cg_fetch_coins_market_chart_range.py:18-19 | the documented `2023-08-21 09:00:00` is seven hours after the documented integer, so the two do not form a pair |
| UnixTime.NoLeapDay2023 | fetch_data/cg_fetch_coins_market_chart_range.py:38-41 | `2023-02-29 00:00:00` matches the pattern but is rejected as an impossible date |
| Frames.IndexOf | fetch_data/cg_fetch_coins_markets.py:87 | a label's position is that of its first occurrence, and there is none exactly when the label is absent |
| Frames.Column | cg_data_a_merge_init.py:67 | selecting a column succeeds exactly when the label exists, else KeyError, and yields one cell per row |
| Frames.Insert | fetch_data/cg_fetch_coins_markets.py:66-67 | `insert` fails on an existing label or a position past the end; otherwise the new column sits at its position, holds the value in every row, and the other cells shift past it |
| Frames.Missing | fetch_data/cg_fetch_coins_markets.py:83 | the missing list holds exactly the required labels absent from the table |
| Frames.Project | fetch_data/cg_fetch_coins_markets.py:83-87 | `df[required]` succeeds exactly when nothing is missing, else raises with the non-empty missing list; the result has exactly the required labels, in order, with each row's cells |
| Frames.Rename | fetch_data/cg_fetch_coins_markets.py:139 | `rename` maps every label at once and leaves rows untouched |
| Frames.DropIgnoring | cg_fetch_search_trending.py:44-45 | `drop(errors='ignore')` removes exactly the listed labels that are present and keeps every row |
| Frames.DropCells | cg_fetch_search_trending.py:44-45 | a column that is not dropped keeps its cells |
| Frames.DropStrict | cg_data_a_merge_init.py:73 | `drop` without `errors='ignore'` succeeds exactly when every listed label exists |
| Frames.CastAll | fetch_data/cg_fetch_coins_markets.py:119-120 | a column cast succeeds exactly when every cell casts, and then holds each cell's cast |
| Frames.CastAllFirst | cg_fetch_search_trending.py:91-93 | a failing column cast raises what its first failing cell raises |
| Frames.CastColumn | fetch_data/cg_fetch_coins_markets.py:119-120 | a successful column cast converts every cell of that column and leaves the other columns alone |
| Frames.MapColumn | cg_fetch_search_trending.py:94 | a string method applied to a column changes that column cell by cell and nothing else |
| Frames.AddNew | cg_data_a_merge_init.py:57 | the label union keeps the first frame's labels in front, adds each new label once, and stays duplicate-free |
| Frames.UnionColumns | cg_data_a_merge_init.py:57 | `concat`'s labels are exactly those of some part |
| Frames.Concat | cg_data_a_merge_init.py:57 | `pd.concat([])` raises, and any other concatenation has the union of the labels |
| Frames.ConcatRowCount | cg_data_a_merge_init.py:57 | a concatenation has the total of its parts' rows |
| Frames.ConcatUniform | cg_data_a_merge_init.py:57 | parts with the same labels (empty parts aside) concatenate to their rows in order under those labels |
| Frames.FromRecords | fetch_data/cg_fetch_coins_markets.py:65 | a table built from records has one row per record and the labels that occur in some record, each once |
| Frames.RecordLabels | fetch_data/cg_fetch_coins_markets.py:65 | the labels of a list of records are distinct and are exactly those some record carries |
| Frames.FirstLabel | fetch_data/cg_fetch_coins_markets.py:65 | the first label is the first key of the first record |
| Frames.AddNewAppend | cg_data_a_merge_init.py:57 | adding the labels of a + b is adding those of a, then those of b |
| Frames.StrColumns | cg_fetch_search_trending.py:99-101 | the `.str` accessors succeed exactly when every named column exists and is accepted, and then leave the table as it was; a failure names one of the columns |
| Frames.FilterRows | fetch_data/cg_fetch_coins_market_chart.py:67 | a boolean filter keeps exactly the rows that pass, and nothing else |
| Frames.FilterRowsAppend | fetch_data/cg_fetch_coins_market_chart.py:67 | filtering keeps the relative order of rows |
| Join.Matches | cg_data_a_merge_init.py:106 | a left row's matches are exactly the right rows with its key |
| Join.MatchesEmpty | cg_data_a_merge_init.py:106 | a left row has no match exactly when no right row carries its key |
| Join.Expand | cg_data_a_merge_init.py:106 | a left row yields one pair per match, or one unmatched pair when there is none |
| Join.LeftJoin | cg_data_a_merge_init.py:106 | every output pair pairs a left row with a right row of the same key, or with nothing when no right row has it |
| Join.Fanout | cg_data_a_merge_init.py:111-116 | each left row contributes at least one output row |
| Join.LeftJoinKeepsLeft | cg_data_a_merge_init.py:111-116 | the left sides of the output are the left rows in order, each repeated by its fan-out |
| Join.LeftJoinSize | cg_data_a_merge_init.py:111-116 | the output has Σ max(1, matches) rows |
| Join.LeftJoinComplete | cg_data_a_merge_init.py:106 | every matching pair, and every unmatched left row, appears in the output |
| Join.MergeLeft | cg_data_a_merge_init.py:106 | the merge succeeds exactly when every key is on both sides and neither side has `_merge`; a missing key raises KeyError; rows are the joined pairs in order |
| Join.MergeLeftRowCount | cg_data_a_merge_init.py:111 | the merged table has Σ max(1, matches) rows |
| Join.MergeStatus | cg_data_a_merge_init.py:106-107 | the indicator is `both` exactly when some right row has the left row's key |
| Join.MergedRow | cg_data_a_merge_init.py:106 | the indicator is the last cell, `both` for a matched pair and `left_only` otherwise |
| Join.FlagBoth | cg_data_a_merge_init.py:108 | `np.where(status == 'both', 1, 0)` adds a flag that is 1 exactly where the status is `both` |
| Steps.ApplySteps | fetch_data/cg_fetch_coins_markets.py:116-128 | a run of cast statements keeps the labels and the row count |
| Steps.ApplyStepsCells | fetch_data/cg_fetch_coins_markets.py:116-128 | the statements succeed exactly when every cell converts, and each cell ends as its own conversion |
| Steps.ApplyStepsMissingLabel | fetch_data/cg_fetch_coins_markets.py:90-102 | a statement on a label the table lacks makes the whole run raise |
| Steps.Each | fetch_data/cg_fetch_coins_markets.py:119-120 | a loop over names gives one statement per name, in order |
| Steps.ConvertEachOnce | fetch_data/cg_fetch_coins_markets.py:119-120 | a loop over distinct names casts each listed column once and leaves the rest alone |
| Steps.ConvertAppend | fetch_data/cg_fetch_coins_markets.py:116-126 | consecutive statements compose cell by cell |
| Steps.Front | fetch_data/cg_fetch_coins_markets.py:66-67 | the inserted columns come first, in order, then the table's own |
| Steps.FrontSucceeds | fetch_data/cg_fetch_coins_markets.py:66-67 | the inserts succeed exactly when their labels are distinct and not already in the table |
| Steps.FrontCells | fetch_data/cg_fetch_coins_markets.py:66-67 | every row starts with the inserted values, followed by its own cells |
| Steps.FrontIsInserts | fetch_data/cg_fetch_coins_markets.py:66-67 | on a well-formed table the `df.insert` calls one by one raise on the same label as putting the columns in front, or give the same table |
| Steps.Stage | fetch_data/cg_fetch_coins_markets.py:66-87 | staging yields exactly the required labels and one row per input row |
| Steps.StageCells | fetch_data/cg_fetch_coins_markets.py:66-87 | staging succeeds exactly when the inserts succeed and every required label exists; each cell is the inserted value or the table's own |
| Steps.StageRecords | fetch_data/cg_fetch_coins_markets.py:64-87 | on records, staging succeeds exactly when no record carries an inserted label and every other required label occurs; each cell is the inserted or the record's value |
| Steps.ApplyStepsByRule | fetch_data/cg_fetch_coins_markets.py:116-128 | when the statements amount to one rule per column, the run succeeds exactly when the rule accepts every cell, and applies it |
| Steps.RenameCells | fetch_data/cg_fetch_coins_markets.py:139 | an injective rename moves every cell to its column's new label |
| Steps.RenamesToCells | fetch_data/cg_fetch_coins_market_chart.py:77-85 | a rename onto distinct labels gives exactly those labels and moves each cell with its column |
| Steps.Prepend | fetch_data/cg_fetch_coins_market_chart.py:55-57 | constant columns in front give their labels followed by the table's |
| Steps.StagePrepend | fetch_data/cg_fetch_coins_market_chart.py:55-64 | inserting constant columns and projecting onto all labels is putting them in front |
| Steps.ProjectSelf | fetch_data/cg_fetch_coins_market_chart.py:64 | selecting every label of a table with distinct labels, in order, gives the table back |
| Steps.PrependCells | fetch_data/cg_fetch_coins_market_chart.py:55-57 | the front columns hold their constants and the other columns keep their cells |
| Fetch.Settle | fetch_data/cg_fetch_coins_markets.py:143-148 | any processing exception becomes the empty table, and a success is returned as is |
| Fetch.Stamp | fetch_data/cg_fetch_coins_markets.py:66 | the stamp is a time with whole seconds (`replace(microsecond=0)`) |
| Fetch.BoolText | fetch_data/cg_fetch_coins_markets.py:51 | `str(flag).lower()` is `"true"` exactly when the flag is set, else `"false"` |
| Fetch.Entry | fetch_data/cg_fetch_coins_markets.py:45-55 | a `None` parameter is left out of the query, and any other is sent under its name |
| Fetch.Records | fetch_data/cg_fetch_coins_markets.py:64-65 | a body reads as records exactly when it is a list of objects, one record per object |
| Fetch.DateCell | fetch_data/cg_fetch_coins_markets.py:117 | an ISO text converts to its instant, and one the parser rejects raises ValueError; a number is read as epoch nanoseconds and lands on the millisecond containing it; booleans, lists and objects raise TypeError |
| Fetch.Percent | fetch_data/cg_fetch_coins_markets.py:102 | a number is divided by 100 |
| Fetch.DumpObject | fetch_data/cg_fetch_coins_markets.py:128 | objects become their JSON text, and every other value is unchanged |
| Markets.Check | fetch_data/cg_fetch_coins_markets.py:33-42 | the arguments pass exactly when the key is truthy, the currency is non-empty text, every id is text, 1 ≤ per_page ≤ 250 and page ≥ 1; the first failing check is raised |
| Markets.IdTexts | fetch_data/cg_fetch_coins_markets.py:47 | the ids read as texts, one per id |
| Markets.IdsParam | fetch_data/cg_fetch_coins_markets.py:47 | the `ids` parameter is sent exactly when the list is given and non-empty |
| Markets.Lookup | fetch_data/cg_fetch_coins_markets.py:45-55 | a looked-up parameter is present in the query under its name, and none is found only when no entry has that name |
| Markets.LookupAppend | fetch_data/cg_fetch_coins_markets.py:45-55 | a lookup in a joined query finds the first part's entry first |
| Markets.ParamsIds | fetch_data/cg_fetch_coins_markets.py:47 | the query's `ids` is the comma-join of the ids, or absent |
| Markets.ParamsPerPage | fetch_data/cg_fetch_coins_markets.py:49 | the query's `per_page` is the page size's text and reads back as that size |
| Markets.ParamsSparkline | fetch_data/cg_fetch_coins_markets.py:51 | the query's `sparkline` is `"true"` or `"false"` by the flag |
| Markets.ParamsPrecision | fetch_data/cg_fetch_coins_markets.py:54 | the query's `precision` is sent exactly when it is not `None` |
| Markets.EmptyIdsAsNone | fetch_data/cg_fetch_coins_markets.py:47 | an empty id list passes the checks and builds the same query as `None` |
| Markets.IdsRoundTrip | fetch_data/cg_fetch_coins_markets.py:47 | the sent `ids` splits back into the given ids when none contains a comma |
| Markets.Relabelled | fetch_data/cg_fetch_coins_markets.py:131-139 | relabelling keeps the label count and every row |
| Markets.Label | fetch_data/cg_fetch_coins_markets.py:131-139 | `id`, `symbol` and `name` become `coin_id`, `coin_symbol` and `coin_name`; every other label c becomes `cmrk_` + c |
| Markets.LabelPrefix | fetch_data/cg_fetch_coins_markets.py:131-139 | every new label starts with `coin_` for the three key columns and `cmrk_` for the rest |
| Markets.LabelInjective | fetch_data/cg_fetch_coins_markets.py:131-139 | distinct labels stay distinct |
| Markets.RelabelledAll | fetch_data/cg_fetch_coins_markets.py:131-139 | each column keeps its position and cells under its new label |
| Markets.CoinsMarketsAsWritten | fetch_data/cg_fetch_coins_markets.py:33-148 | the as-written fetcher raises exactly when the argument checks fail |
| Markets.AsWrittenFirstStep | fetch_data/cg_fetch_coins_markets.py:89-102 | the percentage loop's first statement addresses `cmrk_price_change_24h`, a label the staged table never has |
| Markets.AsWrittenRaises | fetch_data/cg_fetch_coins_markets.py:61-102 | as written, processing any body raises |
| Markets.AsWrittenAlwaysEmpty | fetch_data/cg_fetch_coins_markets.py:61-148 | as written, every call that passes the checks returns the empty table, whatever the response |
| Markets.CoinsMarkets | fetch_data/cg_fetch_coins_markets.py:33-148 | the corrected fetcher raises exactly when the argument checks fail |
| Markets.ValidationFirst | fetch_data/cg_fetch_coins_markets.py:33-62 | with bad arguments both markets fetchers raise that check's error before any request, whatever the response |
| Markets.StagedCells | fetch_data/cg_fetch_coins_markets.py:64-87 | staging succeeds exactly when no record carries `data_ts` or `currency` and every required field occurs; cells are the stamp, the currency or the record's value |
| Markets.HeadsFacts | fetch_data/cg_fetch_coins_markets.py:66-67 | the two inserted columns are `data_ts` and `currency`, holding the stamp and the currency |
| Markets.CleaningByColumn | fetch_data/cg_fetch_coins_markets.py:89-128 | the cleaning statements amount to one rule per column: dates parsed, percentages divided by 100 then cast to float, floats cast, rank cast to int64, id lowered, symbol and name raised, roi serialised |
| Markets.CleaningRule | fetch_data/cg_fetch_coins_markets.py:89-128 | the same for every column and value |
| Markets.CleanedByRule | fetch_data/cg_fetch_coins_markets.py:89-128 | cleaning succeeds exactly when every cell passes its column's rule, and each cell becomes its conversion |
| Markets.CleanedCells | fetch_data/cg_fetch_coins_markets.py:64-128 | after staging, cleaning succeeds exactly when every source value passes its rule, and each cell is that value converted |
| Markets.ProcessSucceeds | fetch_data/cg_fetch_coins_markets.py:64-139 | processing a list of records succeeds exactly when the required keys are present, the inserted ones absent, every cell converts, and `.str` accepts the id, symbol and name columns |
| Markets.StagedText | fetch_data/cg_fetch_coins_markets.py:124-126 | on the staged table the three `.str` accessors succeed exactly when the records' id, symbol and name columns are accepted |
| Markets.StagedKey | fetch_data/cg_fetch_coins_markets.py:64-87 | the staged id, symbol and name columns are the records' values, row by row |
| Markets.ProcessSteps | fetch_data/cg_fetch_coins_markets.py:64-139 | a successful run is staging, then cleaning, then relabelling |
| Markets.ProcessColumns | fetch_data/cg_fetch_coins_markets.py:69-139 | the output has one row per record and exactly the relabelled required columns, in order |
| Markets.CleanedCell | fetch_data/cg_fetch_coins_markets.py:64-128 | one cleaned cell is its source value under its column's rule |
| Markets.ProcessCells | fetch_data/cg_fetch_coins_markets.py:64-139 | each output cell under a relabelled column is the record's value under that column's rule |
| Markets.NumericDates | fetch_data/cg_fetch_coins_markets.py:116-117 | a date column of numbers and missing values converts cell by cell, each number to the millisecond of its epoch nanoseconds: `1700000000000000000` is 1700000000000 ms |
| Markets.CleanCellShapes | fetch_data/cg_fetch_coins_markets.py:116-128 | id is lower-case, symbol and name upper-case, rank an integer from a present value, floats are floats, percentages are divided by 100, dates are times, roi is never an object, the stamp, currency and image pass unchanged |
| Markets.CoinsMarketsResult | fetch_data/cg_fetch_coins_markets.py:61-148 | with valid arguments the corrected fetcher never raises; it returns the empty table on a failed request or malformed body, and a non-empty table exactly when the records are complete, clean, and text where `.str` is used |
| Markets.NullRankEmpties | fetch_data/cg_fetch_coins_markets.py:122 | a single coin without a market-cap rank empties the whole result |
| Markets.RankRaisesOnNull | fetch_data/cg_fetch_coins_markets.py:122 | a missing rank cannot be cast to int64 |
| Markets.MarketData | cg_fetch_market_data.py:32-93 | the older markets fetcher raises exactly when its argument checks fail |
| Markets.MarketDataCells | cg_fetch_market_data.py:60-86 | the older fetcher succeeds exactly when no record has `data_ts` and every required field occurs; the stamp comes first, then each record's values uncast and unrenamed |
| Charts.Series | fetch_data/cg_fetch_coins_market_chart.py:50-53 | a series is read exactly when the key holds a list |
| Charts.Nth | fetch_data/cg_fetch_coins_market_chart.py:50-53 | `[conv(entry[k]) for entry in entries]` succeeds exactly when every entry has an item k that converts, and holds their conversions in order |
| Charts.Zip | fetch_data/cg_fetch_coins_market_chart.py:49-54 | the zipped table has the labels `date`, `price`, `market_cap`, `volume` |
| Charts.ZipArrays | fetch_data/cg_fetch_coins_market_chart.py:49-54 | the zip of three arrays is a well-formed table with those four labels |
| Charts.ZipReads | fetch_data/cg_fetch_coins_market_chart.py:49-54 | once the three arrays are read, the zip depends on them alone |
| Charts.ZipCells | fetch_data/cg_fetch_coins_market_chart.py:49-54 | row i holds `prices[i]`'s time and price, `market_caps[i][1]` and `total_volumes[i][1]` |
| Charts.ZipRows | fetch_data/cg_fetch_coins_market_chart.py:49-54 | the zip succeeds exactly when the arrays have equal length, every entry has two items and every time converts; row i comes from entry i of each |
| Charts.ZipNeedsArrays | fetch_data/cg_fetch_coins_market_chart.py:49-54 | a body without the three arrays raises |
| Charts.ChartHeadLabels | fetch_data/cg_fetch_coins_market_chart.py:55-57 | the inserted labels are `data_ts`, `currency`, `id` in that order |
| Charts.Staged | fetch_data/cg_fetch_coins_market_chart.py:55-64 | the inserts followed by the projection put the three constant columns in front |
| Charts.Prepended | fetch_data/cg_fetch_coins_market_chart.py:55-57 | each row starts with the stamp, the currency and the id, and keeps its own cells |
| Charts.PreparedChart | fetch_data/cg_fetch_coins_market_chart.py:55-64 | the staged chart has exactly the seven required labels, one row per zipped row, with the constants and the zipped cells |
| Charts.PrependIdText | fetch_data/cg_fetch_coins_market_chart.py:55-74 | the inserted `id` column is one repeated text, so `.str.lower()` accepts it |
| Charts.DroppedIdText | fetch_data/cg_fetch_coins_market_chart.py:67-74 | after the date filter the `id` column is still accepted by `.str` |
| Charts.LatestIsMax | fetch_data/cg_fetch_coins_market_chart.py:67 | the latest date is the maximum of the column, taken by some row; there is none exactly when no cell is a date |
| Charts.DropLatest | fetch_data/cg_fetch_coins_market_chart.py:67 | the filter succeeds exactly when the column exists, keeps the labels and never adds rows |
| Charts.DropLatestRows | fetch_data/cg_fetch_coins_market_chart.py:67 | the kept rows come from the input, none of them is on the maximum date, and every row not on it is kept |
| Charts.DropLatestKeeps | fetch_data/cg_fetch_coins_market_chart.py:67 | a row not on the maximum date survives the filter |
| Charts.DropLatestSameDay | fetch_data/cg_fetch_coins_market_chart.py:67 | when every row has the same date the result is empty |
| Charts.ChartStepsRule | fetch_data/cg_fetch_coins_market_chart.py:69-74 | the cleaning statements amount to: price columns cast to float, `id` lowered, everything else unchanged |
| Charts.ChartStepsFacts | fetch_data/cg_fetch_coins_market_chart.py:69-74 | every statement addresses an existing column, and they act as one rule per column |
| Charts.CastAndRenameSucceeds | fetch_data/cg_fetch_coins_market_chart.py:69-85 | cleaning and renaming succeeds exactly when every price cell casts to float |
| Charts.CastAndRenameColumns | fetch_data/cg_fetch_coins_market_chart.py:69-85 | the renamed table has the target labels and the same number of rows |
| Charts.CastAndRenameCells | fetch_data/cg_fetch_coins_market_chart.py:69-85 | each cell lands under its column's new label, converted by its column's rule |
| Charts.MkchLabels | fetch_data/cg_fetch_coins_market_chart.py:77-85 | the output labels are `mkch_data_ts`, `mkch_currency`, `coin_id`, `date`, `mkch_price`, `mkch_market_cap`, `mkch_volume` |
| Charts.ChartRequiredShape | fetch_data/cg_fetch_coins_market_chart.py:59 | the required labels are distinct and shaped as the cleaning expects |
| Charts.MkchRenamesTo | fetch_data/cg_fetch_coins_market_chart.py:77-85 | the `mkch_` map renames the required labels onto distinct labels, with `date` kept |
| Charts.CarriesRow | fetch_data/cg_fetch_coins_market_chart.py:69-85 | a staged row comes out with the stamp, the currency, the lower-cased id, its date, and its prices cast |
| Charts.StagedDates | fetch_data/cg_fetch_coins_market_chart.py:67 | the staged date column is the zipped one, so the maximum is taken over the response's dates |
| Charts.DroppedRow | fetch_data/cg_fetch_coins_market_chart.py:67-85 | a kept row reads back as the zipped row it came from, cleaned and relabelled |
| Charts.ChainKept | fetch_data/cg_fetch_coins_market_chart.py:64-85 | every output row is some zipped row not on the newest date, cleaned and relabelled |
| Charts.ChainShown | fetch_data/cg_fetch_coins_market_chart.py:64-85 | every zipped row not on the newest date appears in the output |
| Charts.DroppedFrom | fetch_data/cg_fetch_coins_market_chart.py:67 | every filtered row holds the values of a zipped row not on the newest date |
| Charts.DroppedTo | fetch_data/cg_fetch_coins_market_chart.py:67 | every zipped row not on the newest date is held by some filtered row |
| Charts.DroppedConverts | fetch_data/cg_fetch_coins_market_chart.py:67-72 | the float casts after the filter succeed exactly when the prices of the rows not on the newest date cast |
| Charts.DroppedConvertsForward | fetch_data/cg_fetch_coins_market_chart.py:67-72 | when the prices of every row off the newest date cast, so do the prices of every row the filter keeps |
| Charts.DroppedConvertsBack | fetch_data/cg_fetch_coins_market_chart.py:67-72 | when the prices of every kept row cast, so do those of every row off the newest date |
| Charts.MarketChartRows | fetch_data/cg_fetch_coins_market_chart.py:49-87 | the output has the `mkch_` labels and at most the zipped rows; it is exactly the rows not on the newest date, each cleaned |
| Charts.MarketChartSucceeds | fetch_data/cg_fetch_coins_market_chart.py:44-94 | after the zip, processing succeeds exactly when the prices of the rows off the newest date cast to float |
| Charts.MarketChartSameDay | fetch_data/cg_fetch_coins_market_chart.py:67 | a single-date response gives no rows |
| Charts.MarketChart | fetch_data/cg_fetch_coins_market_chart.py:44-94 | a failed request gives the empty table; otherwise the table is empty exactly when processing raises, and any other result has the `mkch_` labels and at most the zipped rows |
| Charts.LegacyStaged | cg_fetch_coins_market_chart.py:49-65 | the older fetcher returns the zipped table with the three constant columns in front |
| Charts.LegacyChartRows | cg_fetch_coins_market_chart.py:49-65 | the older fetcher keeps the key column as `id`, never `coin_id`; it drops no date and casts nothing |
| Charts.LegacyChartFails | cg_fetch_coins_market_chart.py:44-72 | the older fetcher fails exactly when the zip fails, and then returns the empty table |
| Charts.LegacyChart | cg_fetch_coins_market_chart.py:44-72 | a failed request gives the empty table; otherwise the table is empty exactly when the zip raises, and any other result has the seven required labels and one row per zipped row |
| ChartRange.DayStart | fetch_data/cg_fetch_coins_market_chart_range.py:79-80 | a date converts to the epoch seconds of its midnight exactly when strptime accepts it with ` 00:00:00` appended, else the format error |
| ChartRange.RangeQuery | fetch_data/cg_fetch_coins_market_chart_range.py:84-90 | `from` and `to` are the two epoch seconds as text |
| ChartRange.MragRenamesTo | fetch_data/cg_fetch_coins_market_chart_range.py:126-134 | the `mrag_` map renames the required labels onto distinct labels, with `date` kept |
| ChartRange.MragLabels | fetch_data/cg_fetch_coins_market_chart_range.py:126-134 | the range output labels are `mrag_data_ts`, `mrag_currency`, `coin_id`, `date`, `mrag_price`, `mrag_market_cap`, `mrag_volume` |
| ChartRange.RangeRaisesOnDates | fetch_data/cg_fetch_coins_market_chart_range.py:79-143 | the range fetcher raises exactly when a date is malformed, before any request; otherwise it returns the processed table or the empty one |
| ChartRange.DayText | fetch_data/cg_fetch_coins_market_chart_range.py:64 | a four-digit-year date renders as ten characters |
| ChartRange.MidnightText | fetch_data/cg_fetch_coins_market_chart_range.py:79 | a date's text with ` 00:00:00` appended is the midnight stamp |
| ChartRange.DayStartOfDay | fetch_data/cg_fetch_coins_market_chart_range.py:79-80 | every rendered date converts to 86400 times its day number |
| ChartRange.DayStartExamples | fetch_data/cg_fetch_coins_market_chart_range.py:64 | `2024-10-14` is 1728864000, and the empty date raises |
| ChartRange.RangeRows | fetch_data/cg_fetch_coins_market_chart_range.py:101-134 | the output has the `mrag_` labels and one row per zipped row (no date dropped), each with the lower-cased id and its cast prices |
| ChartRange.RangeSucceeds | fetch_data/cg_fetch_coins_market_chart_range.py:116-123 | after the zip, processing succeeds exactly when every price casts to float |
| ChartRange.RangeIdText | fetch_data/cg_fetch_coins_market_chart_range.py:123 | the inserted `id` column is accepted by `.str.lower()` |
| ChartRange.MarketChartRange | fetch_data/cg_fetch_coins_market_chart_range.py:79-143 | the range fetcher raises exactly when a date is malformed; a non-empty result has the `mrag_` labels |
| Ohlc.Candles | cg_fetch_coins_ohlc.py:49 | among list bodies, the table builds exactly from a list of lists of at most five items, the longest having five (or none); one row per entry, padded with missing cells; every other body raises in the model (see Left out) |
| Ohlc.Padded | cg_fetch_coins_ohlc.py:49 | every candle row has five cells |
| Ohlc.CandleCells | cg_fetch_coins_ohlc.py:49 | row k holds entry k's items as timestamp, open, high, low, close |
| Ohlc.TimedCells | cg_fetch_coins_ohlc.py:50 | the timestamp column becomes epoch-millisecond instants and the prices are untouched |
| Ohlc.TimestampsConvert | cg_fetch_coins_ohlc.py:50 | the timestamp conversion succeeds exactly when every timestamp converts |
| Ohlc.OhlcRequiredFacts | cg_fetch_coins_ohlc.py:55-73 | the required labels are distinct, and only `id` is renamed, to `coin_id` |
| Ohlc.OhlcStaged | cg_fetch_coins_ohlc.py:51-60 | the inserts followed by the projection put the three constant columns in front |
| Ohlc.StagedCandle | cg_fetch_coins_ohlc.py:49-60 | staged row i holds the stamp, the currency, the id and candle i with its time converted |
| Ohlc.CandleCell | cg_fetch_coins_ohlc.py:63-73 | each staged cell lands under its new label, converted by its column's rule |
| Ohlc.CandlePrice | cg_fetch_coins_ohlc.py:64-65 | each price is its staged value cast to float |
| Ohlc.CandleKept | cg_fetch_coins_ohlc.py:63-73 | the stamp, the currency and the timestamp pass unchanged and keep their labels |
| Ohlc.CandleId | cg_fetch_coins_ohlc.py:67-73 | `coin_id` is the lower-cased `id` |
| Ohlc.CastCandle | cg_fetch_coins_ohlc.py:63-73 | a staged candle comes out carrying its entry's converted items |
| Ohlc.ChainCarried | cg_fetch_coins_ohlc.py:49-73 | output row i carries payload entry i |
| Ohlc.ChainColumns | cg_fetch_coins_ohlc.py:49-73 | the output has the eight relabelled columns and one row per payload entry |
| Ohlc.OhlcLabelFacts | cg_fetch_coins_ohlc.py:70-73 | the output has `coin_id` and `timestamp`, and neither `id` nor `date` |
| Ohlc.OhlcRows | cg_fetch_coins_ohlc.py:49-75 | a successful run has one row per entry, in order, each carrying its entry; the time key stays `timestamp` |
| Ohlc.OhlcSucceeds | cg_fetch_coins_ohlc.py:44-82 | once the candles and times are read, processing succeeds exactly when every price casts to float |
| Ohlc.OhlcIdText | cg_fetch_coins_ohlc.py:67 | the inserted `id` column is accepted by `.str.lower()` |
| Ohlc.OhlcChart | cg_fetch_coins_ohlc.py:44-82 | a failed request gives the empty table; otherwise the table is empty exactly when the modelled processing raises (a `null` body, an object body or a list of objects counts as raising, see Left out), and any other result has the OHLC labels and one row per candle of the list |
| Trending.FilterPriceChanges | cg_fetch_search_trending.py:24-26 | the filter keeps only `btc` and `usd` entries, taken from the input |
| Trending.FilterExact | cg_fetch_search_trending.py:24-26 | a key survives exactly when it is `btc` or `usd` and present, with its value unchanged |
| Trending.FilterIdempotent | fetch_data/cg_fetch_search_trending.py:24-26 | filtering twice is filtering once |
| Trending.FilterKeepsQuoted | cg_fetch_trending_search.py:24-26 | a dictionary with only `btc` and `usd` keys is unchanged |
| Trending.SubObject | cg_fetch_search_trending.py:37 | `.get(key, {})` gives `{}` when the key is absent and the object when it holds one |
| Trending.TrimItemSpec | cg_fetch_search_trending.py:35-38 | trimming succeeds exactly when the coin has an `item` object with a `data` object; only `data`'s price-change entry changes, to its filtered form |
| Trending.TrimCoins | cg_fetch_search_trending.py:35-38 | the loop succeeds exactly when every coin trims, one trimmed item per coin |
| Trending.Flatten | cg_fetch_search_trending.py:41 | flattened keys carry their parent's prefix and hold no objects |
| Trending.Scalars | cg_fetch_search_trending.py:41 | the scalar entries are taken from the input, and all of it when nothing is nested |
| Trending.Nested | cg_fetch_search_trending.py:41 | the nested entries are the object-valued ones |
| Trending.Normalize | cg_fetch_search_trending.py:41 | `json_normalize` leaves no object values, and changes nothing in a flat item |
| Trending.RecordsOfCoins | cg_fetch_search_trending.py:32-41 | the records exist exactly when there is at least one coin and every coin trims; record k is coin k's item, trimmed and flattened |
| Trending.MissingDataRaises | cg_fetch_search_trending.py:36-38 | an item without `data` raises KeyError at the direct index |
| Trending.RenamingInjective | cg_fetch_search_trending.py:46-67 | the rename map sends different payload keys to different labels |
| Trending.ShapedCell | cg_fetch_search_trending.py:44-67 | a payload key that is not dropped lands, with its values, under its new name |
| Trending.ShapedFrom | cg_fetch_search_trending.py:44-67 | every label of the shaped table comes from a payload key that occurs and is not dropped |
| Trending.ShapedLabel | cg_fetch_search_trending.py:44-67 | a required label is present exactly when its payload key occurs, and holds that key's values |
| Trending.HeadFacts | cg_fetch_search_trending.py:68 | the one inserted column is the stamp |
| Trending.StagedSucceeds | cg_fetch_search_trending.py:68-82 | staging succeeds exactly when no record has the stamp label and every required label's payload key occurs |
| Trending.StagedCells | cg_fetch_search_trending.py:68-82 | the staged table has the required labels, one row per record, each cell the stamp or the record's value |
| Trending.RenamesOrigins | cg_fetch_search_trending.py:46-67 | every renamed payload key is the origin of its new label |
| Trending.FieldsRenamed | cg_fetch_search_trending.py:46-82 | every required label is the rename of its payload key |
| Trending.FieldsKept | cg_fetch_search_trending.py:44-82 | no required label comes from a dropped key |
| Trending.StampedApart | cg_fetch_search_trending.py:68 | `trdg_data_ts` is not a payload label, a rename source or target, or a dropped label |
| Trending.CurrentRenaming | cg_fetch_search_trending.py:44-82 | the current rename map, drop list and required list fit together |
| Frames.ColumnOf | cg_fetch_search_trending.py:90-94 | a column's cells, one per row, each the row's cell under the label |
| Trending.CastColumnOf | cg_fetch_search_trending.py:90-92 | the direct cast succeeds exactly when every cell casts, and fails with ValueError exactly when the first failing cell is text that is no decimal, or a list |
| Trending.StrippedCast | cg_fetch_search_trending.py:94 | the fallback strips every cell and succeeds exactly when every stripped cell casts |
| Trending.MoneyColumnCells | cg_fetch_search_trending.py:90-94 | a price column survives exactly when it casts directly, or fails with ValueError and casts once stripped; cells are cast directly or stripped accordingly |
| Trending.MoneyColumnsCells | fetch_data/cg_fetch_search_trending.py:90-94 | all price columns survive exactly when each does on its own |
| Trending.FallbackAccepted | cg_fetch_search_trending.py:90-94 | a column whose direct cast fails with ValueError holds text or a list, so the `.str.replace` fallback is accepted |
| Trending.CaseByColumn | cg_fetch_search_trending.py:99-101 | `coin_id` is lowered, `coin_symbol` and `coin_name` are raised, the rest is untouched |
| Trending.FinishByColumn | cg_fetch_search_trending.py:96-101 | the int64 casts and the case rules act as one rule per column |
| Trending.FinishRule | cg_fetch_search_trending.py:96-101 | the same for every column and value |
| Trending.FinishLabelled | cg_fetch_search_trending.py:96-101 | every final statement addresses an existing column |
| Trending.ListsFacts | cg_fetch_search_trending.py:85-101 | the price columns are distinct required columns untouched by the later statements |
| Trending.CaseColumnsKept | cg_fetch_search_trending.py:94-101 | the price fallback leaves the id, symbol and name columns alone, so the later `.str` calls succeed exactly when the staged columns are accepted |
| Trending.CleanCells | cg_fetch_search_trending.py:84-101 | cleaning succeeds exactly when every price column survives, every other cell passes its rule, and `.str` accepts the `coin_id`, `coin_symbol` and `coin_name` columns (not numbers, booleans or dates alone); each cell is its column's conversion |
| Trending.SearchTrending | fetch_data/cg_fetch_search_trending.py:105-110 | a failed request, or any exception while processing, gives the empty table |
| Trending.SuppliedColumn | cg_fetch_search_trending.py:68-82 | the staged column of a label is, row by row, the record's value for it |
| Trending.StagedColumns | cg_fetch_search_trending.py:68-82 | the staged table's columns are the records' values for the required labels |
| Trending.ProcessRecords | cg_fetch_search_trending.py:40-103 | processing is staging followed by cleaning |
| Trending.OkOnStaged | cg_fetch_search_trending.py:84-101 | the casts succeed on the records exactly when they succeed on the staged table |
| Trending.TrendingSucceeds | cg_fetch_search_trending.py:28-103 | processing succeeds exactly when the keys are right, every cast succeeds and `.str` accepts the three text columns |
| Trending.TrendingColumns | cg_fetch_search_trending.py:70-82 | the output has exactly the required labels, in order, and one row per coin |
| Trending.TrendingCells | cg_fetch_search_trending.py:28-103 | each output cell is the record's value under its column's rule |
| Trending.SimultaneousRename | cg_fetch_search_trending.py:46-67 | the payload `coin_id` becomes the integer `trdg_id`, while `coin_id` is the lower-cased payload `id` |
| Trending.IdOrigins | fetch_data/cg_fetch_search_trending.py:46-48 | `trdg_id` reads payload `coin_id`, and `coin_id` reads payload `id` |
| Trending.IdRules | cg_fetch_search_trending.py:88-99 | `trdg_id` is cast to int64, and `coin_id` is lowered |
| Trending.TrendCellShapes | cg_fetch_search_trending.py:84-101 | the stamp is unchanged; `coin_id` is lower-case; symbol and name are upper-case; integer columns are integers; price columns are floats |
| Trending.MoneyExample | cg_fetch_search_trending.py:90-94 | a column with `"$1,234"` and 5 takes the fallback: 1234.0, and NaN for the number, which `.str` turns into a missing value |
| Trending.MoneyDirectExample | cg_fetch_search_trending.py:90-92 | a numeric column casts directly |
| Trending.MoneyListExample | cg_fetch_search_trending.py:90-94 | a price column holding a list and `"2"` fails the direct cast with ValueError and takes the fallback: the list becomes NaN and `"2"` becomes 2.0 |
| Trending.TrendingSearch | cg_fetch_trending_search.py:90-95 | the older fetcher returns the empty table on any failure |
| Trending.LegacyRenamesOrigins | cg_fetch_trending_search.py:50-69 | every renamed payload key is the origin of its new label |
| Trending.LegacyFieldsRenamed | cg_fetch_trending_search.py:50-88 | every required label of the older fetcher is the rename of its payload key |
| Trending.LegacyFieldsKept | cg_fetch_trending_search.py:48-88 | no required label comes from a dropped key |
| Trending.LegacyRenaming | cg_fetch_trending_search.py:48-88 | the older rename map, drop list and required list fit together |
| Trending.LegacyCells | cg_fetch_trending_search.py:43-88 | the older fetcher succeeds exactly when the keys are right, and returns the required labels with uncast values |
| Trending.LegacyIds | cg_fetch_trending_search.py:76-88 | the older output keeps both `id` and `coin_id` as in the payload, with `coin_name` from `name` |
| Trending.LegacyIdOrigins | cg_fetch_trending_search.py:50-69 | `id` and `coin_id` are not renamed, and `coin_name` reads `name` |
| SimplePrice.PriceQuery | cg_fetch_simple_price.py:33-41 | the ids, the currency and the precision are sent verbatim, and each include flag is `"true"` exactly when set |
| SimplePrice.Derived | cg_fetch_simple_price.py:57-58 | the four value columns are the currency itself, then three labels that extend it |
| SimplePrice.DerivedDistinct | cg_fetch_simple_price.py:57-58 | the four derived labels are distinct |
| SimplePrice.RequiredParts | cg_fetch_simple_price.py:57-58 | the required labels are the stamp, the currency, `coin`, the derived four and `last_updated_at` |
| SimplePrice.PlainFacts | cg_fetch_simple_price.py:57-58 | a plain currency's labels stay apart from the fixed ones |
| SimplePrice.LabelsDistinct | cg_fetch_simple_price.py:57-76 | for a plain currency the required and output labels are distinct |
| SimplePrice.PriceRenamed | cg_fetch_simple_price.py:73-76 | the rename maps `coin` to `coin_id` and leaves the other labels |
| SimplePrice.ThreeLetterPlain | cg_fetch_simple_price.py:57-58 | every three-letter currency code is plain |
| SimplePrice.PriceStepsRule | cg_fetch_simple_price.py:66-70 | the casts act as: value columns to float, `coin` lowered, the rest untouched |
| SimplePrice.InnerLabels | cg_fetch_simple_price.py:51 | the columns are the inner keys, each once: exactly those some coin object carries |
| SimplePrice.Carriers | cg_fetch_simple_price.py:51 | the coins carrying a label are exactly the keys whose object has it |
| SimplePrice.CarriersAll | cg_fetch_simple_price.py:51 | when every coin carries a label, its carriers are all the keys, in order |
| SimplePrice.CoinIndex | cg_fetch_simple_price.py:51 | the row index is duplicate-free and holds exactly the keys whose object is not empty |
| SimplePrice.CommonKeyKeepsOrder | cg_fetch_simple_price.py:51 | when every coin object starts with the same key, the rows follow the answer's key order |
| SimplePrice.ColumnWiseOrder | cg_fetch_simple_price.py:51 | for `a:{x}, b:{y}, c:{x,y}, d:{}` the rows are a, c, b: gathered column by column, the empty object dropped |
| SimplePrice.RenameIndex | cg_fetch_simple_price.py:52 | renaming `index` to `coin` moves the inner `index` value to `coin` and leaves every other cell |
| SimplePrice.CoinRecord | cg_fetch_simple_price.py:51-52 | a coin's record has the key as `coin`, or, when shifted, the key as `level_0` and the inner `index` as `coin`; the other cells are the coin's object |
| SimplePrice.ObjectInAnswer | cg_fetch_simple_price.py:51 | a coin's object is one of the answer's values, and its keys are among the columns |
| SimplePrice.RowOfCoin | cg_fetch_simple_price.py:51 | every coin with a non-empty object has a row, and that row reads its object |
| SimplePrice.CoinRows | cg_fetch_simple_price.py:51-52 | the answer gives rows exactly when it is an object of objects with no inner `coin` and not both `index` and `level_0`; one row per coin with a non-empty object, in pandas' column-wise first-appearance order; `coin` is the key (the inner `index` when an inner `index` pushes the key to `level_0`) and the other cells are the coin's object |
| SimplePrice.CoinPresent | cg_fetch_simple_price.py:51-52 | once there are rows, some row carries `coin`, so the projection finds it |
| SimplePrice.ShiftedCoinPresent | cg_fetch_simple_price.py:51-52 | when the key is pushed to `level_0`, some row carries the inner `index` as `coin` |
| SimplePrice.StageTwo | cg_fetch_simple_price.py:54-63 | inserting the two columns and projecting succeeds exactly when no record has them and every other required label occurs |
| SimplePrice.StageTwoCell | cg_fetch_simple_price.py:54-63 | the inserted columns hold their values and the rest keep theirs |
| SimplePrice.UpdatedSucceeds | cg_fetch_simple_price.py:53 | reading `last_updated_at` succeeds exactly when it occurs and every value converts from seconds |
| SimplePrice.UpdatedCells | cg_fetch_simple_price.py:53 | the update time becomes an instant, and the other cells are untouched |
| SimplePrice.UpdatedColumns | cg_fetch_simple_price.py:53 | the read keeps one row per coin and the keys that occur |
| SimplePrice.StagedPrice | cg_fetch_simple_price.py:54-63 | staging succeeds exactly when the update time and the four value columns occur and the inserted labels do not |
| SimplePrice.RequiredPresent | cg_fetch_simple_price.py:57-61 | the required labels other than the inserted ones are present exactly when the update time and the four value columns are |
| SimplePrice.StagedPriceCell | cg_fetch_simple_price.py:54-63 | each staged cell is the stamp, the currency, the converted time or the coin's value |
| SimplePrice.CastPrices | cg_fetch_simple_price.py:66-70 | the casts succeed exactly when each cell passes its rule, and apply it |
| SimplePrice.ExpectedOfStaged | cg_fetch_simple_price.py:53-70 | the expected value of a cell is its staged value under its rule |
| SimplePrice.PriceSucceeds | cg_fetch_simple_price.py:47-78 | processing succeeds exactly when the keys are right, every cell converts and `.str` accepts the `coin` column |
| SimplePrice.IdsAreText | cg_fetch_simple_price.py:70 | without the shift the `coin` column is all text, so `.str.lower()` accepts it |
| SimplePrice.StagedCoin | cg_fetch_simple_price.py:53-70 | on the staged table `.str` succeeds exactly when the records' `coin` column is accepted |
| SimplePrice.ReadFails | cg_fetch_simple_price.py:53 | a failed time conversion fails the whole run |
| SimplePrice.UpdatedOfCasts | cg_fetch_simple_price.py:53 | when every cell converts, every update time converts |
| SimplePrice.OnStaged | cg_fetch_simple_price.py:66-70 | the casts succeed on the staged table exactly when every expected value converts |
| SimplePrice.CastsOnStaged | cg_fetch_simple_price.py:66-70 | the same, stated over the staged cells |
| SimplePrice.PriceCells | cg_fetch_simple_price.py:53-76 | from the rows on, the output has the renamed labels and one row per record, each cell its record's expected value |
| SimplePrice.PriceRowKeys | cg_fetch_simple_price.py:51-76 | row i belongs to the i-th coin in pandas' index order: its `coin_id` is that key lower-cased (the inner `index` lower-cased when the key was pushed aside), its `currency` is the argument verbatim, and it carries the stamp |
| SimplePrice.PriceRowValues | cg_fetch_simple_price.py:51-68 | row i's value columns are the i-th coin's values cast to float, and its update time is converted from seconds |
| SimplePrice.FetchSimplePrice | cg_fetch_simple_price.py:47-85 | a failed request gives the empty table |
| SimplePrice.UnknownCurrencyEmpty | cg_fetch_simple_price.py:57-85 | when no coin object carries the currency as a key, as with a comma-separated list, the result is the empty table |
| Pipeline.SnapDays | cg_data_a_merge_init.py:39 | the window is an allowed option not above the request, and the largest such; there is none exactly when every option exceeds the request |
| Pipeline.SnapDaysTight | cg_data_a_merge_init.py:39 | no option lies strictly between the window and the request |
| Pipeline.SnapHundred | cg_data_a_merge_init.py:39 | a 100-day request snaps to 90 |
| Pipeline.SnapNone | cg_data_a_merge_init.py:39 | a 0-day request has no window |
| Pipeline.Gathered | cg_data_a_merge_init.py:34-55 | the loop never yields more tables than coins |
| Pipeline.Outcome | cg_data_a_merge_init.py:50-55 | a coin whose call raises contributes nothing |
| Pipeline.GatheredAppend | cg_data_a_merge_init.py:34-55 | the gathered tables of two coin lists are those of the first followed by those of the second |
| Pipeline.GatheredOne | cg_data_a_merge_init.py:35-55 | one coin contributes its table, or nothing when its call raises |
| Pipeline.GatheredNone | cg_data_a_merge_init.py:34-55 | when every call raises nothing is gathered |
| Pipeline.GatheredAll | cg_data_a_merge_init.py:34-50 | when every call returns, the gathered tables are the results in coin order |
| Pipeline.GatheredFrom | cg_data_a_merge_init.py:34-50 | every gathered table is the result of some coin's call |
| Pipeline.FetchLoop | cg_data_a_merge_init.py:31-55 | the loop appends exactly the returned tables in coin order; the counter ends one past them, and it sleeps once per returned table |
| Pipeline.LoopTable | cg_data_a_merge_init.py:57 | the concatenation raises exactly when no call returned, and otherwise holds all gathered rows |
| Pipeline.NoWindowRaises | cg_data_a_merge_init.py:38-57 | with no window at or below the request, every coin is skipped and the concatenation raises |
| Pipeline.WindowPerCoin | cg_data_a_merge_init.py:38-40 | with a window, each coin is fetched with it |
| Pipeline.Unique | cg_data_a_merge_init.py:67 | `unique()` is duplicate-free with the same members |
| Pipeline.First | cg_data_a_merge_init.py:67 | the first-seen position of a member |
| Pipeline.FirstPrefix | cg_data_a_merge_init.py:67 | the first-seen position is decided by any prefix containing the member |
| Pipeline.UniqueOrder | cg_data_a_merge_init.py:67 | `unique()` lists the members in order of first appearance |
| Pipeline.UniquePrefix | cg_data_a_merge_init.py:84 | the unique ids of a table are a prefix of the unique ids of that table extended |
| Pipeline.UniqueDistinct | cg_data_a_merge_init.py:71 | a duplicate-free list is its own `unique()` |
| Pipeline.Outside | cg_data_a_merge_init.py:75 | the gap holds exactly the trending ids not among the market ids |
| Pipeline.OutsideAppend | cg_data_a_merge_init.py:75 | the gap keeps trending order |
| Pipeline.OutsideDistinct | cg_data_a_merge_init.py:75 | the gap of a duplicate-free list is duplicate-free |
| Pipeline.Padded | cg_data_a_merge_init.py:81 | a part without the column contributes missing cells |
| Pipeline.ConcatTwoColumn | cg_data_a_merge_init.py:81 | the concatenated `coin_id` column is the markets column followed by the supplementary one |
| Pipeline.CoinIds | cg_data_a_merge_init.py:67 | the id list exists exactly when the table has `coin_id`; it is duplicate-free with the column's values |
| Pipeline.CoinList | cg_data_a_merge_init.py:81-84 | `coin_list` is duplicate-free and starts with the market ids in their order |
| Pipeline.Tagged | cg_data_a_merge_init.py:106-107 | a tagged join succeeds exactly when the merge does, and otherwise raises the merge's error |
| Pipeline.TaggedRows | cg_data_a_merge_init.py:111-116 | a tagged join has Σ max(1, matches) rows, the left rows in order each repeated by its fan-out |
| Pipeline.TaggedStatus | cg_data_a_merge_init.py:106-116 | the status column is `both` exactly when some right row shares the key, else `left_only` |
| Pipeline.StatusLast | cg_data_a_merge_init.py:107 | the renamed indicator is the last column and the only one so labelled |
| Pipeline.StatusPresent | cg_data_a_merge_init.py:107 | the status label is always present after the rename |
| Pipeline.TaggedKeepsLeft | cg_data_a_merge_init.py:111-116 | every left row survives a tagged join |
| Pipeline.TrendingMerge | cg_data_a_merge_init.py:106-108 | join 1 succeeds exactly when its merge does |
| Pipeline.TrendingFlag | cg_data_a_merge_init.py:106-108 | `trending_flag` is 1 exactly when some trending row has the market row's `coin_id`, else 0 |
| Pipeline.TrendingKeepsMarkets | cg_data_a_merge_init.py:106 | every market row survives join 1 |
| Pipeline.Join2AsWritten | cg_data_a_merge_init.py:111-112 | as written, join 2 raises KeyError when the chart lacks `coin_id` or the candles lack `date` |
| Pipeline.Join2AsWrittenFails | cg_data_a_merge_init.py:111 | join 2 as written fails with KeyError on such tables |
| Pipeline.Join2 | cg_data_a_merge_init.py:111-112 | the corrected join 2 succeeds exactly when the merge of the renamed tables does |
| Pipeline.ChartRenamed | cg_data_a_merge_init.py:111 | renaming `id` to `coin_id` gives the chart table both keys |
| Pipeline.CandlesRenamed | cg_data_a_merge_init.py:111 | renaming `timestamp` to `date` gives the candle table both keys |
| Pipeline.Join2Shapes | cg_data_a_merge_init.py:111-112 | on the shapes the fetchers return, join 2 as written fails and the corrected join succeeds |
| Pipeline.Join2Keeps | cg_data_a_merge_init.py:111 | every chart row survives the corrected join 2 |
| Pipeline.ChartNeverKeyed | cg_fetch_coins_market_chart.py:55-72 | the top-level chart fetcher never returns a `coin_id` column |
| Pipeline.CandlesNeverDated | cg_fetch_coins_ohlc.py:55-82 | the OHLC fetcher never returns a `date` column |
| Pipeline.OhlcCallUndated | cg_data_a_merge_init.py:38-40 | no table the OHLC loop gathers has `date` |
| Pipeline.LoopLacks | cg_data_a_merge_init.py:57 | a label no returned table has is absent from the concatenation |
| Pipeline.Resolve | cg_data_a_merge_init.py:64-84 | the run uses the default markets query and the trending table |
| Pipeline.Resolved | cg_data_a_merge_init.py:64-84 | the gap is the trending ids outside the market ids; the gap and `coin_list` are duplicate-free; the table is the concatenation with the gap's markets; the market ids lead `coin_list`; the drop keeps `coin_id` and removes symbol and name |
| Pipeline.Collect | cg_data_a_merge_init.py:64-97 | the loops run after the universe is resolved |
| Pipeline.LoopsOverUniverse | cg_data_a_merge_init.py:94-97 | both loops run over `coin_list`, and each gathers at least one table and concatenates them |
| Pipeline.MergeInitAsWritten | cg_data_a_merge_init.py:64-116 | a successful run went through the resolved universe and both loops |
| Pipeline.MergeInit | cg_data_a_merge_init.py:64-116 | the corrected run goes through the same universe and loops |
| Pipeline.MergeInitSteps | cg_data_a_merge_init.py:106-116 | the corrected run's tables are join 1, join 2 on the renamed keys, and join 3 on `coin_id` |
| Pipeline.MergeInitKeeps | cg_data_a_merge_init.py:106-116 | each join keeps at least its left rows, and the merge carries `trending_flag` |
| Pipeline.RootChartRunFails | cg_data_a_merge_init.py:97-112 | with the top-level chart fetcher the run as written raises for every response |
| Pipeline.RootOhlcRunFails | cg_data_a_merge_init.py:94-112 | with the OHLC fetcher the run as written raises for every response |
| Pipeline.EmptyGapQuery | cg_data_a_merge_init.py:77-79 | the supplementary query equals the default one exactly when the gap is empty |
| Features.FillIdempotent | cg_data_c_processed.py:27-31 | filling twice is filling once, and a fill with a value leaves no missing cell |
| Features.FillAll | cg_data_c_processed.py:27-28 | filling succeeds exactly when every column exists, and keeps the labels and rows |
| Features.FillAllCells | cg_data_c_processed.py:27-28 | exactly the listed columns have their missing cells filled; the rest are untouched |
| Features.Prepare | cg_data_c_processed.py:27-34 | preparing needs the four placeholder columns and `trdg_score`; it keeps every row and every label but `cmrk_roi`, absent or not |
| Features.PrepareCells | cg_data_c_processed.py:27-34 | images and sparkline get `-`, the score gets 9999, the rest are untouched, and none of the filled columns has a missing cell |
| Features.Of | cg_data_c_processed.py:41-53 | a missing value is NaN |
| Features.Quotient | cg_data_c_processed.py:41-51 | IEEE division: +inf or -inf for a non-zero over zero, finite for a non-zero divisor, NaN otherwise |
| Features.Magnitude | cg_data_c_processed.py:44-48 | `abs` never gives -inf or a negative finite value, and keeps NaN |
| Features.Difference | cg_data_c_processed.py:43-50 | a difference is present exactly when both sides are |
| Features.Finite | cg_data_c_processed.py:57 | after the replacement a value is present exactly when it was finite |
| Features.QuotientReplaced | cg_data_c_processed.py:41-57 | after the replacement, a quotient is present exactly when both sides are and the divisor is non-zero, and is then the real quotient |
| Features.Trend24h | cg_data_c_processed.py:45 | `Bullish` exactly when the change is present and positive; `Bearish` for zero, negative or missing |
| Features.Trend1y | cg_data_c_processed.py:53 | exactly one label applies: above 100 `High Growth`, within [0,100] `Moderate`, else `Decline`, missing included |
| Features.HealthAsWritten | cg_data_c_processed.py:52 | the as-written classifier gives `Healthy` or `Unhealthy` |
| Features.HealthAsWrittenPositive | cg_data_c_processed.py:42-52 | as written, with a positive total, `Healthy` exactly when circulating ≥ 75 × total |
| Features.SaneSupplyNeverHealthy | cg_data_c_processed.py:52 | as written, a circulating supply not above the total is never `Healthy` |
| Features.ZeroSupplyHealthyAsWritten | cg_data_c_processed.py:42-57 | as written, a zero total supply with a positive circulating supply is `Healthy`, yet the ratio is missing after the replacement |
| Features.Health | cg_data_c_processed.py:52 | the corrected classifier gives `Healthy` or `Unhealthy` |
| Features.HealthThreshold | cg_data_c_processed.py:42-57 | corrected: with a positive total, `Healthy` exactly when the share is at least 3/4; a missing share is `Unhealthy` |
| Features.HealthPositive | cg_data_c_processed.py:42-52 | corrected: with a positive total, `Healthy` exactly when 4 × circulating ≥ 3 × total |
| Features.HealthExample | cg_data_c_processed.py:52 | 90 of 100 is `Unhealthy` as written and `Healthy` corrected |
| Features.AbsOf | cg_data_c_processed.py:44-47 | `abs` is present exactly when its input is, non-negative, and equal to the input or its negation |
| Features.Engineer | cg_data_c_processed.py:41-57 | one derived row per snapshot row, each derived against the cap total of all rows, with the health label of the as-written classifier |
| Features.DeriveRatios | cg_data_c_processed.py:41-57 | each ratio is present exactly when its operands are present and its divisor non-zero, and is then the real quotient |
| Features.NonNegative | cg_data_c_processed.py:44-48 | volatility, growth potential and risk/reward are non-negative where present |
| Features.SharesSum | cg_data_c_processed.py:41 | the dominance values sum to the cap total over the common divisor |
| Features.DerivedShare | cg_data_c_processed.py:41 | a row's dominance, missing counted as 0, is its cap over the total |
| Features.DominanceSumsToOne | cg_data_c_processed.py:41 | with a non-zero cap total, the dominance values of the rows sum to 1 |
| Features.ZeroTotalNoDominance | cg_data_c_processed.py:41-57 | with a zero cap total every dominance is missing |
| Features.CapTotalBounds | cg_data_c_processed.py:41 | the cap total is non-negative when every cap is, and zero when every cap is missing |
| Features.EngineerIntended | cg_data_c_processed.py:52 | the corrected run differs from the as-written one only in the health label, which uses the corrected classifier |
| Features.EngineerHealthExample | cg_data_c_processed.py:52 | for 90 of 100 in circulation the as-written run says `Unhealthy` and the corrected one `Healthy` |

## Left out

- HTTP requests, headers, `raise_for_status` and JSON decoding are not modelled. A fetch is a function from the query to `Response` (a decoded body, or `RequestFailed`).
- `datetime.now()` is the parameter `now`. `time.sleep` is not modelled: `Pipeline.FetchLoop` only counts one sleep per returned table.
- The BigQuery and Google Sheets reads and writes (`cg_data_a_merge_init.py:119-126`, `cg_data_c_processed.py:8-23`, `cg_data_c_processed.py:59-70`) are external services.
- `print`, logging, dotenv loading, `main.py` and `get_local_time` are not modelled.
- The commented-out simple-price and market-chart-range steps of the run (`cg_data_a_merge_init.py:86-103`) are not modelled, because they never run.
- The `to_date`/`from_date` computation at `cg_data_a_merge_init.py:24-25` only feeds the commented-out range loop, so it is not modelled.
- `cg_data_processing.py` is not part of this model. It is a script of network calls, and its loop copies the one in the run.
- The top-level `cg_fetch_coins_markets`, imported by the run, is not part of this model. The run takes the markets fetcher as an opaque function of the `ids` argument.
- `ohlc_day_options` is a parameter, because its definition is not part of this model. The constant `Pipeline.OhlcDays` only serves the examples.
- IEEE floats are modelled as exact reals. Rounding, NaN propagation inside sums, `/100` rounding and the width of `int64` are not modelled; `Features.Num` only distinguishes ±inf and NaN for division.
- pandas `datetime64` precision and time-zone handling are not modelled: times are integer epoch milliseconds, and `tz_localize(None)` / `astype('datetime64[us]')` leave them unchanged.
- The JSON text of `json.dumps` for `roi` is an opaque function parameter. So is the ISO 8601 date parser behind `pd.to_datetime`.
- Case mapping and digits follow the ASCII tables, not Unicode; whitespace follows Python's `str.isspace` (`Text.IsSpace`).
- Features.Derive: the snapshot is given as optional reals per row. Reading those from the warehouse table is not modelled.
- Features.PrepareCells requires the table's labels to be distinct, as the warehouse query's are.
- Pipeline.TaggedStatus and Pipeline.TrendingFlag require the status label to be fresh: not on either side, not `_merge`, not ending in `x` or `y`. Otherwise a suffixed label could collide with it.
- Trending.LegacyCells and Trending.LegacyIds require that no payload key equals a rename target it is not itself renamed to (`NoClash`). pandas would then produce duplicate labels, which the model does not track.
- Trending.ShapedCell requires `NoClash` for the same reason: a payload key equal to a rename target would give the current fetcher duplicate labels, which the model does not track. Its promise holds only for payloads without such a key.
- Trending.ShapedLabel requires `NoClash` for the same reason: a payload key equal to a rename target would give the current fetcher duplicate labels, which the model does not track. Its promise holds only for payloads without such a key.
- Trending.StagedSucceeds requires `NoClash` for the same reason: a payload key equal to a rename target would give the current fetcher duplicate labels, which the model does not track. Its promise holds only for payloads without such a key.
- Trending.StagedCells requires `NoClash` for the same reason: a payload key equal to a rename target would give the current fetcher duplicate labels, which the model does not track. Its promise holds only for payloads without such a key.
- Trending.StagedColumns requires `NoClash` for the same reason: a payload key equal to a rename target would give the current fetcher duplicate labels, which the model does not track. Its promise holds only for payloads without such a key.
- Trending.TrendingSucceeds requires `NoClash` for the same reason: a payload key equal to a rename target would give the current fetcher duplicate labels, which the model does not track. Its promise holds only for payloads without such a key.
- Trending.TrendingCells requires `NoClash` for the same reason: a payload key equal to a rename target would give the current fetcher duplicate labels, which the model does not track. Its promise holds only for payloads without such a key.
- Trending.SimultaneousRename requires `NoClash` for the same reason: a payload key equal to a rename target would give the current fetcher duplicate labels, which the model does not track. Its promise holds only for payloads without such a key.
- Trending.TrimItem treats a `coins` value that is not a list of objects as raising. pandas would fail in various ways on such payloads.
- SimplePrice.PriceSucceeds and the other row lemmas require a plain currency (`PlainCurrency`), whose derived labels differ from the fixed ones. Every three-letter code is plain (`SimplePrice.ThreeLetterPlain`).
- SimplePrice.CoinRows treats coin values that are not objects as raising, and so a coin object with an inner `coin` key (the duplicate label makes `.str` fail) or with both `index` and `level_0`. Objects with repeated keys are outside the model: Python keeps the last value, while `Nested` requires distinct keys.
- Charts.Nth and Ohlc.Candles raise on shapes pandas would sometimes accept with missing cells. Ragged candles are modelled, but ragged price series are not.
- Ohlc.Candles treats every body that is not a list of arrays as Malformed. pandas builds a table from three such shapes: a `null` body or an object body without any of the five labels gives zero rows, and a list of objects gives one row per object, holding the object's values under the five labels and NaN elsewhere.
- Ohlc.OhlcChart returns the empty table for those three shapes, because it goes through Ohlc.Candles. The source returns a table with the eight OHLC labels for them.
- Values.LowerCell and Values.UpperCell: only ASCII letters change case; Unicode case mapping, which can change the length, is not modelled.
- Values.FloatCast does not accept the `nan`, `inf` and `infinity` spellings, digit-group underscores or non-ASCII digits, which Python's `float` reads; such text raises ValueError in the model.
- Values.IntCast does not accept digit-group underscores or non-ASCII digits.
- UnixTime.UnixSeconds reads text with `int`'s digit rules minus digit-group underscores. Text such as `16_9258320` has ten characters and `int` reads it, but the model fails it with NotAnInteger.
- UnixTime.ConvertUnix inherits that gap from UnixTime.UnixSeconds: a `'unix'` text with digit-group underscores raises in the model and converts in the source.
- Fetch.DateCell converts each cell of a date column on its own. pandas reads the column as a whole, and a column mixing ISO texts with numbers may be refused (mixed time-zone-aware and naive values); the model converts it cell by cell. Counts outside int64 are not refused either.
- Markets.CleaningByColumn, like every rule built on Fetch.DateCell, treats a date column mixing texts and numbers cell by cell.
- Markets.CleaningRule states the date rule cell by cell, so a date column mixing texts and numbers counts as clean when each cell converts.
- Markets.CleanedByRule states its iff under that per-cell date rule; a date column mixing texts and numbers is outside its promise.
- Markets.CleanedCells states its iff under that per-cell date rule; a date column mixing texts and numbers is outside its promise.
- Markets.ProcessSucceeds states its iff under that per-cell date rule; a date column mixing texts and numbers is outside its promise.
- Markets.CoinsMarketsResult says "non-empty exactly when clean" under that per-cell date rule; a date column mixing texts and numbers is outside its promise.
- Join.MergeLeft compares key cells by value. pandas' MergeError for incompatible key types (text against numbers or dates) and the errors of duplicated labels are not modelled.

## Findings

| source | as written | input that shows it | evidently intended | confidence | as-written member | corrected member |
|---|---|---|---|---|---|---|
| fetch_data/cg_fetch_coins_markets.py:90-102 | the percentage loop divides `cmrk_`-prefixed columns, which exist only after the rename at line 131; the KeyError lands in the generic handler | any valid call whose response holds every required column | divide the unprefixed percentage columns before the rename | high, not executed | Markets.AsWrittenAlwaysEmpty | Markets.CoinsMarketsResult |
| cg_data_a_merge_init.py:111 | join 2 keys on `['coin_id','date']`, but the top-level chart fetcher returns `id` and the OHLC fetcher returns `timestamp` | any run with the imported fetchers, whatever the responses | rename `id` to `coin_id` and `timestamp` to `date` before joining | high, not executed | Pipeline.RootChartRunFails | Pipeline.Join2Shapes |
| cg_data_c_processed.py:52 | the circulation share, a ratio in [0,1] for sane data, is compared against 75 | circulating 90, total 100: `Unhealthy` | compare against 0.75 | medium, not executed | Features.HealthExample | Features.HealthThreshold |
| cg_data_c_processed.py:52-57 | the classifier runs before ±inf is replaced, so a zero total supply gives an infinite share | circulating 1, total 0: `Healthy` while the share is missing | a missing share is `Unhealthy` | medium, not executed | Features.ZeroSupplyHealthyAsWritten | Features.HealthThreshold |

=== FILE: calendar.dfy ===
/** The proleptic Gregorian calendar in UTC, counted in days and seconds
    from 1970-01-01 00:00:00, as Python's `datetime` with `timezone.utc`
    counts it. */
module Calendar {

  predicate IsLeap(y: int) {
    y % 4 == 0 && (y % 100 != 0 || y % 400 == 0)
  }

  function YearLength(y: int): int {
    if IsLeap(y) then 366 else 365
  }

  function DaysInMonth(y: int, m: int): (n: int)
    requires 1 <= m <= 12
    ensures 28 <= n <= 31
  {
    if m == 2 then (if IsLeap(y) then 29 else 28)
    else if m == 4 || m == 6 || m == 9 || m == 11 then 30
    else 31
  }

  /** Days of the year before the first of month `m`. */
  function DaysBeforeMonth(y: int, m: int): (n: int)
    requires 1 <= m <= 12
    ensures m == 1 ==> n == 0
    ensures m == 12 ==> n + DaysInMonth(y, m) == YearLength(y)
  {
    var leap := if m > 2 && IsLeap(y) then 1 else 0;
    leap + (if m == 1 then 0 else if m == 2 then 31 else if m == 3 then 59
      else if m == 4 then 90 else if m == 5 then 120 else if m == 6 then 151
      else if m == 7 then 181 else if m == 8 then 212 else if m == 9 then 243
      else if m == 10 then 273 else if m == 11 then 304 else 334)
  }

  /** Leap years among 1..n (and the same closed form for n < 1). */
  function Leaps(n: int): int {
    n / 4 - n / 100 + n / 400
  }

  /** Days from 1970-01-01 to the first of January of year `y`. */
  function DaysBeforeYear(y: int): int {
    365 * (y - 1970) + Leaps(y - 1) - Leaps(1969)
  }

  lemma DivStep4(y: int)
    ensures y / 4 - (y - 1) / 4 == if y % 4 == 0 then 1 else 0
  {
  }

  lemma DivStep100(y: int)
    ensures y / 100 - (y - 1) / 100 == if y % 100 == 0 then 1 else 0
  {
  }

  lemma DivStep400(y: int)
    ensures y / 400 - (y - 1) / 400 == if y % 400 == 0 then 1 else 0
  {
  }

  /** Consecutive years are one year length apart. */
  lemma DaysBeforeYearStep(y: int)
    ensures DaysBeforeYear(y + 1) == DaysBeforeYear(y) + YearLength(y)
  {
    DivStep4(y);
    DivStep100(y);
    DivStep400(y);
    assert y % 400 == 0 ==> y % 100 == 0 && y % 4 == 0;
    assert y % 100 == 0 ==> y % 4 == 0;
  }

  lemma {:induction false} DaysBeforeYearMonotone(a: int, b: int)
    requires a <= b
    ensures DaysBeforeYear(a) + 365 * (b - a) <= DaysBeforeYear(b)
    decreases b - a
  {
    if a < b {
      DaysBeforeYearMonotone(a, b - 1);
      DaysBeforeYearStep(b - 1);
    }
  }

  /** The year holding day `d` of year `y` (where `d` may run past either
      end of the year), and the day's offset within that year. */
  function LocateYear(y: int, d: int): (r: (int, int))
    ensures 0 <= r.1 < YearLength(r.0)
    ensures DaysBeforeYear(r.0) + r.1 == DaysBeforeYear(y) + d
    decreases if d < 0 then 366 - d else d
  {
    if d < 0 then
      DaysBeforeYearStep(y - 1);
      LocateYear(y - 1, d + YearLength(y - 1))
    else if d >= YearLength(y) then
      DaysBeforeYearStep(y);
      LocateYear(y + 1, d - YearLength(y))
    else (y, d)
  }

  /** Each day number lies in exactly one year. */
  lemma LocateYearUnique(n: int, y: int)
    requires DaysBeforeYear(y) <= n < DaysBeforeYear(y + 1)
    ensures LocateYear(1970, n) == (y, n - DaysBeforeYear(y))
  {
    var r := LocateYear(1970, n);
    assert DaysBeforeYear(1970) == 0;
    DaysBeforeYearStep(r.0);
    if r.0 < y {
      DaysBeforeYearMonotone(r.0 + 1, y);
    } else if r.0 > y {
      DaysBeforeYearMonotone(y + 1, r.0);
    }
  }

  /** The month holding day `doy` (0-based) of year `y`. */
  function LocateMonth(y: int, doy: int): (m: int)
    requires 0 <= doy < YearLength(y)
    ensures 1 <= m <= 12
    ensures DaysBeforeMonth(y, m) <= doy < DaysBeforeMonth(y, m) + DaysInMonth(y, m)
  {
    if doy < DaysBeforeMonth(y, 2) then 1
    else if doy < DaysBeforeMonth(y, 3) then 2
    else if doy < DaysBeforeMonth(y, 4) then 3
    else if doy < DaysBeforeMonth(y, 5) then 4
    else if doy < DaysBeforeMonth(y, 6) then 5
    else if doy < DaysBeforeMonth(y, 7) then 6
    else if doy < DaysBeforeMonth(y, 8) then 7
    else if doy < DaysBeforeMonth(y, 9) then 8
    else if doy < DaysBeforeMonth(y, 10) then 9
    else if doy < DaysBeforeMonth(y, 11) then 10
    else if doy < DaysBeforeMonth(y, 12) then 11
    else 12
  }

  lemma DaysBeforeMonthStep(y: int, m: int)
    requires 1 <= m < 12
    ensures DaysBeforeMonth(y, m + 1) == DaysBeforeMonth(y, m) + DaysInMonth(y, m)
  {
  }

  lemma {:induction false} DaysBeforeMonthMonotone(y: int, a: int, b: int)
    requires 1 <= a <= b <= 12
    ensures DaysBeforeMonth(y, a) + 28 * (b - a) <= DaysBeforeMonth(y, b)
    decreases b - a
  {
    if a < b {
      DaysBeforeMonthMonotone(y, a, b - 1);
      DaysBeforeMonthStep(y, b - 1);
    }
  }

  /** Each day of a year lies in exactly one month. */
  lemma LocateMonthUnique(y: int, m: int, doy: int)
    requires 1 <= m <= 12
    requires DaysBeforeMonth(y, m) <= doy < DaysBeforeMonth(y, m) + DaysInMonth(y, m)
    ensures 0 <= doy < YearLength(y) && LocateMonth(y, doy) == m
  {
    MonthsFitYear(y, m);
    DaysBeforeMonthMonotone(y, 1, m);
    var k := LocateMonth(y, doy);
    if k < m {
      DaysBeforeMonthStep(y, k);
      DaysBeforeMonthMonotone(y, k + 1, m);
    } else if k > m {
      DaysBeforeMonthStep(y, m);
      DaysBeforeMonthMonotone(y, m + 1, k);
    }
  }

  datatype Date = Date(year: int, month: int, day: int)

  predicate ValidDate(dt: Date) {
    1 <= dt.month <= 12 && 1 <= dt.day <= DaysInMonth(dt.year, dt.month)
  }

  /** Days from 1970-01-01 to `dt`. */
  function ToDays(dt: Date): int
    requires ValidDate(dt)
  {
    DaysBeforeYear(dt.year) + DaysBeforeMonth(dt.year, dt.month) + dt.day - 1
  }

  /** The civil date `n` days after 1970-01-01. */
  function FromDays(n: int): (dt: Date)
    ensures ValidDate(dt)
    ensures DaysBeforeYear(dt.year) <= n < DaysBeforeYear(dt.year + 1)
  {
    var (y, doy) := LocateYear(1970, n);
    assert DaysBeforeYear(1970) == 0;
    DaysBeforeYearStep(y);
    var m := LocateMonth(y, doy);
    Date(y, m, doy - DaysBeforeMonth(y, m) + 1)
  }

  lemma FromDaysToDays(n: int)
    ensures ToDays(FromDays(n)) == n
  {
    assert DaysBeforeYear(1970) == 0;
  }

  lemma ToDaysFromDays(dt: Date)
    requires ValidDate(dt)
    ensures FromDays(ToDays(dt)) == dt
  {
    var n := ToDays(dt);
    DaysBeforeYearStep(dt.year);
    assert DaysBeforeMonth(dt.year, dt.month) + DaysInMonth(dt.year, dt.month) <= YearLength(dt.year) by {
      MonthsFitYear(dt.year, dt.month);
    }
    LocateYearUnique(n, dt.year);
    LocateMonthUnique(dt.year, dt.month, n - DaysBeforeYear(dt.year));
  }

  lemma {:induction false} MonthsFitYear(y: int, m: int)
    requires 1 <= m <= 12
    ensures DaysBeforeMonth(y, m) + DaysInMonth(y, m) <= YearLength(y)
    decreases 12 - m
  {
    if m < 12 {
      MonthsFitYear(y, m + 1);
      DaysBeforeMonthStep(y, m);
    }
  }

  /** A civil date and time of day, as `datetime` holds it. */
  datatype DateTime = DateTime(date: Date, hour: int, minute: int, second: int)

  /** The fields `datetime` accepts (years 1 to 9999, no leap second). */
  predicate Valid(t: DateTime) {
    1 <= t.date.year <= 9999 && ValidDate(t.date)
    && 0 <= t.hour < 24 && 0 <= t.minute < 60 && 0 <= t.second < 60
  }

  /** `datetime.timestamp()` of an aware UTC datetime, in whole seconds. */
  function ToEpoch(t: DateTime): int
    requires ValidDate(t.date)
  {
    ToDays(t.date) * 86400 + t.hour * 3600 + t.minute * 60 + t.second
  }

  /** `datetime.fromtimestamp(s, timezone.utc)` for whole seconds `s`:
      the day by floor division, the time of day from the remainder. */
  function FromEpoch(s: int): (t: DateTime)
    ensures ValidDate(t.date) && 0 <= t.hour < 24 && 0 <= t.minute < 60 && 0 <= t.second < 60
  {
    var secs := s % 86400;
    var rem := secs % 3600;
    DateTime(FromDays(s / 86400), secs / 3600, rem / 60, rem % 60)
  }

  lemma FromEpochToEpoch(s: int)
    ensures ToEpoch(FromEpoch(s)) == s
  {
    FromDaysToDays(s / 86400);
    var secs := s % 86400;
    var rem := secs % 3600;
    assert s == s / 86400 * 86400 + secs;
    assert secs == secs / 3600 * 3600 + rem;
    assert rem == rem / 60 * 60 + rem % 60;
  }

  lemma DivMod86400(a: int, q: int, r: int)
    requires a == q * 86400 + r && 0 <= r < 86400
    ensures a / 86400 == q && a % 86400 == r
  {
  }

  lemma DivMod3600(a: int, q: int, r: int)
    requires a == q * 3600 + r && 0 <= r < 3600
    ensures a / 3600 == q && a % 3600 == r
  {
  }

  lemma DivMod60(a: int, q: int, r: int)
    requires a == q * 60 + r && 0 <= r < 60
    ensures a / 60 == q && a % 60 == r
  {
  }

  lemma ToEpochFromEpoch(t: DateTime)
    requires ValidDate(t.date) && 0 <= t.hour < 24 && 0 <= t.minute < 60 && 0 <= t.second < 60
    ensures FromEpoch(ToEpoch(t)) == t
  {
    var rem := t.minute * 60 + t.second;
    var secs := t.hour * 3600 + rem;
    var s := ToEpoch(t);
    DivMod86400(s, ToDays(t.date), secs);
    DivMod3600(secs, t.hour, rem);
    DivMod60(rem, t.minute, t.second);
    ToDaysFromDays(t.date);
  }

  /** The year of an instant lies between the years whose first days
      bracket it. */
  lemma FromEpochYear(s: int, lo: int, hi: int)
    requires DaysBeforeYear(lo) * 86400 <= s < DaysBeforeYear(hi + 1) * 86400
    ensures lo <= FromEpoch(s).date.year <= hi
  {
    var y := FromEpoch(s).date.year;
    var n := s / 86400;
    assert DaysBeforeYear(lo) <= n < DaysBeforeYear(hi + 1);
    if y < lo {
      DaysBeforeYearMonotone(y + 1, lo);
    } else if y > hi {
      DaysBeforeYearMonotone(hi + 1, y);
    }
  }
}

=== FILE: charts.dfy ===
/** The chart fetchers: `cg_fetch_coins_market_chart` (the current one and
    the older top-level one), its date-range variant and
    `cg_fetch_coins_ohlc`. Each turns the response's arrays into rows,
    inserts the stamp, the currency and the coin id in front, projects the
    required columns, and (except the older one) casts and renames. */
module Charts {
  import opened Wrappers
  import opened Text
  import opened Values
  import opened Frames
  import opened Steps
  import opened Fetch
  import Calendar
  import UnixTime

  // ---------------------------------------------------------------- zipping

  /** `data[key]`, which must hold a JSON array. */
  function Series(fields: seq<Field>, key: string): (r: Result<seq<Value>, FrameError>)
    ensures r.Success? <==> Get(fields, key).Some? && Get(fields, key).value.VList?
    ensures r.Success? ==> Get(fields, key) == Some(VList(r.value))
  {
    match Get(fields, key)
    case None => Failure(KeyNotFound(key))
    case Some(v) => if v.VList? then Success(v.items) else Failure(Malformed)
  }

  /** `entry[k]` exists: the entry is an array with more than `k` items. */
  predicate HasItem(entry: Value, k: nat) {
    entry.VList? && k < |entry.items|
  }

  /** Every entry has an item at `k`. */
  predicate Reach(entries: seq<Value>, k: nat) {
    forall i :: 0 <= i < |entries| ==> HasItem(entries[i], k)
  }

  /** `[conv(entry[k]) for entry in entries]`; raises on the first entry
      without an item at `k` or whose item does not convert. */
  function Nth(entries: seq<Value>, k: nat, conv: Value -> Cast): (r: Result<seq<Value>, FrameError>)
    ensures r.Success? <==> Reach(entries, k) && forall i :: 0 <= i < |entries| ==> conv(entries[i].items[k]).Cast?
    ensures r.Success? ==> |r.value| == |entries|
    ensures r.Success? ==> forall i :: 0 <= i < |entries| ==> conv(entries[i].items[k]) == Cast(r.value[i])
    decreases |entries|
  {
    if |entries| == 0 then Success([])
    else if !HasItem(entries[0], k) then Failure(Malformed)
    else
      var rest := Nth(entries[1..], k, conv);
      assert forall i :: 1 <= i < |entries| ==> entries[i] == entries[1..][i - 1];
      match conv(entries[0].items[k])
      case Cast(v) => if rest.Success? then Success([v] + rest.value) else Failure(rest.error)
      case _ => Failure(Malformed)
  }

  /** The columns of the zipped table. */
  const SeriesColumns: seq<string> := ["date", "price", "market_cap", "volume"]

  /** The zip over `prices`, `market_caps` and `total_volumes`: the date
      from each price entry's first item in epoch milliseconds, and the
      second item of each entry of the three arrays. Arrays of different
      lengths raise (the dict of columns has unequal lengths). */
  function Zip(body: Value): (r: Result<Frame, FrameError>)
    ensures r.Success? ==> r.value.columns == SeriesColumns && WellFormed(r.value)
  {
    if !body.VObj? then Failure(Malformed)
    else
      var prices :- Series(body.fields, "prices");
      var caps :- Series(body.fields, "market_caps");
      var vols :- Series(body.fields, "total_volumes");
      ZipArrays(prices, caps, vols)
  }

  /** The zip proper, once the three arrays are read. */
  function ZipArrays(prices: seq<Value>, caps: seq<Value>, vols: seq<Value>): (r: Result<Frame, FrameError>)
    ensures r.Success? ==> r.value.columns == SeriesColumns && WellFormed(r.value)
  {
    var dates :- Nth(prices, 0, MillisCast);
    var ps :- Nth(prices, 1, Always);
    var ms :- Nth(caps, 1, Always);
    var vs :- Nth(vols, 1, Always);
    if |ms| != |ps| || |vs| != |ps| then Failure(Malformed)
    else Success(Frame(SeriesColumns, seq(|ps|, i requires 0 <= i < |ps| => [dates[i], ps[i], ms[i], vs[i]])))
  }

  /** The three arrays of a payload, read once. */
  predicate Arrays(body: Value, p: seq<Value>, m: seq<Value>, v: seq<Value>) {
    body.VObj? && Series(body.fields, "prices") == Success(p)
    && Series(body.fields, "market_caps") == Success(m) && Series(body.fields, "total_volumes") == Success(v)
  }

  /** Once the arrays are read, the zip is decided by them alone. */
  lemma ZipReads(body: Value, p: seq<Value>, m: seq<Value>, v: seq<Value>)
    requires Arrays(body, p, m, v)
    ensures Zip(body) == ZipArrays(p, m, v)
  {
  }

  lemma ZipCells(p: seq<Value>, m: seq<Value>, v: seq<Value>, z: Frame, i: nat)
    requires ZipArrays(p, m, v) == Success(z) && i < |p|
    ensures |z.rows| == |p|
    ensures MillisCast(p[i].items[0]) == Cast(At(z, i, "date"))
    ensures At(z, i, "price") == p[i].items[1]
    ensures At(z, i, "market_cap") == m[i].items[1]
    ensures At(z, i, "volume") == v[i].items[1]
  {
    var dates, ps := Nth(p, 0, MillisCast).value, Nth(p, 1, Always).value;
    var ms, vs := Nth(m, 1, Always).value, Nth(v, 1, Always).value;
    assert z.rows[i] == [dates[i], ps[i], ms[i], vs[i]];
    assert Always(p[i].items[1]) == Cast(ps[i]);
    assert Always(m[i].items[1]) == Cast(ms[i]);
    assert Always(v[i].items[1]) == Cast(vs[i]);
    assert IndexOf(SeriesColumns, "date") == Some(0);
    assert IndexOf(SeriesColumns, "price") == Some(1);
    assert IndexOf(SeriesColumns, "market_cap") == Some(2);
    assert IndexOf(SeriesColumns, "volume") == Some(3);
  }

  /** The zip succeeds exactly when the arrays have one length and
      entries of at least two items, with a first price item that
      `unit='ms'` converts; it lines the arrays up by position: row `i`
      holds the `i`-th entry of each. */
  lemma ZipRows(p: seq<Value>, m: seq<Value>, v: seq<Value>)
    ensures ZipArrays(p, m, v).Success? <==>
              Reach(p, 1) && Reach(m, 1) && Reach(v, 1) && |m| == |p| && |v| == |p|
              && forall i :: 0 <= i < |p| ==> MillisCast(p[i].items[0]).Cast?
    ensures ZipArrays(p, m, v).Success? ==>
              |ZipArrays(p, m, v).value.rows| == |p|
              && forall i :: 0 <= i < |p| ==>
                   MillisCast(p[i].items[0]) == Cast(At(ZipArrays(p, m, v).value, i, "date"))
                   && At(ZipArrays(p, m, v).value, i, "price") == p[i].items[1]
                   && At(ZipArrays(p, m, v).value, i, "market_cap") == m[i].items[1]
                   && At(ZipArrays(p, m, v).value, i, "volume") == v[i].items[1]
  {
    assert Reach(p, 1) ==> Reach(p, 0);
    var r := ZipArrays(p, m, v);
    if r.Success? {
      forall i | 0 <= i < |p|
        ensures MillisCast(p[i].items[0]) == Cast(At(r.value, i, "date"))
        ensures At(r.value, i, "price") == p[i].items[1]
        ensures At(r.value, i, "market_cap") == m[i].items[1]
        ensures At(r.value, i, "volume") == v[i].items[1]
      {
        ZipCells(p, m, v, r.value, i);
      }
    }
  }

  /** A payload that is not an object, or lacks one of the arrays, raises. */
  lemma ZipNeedsArrays(body: Value)
    requires !exists p, m, v :: Arrays(body, p, m, v)
    ensures Zip(body).Failure?
  {
    if Zip(body).Success? {
      var p, m, v := Series(body.fields, "prices").value, Series(body.fields, "market_caps").value,
                     Series(body.fields, "total_volumes").value;
      assert Arrays(body, p, m, v);
    }
  }

  // ---------------------------------------------------------------- staging

  /** `df.insert(0, 'data_ts', ...)`, `(1, 'currency', vs_currency)`,
      `(2, 'id', coin_id)`. */
  function ChartHeads(now: int, vs: string, id: string): seq<Field> {
    [Field("data_ts", Stamp(now)), Field("currency", VStr(vs)), Field("id", VStr(id))]
  }

  /** The chart fetchers' `required_columns`. */
  const ChartRequired: seq<string> := ["data_ts", "currency", "id"] + SeriesColumns

  lemma ChartHeadLabels(now: int, vs: string, id: string)
    ensures Labels(ChartHeads(now, vs, id)) == ["data_ts", "currency", "id"]
  {
  }

  /** The three inserts never clash with the payload's columns and the
      projection keeps every column in order, so staging succeeds and
      amounts to putting the stamp, the currency and the coin id before
      each row's cells. */
  lemma Staged(z: Frame, now: int, vs: string, id: string)
    requires WellFormed(z) && Distinct(["data_ts", "currency", "id"] + z.columns)
    ensures Stage(z, ChartHeads(now, vs, id), ["data_ts", "currency", "id"] + z.columns)
            == Success(Prepend(z, ChartHeads(now, vs, id)))
  {
    ChartHeadLabels(now, vs, id);
    StagePrepend(z, ChartHeads(now, vs, id));
  }

  /** Each prepended row starts with the stamp, the currency and the coin
      id, and keeps the payload's cells under their labels. */
  lemma Prepended(z: Frame, now: int, vs: string, id: string, i: nat)
    requires WellFormed(z) && Distinct(["data_ts", "currency", "id"] + z.columns) && i < |z.rows|
    ensures Prepend(z, ChartHeads(now, vs, id)).columns == ["data_ts", "currency", "id"] + z.columns
    ensures var s := Prepend(z, ChartHeads(now, vs, id));
            At(s, i, "data_ts") == Stamp(now) && At(s, i, "currency") == VStr(vs) && At(s, i, "id") == VStr(id)
    ensures forall c :: c in z.columns ==> At(Prepend(z, ChartHeads(now, vs, id)), i, c) == At(z, i, c)
  {
    var heads := ChartHeads(now, vs, id);
    ChartHeadLabels(now, vs, id);
    PrependCells(z, heads, i);
    assert heads[0].key == "data_ts" && heads[1].key == "currency" && heads[2].key == "id";
  }

  /** The seven required labels are distinct. */
  lemma RequiredDistinct()
    ensures Distinct(ChartRequired)
  {
  }

  /** The staged zip table, row by row. */
  lemma PreparedChart(z: Frame, now: int, vs: string, id: string)
    requires z.columns == SeriesColumns && WellFormed(z)
    ensures Prepend(z, ChartHeads(now, vs, id)).columns == ChartRequired
    ensures |Prepend(z, ChartHeads(now, vs, id)).rows| == |z.rows|
    ensures forall i :: 0 <= i < |z.rows| ==>
              var s := Prepend(z, ChartHeads(now, vs, id));
              At(s, i, "data_ts") == Stamp(now) && At(s, i, "currency") == VStr(vs) && At(s, i, "id") == VStr(id)
    ensures forall i, c :: 0 <= i < |z.rows| && c in SeriesColumns ==>
              At(Prepend(z, ChartHeads(now, vs, id)), i, c) == At(z, i, c)
  {
    ChartHeadLabels(now, vs, id);
    RequiredDistinct();
    assert ["data_ts", "currency", "id"] + z.columns == ChartRequired;
    forall i | 0 <= i < |z.rows|
      ensures var s := Prepend(z, ChartHeads(now, vs, id));
              At(s, i, "data_ts") == Stamp(now) && At(s, i, "currency") == VStr(vs) && At(s, i, "id") == VStr(id)
    {
      Prepended(z, now, vs, id, i);
    }
    forall i, c | 0 <= i < |z.rows| && c in SeriesColumns
      ensures At(Prepend(z, ChartHeads(now, vs, id)), i, c) == At(z, i, c)
    {
      Prepended(z, now, vs, id, i);
    }
  }

  // ---------------------------------------------------------------- newest date

  /** `Series.max()` over timestamps: the latest one, or `None` (NaT) when
      the column holds none. */
  function Latest(vals: seq<Value>): Option<int>
    decreases |vals|
  {
    if |vals| == 0 then None
    else
      var rest := Latest(vals[1..]);
      if !vals[0].VTime? then rest
      else if rest.Some? && rest.value >= vals[0].ms then rest
      else Some(vals[0].ms)
  }

  /** The latest timestamp is one of the column's and no other is later;
      there is none exactly when the column holds no timestamp. */
  lemma {:induction false} LatestIsMax(vals: seq<Value>)
    ensures Latest(vals).None? <==> forall i :: 0 <= i < |vals| ==> !vals[i].VTime?
    ensures Latest(vals).Some? ==> exists i :: 0 <= i < |vals| && vals[i] == VTime(Latest(vals).value)
    ensures Latest(vals).Some? ==> forall i :: 0 <= i < |vals| && vals[i].VTime? ==> vals[i].ms <= Latest(vals).value
    decreases |vals|
  {
    if |vals| > 0 {
      LatestIsMax(vals[1..]);
      assert forall i :: 1 <= i < |vals| ==> vals[i] == vals[1..][i - 1];
      var rest := Latest(vals[1..]);
      if rest.Some? {
        var h :| 0 <= h < |vals[1..]| && vals[1..][h] == VTime(rest.value);
        assert vals[h + 1] == VTime(rest.value);
      }
    }
  }

  /** The mask `df[c] != latest`: a row stays unless its cell at `k` is the
      latest timestamp (NaT compares unequal to everything). */
  function Keeps(k: nat, latest: Option<int>): Row -> bool {
    row => !(latest.Some? && Cell(row, k) == VTime(latest.value))
  }

  /** `df[df[c] != df[c].max()]`. */
  function DropLatest(f: Frame, c: string): (r: Result<Frame, FrameError>)
    ensures r.Success? <==> c in f.columns
    ensures r.Success? ==> r.value.columns == f.columns && |r.value.rows| <= |f.rows|
  {
    var col :- Column(f, c);
    Success(Frame(f.columns, FilterRows(f.rows, Keeps(IndexOf(f.columns, c).value, Latest(col)))))
  }

  /** The filter drops exactly the rows at the latest timestamp: every kept
      row comes from the table and is earlier than the latest (or has no
      timestamp), and every row not at the latest is kept, in order. */
  lemma DropLatestRows(f: Frame, c: string, r: Frame)
    requires DropLatest(f, c) == Success(r)
    ensures r.columns == f.columns
    ensures forall i :: 0 <= i < |r.rows| ==> r.rows[i] in f.rows
    ensures var latest := Latest(Column(f, c).value);
            forall i :: 0 <= i < |r.rows| && At(r, i, c).VTime? ==> latest.Some? && At(r, i, c).ms < latest.value
    ensures var latest := Latest(Column(f, c).value);
            forall j :: 0 <= j < |f.rows| && (latest.None? || At(f, j, c) != VTime(latest.value)) ==> f.rows[j] in r.rows
  {
    var col := Column(f, c).value;
    var latest := Latest(col);
    LatestIsMax(col);
    var k := IndexOf(f.columns, c).value;
    var keep := Keeps(k, latest);
    assert r.rows == FilterRows(f.rows, keep);
    forall i | 0 <= i < |r.rows| && At(r, i, c).VTime?
      ensures latest.Some? && At(r, i, c).ms < latest.value
    {
      var j :| 0 <= j < |f.rows| && f.rows[j] == r.rows[i];
      assert col[j] == At(r, i, c);
      assert keep(r.rows[i]);
    }
    forall j | 0 <= j < |f.rows| && (latest.None? || At(f, j, c) != VTime(latest.value))
      ensures f.rows[j] in r.rows
    {
      assert keep(f.rows[j]);
    }
  }

  /** When every row carries the same timestamp, nothing is left. */
  lemma DropLatestSameDay(f: Frame, c: string, r: Frame, t: int)
    requires DropLatest(f, c) == Success(r)
    requires forall j :: 0 <= j < |f.rows| ==> At(f, j, c) == VTime(t)
    ensures r.rows == []
  {
    var col := Column(f, c).value;
    var latest := Latest(col);
    LatestIsMax(col);
    var keep := Keeps(IndexOf(f.columns, c).value, latest);
    if |f.rows| > 0 {
      assert col[0] == At(f, 0, c);
      var h :| 0 <= h < |col| && col[h] == VTime(latest.value);
      assert col[h] == At(f, h, c);
    }
    forall j | 0 <= j < |f.rows| ensures !keep(f.rows[j]) {
      assert col[j] == At(f, j, c);
    }
    assert r.rows == FilterRows(f.rows, keep);
    FilterRowsNone(f.rows, keep);
  }

  // ---------------------------------------------------------------- cleaning

  const PriceColumns: seq<string> := ["price", "market_cap", "volume"]

  /** `df[time].astype('datetime64[us]')` (a timestamp column already),
      `astype(float)` over `floats`, then `df['id'].str.lower()`. */
  function ChartSteps(time: string, floats: seq<string>): seq<Step> {
    [Step(time, Always)] + (Each(floats, FloatCast) + [Step("id", Lift(LowerCell))])
  }

  /** The same statements as one rule per column. */
  function ChartCell(floats: seq<string>, c: string, v: Value): Cast {
    if c in floats then FloatCast(v)
    else if c == "id" then Cast(LowerCell(v))
    else Cast(v)
  }

  /** The labels a chart table carries before renaming. */
  predicate ChartShape(cols: seq<string>, time: string, floats: seq<string>) {
    cols == ["data_ts", "currency", "id", time] + floats && Distinct(cols)
  }

  lemma ChartStepsRule(cols: seq<string>, time: string, floats: seq<string>, c: string, v: Value)
    requires ChartShape(cols, time, floats)
    ensures Convert(ChartSteps(time, floats), c, v) == ChartCell(floats, c, v)
  {
    var head, loop, last := [Step(time, Always)], Each(floats, FloatCast), [Step("id", Lift(LowerCell))];
    assert Distinct(floats) by {
      forall a, b | 0 <= a < b < |floats| ensures floats[a] != floats[b] {
        assert cols[4 + a] == floats[a] && cols[4 + b] == floats[b];
      }
    }
    assert "id" !in floats by {
      assert cols[2] == "id";
      forall a | 0 <= a < |floats| ensures floats[a] != "id" {
        assert cols[4 + a] == floats[a];
      }
    }
    ConvertAppend(head, loop + last, c, v);
    assert Convert(head, c, v) == Cast(v);
    ConvertAppend(loop, last, c, v);
    ConvertEachOnce(floats, FloatCast, c, v);
    if c in floats && FloatCast(v).Cast? {
      assert Convert(last, c, FloatCast(v).v) == FloatCast(v);
    }
  }

  /** The casts, then the rename. */
  function CastAndRename(d: Frame, time: string, floats: seq<string>, m: map<string, string>): (r: Result<Frame, FrameError>)
  {
    var c :- ApplySteps(d, ChartSteps(time, floats));
    Success(Rename(c, m))
  }

  /** The statements name columns of the table and act as the rule. */
  lemma ChartStepsFacts(d: Frame, time: string, floats: seq<string>)
    requires ChartShape(d.columns, time, floats)
    ensures Labelled(ChartSteps(time, floats), d)
    ensures forall c, v :: Convert(ChartSteps(time, floats), c, v) == ChartCell(floats, c, v)
  {
    forall c, v ensures Convert(ChartSteps(time, floats), c, v) == ChartCell(floats, c, v) {
      ChartStepsRule(d.columns, time, floats, c, v);
    }
    assert forall k :: 0 <= k < |floats| ==> floats[k] == d.columns[4 + k];
  }

  /** Casting and renaming a chart table succeeds exactly when every price
      cell converts to float. */
  lemma CastAndRenameSucceeds(d: Frame, time: string, floats: seq<string>, m: map<string, string>)
    requires ChartShape(d.columns, time, floats)
    ensures CastAndRename(d, time, floats, m).Success? <==>
              forall i, c :: 0 <= i < |d.rows| && c in floats ==> FloatCast(At(d, i, c)).Cast?
  {
    var steps := ChartSteps(time, floats);
    var rule := (c, v) => ChartCell(floats, c, v);
    ChartStepsFacts(d, time, floats);
    ApplyStepsByRule(d, steps, rule);
    if forall i, c :: 0 <= i < |d.rows| && c in floats ==> FloatCast(At(d, i, c)).Cast? {
      forall i, c | 0 <= i < |d.rows| && c in d.columns ensures rule(c, At(d, i, c)).Cast? {
      }
    } else {
      var i, c :| 0 <= i < |d.rows| && c in floats && !FloatCast(At(d, i, c)).Cast?;
      assert c in d.columns && !rule(c, At(d, i, c)).Cast?;
    }
  }

  /** The rename gives the table the new labels and keeps its rows. */
  lemma CastAndRenameColumns(d: Frame, time: string, floats: seq<string>, m: map<string, string>, labels: seq<string>,
                             out: Frame)
    requires RenamesTo(d.columns, m, labels) && CastAndRename(d, time, floats, m) == Success(out)
    ensures out.columns == labels && |out.rows| == |d.rows|
  {
  }

  /** The cast lower-cases the coin id, converts the price columns and keeps
      every other cell; the rename moves each cell to its column's new
      label. */
  lemma CastAndRenameCells(d: Frame, time: string, floats: seq<string>, m: map<string, string>, labels: seq<string>,
                           out: Frame, i: nat, c: string)
    requires ChartShape(d.columns, time, floats) && RenamesTo(d.columns, m, labels)
    requires CastAndRename(d, time, floats, m) == Success(out)
    requires i < |d.rows| && c in d.columns
    ensures out.columns == labels && |out.rows| == |d.rows|
    ensures ChartCell(floats, c, At(d, i, c)) == Cast(At(out, i, Relabel(m, c)))
  {
    var steps := ChartSteps(time, floats);
    var rule := (c, v) => ChartCell(floats, c, v);
    ChartStepsFacts(d, time, floats);
    ApplyStepsByRule(d, steps, rule);
    var a := ApplySteps(d, steps).value;
    assert out == Rename(a, m);
    assert At(a, i, c) == rule(c, At(d, i, c)).v;
    RenamesToCells(a, m, labels, i, c);
  }

  // ---------------------------------------------------------------- market chart

  /** The labels after the rename, for the `mkch_` and `mrag_` tables. */
  function ChartLabels(pre: string): seq<string> {
    [pre + "data_ts", pre + "currency", "coin_id", "date", pre + "price", pre + "market_cap", pre + "volume"]
  }

  const MkchRenames: map<string, string> :=
    map["id" := "coin_id", "data_ts" := "mkch_data_ts", "currency" := "mkch_currency",
        "price" := "mkch_price", "market_cap" := "mkch_market_cap", "volume" := "mkch_volume"]

  lemma MkchLabels()
    ensures ChartLabels("mkch_") == ["mkch_data_ts", "mkch_currency", "coin_id", "date", "mkch_price", "mkch_market_cap", "mkch_volume"]
  {
    assert "mkch_" + "data_ts" == "mkch_data_ts";
    assert "mkch_" + "currency" == "mkch_currency";
    assert "mkch_" + "price" == "mkch_price";
    assert "mkch_" + "market_cap" == "mkch_market_cap";
    assert "mkch_" + "volume" == "mkch_volume";
  }

  lemma ChartRequiredShape()
    ensures ChartShape(ChartRequired, "date", PriceColumns)
  {
  }

  lemma MkchRenamesTo()
    ensures RenamesTo(ChartRequired, MkchRenames, ChartLabels("mkch_"))
  {
    MkchLabels();
  }

  /** Lines 49-67 of the current fetcher after the zip: the staged table
      without its newest day. */
  function Dropped(z: Frame, now: int, vs: string, id: string): Result<Frame, FrameError> {
    DropLatest(Prepend(z, ChartHeads(now, vs, id)), "date")
  }

  /** The `try` block of the current `cg_fetch_coins_market_chart` on a
      decoded body. */
  function ChartProcess(body: Value, now: int, vs: string, id: string): Result<Frame, FrameError> {
    var z :- Zip(body);
    var d :- Dropped(z, now, vs, id);
    CastAndRename(d, "date", PriceColumns, MkchRenames)
  }

  /** `cg_fetch_coins_market_chart` (current): the empty table on a failed
      request or on any exception while processing. */
  function MarketChart(now: int, vs: string, id: string, resp: Response): (r: Frame)
    ensures resp.RequestFailed? ==> r == Empty()
    ensures resp.Payload? ==> (r == Empty() <==> ChartProcess(resp.body, now, vs, id).Failure?)
    ensures r != Empty() ==> r.columns == ChartLabels("mkch_") && |r.rows| <= |Zip(resp.body).value.rows|
  {
    match resp
    case RequestFailed => Empty()
    case Payload(body) =>
      var p := ChartProcess(body, now, vs, id);
      if p.Success? then
        MarketChartRows(body, now, vs, id, Zip(body).value, p.value);
        p.value
      else Empty()
  }

  /** The latest date of the zipped table (NaT when none). */
  function Newest(z: Frame): Option<int>
    requires "date" in z.columns
  {
    Latest(seq(|z.rows|, j requires 0 <= j < |z.rows| => At(z, j, "date")))
  }

  /** Zip row `j` is on the newest day. */
  predicate OnNewest(z: Frame, j: nat)
    requires "date" in z.columns
  {
    Newest(z).Some? && At(z, j, "date") == VTime(Newest(z).value)
  }

  /** Output row `i` is zip row `j` with the front columns filled in, the
      coin id lower-cased and the prices cast to float. */
  predicate Carries(out: Frame, i: nat, pre: string, now: int, vs: string, id: string, z: Frame, j: nat) {
    out.columns == ChartLabels(pre) && z.columns == SeriesColumns && i < |out.rows| && j < |z.rows|
    && At(out, i, pre + "data_ts") == Stamp(now) && At(out, i, pre + "currency") == VStr(vs)
    && At(out, i, "coin_id") == VStr(Lower(id)) && At(out, i, "date") == At(z, j, "date")
    && FloatCast(At(z, j, "price")) == Cast(At(out, i, pre + "price"))
    && FloatCast(At(z, j, "market_cap")) == Cast(At(out, i, pre + "market_cap"))
    && FloatCast(At(z, j, "volume")) == Cast(At(out, i, pre + "volume"))
  }

  /** A staged row that holds zip row `j` comes out as that row, cast and
      relabelled. */
  lemma CarriesRow(d: Frame, pre: string, m: map<string, string>, out: Frame, now: int, vs: string, id: string,
                   z: Frame, i: nat, j: nat)
    requires ChartShape(d.columns, "date", PriceColumns) && RenamesTo(d.columns, m, ChartLabels(pre))
    requires CastAndRename(d, "date", PriceColumns, m) == Success(out)
    requires z.columns == SeriesColumns && i < |d.rows| && j < |z.rows|
    requires At(d, i, "data_ts") == Stamp(now) && At(d, i, "currency") == VStr(vs) && At(d, i, "id") == VStr(id)
    requires forall c :: c in SeriesColumns ==> At(d, i, c) == At(z, j, c)
    ensures Carries(out, i, pre, now, vs, id, z, j)
  {
    CastAndRenameColumns(d, "date", PriceColumns, m, ChartLabels(pre), out);
    assert "date" in SeriesColumns && "price" in SeriesColumns;
    assert "market_cap" in SeriesColumns && "volume" in SeriesColumns;
    CarriesFront(d, pre, m, out, i);
    CarriesPrices(d, pre, m, out, i);
  }

  /** The stamp, the currency, the id and the date of a staged row. */
  lemma CarriesFront(d: Frame, pre: string, m: map<string, string>, out: Frame, i: nat)
    requires ChartShape(d.columns, "date", PriceColumns) && RenamesTo(d.columns, m, ChartLabels(pre))
    requires CastAndRename(d, "date", PriceColumns, m) == Success(out)
    requires i < |d.rows|
    ensures out.columns == ChartLabels(pre) && |out.rows| == |d.rows|
    ensures At(out, i, pre + "data_ts") == At(d, i, "data_ts") && At(out, i, pre + "currency") == At(d, i, "currency")
    ensures At(out, i, "coin_id") == LowerCell(At(d, i, "id")) && At(out, i, "date") == At(d, i, "date")
  {
    CastAndRenameColumns(d, "date", PriceColumns, m, ChartLabels(pre), out);
    ChartColumnsAt(d.columns);
    PlainCells(At(d, i, "data_ts"), At(d, i, "currency"), At(d, i, "id"), At(d, i, "date"));
    CarriesAt(d, pre, m, out, i, 0, "data_ts", pre + "data_ts");
    CarriesAt(d, pre, m, out, i, 1, "currency", pre + "currency");
    CarriesAt(d, pre, m, out, i, 2, "id", "coin_id");
    CarriesAt(d, pre, m, out, i, 3, "date", "date");
  }

  /** The three price columns of a staged row, cast to float. */
  lemma CarriesPrices(d: Frame, pre: string, m: map<string, string>, out: Frame, i: nat)
    requires ChartShape(d.columns, "date", PriceColumns) && RenamesTo(d.columns, m, ChartLabels(pre))
    requires CastAndRename(d, "date", PriceColumns, m) == Success(out)
    requires i < |d.rows|
    ensures out.columns == ChartLabels(pre) && |out.rows| == |d.rows|
    ensures FloatCast(At(d, i, "price")) == Cast(At(out, i, pre + "price"))
    ensures FloatCast(At(d, i, "market_cap")) == Cast(At(out, i, pre + "market_cap"))
    ensures FloatCast(At(d, i, "volume")) == Cast(At(out, i, pre + "volume"))
  {
    CastAndRenameColumns(d, "date", PriceColumns, m, ChartLabels(pre), out);
    ChartColumnsAt(d.columns);
    FloatCells(At(d, i, "price"), At(d, i, "market_cap"), At(d, i, "volume"));
    CarriesAt(d, pre, m, out, i, 4, "price", pre + "price");
    CarriesAt(d, pre, m, out, i, 5, "market_cap", pre + "market_cap");
    CarriesAt(d, pre, m, out, i, 6, "volume", pre + "volume");
  }

  lemma ChartColumnsAt(cols: seq<string>)
    requires ChartShape(cols, "date", PriceColumns)
    ensures cols[0] == "data_ts" && cols[1] == "currency" && cols[2] == "id" && cols[3] == "date"
    ensures cols[4] == "price" && cols[5] == "market_cap" && cols[6] == "volume"
  {
  }

  /** Column `k` of a staged row, named `c`, comes out under the `k`-th
      label. */
  lemma CarriesAt(d: Frame, pre: string, m: map<string, string>, out: Frame, i: nat, k: nat, c: string, lab: string)
    requires ChartShape(d.columns, "date", PriceColumns) && RenamesTo(d.columns, m, ChartLabels(pre))
    requires CastAndRename(d, "date", PriceColumns, m) == Success(out)
    requires i < |d.rows| && k < 7 && d.columns[k] == c && ChartLabels(pre)[k] == lab
    ensures ChartCell(PriceColumns, c, At(d, i, c)) == Cast(At(out, i, lab))
  {
    CastAndRenameCells(d, "date", PriceColumns, m, ChartLabels(pre), out, i, c);
  }

  lemma PlainCells(t: Value, cur: Value, id: Value, date: Value)
    ensures ChartCell(PriceColumns, "data_ts", t) == Cast(t)
    ensures ChartCell(PriceColumns, "currency", cur) == Cast(cur)
    ensures ChartCell(PriceColumns, "id", id) == Cast(LowerCell(id))
    ensures ChartCell(PriceColumns, "date", date) == Cast(date)
  {
    assert "data_ts" !in PriceColumns && "currency" !in PriceColumns;
    assert "id" !in PriceColumns && "date" !in PriceColumns;
  }

  lemma FloatCells(p: Value, cap: Value, vol: Value)
    ensures ChartCell(PriceColumns, "price", p) == FloatCast(p)
    ensures ChartCell(PriceColumns, "market_cap", cap) == FloatCast(cap)
    ensures ChartCell(PriceColumns, "volume", vol) == FloatCast(vol)
  {
  }

  /** The staged date column is the zip's. */
  lemma StagedDates(z: Frame, now: int, vs: string, id: string, s: Frame)
    requires z.columns == SeriesColumns && WellFormed(z) && s == Prepend(z, ChartHeads(now, vs, id))
    ensures Column(s, "date").value == seq(|z.rows|, j requires 0 <= j < |z.rows| => At(z, j, "date"))
    ensures Latest(Column(s, "date").value) == Newest(z)
  {
    PreparedChart(z, now, vs, id);
    var col := Column(s, "date").value;
    forall j | 0 <= j < |z.rows| ensures col[j] == At(z, j, "date") {
      assert col[j] == At(s, j, "date");
    }
  }

  /** Output row `i` is some zip row off the newest day. */
  predicate Kept(out: Frame, i: nat, now: int, vs: string, id: string, z: Frame)
    requires "date" in z.columns
  {
    exists j :: 0 <= j < |z.rows| && !OnNewest(z, j) && Carries(out, i, "mkch_", now, vs, id, z, j)
  }

  /** Zip row `j` is some output row. */
  predicate Shown(out: Frame, now: int, vs: string, id: string, z: Frame, j: nat) {
    exists i :: 0 <= i < |out.rows| && Carries(out, i, "mkch_", now, vs, id, z, j)
  }

  /** A row the filter kept, read back through the staged row it came
      from. */
  lemma DroppedRow(z: Frame, now: int, vs: string, id: string, s: Frame, d: Frame, out: Frame, i: nat, j: nat)
    requires z.columns == SeriesColumns && s.columns == ChartRequired && d.columns == ChartRequired
    requires CastAndRename(d, "date", PriceColumns, MkchRenames) == Success(out)
    requires i < |d.rows| && j < |z.rows| && j < |s.rows| && d.rows[i] == s.rows[j]
    requires At(s, j, "data_ts") == Stamp(now) && At(s, j, "currency") == VStr(vs) && At(s, j, "id") == VStr(id)
    requires forall c :: c in SeriesColumns ==> At(s, j, c) == At(z, j, c)
    ensures Carries(out, i, "mkch_", now, vs, id, z, j)
  {
    ChartRequiredShape();
    MkchRenamesTo();
    assert At(d, i, "data_ts") == At(s, j, "data_ts");
    assert At(d, i, "currency") == At(s, j, "currency");
    assert At(d, i, "id") == At(s, j, "id");
    forall c | c in SeriesColumns ensures At(d, i, c) == At(z, j, c) {
      assert At(d, i, c) == At(s, j, c);
    }
    CarriesRow(d, "mkch_", MkchRenames, out, now, vs, id, z, i, j);
  }

  /** The three steps after the zip, as facts about their results. */
  predicate ChartChain(z: Frame, now: int, vs: string, id: string, s: Frame, d: Frame, out: Frame) {
    z.columns == SeriesColumns && WellFormed(z) && s == Prepend(z, ChartHeads(now, vs, id))
    && DropLatest(s, "date") == Success(d) && CastAndRename(d, "date", PriceColumns, MkchRenames) == Success(out)
  }

  lemma ChainKept(z: Frame, now: int, vs: string, id: string, s: Frame, d: Frame, out: Frame, i: nat)
    requires ChartChain(z, now, vs, id, s, d, out) && i < |d.rows|
    ensures Kept(out, i, now, vs, id, z)
  {
    PreparedChart(z, now, vs, id);
    DropLatestRows(s, "date", d);
    StagedDates(z, now, vs, id, s);
    var j :| 0 <= j < |s.rows| && s.rows[j] == d.rows[i];
    assert At(d, i, "date") == At(s, j, "date") == At(z, j, "date");
    DroppedRow(z, now, vs, id, s, d, out, i, j);
  }

  /** A row off the latest timestamp survives the filter. */
  lemma DropLatestKeeps(f: Frame, c: string, r: Frame, j: nat)
    requires DropLatest(f, c) == Success(r) && j < |f.rows|
    requires Latest(Column(f, c).value).None? || At(f, j, c) != VTime(Latest(Column(f, c).value).value)
    ensures exists i :: 0 <= i < |r.rows| && r.rows[i] == f.rows[j]
  {
    DropLatestRows(f, c, r);
  }

  lemma ChainShown(z: Frame, now: int, vs: string, id: string, s: Frame, d: Frame, out: Frame, j: nat)
    requires ChartChain(z, now, vs, id, s, d, out) && j < |z.rows| && !OnNewest(z, j)
    ensures Shown(out, now, vs, id, z, j)
  {
    PreparedChart(z, now, vs, id);
    StagedDates(z, now, vs, id, s);
    assert At(s, j, "date") == At(z, j, "date");
    DropLatestKeeps(s, "date", d, j);
    var i :| 0 <= i < |d.rows| && d.rows[i] == s.rows[j];
    DroppedRow(z, now, vs, id, s, d, out, i, j);
  }

  /** The current chart fetcher drops exactly the newest day: every output
      row is a zip row off the newest day, cast and relabelled, and every
      zip row off the newest day appears in the output. */
  lemma MarketChartRows(body: Value, now: int, vs: string, id: string, z: Frame, out: Frame)
    requires Zip(body) == Success(z) && ChartProcess(body, now, vs, id) == Success(out)
    ensures out.columns == ChartLabels("mkch_") && |out.rows| <= |z.rows|
    ensures forall i :: 0 <= i < |out.rows| ==> Kept(out, i, now, vs, id, z)
    ensures forall j :: 0 <= j < |z.rows| && !OnNewest(z, j) ==> Shown(out, now, vs, id, z, j)
  {
    var s := Prepend(z, ChartHeads(now, vs, id));
    var d := DropLatest(s, "date").value;
    assert ChartChain(z, now, vs, id, s, d, out);
    ChainColumns(z, now, vs, id, s, d, out);
    ChainAllKept(z, now, vs, id, s, d, out);
    ChainAllShown(z, now, vs, id, s, d, out);
  }

  lemma ChainColumns(z: Frame, now: int, vs: string, id: string, s: Frame, d: Frame, out: Frame)
    requires ChartChain(z, now, vs, id, s, d, out)
    ensures out.columns == ChartLabels("mkch_") && |out.rows| <= |z.rows|
  {
    PreparedChart(z, now, vs, id);
    DropLatestRows(s, "date", d);
    ChartRequiredShape();
    MkchRenamesTo();
    CastAndRenameColumns(d, "date", PriceColumns, MkchRenames, ChartLabels("mkch_"), out);
  }

  lemma ChainAllKept(z: Frame, now: int, vs: string, id: string, s: Frame, d: Frame, out: Frame)
    requires ChartChain(z, now, vs, id, s, d, out)
    ensures forall i :: 0 <= i < |out.rows| ==> Kept(out, i, now, vs, id, z)
  {
    ChainColumns(z, now, vs, id, s, d, out);
    ChartRequiredShape();
    MkchRenamesTo();
    CastAndRenameColumns(d, "date", PriceColumns, MkchRenames, ChartLabels("mkch_"), out);
    forall i | 0 <= i < |out.rows| ensures Kept(out, i, now, vs, id, z) {
      ChainKept(z, now, vs, id, s, d, out, i);
    }
  }

  lemma ChainAllShown(z: Frame, now: int, vs: string, id: string, s: Frame, d: Frame, out: Frame)
    requires ChartChain(z, now, vs, id, s, d, out)
    ensures forall j :: 0 <= j < |z.rows| && !OnNewest(z, j) ==> Shown(out, now, vs, id, z, j)
  {
    forall j | 0 <= j < |z.rows| && !OnNewest(z, j) ensures Shown(out, now, vs, id, z, j) {
      ChainShown(z, now, vs, id, s, d, out, j);
    }
  }

  /** Staged-and-filtered row `i` holds the cells of zip row `j`. */
  predicate Holds(d: Frame, i: nat, z: Frame, j: nat) {
    d.columns == ChartRequired && z.columns == SeriesColumns && i < |d.rows| && j < |z.rows|
    && At(d, i, "date") == At(z, j, "date") && At(d, i, "price") == At(z, j, "price")
    && At(d, i, "market_cap") == At(z, j, "market_cap") && At(d, i, "volume") == At(z, j, "volume")
  }

  lemma DroppedFrom(z: Frame, now: int, vs: string, id: string, s: Frame, d: Frame, i: nat)
    requires z.columns == SeriesColumns && WellFormed(z) && s == Prepend(z, ChartHeads(now, vs, id))
    requires DropLatest(s, "date") == Success(d) && i < |d.rows|
    ensures exists j :: 0 <= j < |z.rows| && !OnNewest(z, j) && Holds(d, i, z, j)
  {
    PreparedChart(z, now, vs, id);
    DropLatestRows(s, "date", d);
    StagedDates(z, now, vs, id, s);
    var j :| 0 <= j < |s.rows| && s.rows[j] == d.rows[i];
    assert At(d, i, "date") == At(s, j, "date") == At(z, j, "date");
    assert At(d, i, "price") == At(s, j, "price");
    assert At(d, i, "market_cap") == At(s, j, "market_cap");
    assert At(d, i, "volume") == At(s, j, "volume");
    assert Holds(d, i, z, j);
  }

  lemma DroppedTo(z: Frame, now: int, vs: string, id: string, s: Frame, d: Frame, j: nat)
    requires z.columns == SeriesColumns && WellFormed(z) && s == Prepend(z, ChartHeads(now, vs, id))
    requires DropLatest(s, "date") == Success(d) && j < |z.rows| && !OnNewest(z, j)
    ensures exists i :: 0 <= i < |d.rows| && Holds(d, i, z, j)
  {
    PreparedChart(z, now, vs, id);
    StagedDates(z, now, vs, id, s);
    assert At(s, j, "date") == At(z, j, "date");
    DropLatestKeeps(s, "date", d, j);
    var i :| 0 <= i < |d.rows| && d.rows[i] == s.rows[j];
    assert At(d, i, "date") == At(s, j, "date");
    assert At(d, i, "price") == At(s, j, "price");
    assert At(d, i, "market_cap") == At(s, j, "market_cap");
    assert At(d, i, "volume") == At(s, j, "volume");
    assert Holds(d, i, z, j);
  }

  /** A column holding the coin id in every row is one the `.str`
      accessor accepts, whatever the id. */
  lemma IdText(d: Frame, id: string)
    requires "id" in d.columns && forall i :: 0 <= i < |d.rows| ==> At(d, i, "id") == VStr(id)
    ensures StrAccepts(ColumnOf(d, "id"))
  {
    assert ColumnOf(d, "id") == seq(|d.rows|, _ => VStr(id));
    ConstantTextAccepted(|d.rows|, id);
  }

  /** The inserted `id` column is accepted by the `.str.lower()` the chart
      fetchers apply after staging. */
  lemma PrependIdText(z: Frame, now: int, vs: string, id: string)
    requires WellFormed(z) && Distinct(["data_ts", "currency", "id"] + z.columns)
    ensures "id" in Prepend(z, ChartHeads(now, vs, id)).columns
    ensures StrAccepts(ColumnOf(Prepend(z, ChartHeads(now, vs, id)), "id"))
  {
    var s := Prepend(z, ChartHeads(now, vs, id));
    ChartHeadLabels(now, vs, id);
    assert s.columns[2] == "id";
    forall i | 0 <= i < |s.rows| ensures At(s, i, "id") == VStr(id) {
      Prepended(z, now, vs, id, i);
    }
    IdText(s, id);
  }

  /** Line 74's `.str.lower()` meets the coin id in every row left after
      the drop, so it cannot raise there. */
  lemma DroppedIdText(z: Frame, now: int, vs: string, id: string, s: Frame, d: Frame)
    requires z.columns == SeriesColumns && WellFormed(z) && s == Prepend(z, ChartHeads(now, vs, id))
    requires DropLatest(s, "date") == Success(d)
    ensures "id" in d.columns && StrAccepts(ColumnOf(d, "id"))
  {
    PreparedChart(z, now, vs, id);
    DropLatestRows(s, "date", d);
    assert "id" in d.columns by {
      assert ChartRequired[2] == "id";
    }
    forall i | 0 <= i < |d.rows| ensures At(d, i, "id") == VStr(id) {
      var j :| 0 <= j < |s.rows| && s.rows[j] == d.rows[i];
      assert At(d, i, "id") == At(s, j, "id");
    }
    IdText(d, id);
  }

  /** A held row has the zip row's prices. */
  lemma HoldsPrice(d: Frame, i: nat, z: Frame, j: nat, c: string)
    requires Holds(d, i, z, j) && c in PriceColumns
    ensures At(d, i, c) == At(z, j, c)
  {
  }

  /** Every price of the zip's rows off the newest day converts. */
  predicate OffNewestCast(z: Frame)
    requires z.columns == SeriesColumns
  {
    forall j, c :: 0 <= j < |z.rows| && c in PriceColumns && !OnNewest(z, j) ==> FloatCast(At(z, j, c)).Cast?
  }

  /** Every price of the filtered table converts. */
  predicate PricesCast(d: Frame)
    requires d.columns == ChartRequired
  {
    forall i, c :: 0 <= i < |d.rows| && c in PriceColumns ==> FloatCast(At(d, i, c)).Cast?
  }

  lemma DroppedConvertsForward(z: Frame, now: int, vs: string, id: string, s: Frame, d: Frame)
    requires z.columns == SeriesColumns && WellFormed(z) && s == Prepend(z, ChartHeads(now, vs, id))
    requires DropLatest(s, "date") == Success(d) && OffNewestCast(z)
    requires d.columns == ChartRequired
    ensures PricesCast(d)
  {
    forall i, c | 0 <= i < |d.rows| && c in PriceColumns ensures FloatCast(At(d, i, c)).Cast? {
      DroppedFrom(z, now, vs, id, s, d, i);
      var j :| 0 <= j < |z.rows| && !OnNewest(z, j) && Holds(d, i, z, j);
      HoldsPrice(d, i, z, j, c);
    }
  }

  lemma DroppedConvertsBack(z: Frame, now: int, vs: string, id: string, s: Frame, d: Frame)
    requires z.columns == SeriesColumns && WellFormed(z) && s == Prepend(z, ChartHeads(now, vs, id))
    requires d.columns == ChartRequired && DropLatest(s, "date") == Success(d) && PricesCast(d)
    ensures OffNewestCast(z)
  {
    forall j, c | 0 <= j < |z.rows| && c in PriceColumns && !OnNewest(z, j) ensures FloatCast(At(z, j, c)).Cast? {
      DroppedTo(z, now, vs, id, s, d, j);
      var i :| 0 <= i < |d.rows| && Holds(d, i, z, j);
      HoldsPrice(d, i, z, j, c);
    }
  }

  /** The filtered table's prices all convert exactly when the zip's do
      off the newest day. */
  lemma DroppedConverts(z: Frame, now: int, vs: string, id: string, s: Frame, d: Frame)
    requires z.columns == SeriesColumns && WellFormed(z) && s == Prepend(z, ChartHeads(now, vs, id))
    requires DropLatest(s, "date") == Success(d)
    ensures (forall i, c :: 0 <= i < |d.rows| && c in PriceColumns ==> FloatCast(At(d, i, c)).Cast?) <==>
            (forall j, c :: 0 <= j < |z.rows| && c in PriceColumns && !OnNewest(z, j) ==> FloatCast(At(z, j, c)).Cast?)
  {
    PreparedChart(z, now, vs, id);
    assert d.columns == ChartRequired;
    if OffNewestCast(z) {
      DroppedConvertsForward(z, now, vs, id, s, d);
    }
    if PricesCast(d) {
      DroppedConvertsBack(z, now, vs, id, s, d);
    }
  }

  /** The current chart fetcher returns a table exactly when every price,
      market cap and volume off the newest day converts to float; a bad
      cell on the newest day does no harm, since its row is gone first. */
  lemma MarketChartSucceeds(body: Value, now: int, vs: string, id: string, z: Frame)
    requires Zip(body) == Success(z)
    ensures ChartProcess(body, now, vs, id).Success? <==>
              forall j, c :: 0 <= j < |z.rows| && c in PriceColumns && !OnNewest(z, j) ==> FloatCast(At(z, j, c)).Cast?
  {
    PreparedChart(z, now, vs, id);
    var s := Prepend(z, ChartHeads(now, vs, id));
    var d := DropLatest(s, "date").value;
    assert ChartProcess(body, now, vs, id) == CastAndRename(d, "date", PriceColumns, MkchRenames);
    ChartRequiredShape();
    CastAndRenameSucceeds(d, "date", PriceColumns, MkchRenames);
    DroppedConverts(z, now, vs, id, s, d);
  }

  /** A response whose points all share one timestamp (a single point, say)
      yields a table without rows. */
  lemma MarketChartSameDay(body: Value, now: int, vs: string, id: string, z: Frame, out: Frame, t: int)
    requires Zip(body) == Success(z) && ChartProcess(body, now, vs, id) == Success(out)
    requires forall j :: 0 <= j < |z.rows| ==> At(z, j, "date") == VTime(t)
    ensures out.rows == []
  {
    PreparedChart(z, now, vs, id);
    var s := Prepend(z, ChartHeads(now, vs, id));
    var d := DropLatest(s, "date").value;
    assert CastAndRename(d, "date", PriceColumns, MkchRenames) == Success(out);
    forall j | 0 <= j < |s.rows| ensures At(s, j, "date") == VTime(t) {
      assert At(s, j, "date") == At(z, j, "date");
    }
    DropLatestSameDay(s, "date", d, t);
  }

  // ---------------------------------------------------------------- older chart fetcher

  /** The `try` block of the top-level `cg_fetch_coins_market_chart`: the
      zip, the three inserts and the projection, with nothing dropped,
      cast or renamed. */
  function LegacyProcess(body: Value, now: int, vs: string, id: string): Result<Frame, FrameError> {
    var z :- Zip(body);
    Stage(z, ChartHeads(now, vs, id), ChartRequired)
  }

  /** The top-level `cg_fetch_coins_market_chart`. */
  function LegacyChart(now: int, vs: string, id: string, resp: Response): (r: Frame)
    ensures resp.RequestFailed? ==> r == Empty()
    ensures resp.Payload? ==> (r == Empty() <==> Zip(resp.body).Failure?)
    ensures r != Empty() ==> r.columns == ChartRequired && |r.rows| == |Zip(resp.body).value.rows|
  {
    match resp
    case RequestFailed => Empty()
    case Payload(body) =>
      match Zip(body)
      case Failure(_) => Empty()
      case Success(z) =>
        LegacyStaged(body, now, vs, id, z);
        PreparedChart(z, now, vs, id);
        LegacyProcess(body, now, vs, id).value
  }

  /** The older fetcher's staging puts the stamp, the currency and the
      coin id in front of each zip row. */
  lemma LegacyStaged(body: Value, now: int, vs: string, id: string, z: Frame)
    requires Zip(body) == Success(z)
    ensures LegacyProcess(body, now, vs, id) == Success(Prepend(z, ChartHeads(now, vs, id)))
  {
    ChartRequiredShape();
    Staged(z, now, vs, id);
  }

  /** The older fetcher keeps every zip row, newest day included, with the
      stamp, the currency and the coin id as given in front; its key column
      is `id`, and there is no `coin_id`. */
  lemma LegacyChartRows(body: Value, now: int, vs: string, id: string, z: Frame, out: Frame)
    requires Zip(body) == Success(z) && LegacyChart(now, vs, id, Payload(body)) == out
    ensures out.columns == ChartRequired && "id" in out.columns && "coin_id" !in out.columns
    ensures |out.rows| == |z.rows|
    ensures forall i :: 0 <= i < |z.rows| ==>
              At(out, i, "data_ts") == Stamp(now) && At(out, i, "currency") == VStr(vs) && At(out, i, "id") == VStr(id)
    ensures forall i, c :: 0 <= i < |z.rows| && c in SeriesColumns ==> At(out, i, c) == At(z, i, c)
  {
    LegacyStaged(body, now, vs, id, z);
    assert out == Prepend(z, ChartHeads(now, vs, id));
    PreparedChart(z, now, vs, id);
  }

  /** The older fetcher fails only when the zip does. */
  lemma LegacyChartFails(body: Value, now: int, vs: string, id: string)
    ensures LegacyProcess(body, now, vs, id).Failure? <==> Zip(body).Failure?
    ensures Zip(body).Failure? ==> LegacyChart(now, vs, id, Payload(body)) == Empty()
  {
    if Zip(body).Success? {
      LegacyStaged(body, now, vs, id, Zip(body).value);
    }
  }
}

=== FILE: features.dfy ===
/** `cg_data_c_processed`, lines 25-57: missing image and sparkline cells
    become '-', a missing trending score becomes 9999, `cmrk_roi` is dropped
    when present, and thirteen features are derived per row from the
    market snapshot columns. Float division follows IEEE 754 (a zero
    denominator gives an infinity or NaN); the final step turns every
    infinity into a missing value. */
module Features {
  import opened Wrappers
  import opened Values
  import opened Frames

  // ---------------------------------------------------------------- missing values

  /** `fillna(v)` on one cell. */
  function FillWith(v: Value): Value -> Value {
    x => if x == VNull then v else x
  }

  /** Filling twice is filling once. */
  lemma FillIdempotent(v: Value, x: Value)
    ensures FillWith(v)(FillWith(v)(x)) == FillWith(v)(x)
    ensures v != VNull ==> FillWith(v)(x) != VNull
  {
  }

  /** `df[c] = df[c].fillna(v)` for each `c` of `cols` in turn; a missing
      column raises KeyError. */
  function FillAll(f: Frame, cols: seq<string>, v: Value): (r: Result<Frame, FrameError>)
    ensures r.Success? <==> forall c :: c in cols ==> c in f.columns
    ensures r.Success? ==> r.value.columns == f.columns && |r.value.rows| == |f.rows|
    decreases |cols|
  {
    if |cols| == 0 then Success(f)
    else
      var g :- MapColumn(f, cols[0], FillWith(v));
      assert forall c :: c in cols <==> c == cols[0] || c in cols[1..];
      FillAll(g, cols[1..], v)
  }

  /** Each listed column is filled, every other column is untouched. */
  lemma {:induction false} FillAllCells(f: Frame, cols: seq<string>, v: Value, i: nat, c: string)
    requires FillAll(f, cols, v).Success? && c in f.columns && i < |f.rows|
    ensures At(FillAll(f, cols, v).value, i, c) == if c in cols then FillWith(v)(At(f, i, c)) else At(f, i, c)
    decreases |cols|
  {
    if |cols| > 0 {
      var g := MapColumn(f, cols[0], FillWith(v)).value;
      assert FillAll(f, cols, v) == FillAll(g, cols[1..], v);
      FillAllCells(g, cols[1..], v, i, c);
      assert forall d :: d in cols <==> d == cols[0] || d in cols[1..];
      if c == cols[0] {
        FillIdempotent(v, At(f, i, c));
      }
    }
  }

  /** The columns whose gaps read '-'. */
  const Placeholders: seq<string> := ["trdg_img_thumb", "trdg_img_small", "trdg_img_large", "trdg_sparkline"]

  /** The default trending score, meaning "not trending". */
  const NotTrending: Value := VNum(9999.0)

  const Score := "trdg_score"
  const Roi := "cmrk_roi"

  /** Lines 27-34. */
  function Prepare(f: Frame): (r: Result<Frame, FrameError>)
    ensures r.Success? <==> (forall c :: c in Placeholders ==> c in f.columns) && Score in f.columns
    ensures r.Success? ==> |r.value.rows| == |f.rows|
    ensures r.Success? ==> forall c :: c in r.value.columns <==> c in f.columns && c != Roi
  {
    var a :- FillAll(f, Placeholders, VStr("-"));
    var b :- MapColumn(a, Score, FillWith(NotTrending));
    Success(DropIgnoring(b, [Roi]))
  }

  /** After the step no placeholder column and no score is missing; every
      other kept cell is as it was, and `cmrk_roi` is gone whether or not it
      was there. */
  lemma PrepareCells(f: Frame, i: nat, c: string)
    requires Prepare(f).Success? && Distinct(f.columns)
    requires c in f.columns && c != Roi && i < |f.rows|
    ensures var r := Prepare(f).value;
            c in r.columns && Roi !in r.columns
            && At(r, i, c) == (if c in Placeholders then FillWith(VStr("-"))(At(f, i, c))
                               else if c == Score then FillWith(NotTrending)(At(f, i, c))
                               else At(f, i, c))
    ensures c in Placeholders || c == Score ==> At(Prepare(f).value, i, c) != VNull
  {
    var a := FillAll(f, Placeholders, VStr("-")).value;
    var b := MapColumn(a, Score, FillWith(NotTrending)).value;
    FillAllCells(f, Placeholders, VStr("-"), i, c);
    FillAllCells(f, Placeholders, VStr("-"), i, Score);
    assert Score !in Placeholders;
    DropCells(b, [Roi], i, c);
    if c in Placeholders {
      FillIdempotent(VStr("-"), At(f, i, c));
    }
  }

  // ---------------------------------------------------------------- float arithmetic

  /** A float64 result: finite, infinite or NaN. */
  datatype Num = Fin(x: real) | PosInf | NegInf | NaN

  /** A column cell read as a float: a missing cell is NaN. */
  function Of(a: Option<real>): (n: Num)
    ensures n.NaN? <==> a.None?
  {
    match a
    case Some(x) => Fin(x)
    case None => NaN
  }

  /** IEEE division of two cells: NaN in, NaN out; a zero denominator gives
      an infinity of the numerator's sign, or NaN for 0/0. */
  function Quotient(a: Option<real>, b: Option<real>): (n: Num)
    ensures n.PosInf? <==> a.Some? && b == Some(0.0) && a.value > 0.0
    ensures n.NegInf? <==> a.Some? && b == Some(0.0) && a.value < 0.0
    ensures n.Fin? <==> a.Some? && b.Some? && b.value != 0.0
  {
    if a.None? || b.None? then NaN
    else if b.value != 0.0 then Fin(a.value / b.value)
    else if a.value > 0.0 then PosInf
    else if a.value < 0.0 then NegInf
    else NaN
  }

  /** `abs` of a float. */
  function Magnitude(n: Num): (r: Num)
    ensures r.NaN? <==> n.NaN?
    ensures !r.NegInf?
    ensures r.Fin? ==> r.x >= 0.0
  {
    match n
    case Fin(x) => Fin(if x < 0.0 then -x else x)
    case PosInf => PosInf
    case NegInf => PosInf
    case NaN => NaN
  }

  /** Subtraction of two cells; missing in, missing out. */
  function Difference(a: Option<real>, b: Option<real>): (r: Option<real>)
    ensures r.Some? <==> a.Some? && b.Some?
  {
    if a.Some? && b.Some? then Some(a.value - b.value) else None
  }

  /** Line 57: `replace([np.inf, -np.inf], np.nan)`, then reading the
      float back as an optional real. */
  function Finite(n: Num): (r: Option<real>)
    ensures r.Some? <==> n.Fin?
  {
    if n.Fin? then Some(n.x) else None
  }

  /** After the replacement a quotient is present exactly when both
      operands are and the denominator is not zero, and is then their
      quotient: a zero denominator never leaves an infinity behind. */
  lemma QuotientReplaced(a: Option<real>, b: Option<real>)
    ensures Finite(Quotient(a, b)) == if a.Some? && b.Some? && b.value != 0.0 then Some(a.value / b.value) else None
  {
  }

  // ---------------------------------------------------------------- classifiers

  /** Line 45: `'Bullish' if x > 0 else 'Bearish'`; NaN compares false. */
  function Trend24h(x: Option<real>): (r: string)
    ensures r == "Bullish" <==> x.Some? && x.value > 0.0
    ensures r == "Bearish" <==> x.None? || x.value <= 0.0
  {
    if x.Some? && x.value > 0.0 then "Bullish" else "Bearish"
  }

  /** Line 53: over 100 is high growth, 0 to 100 moderate, anything else,
      NaN included, a decline. */
  function Trend1y(x: Option<real>): (r: string)
    ensures r == "High Growth" <==> x.Some? && x.value > 100.0
    ensures r == "Moderate" <==> x.Some? && 0.0 <= x.value <= 100.0
    ensures r == "Decline" <==> x.None? || x.value < 0.0
  {
    if x.Some? && x.value > 100.0 then "High Growth"
    else if x.Some? && 0.0 <= x.value <= 100.0 then "Moderate"
    else "Decline"
  }

  /** Line 52 as written: the unreplaced ratio circulating/total compared
      with 75. An infinite ratio compares greater. */
  function HealthAsWritten(circulating: Option<real>, total: Option<real>): (r: string)
    ensures r == "Healthy" || r == "Unhealthy"
  {
    match Quotient(circulating, total)
    case PosInf => "Healthy"
    case Fin(x) => if x >= 75.0 then "Healthy" else "Unhealthy"
    case _ => "Unhealthy"
  }

  /** With a positive total supply, the as-written rule calls a coin
      healthy only when 75 times its total supply circulates. */
  lemma HealthAsWrittenPositive(circulating: real, total: real)
    requires total > 0.0
    ensures HealthAsWritten(Some(circulating), Some(total)) == "Healthy" <==> circulating >= 75.0 * total
  {
    var q := circulating / total;
    assert q * total == circulating;
    if q >= 75.0 {
      assert q * total >= 75.0 * total;
    } else {
      assert q * total < 75.0 * total;
    }
  }

  /** A supply where the circulating part is at most the total is never
      healthy as written: the whole of the `Healthy` label is out of reach. */
  lemma SaneSupplyNeverHealthy(circulating: real, total: real)
    requires 0.0 < total && circulating <= total
    ensures HealthAsWritten(Some(circulating), Some(total)) == "Unhealthy"
  {
    HealthAsWrittenPositive(circulating, total);
  }

  /** As written, a zero total supply with coins in circulation is
      healthy, while its circulation percentage is missing after line 57. */
  lemma ZeroSupplyHealthyAsWritten(circulating: real)
    requires circulating > 0.0
    ensures HealthAsWritten(Some(circulating), Some(0.0)) == "Healthy"
    ensures Finite(Quotient(Some(circulating), Some(0.0))).None?
  {
  }

  /** Line 52 as intended: healthy when at least 75 percent of the total
      supply circulates, read from the replaced ratio, so a missing ratio
      is unhealthy. */
  function Health(circulating: Option<real>, total: Option<real>): (r: string)
    ensures r == "Healthy" || r == "Unhealthy"
  {
    match Finite(Quotient(circulating, total))
    case Some(x) => if x >= 0.75 then "Healthy" else "Unhealthy"
    case None => "Unhealthy"
  }

  /** With a positive total the intended rule is the 75 percent threshold,
      and a zero or missing total is unhealthy. */
  lemma HealthThreshold(circulating: Option<real>, total: Option<real>)
    ensures total.Some? && total.value > 0.0 && circulating.Some? ==>
              (Health(circulating, total) == "Healthy" <==> 4.0 * circulating.value >= 3.0 * total.value)
    ensures total.None? || total == Some(0.0) || circulating.None? ==> Health(circulating, total) == "Unhealthy"
  {
    if total.Some? && total.value > 0.0 && circulating.Some? {
      HealthPositive(circulating.value, total.value);
    }
  }

  lemma HealthPositive(circulating: real, total: real)
    requires total > 0.0
    ensures Health(Some(circulating), Some(total)) == "Healthy" <==> 4.0 * circulating >= 3.0 * total
  {
    var q := circulating / total;
    assert q * total == circulating;
    if q >= 0.75 {
      assert q * total >= 0.75 * total;
    } else {
      assert q * total < 0.75 * total;
    }
  }

  /** 90 of 100 coins circulating: unhealthy as written, healthy as
      intended. */
  lemma HealthExample()
    ensures HealthAsWritten(Some(90.0), Some(100.0)) == "Unhealthy"
    ensures Health(Some(90.0), Some(100.0)) == "Healthy"
  {
    SaneSupplyNeverHealthy(90.0, 100.0);
    HealthThreshold(Some(90.0), Some(100.0));
  }

  // ---------------------------------------------------------------- the features

  /** The snapshot columns the features read, as optional reals. */
  datatype Snapshot = Snapshot(
    marketCap: Option<real>, circulating: Option<real>, totalSupply: Option<real>,
    price: Option<real>, ath: Option<real>, athChange: Option<real>,
    change24h: Option<real>, change7d: Option<real>, change1y: Option<real>,
    volume: Option<real>, high24h: Option<real>, low24h: Option<real>)

  /** The thirteen derived columns of one row, after line 57. */
  datatype Derived = Derived(
    dominance: Option<real>, circulation: Option<real>, priceVsAth: Option<real>,
    volatility: Option<real>, trend24h: string, liquidity: Option<real>,
    growth: Option<real>, riskReward: Option<real>, capToSupply: Option<real>,
    range: Option<real>, stability: Option<real>, health: string, trend1y: string)

  /** `abs` of a cell. */
  function AbsOf(a: Option<real>): (r: Option<real>)
    ensures r.Some? <==> a.Some?
    ensures r.Some? ==> r.value >= 0.0 && (r.value == a.value || r.value == -a.value)
  {
    Finite(Magnitude(Of(a)))
  }

  /** Lines 41-57 for one row, given the column's market-cap total, with
      line 52's classifier as written. */
  function Derive(s: Snapshot, total: real): Derived {
    var range := Difference(s.high24h, s.low24h);
    Derived(
      Finite(Quotient(s.marketCap, Some(total))),
      Finite(Quotient(s.circulating, s.totalSupply)),
      Finite(Quotient(Difference(s.price, s.ath), s.ath)),
      AbsOf(s.change7d),
      Trend24h(s.change24h),
      Finite(Quotient(s.volume, s.marketCap)),
      AbsOf(s.athChange),
      Finite(Magnitude(Quotient(s.change7d, s.change24h))),
      Finite(Quotient(s.marketCap, s.circulating)),
      range,
      Finite(Quotient(range, s.price)),
      HealthAsWritten(s.circulating, s.totalSupply),
      Trend1y(s.change1y))
  }

  /** One row with the intended 75 percent classifier in place of line 52's. */
  function DeriveIntended(s: Snapshot, total: real): Derived {
    Derive(s, total).(health := Health(s.circulating, s.totalSupply))
  }

  /** `df['cmrk_market_cap'].sum()`: missing caps are skipped, and an
      all-missing column sums to 0. */
  function CapTotal(rows: seq<Snapshot>): real {
    if |rows| == 0 then 0.0 else CapTotal(rows[..|rows| - 1]) + rows[|rows| - 1].marketCap.GetOr(0.0)
  }

  /** The total of non-negative caps is non-negative, and a column with no
      cap at all sums to 0. */
  lemma {:induction false} CapTotalBounds(rows: seq<Snapshot>)
    ensures (forall k :: 0 <= k < |rows| ==> rows[k].marketCap.GetOr(0.0) >= 0.0) ==> CapTotal(rows) >= 0.0
    ensures (forall k :: 0 <= k < |rows| ==> rows[k].marketCap.None?) ==> CapTotal(rows) == 0.0
    decreases |rows|
  {
    if |rows| > 0 {
      var n := |rows| - 1;
      CapTotalBounds(rows[..n]);
      assert forall k :: 0 <= k < n ==> rows[..n][k] == rows[k];
    }
  }

  /** Lines 41-57 over the whole table, as written: every row is derived
      against the same market-cap total, and its health is line 52's
      comparison of the unreplaced ratio with 75. */
  function Engineer(rows: seq<Snapshot>): (r: seq<Derived>)
    ensures |r| == |rows|
    ensures forall i :: 0 <= i < |rows| ==> r[i] == Derive(rows[i], CapTotal(rows))
    ensures forall i :: 0 <= i < |rows| ==> r[i].health == HealthAsWritten(rows[i].circulating, rows[i].totalSupply)
  {
    var total := CapTotal(rows);
    seq(|rows|, i requires 0 <= i < |rows| => Derive(rows[i], total))
  }

  /** Lines 41-57 with line 52 corrected: the same table, except that each
      row's health is the intended classifier's. */
  function EngineerIntended(rows: seq<Snapshot>): (r: seq<Derived>)
    ensures |r| == |rows|
    ensures forall i :: 0 <= i < |rows| ==> r[i] == Engineer(rows)[i].(health := Health(rows[i].circulating, rows[i].totalSupply))
  {
    var total := CapTotal(rows);
    seq(|rows|, i requires 0 <= i < |rows| => DeriveIntended(rows[i], total))
  }

  /** On a one-row table with 90 of 100 coins circulating, the engineered
      health as written is `Unhealthy` and as intended `Healthy`. */
  lemma EngineerHealthExample(s: Snapshot)
    requires s.circulating == Some(90.0) && s.totalSupply == Some(100.0)
    ensures Engineer([s])[0].health == "Unhealthy"
    ensures EngineerIntended([s])[0].health == "Healthy"
  {
    HealthExample();
  }

  /** Every ratio is present exactly when its operands are and its
      denominator is not zero, and then equals the quotient. */
  lemma DeriveRatios(s: Snapshot, total: real)
    ensures var d := Derive(s, total);
            (d.dominance.Some? <==> s.marketCap.Some? && total != 0.0)
            && (d.dominance.Some? ==> d.dominance.value == s.marketCap.value / total)
            && (d.circulation.Some? <==> s.circulating.Some? && s.totalSupply.Some? && s.totalSupply.value != 0.0)
            && (d.circulation.Some? ==> d.circulation.value == s.circulating.value / s.totalSupply.value)
            && (d.liquidity.Some? <==> s.volume.Some? && s.marketCap.Some? && s.marketCap.value != 0.0)
            && (d.capToSupply.Some? <==> s.marketCap.Some? && s.circulating.Some? && s.circulating.value != 0.0)
            && (d.priceVsAth.Some? <==> s.price.Some? && s.ath.Some? && s.ath.value != 0.0)
            && (d.priceVsAth.Some? ==> d.priceVsAth.value == (s.price.value - s.ath.value) / s.ath.value)
            && (d.riskReward.Some? <==> s.change7d.Some? && s.change24h.Some? && s.change24h.value != 0.0)
            && (d.stability.Some? <==> s.high24h.Some? && s.low24h.Some? && s.price.Some? && s.price.value != 0.0)
  {
  }

  /** The magnitudes are never negative where present. */
  lemma NonNegative(s: Snapshot, total: real)
    ensures var d := Derive(s, total);
            (d.volatility.Some? ==> d.volatility.value >= 0.0)
            && (d.growth.Some? ==> d.growth.value >= 0.0)
            && (d.riskReward.Some? ==> d.riskReward.value >= 0.0)
  {
  }

  /** The sum of the present values of a derived column. */
  function DominanceTotal(ds: seq<Derived>): real {
    if |ds| == 0 then 0.0 else DominanceTotal(ds[..|ds| - 1]) + ds[|ds| - 1].dominance.GetOr(0.0)
  }

  /** Dividing each present cap by the same non-zero total divides their
      sum by it. */
  lemma {:induction false} SharesSum(rows: seq<Snapshot>, ds: seq<Derived>, total: real)
    requires total != 0.0 && |ds| == |rows|
    requires forall i :: 0 <= i < |rows| ==> ds[i] == Derive(rows[i], total)
    ensures DominanceTotal(ds) == CapTotal(rows) / total
    decreases |rows|
  {
    if |rows| > 0 {
      var n := |rows| - 1;
      SharesSum(rows[..n], ds[..n], total);
      DerivedShare(rows[n], total);
      DivAdd(CapTotal(rows[..n]), rows[n].marketCap.GetOr(0.0), total);
    }
  }

  lemma DerivedShare(s: Snapshot, total: real)
    requires total != 0.0
    ensures Derive(s, total).dominance.GetOr(0.0) == s.marketCap.GetOr(0.0) / total
  {
  }

  lemma DivAdd(a: real, b: real, t: real)
    requires t != 0.0
    ensures a / t + b / t == (a + b) / t
  {
  }

  /** Line 41: when the column total is not zero, the market dominances of
      the rows with a market cap add up to one. */
  lemma DominanceSumsToOne(rows: seq<Snapshot>)
    requires CapTotal(rows) != 0.0
    ensures DominanceTotal(Engineer(rows)) == 1.0
  {
    var ds := Engineer(rows);
    var t := CapTotal(rows);
    assert forall i :: 0 <= i < |rows| ==> ds[i] == Derive(rows[i], t);
    SharesSum(rows, ds, t);
    DivSelf(t);
  }

  lemma DivSelf(t: real)
    requires t != 0.0
    ensures t / t == 1.0
  {
  }

  /** When the caps sum to zero every dominance is missing. */
  lemma ZeroTotalNoDominance(rows: seq<Snapshot>, i: nat)
    requires CapTotal(rows) == 0.0 && i < |rows|
    ensures Engineer(rows)[i].dominance.None?
  {
  }
}

=== FILE: fetch.dfy ===
/** What every CoinGecko fetcher shares: the outcome of the HTTP call, the
    rule that any exception inside the `try` block yields `pd.DataFrame()`,
    Python truthiness for argument checks, query-string text and the cell
    conversions several fetchers apply. */
module Fetch {
  import opened Wrappers
  import opened Text
  import opened Values
  import opened Frames

  /** The outcome of `requests.get(...)`, `raise_for_status()` and
      `response.json()`: the decoded body, or a `RequestException`. */
  datatype Response = Payload(body: Value) | RequestFailed

  /** The `except` clauses: whatever the processing raised, the fetcher
      returns the empty table. */
  function Settle(r: Result<Frame, FrameError>): (f: Frame)
    ensures r.Failure? ==> f == Empty()
    ensures r.Success? ==> f == r.value
  {
    match r
    case Success(g) => g
    case Failure(_) => Empty()
  }

  /** `datetime.now().replace(microsecond=0)` for a clock reading `now` in
      whole epoch seconds. */
  function Stamp(now: int): (r: Value)
    ensures r.VTime? && r.ms % 1000 == 0
  {
    VTime(now * 1000)
  }

  /** Python truthiness of a decoded value (`if x:`). */
  predicate Truthy(v: Value) {
    match v
    case VNull => false
    case VBool(b) => b
    case VInt(i) => i != 0
    case VNum(x) => x != 0.0
    case VStr(s) => |s| > 0
    case VTime(_) => true
    case VList(items) => |items| > 0
    case VObj(fields) => |fields| > 0
  }

  /** `str(flag).lower()`. */
  function BoolText(b: bool): (r: string)
    ensures r == "true" || r == "false"
    ensures (r == "true") <==> b
  {
    if b then "true" else "false"
  }

  /** One query-string entry as `requests` sends it. */
  datatype Param = Param(name: string, text: string)

  /** A `params` entry: `requests` leaves out entries whose value is `None`. */
  function Entry(name: string, v: Option<string>): (r: seq<Param>)
    ensures v.None? ==> r == []
    ensures v.Some? ==> r == [Param(name, v.value)]
  {
    match v
    case None => []
    case Some(t) => [Param(name, t)]
  }

  /** `pd.DataFrame(data)` for a JSON array of objects; any other payload
      shape is treated as raising. */
  function Records(body: Value): (r: Result<seq<seq<Field>>, FrameError>)
    ensures r.Success? <==> body.VList? && forall k :: 0 <= k < |body.items| ==> body.items[k].VObj?
    ensures r.Success? ==> |r.value| == |body.items|
    ensures r.Success? ==> forall k :: 0 <= k < |body.items| ==> body.items[k] == VObj(r.value[k])
  {
    if body.VList? && forall k :: 0 <= k < |body.items| ==> body.items[k].VObj? then
      Success(seq(|body.items|, k requires 0 <= k < |body.items| => body.items[k].fields))
    else Failure(Malformed)
  }

  // ---------------------------------------------------------------- cells

  /** A conversion that cannot raise, as a cast. */
  function Lift(g: Value -> Value): Value -> Cast {
    v => Cast(g(v))
  }

  const NanosPerMilli: int := 1_000_000

  /** `pd.to_datetime(x)` of one cell of a date column: an ISO 8601 text
      through a parser for the text (epoch milliseconds, or `None` when
      pandas raises); a number as a count of nanoseconds since the epoch
      (a float truncated to a whole nanosecond), kept to the millisecond
      that contains it; booleans, lists and objects raise TypeError. */
  function DateCell(parse: string -> Option<int>, v: Value): (r: Cast)
    ensures r.Cast? ==> r.v.VTime? || r.v.VNull?
    ensures v.VStr? && parse(v.s).Some? ==> r == Cast(VTime(parse(v.s).value))
    ensures v.VStr? && parse(v.s).None? ==> r.RaisesValueError?
    ensures v.VInt? ==> r.Cast? && r.v.VTime? && r.v.ms * NanosPerMilli <= v.i < (r.v.ms + 1) * NanosPerMilli
    ensures v.VNum? ==> r.Cast? && r.v.VTime? && r.v.ms * NanosPerMilli <= Truncate(v.r) < (r.v.ms + 1) * NanosPerMilli
    ensures r.RaisesValueError? ==> v.VStr?
    ensures r.RaisesTypeError? <==> v.VBool? || v.VList? || v.VObj?
  {
    match v
    case VNull => Cast(VNull)
    case VTime(ms) => Cast(VTime(ms))
    case VInt(n) => Cast(VTime(n / NanosPerMilli))
    case VNum(x) => Cast(VTime(Truncate(x) / NanosPerMilli))
    case VStr(s) => if parse(s).Some? then Cast(VTime(parse(s).value)) else RaisesValueError
    case _ => RaisesTypeError
  }

  /** `x / 100` on one numeric cell. */
  function Percent(v: Value): (r: Cast)
    ensures r.Cast? ==> r.v.VNull? || r.v.VNum?
    ensures v.VNum? ==> r == Cast(VNum(v.r / 100.0))
    ensures v.VInt? ==> r == Cast(VNum(v.i as real / 100.0))
  {
    match v
    case VNull => Cast(VNull)
    case VBool(b) => Cast(VNum(if b then 0.01 else 0.0))
    case VInt(i) => Cast(VNum(i as real / 100.0))
    case VNum(x) => Cast(VNum(x / 100.0))
    case _ => RaisesTypeError
  }

  /** `json.dumps(x) if isinstance(x, dict) else x`, with the serialiser a
      parameter. */
  function DumpObject(dumps: seq<Field> -> string, v: Value): (r: Value)
    ensures v.VObj? ==> r == VStr(dumps(v.fields))
    ensures !v.VObj? ==> r == v
  {
    if v.VObj? then VStr(dumps(v.fields)) else v
  }
}

=== FILE: frames.dfy ===
/** DataFrames as column labels plus rows of cells, and the pandas
    operations the fetchers and the merge step apply to them. Cells are read
    totally (`Cell` yields `VNull` past the end of a short row), so no
    operation needs a well-formedness precondition; `WellFormed` is proved
    where it matters. */
module Frames {
  import opened Wrappers
  import opened Values

  type Row = seq<Value>

  datatype Frame = Frame(columns: seq<string>, rows: seq<Row>)

  /** `pd.DataFrame()`: what every fetcher returns when it fails. */
  function Empty(): Frame {
    Frame([], [])
  }

  predicate WellFormed(f: Frame) {
    forall i :: 0 <= i < |f.rows| ==> |f.rows[i]| == |f.columns|
  }

  predicate Distinct<T(==)>(s: seq<T>) {
    forall i, j :: 0 <= i < j < |s| ==> s[i] != s[j]
  }

  /** The exceptions the modelled pandas operations raise. */
  datatype FrameError =
    | MissingColumns(names: seq<string>)  // the fetchers' own ValueError
    | KeyNotFound(name: string)           // KeyError on a column label
    | AlreadyExists(name: string)         // `insert` of a label already present
    | BadPosition(pos: int)               // `insert` past the last column
    | CastValueError(name: string)        // a cell of the column raised ValueError
    | CastTypeError(name: string)         // a cell of the column raised TypeError
    | NoObjects                           // `pd.concat([])`
    | IndicatorClash                      // `merge(indicator=True)` with a `_merge` column present
    | Malformed                           // a payload of the wrong shape
    | NotText(name: string)               // AttributeError: `.str` on a column holding no text

  // ---------------------------------------------------------------- lookup

  /** Position of the first column labelled `c`. */
  function IndexOf(cols: seq<string>, c: string): (r: Option<nat>)
    ensures r.None? <==> c !in cols
    ensures r.Some? ==> r.value < |cols| && cols[r.value] == c
    ensures r.Some? ==> forall j :: 0 <= j < r.value ==> cols[j] != c
  {
    if |cols| == 0 then None
    else if cols[0] == c then Some(0)
    else match IndexOf(cols[1..], c)
      case None => None
      case Some(k) => Some(k + 1)
  }

  lemma IndexOfDistinct(cols: seq<string>, j: nat)
    requires Distinct(cols) && j < |cols|
    ensures IndexOf(cols, cols[j]) == Some(j)
  {
  }

  function Cell(row: Row, k: nat): Value {
    if k < |row| then row[k] else VNull
  }

  /** `row` read as `n` cells, with the cell at `k` replaced by `v`. */
  function ReplaceCell(row: Row, n: nat, k: nat, v: Value): (r: Row)
    requires k < n
    ensures |r| == n && r[k] == v
    ensures forall j :: 0 <= j < n && j != k ==> r[j] == Cell(row, j)
  {
    seq(n, j requires 0 <= j < n => if j == k then v else Cell(row, j))
  }

  /** `df[c].iloc[i]`: the cell of row `i` in the first column labelled `c`. */
  function At(f: Frame, i: nat, c: string): Value
    requires c in f.columns
  {
    if i < |f.rows| then Cell(f.rows[i], IndexOf(f.columns, c).value) else VNull
  }

  /** Distinct labels sit at distinct positions. */
  lemma IndexOfDiffers(cols: seq<string>, a: string, b: string)
    requires a in cols && b in cols && a != b
    ensures IndexOf(cols, a).value != IndexOf(cols, b).value
  {
  }

  /** `df[c]`: the cells of the first column labelled `c`, one per row. */
  function Column(f: Frame, c: string): (r: Result<seq<Value>, FrameError>)
    ensures r.Success? <==> c in f.columns
    ensures r.Failure? ==> r.error == KeyNotFound(c)
    ensures r.Success? ==> |r.value| == |f.rows|
    ensures r.Success? ==> forall i :: 0 <= i < |f.rows| ==> r.value[i] == Cell(f.rows[i], IndexOf(f.columns, c).value)
  {
    match IndexOf(f.columns, c)
    case None => Failure(KeyNotFound(c))
    case Some(k) => Success(seq(|f.rows|, i requires 0 <= i < |f.rows| => Cell(f.rows[i], k)))
  }

  /** The cells of column `c`, top to bottom. */
  function ColumnOf(f: Frame, c: string): (r: seq<Value>)
    requires c in f.columns
    ensures |r| == |f.rows| && forall i :: 0 <= i < |f.rows| ==> r[i] == At(f, i, c)
  {
    seq(|f.rows|, i requires 0 <= i < |f.rows| => At(f, i, c))
  }

  /** `df[c]` reads the column's cells top to bottom. */
  lemma ColumnCells(f: Frame, c: string)
    requires c in f.columns
    ensures Column(f, c) == Success(ColumnOf(f, c))
  {
    var k := IndexOf(f.columns, c).value;
    var cells := seq(|f.rows|, i requires 0 <= i < |f.rows| => Cell(f.rows[i], k));
    assert Column(f, c) == Success(cells);
    assert cells == ColumnOf(f, c);
  }

  lemma SameColumn(a: seq<Value>, b: seq<Value>)
    requires |a| == |b| && forall i :: 0 <= i < |a| ==> a[i] == b[i]
    ensures a == b
  {
  }

  /** The `.str` accessor taken on each of `names` in turn: the first
      absent label raises KeyError, the first column the accessor refuses
      raises AttributeError, and otherwise the table passes unchanged. */
  function StrColumns(f: Frame, names: seq<string>): (r: Result<Frame, FrameError>)
    ensures r.Success? <==> forall k :: 0 <= k < |names| ==> Column(f, names[k]).Success? && StrAccepts(Column(f, names[k]).value)
    ensures r.Success? ==> r.value == f
    ensures r.Failure? ==> exists k :: 0 <= k < |names| && r.error in {KeyNotFound(names[k]), NotText(names[k])}
    decreases |names|
  {
    if |names| == 0 then Success(f)
    else
      var cells :- Column(f, names[0]);
      if !StrAccepts(cells) then Failure(NotText(names[0]))
      else
        var r := StrColumns(f, names[1..]);
        assert forall k :: 1 <= k < |names| ==> names[k] == names[1..][k - 1];
        r
  }

  // ---------------------------------------------------------------- columns

  /** `df.insert(pos, name, v)` with a scalar `v` broadcast to every row. */
  function Insert(f: Frame, pos: nat, name: string, v: Value): (r: Result<Frame, FrameError>)
    ensures r.Success? <==> name !in f.columns && pos <= |f.columns|
    ensures r.Success? ==> r.value.columns == f.columns[..pos] + [name] + f.columns[pos..]
    ensures r.Success? ==> |r.value.rows| == |f.rows| && WellFormed(r.value)
    ensures r.Success? ==> forall i :: 0 <= i < |f.rows| ==> r.value.rows[i][pos] == v
    ensures r.Success? ==> forall i, j :: 0 <= i < |f.rows| && 0 <= j < |f.columns| ==>
              r.value.rows[i][if j < pos then j else j + 1] == Cell(f.rows[i], j)
  {
    if name in f.columns then Failure(AlreadyExists(name))
    else if pos > |f.columns| then Failure(BadPosition(pos))
    else
      var n := |f.columns| + 1;
      Success(Frame(f.columns[..pos] + [name] + f.columns[pos..],
        seq(|f.rows|, i requires 0 <= i < |f.rows| =>
          seq(n, j requires 0 <= j < n =>
            if j < pos then Cell(f.rows[i], j) else if j == pos then v else Cell(f.rows[i], j - 1)))))
  }

  /** The required labels that `f` lacks, in the order they are required. */
  function Missing(f: Frame, required: seq<string>): (r: seq<string>)
    ensures forall c :: c in r <==> c in required && c !in f.columns
  {
    if |required| == 0 then []
    else (if required[0] in f.columns then [] else [required[0]]) + Missing(f, required[1..])
  }

  /** The shared column contract of every fetcher: raise when a required
      label is missing, otherwise keep exactly the required columns, in the
      required order (`df[required_columns]`). */
  function Project(f: Frame, required: seq<string>): (r: Result<Frame, FrameError>)
    ensures r.Success? <==> forall c :: c in required ==> c in f.columns
    ensures r.Failure? ==> r.error == MissingColumns(Missing(f, required)) && |Missing(f, required)| > 0
    ensures r.Success? ==> r.value.columns == required && |r.value.rows| == |f.rows| && WellFormed(r.value)
    ensures r.Success? ==> forall i, j :: 0 <= i < |f.rows| && 0 <= j < |required| ==>
              r.value.rows[i][j] == Cell(f.rows[i], IndexOf(f.columns, required[j]).value)
  {
    var missing := Missing(f, required);
    if |missing| > 0 then
      assert missing[0] in required && missing[0] !in f.columns;
      Failure(MissingColumns(missing))
    else
      Success(Frame(required, seq(|f.rows|, i requires 0 <= i < |f.rows| =>
        seq(|required|, j requires 0 <= j < |required| => Cell(f.rows[i], IndexOf(f.columns, required[j]).value)))))
  }

  /** The label a rename dictionary gives `c`: looked up once, never chained. */
  function Relabel(m: map<string, string>, c: string): string {
    if c in m then m[c] else c
  }

  /** `df.rename(columns=m)`: every label is mapped at once, cells untouched. */
  function Rename(f: Frame, m: map<string, string>): (r: Frame)
    ensures |r.columns| == |f.columns| && r.rows == f.rows
    ensures forall j :: 0 <= j < |f.columns| ==> r.columns[j] == Relabel(m, f.columns[j])
  {
    Frame(seq(|f.columns|, j requires 0 <= j < |f.columns| => Relabel(m, f.columns[j])), f.rows)
  }

  /** `df.columns = labels` for a list of the same length. */
  function SetColumns(f: Frame, labels: seq<string>): (r: Frame)
    requires |labels| == |f.columns|
    ensures r.columns == labels && r.rows == f.rows
  {
    Frame(labels, f.rows)
  }

  /** Positions of the columns whose label is not in `names`. */
  function KeptPositions(cols: seq<string>, names: seq<string>): (r: seq<nat>)
    ensures forall k :: 0 <= k < |r| ==> r[k] < |cols| && cols[r[k]] !in names
    ensures |r| <= |cols|
  {
    if |cols| == 0 then []
    else
      var rest := KeptPositions(cols[..|cols| - 1], names);
      if cols[|cols| - 1] in names then rest else rest + [|cols| - 1]
  }

  function Pick(row: Row, ks: seq<nat>): (r: Row)
    ensures |r| == |ks|
  {
    seq(|ks|, k requires 0 <= k < |ks| => Cell(row, ks[k]))
  }

  function PickLabels(cols: seq<string>, ks: seq<nat>): (r: seq<string>)
    requires forall k :: 0 <= k < |ks| ==> ks[k] < |cols|
    ensures |r| == |ks|
  {
    seq(|ks|, k requires 0 <= k < |ks| => cols[ks[k]])
  }

  /** `df.drop(columns=names, errors='ignore')`: every column whose label is
      listed goes, labels that are absent are ignored. */
  function DropIgnoring(f: Frame, names: seq<string>): (r: Frame)
    ensures forall c :: c in r.columns <==> c in f.columns && c !in names
    ensures |r.rows| == |f.rows|
  {
    var ks := KeptPositions(f.columns, names);
    var labels := PickLabels(f.columns, ks);
    forall c | c in f.columns && c !in names
      ensures c in labels
    {
      var j :| 0 <= j < |f.columns| && f.columns[j] == c;
      KeptPositionsComplete(f.columns, names);
      var k :| 0 <= k < |ks| && ks[k] == j;
      assert labels[k] == c;
    }
    Frame(labels, seq(|f.rows|, i requires 0 <= i < |f.rows| => Pick(f.rows[i], ks)))
  }

  lemma {:induction false} KeptPositionsComplete(cols: seq<string>, names: seq<string>)
    ensures forall j :: 0 <= j < |cols| && cols[j] !in names ==> j in KeptPositions(cols, names)
  {
    if |cols| > 0 {
      KeptPositionsComplete(cols[..|cols| - 1], names);
    }
  }

  /** A column that survives the drop keeps its cells. */
  lemma DropCells(f: Frame, names: seq<string>, i: nat, c: string)
    requires Distinct(f.columns) && c in f.columns && c !in names && i < |f.rows|
    ensures c in DropIgnoring(f, names).columns && At(DropIgnoring(f, names), i, c) == At(f, i, c)
  {
    var ks := KeptPositions(f.columns, names);
    var d := DropIgnoring(f, names);
    assert d.columns == PickLabels(f.columns, ks);
    var k := IndexOf(d.columns, c).value;
    var j := IndexOf(f.columns, c).value;
    assert f.columns[ks[k]] == c == f.columns[j];
    assert ks[k] == j;
    assert d.rows[i] == Pick(f.rows[i], ks);
  }

  /** `df.drop(columns=names)`: raises KeyError when a listed label is absent. */
  function DropStrict(f: Frame, names: seq<string>): (r: Result<Frame, FrameError>)
    ensures r.Success? <==> forall c :: c in names ==> c in f.columns
    ensures r.Success? ==> r.value == DropIgnoring(f, names)
  {
    var missing := Missing(f, names);
    if |missing| > 0 then
      assert missing[0] in names;
      Failure(KeyNotFound(missing[0]))
    else Success(DropIgnoring(f, names))
  }

  /** `df[name] = values`: replaces the first column so labelled, or appends
      a new last column. */
  function SetColumn(f: Frame, name: string, values: seq<Value>): (r: Frame)
    requires |values| == |f.rows|
    ensures name in r.columns && |r.rows| == |f.rows|
    ensures name in f.columns ==> r.columns == f.columns
    ensures name !in f.columns ==> r.columns == f.columns + [name]
    ensures forall i :: 0 <= i < |f.rows| ==> Cell(r.rows[i], IndexOf(r.columns, name).value) == values[i]
  {
    match IndexOf(f.columns, name)
    case Some(k) =>
      Frame(f.columns, seq(|f.rows|, i requires 0 <= i < |f.rows| =>
        ReplaceCell(f.rows[i], |f.columns|, k, values[i])))
    case None =>
      assert IndexOf(f.columns + [name], name) == Some(|f.columns|) by {
        IndexOfAppend(f.columns, name);
      }
      Frame(f.columns + [name], seq(|f.rows|, i requires 0 <= i < |f.rows| =>
        Pick(f.rows[i], Range(|f.columns|)) + [values[i]]))
  }

  lemma IndexOfAppend(cols: seq<string>, name: string)
    requires name !in cols
    ensures IndexOf(cols + [name], name) == Some(|cols|)
  {
    if |cols| > 0 {
      assert (cols + [name])[1..] == cols[1..] + [name];
      IndexOfAppend(cols[1..], name);
    }
  }

  function Range(n: nat): (r: seq<nat>)
    ensures |r| == n && forall k :: 0 <= k < n ==> r[k] == k
  {
    seq(n, k requires 0 <= k < n => k)
  }

  // ---------------------------------------------------------------- casts

  /** The outcome of casting a whole column: the cast cells, or the error of
      the first cell (in row order) that raises. */
  function CastAll(cells: seq<Value>, cast: Value -> Cast): (r: Cast)
    ensures r.Cast? ==> r.v.VList? && |r.v.items| == |cells|
    ensures r.Cast? ==> forall i :: 0 <= i < |cells| ==> cast(cells[i]) == Cast(r.v.items[i])
    ensures r.Cast? <==> forall i :: 0 <= i < |cells| ==> cast(cells[i]).Cast?
  {
    if |cells| == 0 then Cast(VList([]))
    else match cast(cells[0])
      case RaisesValueError => RaisesValueError
      case RaisesTypeError => RaisesTypeError
      case Cast(v) =>
        match CastAll(cells[1..], cast)
        case Cast(vs) => Cast(VList([v] + vs.items))
        case e => e
  }

  /** Cell `i` is the first whose cast raises. */
  predicate RaisesFirst(cells: seq<Value>, cast: Value -> Cast, i: nat) {
    i < |cells| && !cast(cells[i]).Cast? && forall j :: 0 <= j < i ==> cast(cells[j]).Cast?
  }

  /** A failing column cast raises what its first raising cell raises. */
  lemma {:induction false} CastAllFirst(cells: seq<Value>, cast: Value -> Cast, i: nat)
    requires RaisesFirst(cells, cast, i)
    ensures CastAll(cells, cast) == cast(cells[i])
    decreases i
  {
    if i > 0 {
      assert cast(cells[0]).Cast?;
      assert RaisesFirst(cells[1..], cast, i - 1) by {
        forall j | 0 <= j < i - 1 ensures cast(cells[1..][j]).Cast? {
          assert cells[1..][j] == cells[j + 1];
        }
      }
      CastAllFirst(cells[1..], cast, i - 1);
    }
  }

  /** A failing column cast has a first raising cell. */
  lemma {:induction false} FirstRaising(cells: seq<Value>, cast: Value -> Cast) returns (i: nat)
    requires !CastAll(cells, cast).Cast?
    ensures RaisesFirst(cells, cast, i)
    decreases |cells|
  {
    if cast(cells[0]).Cast? {
      var k := FirstRaising(cells[1..], cast);
      i := k + 1;
      forall j | 0 <= j < i ensures cast(cells[j]).Cast? {
        if j > 0 {
          assert cells[j] == cells[1..][j - 1];
        }
      }
    } else {
      i := 0;
    }
  }

  /** `df[c] = df[c].cast(...)` over every row. */
  function CastColumn(f: Frame, c: string, cast: Value -> Cast): (r: Result<Frame, FrameError>)
    ensures r.Success? ==> c in f.columns
    ensures r.Success? ==> r.value.columns == f.columns && |r.value.rows| == |f.rows|
    ensures r.Success? ==> forall i :: 0 <= i < |f.rows| ==>
              cast(Cell(f.rows[i], IndexOf(f.columns, c).value)) == Cast(Cell(r.value.rows[i], IndexOf(f.columns, c).value))
    ensures c in f.columns && (forall i :: 0 <= i < |f.rows| ==> cast(Cell(f.rows[i], IndexOf(f.columns, c).value)).Cast?) ==> r.Success?
    ensures r.Success? ==> WellFormed(r.value)
    ensures r.Success? ==> forall i, d :: 0 <= i < |f.rows| && d in f.columns && d != c ==> At(r.value, i, d) == At(f, i, d)
  {
    match Column(f, c)
    case Failure(e) => Failure(e)
    case Success(cells) =>
      match CastAll(cells, cast)
      case RaisesValueError => Failure(CastValueError(c))
      case RaisesTypeError => Failure(CastTypeError(c))
      case Cast(vs) =>
        var k := IndexOf(f.columns, c).value;
        var r := Frame(f.columns, seq(|f.rows|, i requires 0 <= i < |f.rows| =>
          ReplaceCell(f.rows[i], |f.columns|, k, vs.items[i])));
        assert forall d :: d in f.columns && d != c ==> IndexOf(f.columns, d).value != k;
        Success(r)
  }

  /** Apply a non-raising conversion to column `c` (the `.str` methods). */
  function MapColumn(f: Frame, c: string, g: Value -> Value): (r: Result<Frame, FrameError>)
    ensures r.Success? <==> c in f.columns
    ensures r.Success? ==> r.value.columns == f.columns && |r.value.rows| == |f.rows|
    ensures r.Success? ==> forall i :: 0 <= i < |f.rows| ==>
              Cell(r.value.rows[i], IndexOf(f.columns, c).value) == g(Cell(f.rows[i], IndexOf(f.columns, c).value))
    ensures r.Success? ==> forall i, d :: 0 <= i < |f.rows| && d in f.columns && d != c ==> At(r.value, i, d) == At(f, i, d)
  {
    match IndexOf(f.columns, c)
    case None => Failure(KeyNotFound(c))
    case Some(k) =>
      assert forall d :: d in f.columns && d != c ==> IndexOf(f.columns, d).value != k;
      Success(Frame(f.columns, seq(|f.rows|, i requires 0 <= i < |f.rows| =>
        ReplaceCell(f.rows[i], |f.columns|, k, g(Cell(f.rows[i], k))))))
  }

  // ---------------------------------------------------------------- rows

  /** The label list that takes every label of `acc`, then each label of
      `cols` not seen before, in order of first appearance. */
  function AddNew(acc: seq<string>, cols: seq<string>): (r: seq<string>)
    ensures forall c :: c in r <==> c in acc || c in cols
    ensures |acc| <= |r| && r[..|acc|] == acc
    ensures Distinct(acc) ==> Distinct(r)
    decreases |cols|
  {
    if |cols| == 0 then acc
    else if cols[0] in acc then AddNew(acc, cols[1..])
    else
      var r := AddNew(acc + [cols[0]], cols[1..]);
      assert (acc + [cols[0]])[..|acc|] == acc;
      r
  }

  lemma {:induction false} AddNewFresh(acc: seq<string>, cols: seq<string>)
    requires Distinct(cols) && forall c :: c in cols ==> c !in acc
    ensures AddNew(acc, cols) == acc + cols
    decreases |cols|
  {
    if |cols| > 0 {
      AddNewFresh(acc + [cols[0]], cols[1..]);
      assert acc + [cols[0]] + cols[1..] == acc + cols;
    }
  }

  lemma {:induction false} AddNewAppend(acc: seq<string>, a: seq<string>, b: seq<string>)
    ensures AddNew(acc, a + b) == AddNew(AddNew(acc, a), b)
    decreases |a|
  {
    if |a| > 0 {
      assert (a + b)[0] == a[0] && (a + b)[1..] == a[1..] + b;
      if a[0] in acc {
        AddNewAppend(acc, a[1..], b);
      } else {
        AddNewAppend(acc + [a[0]], a[1..], b);
      }
    } else {
      assert a + b == b;
    }
  }

  /** The first label of records whose first record has a field is that
      field's key. */
  lemma {:induction false} FirstLabel(records: seq<seq<Field>>)
    requires |records| > 0 && |records[0]| > 0
    ensures |RecordLabels(records)| > 0 && RecordLabels(records)[0] == records[0][0].key
    decreases |records|
  {
    var init := records[..|records| - 1];
    if |records| == 1 {
      assert init == [];
      var ks := Keys(records[0]);
      assert ks[0] !in [];
      assert RecordLabels(records) == AddNew([] + [ks[0]], ks[1..]);
    } else {
      assert init[0] == records[0];
      FirstLabel(init);
    }
  }

  lemma AddNewSame(cols: seq<string>)
    ensures AddNew(cols, cols) == cols
  {
    AddNewSubset(cols, cols);
  }

  lemma {:induction false} AddNewSubset(acc: seq<string>, cols: seq<string>)
    requires forall c :: c in cols ==> c in acc
    ensures AddNew(acc, cols) == acc
    decreases |cols|
  {
    if |cols| > 0 {
      AddNewSubset(acc, cols[1..]);
    }
  }

  /** A row re-indexed to `cols`: the cell of each label, missing when the
      frame has no such column. */
  function AlignRow(f: Frame, row: Row, cols: seq<string>): (r: Row)
    ensures |r| == |cols|
  {
    seq(|cols|, j requires 0 <= j < |cols| =>
      match IndexOf(f.columns, cols[j])
      case Some(k) => Cell(row, k)
      case None => VNull)
  }

  function AlignRows(f: Frame, cols: seq<string>): (r: seq<Row>)
    ensures |r| == |f.rows|
  {
    seq(|f.rows|, i requires 0 <= i < |f.rows| => AlignRow(f, f.rows[i], cols))
  }

  lemma AlignSame(f: Frame)
    requires WellFormed(f) && Distinct(f.columns)
    ensures AlignRows(f, f.columns) == f.rows
  {
    forall i | 0 <= i < |f.rows|
      ensures AlignRows(f, f.columns)[i] == f.rows[i]
    {
      forall j | 0 <= j < |f.columns|
        ensures AlignRows(f, f.columns)[i][j] == f.rows[i][j]
      {
        IndexOfDistinct(f.columns, j);
      }
    }
  }

  function UnionColumns(frames: seq<Frame>): (r: seq<string>)
    ensures forall c :: c in r <==> exists k :: 0 <= k < |frames| && c in frames[k].columns
  {
    if |frames| == 0 then []
    else
      var acc := UnionColumns(frames[..|frames| - 1]);
      assert forall k :: 0 <= k < |frames| - 1 ==> frames[..|frames| - 1][k] == frames[k];
      AddNew(acc, frames[|frames| - 1].columns)
  }

  function StackRows(frames: seq<Frame>, cols: seq<string>): seq<Row> {
    if |frames| == 0 then []
    else StackRows(frames[..|frames| - 1], cols) + AlignRows(frames[|frames| - 1], cols)
  }

  function TotalRows(frames: seq<Frame>): nat {
    if |frames| == 0 then 0 else TotalRows(frames[..|frames| - 1]) + |frames[|frames| - 1].rows|
  }

  /** `pd.concat(frames, ignore_index=True)`: the union of the labels in
      order of first appearance, and every frame's rows in order, each
      re-indexed to that union. Raises on an empty list. */
  function Concat(frames: seq<Frame>): (r: Result<Frame, FrameError>)
    ensures r.Failure? <==> |frames| == 0
    ensures r.Success? ==> r.value.columns == UnionColumns(frames)
  {
    if |frames| == 0 then Failure(NoObjects)
    else
      var cols := UnionColumns(frames);
      Success(Frame(cols, StackRows(frames, cols)))
  }

  lemma {:induction false} StackRowsCount(frames: seq<Frame>, cols: seq<string>)
    ensures |StackRows(frames, cols)| == TotalRows(frames)
  {
    if |frames| > 0 {
      StackRowsCount(frames[..|frames| - 1], cols);
    }
  }

  /** Concatenation keeps every row: the result has as many rows as the
      parts together. */
  lemma ConcatRowCount(frames: seq<Frame>)
    requires |frames| > 0
    ensures |Concat(frames).value.rows| == TotalRows(frames)
  {
    StackRowsCount(frames, UnionColumns(frames));
  }

  /** Frames that all carry the same labels `cols` or are `pd.DataFrame()`. */
  predicate Uniform(frames: seq<Frame>, cols: seq<string>) {
    forall k :: 0 <= k < |frames| ==> (frames[k].columns == cols && WellFormed(frames[k])) || frames[k] == Empty()
  }

  function AllRows(frames: seq<Frame>): seq<Row> {
    if |frames| == 0 then [] else AllRows(frames[..|frames| - 1]) + frames[|frames| - 1].rows
  }

  /** When every part has the labels `cols` (or is empty), concatenation is
      plain row concatenation under those labels; empty parts add nothing. */
  lemma {:induction false} ConcatUniform(frames: seq<Frame>, cols: seq<string>)
    requires |frames| > 0 && Distinct(cols) && Uniform(frames, cols)
    requires exists k :: 0 <= k < |frames| && frames[k].columns == cols
    ensures Concat(frames).value == Frame(cols, AllRows(frames))
  {
    UnionUniform(frames, cols);
    StackUniform(frames, cols);
  }

  lemma {:induction false} UnionUniform(frames: seq<Frame>, cols: seq<string>)
    requires Distinct(cols) && Uniform(frames, cols)
    ensures UnionColumns(frames) == cols || UnionColumns(frames) == []
    ensures (exists k :: 0 <= k < |frames| && frames[k].columns == cols) ==> UnionColumns(frames) == cols
  {
    if |frames| > 0 {
      var init := frames[..|frames| - 1];
      assert Uniform(init, cols) by {
        forall k | 0 <= k < |init| ensures init[k] == frames[k] { }
      }
      UnionUniform(init, cols);
      var last := frames[|frames| - 1];
      if last.columns == cols {
        if UnionColumns(init) == cols {
          AddNewSame(cols);
        } else {
          AddNewFresh([], cols);
        }
      } else {
        assert last.columns == [];
      }
      if exists k :: 0 <= k < |frames| && frames[k].columns == cols {
        var k :| 0 <= k < |frames| && frames[k].columns == cols;
        if k < |init| {
          assert init[k] == frames[k];
        }
      }
    }
  }

  lemma {:induction false} StackUniform(frames: seq<Frame>, cols: seq<string>)
    requires Distinct(cols) && Uniform(frames, cols)
    ensures StackRows(frames, cols) == AllRows(frames)
  {
    if |frames| > 0 {
      var init := frames[..|frames| - 1];
      assert Uniform(init, cols) by {
        forall k | 0 <= k < |init| ensures init[k] == frames[k] { }
      }
      StackUniform(init, cols);
      var last := frames[|frames| - 1];
      if last.columns == cols {
        AlignSame(last);
      }
    }
  }

  /** `pd.DataFrame(records)` for a list of dictionaries: labels in order of
      first appearance, a missing key giving a missing cell. */
  function FromRecords(records: seq<seq<Field>>): (r: Frame)
    ensures |r.rows| == |records| && WellFormed(r) && Distinct(r.columns)
    ensures forall c :: c in r.columns <==> exists i :: 0 <= i < |records| && HasKey(records[i], c)
  {
    var cols := RecordLabels(records);
    Frame(cols, seq(|records|, i requires 0 <= i < |records| =>
      seq(|cols|, j requires 0 <= j < |cols| => Get(records[i], cols[j]).GetOr(VNull))))
  }

  function Keys(fields: seq<Field>): (r: seq<string>)
    ensures |r| == |fields| && forall k :: 0 <= k < |fields| ==> r[k] == fields[k].key
  {
    seq(|fields|, k requires 0 <= k < |fields| => fields[k].key)
  }

  function RecordLabels(records: seq<seq<Field>>): (r: seq<string>)
    ensures Distinct(r)
    ensures forall c :: c in r <==> exists i :: 0 <= i < |records| && HasKey(records[i], c)
  {
    if |records| == 0 then []
    else
      var init := records[..|records| - 1];
      var acc := RecordLabels(init);
      var last := records[|records| - 1];
      assert forall c :: c in Keys(last) <==> HasKey(last, c);
      assert forall i :: 0 <= i < |init| ==> init[i] == records[i];
      AddNew(acc, Keys(last))
  }

  /** Keep the rows `keep` accepts, in order (boolean-mask indexing). */
  function FilterRows(rows: seq<Row>, keep: Row -> bool): (r: seq<Row>)
    ensures |r| <= |rows|
    ensures forall i :: 0 <= i < |r| ==> keep(r[i]) && r[i] in rows
    ensures forall i :: 0 <= i < |rows| && keep(rows[i]) ==> rows[i] in r
  {
    if |rows| == 0 then []
    else
      var rest := FilterRows(rows[1..], keep);
      assert forall i :: 1 <= i < |rows| ==> rows[i] == rows[1..][i - 1];
      if keep(rows[0]) then [rows[0]] + rest else rest
  }

  /** Filtering keeps the order of the rows: it distributes over
      concatenation. */
  lemma {:induction false} FilterRowsAppend(a: seq<Row>, b: seq<Row>, keep: Row -> bool)
    ensures FilterRows(a + b, keep) == FilterRows(a, keep) + FilterRows(b, keep)
  {
    if |a| > 0 {
      assert (a + b)[0] == a[0];
      assert (a + b)[1..] == a[1..] + b;
      FilterRowsAppend(a[1..], b, keep);
    } else {
      assert a + b == b;
    }
  }

  /** A mask that rejects every row leaves none. */
  lemma {:induction false} FilterRowsNone(rows: seq<Row>, keep: Row -> bool)
    requires forall i :: 0 <= i < |rows| ==> !keep(rows[i])
    ensures FilterRows(rows, keep) == []
  {
    if |rows| > 0 {
      assert forall i :: 0 <= i < |rows[1..]| ==> rows[1..][i] == rows[i + 1];
      FilterRowsNone(rows[1..], keep);
    }
  }
}

=== FILE: join.dfy ===
/** The keyed left join behind `pd.merge(left, right, on=..., how='left',
    indicator=True)`: first as a pure function over rows and key
    projections, then over frames, with pandas' column layout, `_x`/`_y`
    suffixes and the `_merge` provenance column. */
module Join {
  import opened Wrappers
  import opened Values
  import opened Frames

  /** One output row of a left join: the left row and its matched right row,
      or no right row when nothing matched (`left_only`). */
  datatype Pair<L, R> = Pair(left: L, right: Option<R>)

  /** The right rows whose key is `k`, in right order. */
  function Matches<R(==), K(==)>(right: seq<R>, rk: R -> K, k: K): (r: seq<R>)
    ensures |r| <= |right|
    ensures forall x :: x in r ==> x in right && rk(x) == k
    ensures forall x :: x in right && rk(x) == k ==> x in r
  {
    if |right| == 0 then []
    else
      var rest := Matches(right[1..], rk, k);
      if rk(right[0]) == k then [right[0]] + rest else rest
  }

  /** No right row carries key `k`. */
  predicate Unmatched<R(==), K(==)>(right: seq<R>, rk: R -> K, k: K) {
    forall x :: x in right ==> rk(x) != k
  }

  lemma MatchesEmpty<R, K>(right: seq<R>, rk: R -> K, k: K)
    ensures |Matches(right, rk, k)| == 0 <==> Unmatched(right, rk, k)
  {
    var ms := Matches(right, rk, k);
    if |ms| > 0 {
      assert ms[0] in ms;
    }
  }

  /** The output rows one left row expands to. */
  function Expand<L, R>(l: L, ms: seq<R>): (r: seq<Pair<L, R>>)
    ensures |r| == if |ms| == 0 then 1 else |ms|
    ensures forall i :: 0 <= i < |r| ==> r[i].left == l
    ensures forall i :: 0 <= i < |r| ==> r[i].right == if |ms| == 0 then None else Some(ms[i])
  {
    if |ms| == 0 then [Pair(l, None)]
    else seq(|ms|, i requires 0 <= i < |ms| => Pair(l, Some(ms[i])))
  }

  /** What every output row of a left join satisfies: its left row is an
      input row, a matched right row is an input row with the same key, and
      an unmatched pair has no right row with its key. */
  predicate Sound<L(==), R(==), K(==)>(left: seq<L>, right: seq<R>, lk: L -> K, rk: R -> K, p: Pair<L, R>) {
    && p.left in left
    && (p.right.Some? ==> p.right.value in right && rk(p.right.value) == lk(p.left))
    && (p.right.None? ==> Unmatched(right, rk, lk(p.left)))
  }

  /** The left join: every left row, in order, followed by its matches in
      right order, or by a single unmatched pair. */
  function LeftJoin<L(==), R(==), K(==)>(left: seq<L>, right: seq<R>, lk: L -> K, rk: R -> K): (r: seq<Pair<L, R>>)
    ensures forall p :: p in r ==> Sound(left, right, lk, rk, p)
  {
    if |left| == 0 then []
    else
      var init := left[..|left| - 1];
      var l := left[|left| - 1];
      var head := LeftJoin(init, right, lk, rk);
      var ms := Matches(right, rk, lk(l));
      var tail := Expand(l, ms);
      assert forall p :: p in head ==> Sound(left, right, lk, rk, p) by {
        forall p | p in head ensures Sound(left, right, lk, rk, p) {
          assert Sound(init, right, lk, rk, p);
        }
      }
      assert forall p :: p in tail ==> Sound(left, right, lk, rk, p) by {
        forall p | p in tail ensures Sound(left, right, lk, rk, p) {
          var i :| 0 <= i < |tail| && tail[i] == p;
          if |ms| == 0 {
            MatchesEmpty(right, rk, lk(l));
          } else {
            assert ms[i] in ms;
          }
        }
      }
      head + tail
  }

  // ---------------------------------------------------------------- counts

  function Sum(s: seq<nat>): nat {
    if |s| == 0 then 0 else Sum(s[..|s| - 1]) + s[|s| - 1]
  }

  /** How many output rows each left row yields: one per match, at least one. */
  function Fanout<L(==), R(==), K(==)>(left: seq<L>, right: seq<R>, lk: L -> K, rk: R -> K): (r: seq<nat>)
    ensures |r| == |left|
    ensures forall i :: 0 <= i < |left| ==> r[i] >= 1
  {
    seq(|left|, i requires 0 <= i < |left| =>
      var m := |Matches(right, rk, lk(left[i]))|; if m == 0 then 1 else m)
  }

  /** `left` with each row repeated as often as `counts` says. */
  function Repeat<L>(left: seq<L>, counts: seq<nat>): seq<L>
    requires |counts| == |left|
  {
    if |left| == 0 then []
    else Repeat(left[..|left| - 1], counts[..|counts| - 1]) + seq(counts[|counts| - 1], _ => left[|left| - 1])
  }

  function Lefts<L, R>(ps: seq<Pair<L, R>>): (r: seq<L>)
    ensures |r| == |ps| && forall p :: 0 <= p < |ps| ==> r[p] == ps[p].left
  {
    seq(|ps|, p requires 0 <= p < |ps| => ps[p].left)
  }

  /** A left join keeps every left row in order: read left to right, its
      left column is each left row repeated max(1, number of matches) times.
      In particular no left row is lost. */
  lemma {:induction false} LeftJoinKeepsLeft<L, R, K>(left: seq<L>, right: seq<R>, lk: L -> K, rk: R -> K)
    ensures Lefts(LeftJoin(left, right, lk, rk)) == Repeat(left, Fanout(left, right, lk, rk))
  {
    if |left| > 0 {
      var init := left[..|left| - 1];
      var l := left[|left| - 1];
      var fan := Fanout(left, right, lk, rk);
      var n := fan[|fan| - 1];
      assert fan[..|fan| - 1] == Fanout(init, right, lk, rk);
      assert Repeat(left, fan) == Repeat(init, Fanout(init, right, lk, rk)) + seq(n, _ => l);
      LeftJoinKeepsLeft(init, right, lk, rk);
      var head := LeftJoin(init, right, lk, rk);
      var tail := Expand(l, Matches(right, rk, lk(l)));
      assert LeftJoin(left, right, lk, rk) == head + tail;
      assert Lefts(tail) == seq(n, _ => l);
      assert Lefts(head + tail) == Lefts(head) + Lefts(tail);
    }
  }

  /** The row count of a left join: the sum over left rows of max(1, number
      of matching right rows). */
  lemma {:induction false} LeftJoinSize<L, R, K>(left: seq<L>, right: seq<R>, lk: L -> K, rk: R -> K)
    ensures |LeftJoin(left, right, lk, rk)| == Sum(Fanout(left, right, lk, rk))
  {
    if |left| > 0 {
      var fan := Fanout(left, right, lk, rk);
      assert fan[..|fan| - 1] == Fanout(left[..|left| - 1], right, lk, rk);
      LeftJoinSize(left[..|left| - 1], right, lk, rk);
    }
  }

  /** Completeness: every (left row, matching right row) combination is in
      the output, and every left row without a match appears as an
      unmatched pair. */
  lemma {:induction false} LeftJoinComplete<L, R, K>(left: seq<L>, right: seq<R>, lk: L -> K, rk: R -> K, i: nat, j: nat)
    requires i < |left| && j < |right|
    ensures rk(right[j]) == lk(left[i]) ==> Pair(left[i], Some(right[j])) in LeftJoin(left, right, lk, rk)
    ensures Unmatched(right, rk, lk(left[i])) ==> Pair(left[i], None) in LeftJoin(left, right, lk, rk)
  {
    var init := left[..|left| - 1];
    var l := left[|left| - 1];
    var ms := Matches(right, rk, lk(l));
    var tail := Expand(l, ms);
    assert LeftJoin(left, right, lk, rk) == LeftJoin(init, right, lk, rk) + tail;
    if i < |left| - 1 {
      LeftJoinComplete(init, right, lk, rk, i, j);
      assert init[i] == left[i];
    } else {
      if rk(right[j]) == lk(left[i]) {
        assert right[j] in right;
        var m :| 0 <= m < |ms| && ms[m] == right[j];
        assert tail[m] == Pair(l, Some(right[j]));
      }
      if Unmatched(right, rk, lk(left[i])) {
        MatchesEmpty(right, rk, lk(l));
        assert tail[0] == Pair(l, None);
      }
    }
  }

  // ---------------------------------------------------------------- frames

  const Indicator := "_merge"
  const Both := "both"
  const LeftOnly := "left_only"

  /** The key cells of a row, read at the given column positions. */
  function KeyPositions(cols: seq<string>, on: seq<string>): (r: seq<nat>)
    requires forall k :: 0 <= k < |on| ==> on[k] in cols
    ensures |r| == |on|
    ensures forall k :: 0 <= k < |on| ==> r[k] < |cols| && cols[r[k]] == on[k]
  {
    seq(|on|, k requires 0 <= k < |on| => IndexOf(cols, on[k]).value)
  }

  /** The label a left column takes in the merged frame. */
  function LeftLabel(right: Frame, on: seq<string>, c: string): string {
    if c !in on && c in right.columns then c + "_x" else c
  }

  /** The label a right non-key column takes in the merged frame. */
  function RightLabel(left: Frame, c: string): string {
    if c in left.columns then c + "_y" else c
  }

  function MergedColumns(left: Frame, right: Frame, on: seq<string>): (r: seq<string>)
    ensures |r| == |left.columns| + |KeptPositions(right.columns, on)| + 1
  {
    var rk := KeptPositions(right.columns, on);
    seq(|left.columns|, j requires 0 <= j < |left.columns| => LeftLabel(right, on, left.columns[j]))
      + seq(|rk|, j requires 0 <= j < |rk| => RightLabel(left, right.columns[rk[j]]))
      + [Indicator]
  }

  /** The merged row for one pair: the left cells, the right non-key cells
      (missing when unmatched) and the provenance status. */
  function MergedRow(left: Frame, right: Frame, on: seq<string>, p: Pair<Row, Row>): (r: Row)
    ensures |r| == |MergedColumns(left, right, on)|
    ensures r[|r| - 1] == VStr(if p.right.Some? then Both else LeftOnly)
  {
    var rk := KeptPositions(right.columns, on);
    Pick(p.left, Range(|left.columns|))
      + (if p.right.Some? then Pick(p.right.value, rk) else seq(|rk|, _ => VNull))
      + [VStr(if p.right.Some? then Both else LeftOnly)]
  }

  /** The key-level pairs of a frame merge. */
  function MergePairs(left: Frame, right: Frame, on: seq<string>): seq<Pair<Row, Row>>
    requires forall k :: 0 <= k < |on| ==> on[k] in left.columns && on[k] in right.columns
  {
    var lp := KeyPositions(left.columns, on);
    var rp := KeyPositions(right.columns, on);
    LeftJoin(left.rows, right.rows, (row: Row) => Pick(row, lp), (row: Row) => Pick(row, rp))
  }

  /** `pd.merge(left, right, on=on, how='left', indicator=True)`. A key
      missing from either side raises KeyError; an existing `_merge`
      column raises ValueError. */
  function MergeLeft(left: Frame, right: Frame, on: seq<string>): (r: Result<Frame, FrameError>)
    ensures r.Success? <==>
              (forall c :: c in on ==> c in left.columns && c in right.columns)
              && Indicator !in left.columns && Indicator !in right.columns
    ensures r.Failure? && (exists c :: c in on && (c !in left.columns || c !in right.columns)) ==> r.error.KeyNotFound?
    ensures r.Success? ==> r.value.columns == MergedColumns(left, right, on)
    ensures r.Success? ==>
              (r.value.rows == seq(|MergePairs(left, right, on)|,
                p requires 0 <= p < |MergePairs(left, right, on)| => MergedRow(left, right, on, MergePairs(left, right, on)[p])))
  {
    var absent := Missing(left, on) + Missing(right, on);
    if |absent| > 0 then
      assert absent[0] in on;
      Failure(KeyNotFound(absent[0]))
    else if Indicator in left.columns || Indicator in right.columns then Failure(IndicatorClash)
    else
      var ps := MergePairs(left, right, on);
      Success(Frame(MergedColumns(left, right, on),
        seq(|ps|, p requires 0 <= p < |ps| => MergedRow(left, right, on, ps[p]))))
  }

  /** The merged frame keeps every left row, one output row per match and
      one for a row without a match. */
  lemma MergeLeftRowCount(left: Frame, right: Frame, on: seq<string>)
    requires MergeLeft(left, right, on).Success?
    ensures |MergeLeft(left, right, on).value.rows| ==
              Sum(Fanout(left.rows, right.rows,
                (row: Row) => Pick(row, KeyPositions(left.columns, on)),
                (row: Row) => Pick(row, KeyPositions(right.columns, on))))
  {
    LeftJoinSize(left.rows, right.rows,
      (row: Row) => Pick(row, KeyPositions(left.columns, on)),
      (row: Row) => Pick(row, KeyPositions(right.columns, on)));
  }

  /** The provenance column of a merged row says `both` exactly when some
      right row has the same key cells, `left_only` otherwise. */
  lemma MergeStatus(left: Frame, right: Frame, on: seq<string>, p: nat)
    requires MergeLeft(left, right, on).Success?
    requires p < |MergeLeft(left, right, on).value.rows|
    ensures var row := MergeLeft(left, right, on).value.rows[p];
            var lrow := MergePairs(left, right, on)[p].left;
            var lp := KeyPositions(left.columns, on);
            var rp := KeyPositions(right.columns, on);
            row[|row| - 1] == VStr(Both) <==> exists x :: x in right.rows && Pick(x, rp) == Pick(lrow, lp)
  {
    var ps := MergePairs(left, right, on);
    var lp := KeyPositions(left.columns, on);
    var rp := KeyPositions(right.columns, on);
    assert ps[p] in ps;
    assert Sound(left.rows, right.rows, (row: Row) => Pick(row, lp), (row: Row) => Pick(row, rp), ps[p]);
  }

  /** `np.where(df[status] == 'both', 1, 0)` stored as column `name`. */
  function FlagBoth(f: Frame, status: string, name: string): (r: Result<Frame, FrameError>)
    ensures r.Success? <==> status in f.columns
    ensures r.Success? ==> |r.value.rows| == |f.rows| && name in r.value.columns
    ensures r.Success? ==> forall i :: 0 <= i < |f.rows| ==>
              Cell(r.value.rows[i], IndexOf(r.value.columns, name).value)
                == VInt(if Cell(f.rows[i], IndexOf(f.columns, status).value) == VStr(Both) then 1 else 0)
  {
    match Column(f, status)
    case Failure(e) => Failure(e)
    case Success(cells) =>
      Success(SetColumn(f, name, seq(|cells|, i requires 0 <= i < |cells| => VInt(if cells[i] == VStr(Both) then 1 else 0))))
  }
}

=== FILE: markets.dfy ===
/** `cg_fetch_coins_markets` (fetch_data/cg_fetch_coins_markets.py) and its
    older twin `cg_fetch_market_data` (cg_fetch_market_data.py): argument
    checks, the query string, and the shaping of the `/coins/markets`
    payload into a table with `cmrk_`-prefixed columns. */
module Markets {
  import opened Wrappers
  import opened Text
  import opened Values
  import opened Frames
  import opened Steps
  import opened Fetch

  // ---------------------------------------------------------------- arguments

  /** The call's arguments. `apiKey` and `vsCurrency` are whatever the
      caller passed; `ids` is `None` or a list. */
  datatype Args = Args(
    apiKey: Value, vsCurrency: Value, ids: Option<seq<Value>>, order: string,
    perPage: int, page: int, sparkline: bool, priceChange: string, locale: string,
    precision: Option<string>)

  /** The defaults of `cg_fetch_coins_markets`. */
  function Defaults(apiKey: Value): Args {
    Args(apiKey, VStr("usd"), None, "market_cap_desc", 100, 1, false, "1h,24h,7d,14d,30d,200d,1y", "en", Some("6"))
  }

  /** The ValueErrors raised before any request is made. */
  datatype ArgError = MissingApiKey | BadCurrency | BadIds | BadPerPage | BadPage

  predicate AllText(ids: seq<Value>) {
    forall k :: 0 <= k < |ids| ==> ids[k].VStr?
  }

  /** The argument checks, in order; the first that fails is raised. */
  function Check(a: Args): (r: Option<ArgError>)
    ensures r.None? <==> Truthy(a.apiKey) && a.vsCurrency.VStr? && a.vsCurrency.s != ""
                         && (a.ids.Some? ==> AllText(a.ids.value)) && 1 <= a.perPage <= 250 && 1 <= a.page
    ensures !Truthy(a.apiKey) ==> r == Some(MissingApiKey)
    ensures r == Some(BadPage) ==> Truthy(a.apiKey) && 1 <= a.perPage <= 250
  {
    if !Truthy(a.apiKey) then Some(MissingApiKey)
    else if !a.vsCurrency.VStr? || a.vsCurrency.s == "" then Some(BadCurrency)
    else if a.ids.Some? && |a.ids.value| > 0 && !AllText(a.ids.value) then Some(BadIds)
    else if a.perPage < 1 || a.perPage > 250 then Some(BadPerPage)
    else if a.page < 1 then Some(BadPage)
    else None
  }

  function IdTexts(ids: seq<Value>): (r: seq<string>)
    requires AllText(ids)
    ensures |r| == |ids| && forall k :: 0 <= k < |ids| ==> VStr(r[k]) == ids[k]
  {
    seq(|ids|, k requires 0 <= k < |ids| => ids[k].s)
  }

  /** `','.join(ids) if ids else None`. */
  function IdsParam(ids: Option<seq<Value>>): (r: Option<string>)
    requires ids.Some? ==> AllText(ids.value)
    ensures r.Some? <==> ids.Some? && |ids.value| > 0
  {
    if ids.Some? && |ids.value| > 0 then Some(Join(IdTexts(ids.value), ',')) else None
  }

  /** The query string of a request that passed the checks. */
  function Params(a: Args): (r: seq<Param>)
    requires Check(a).None?
  {
    Entry("vs_currency", Some(a.vsCurrency.s))
    + (Entry("ids", IdsParam(a.ids))
    + (Middle(a) + Entry("precision", a.precision)))
  }

  /** The parameters always sent, in the order of the request dictionary. */
  function Middle(a: Args): (r: seq<Param>)
    ensures |r| == 6
  {
    [Param("order", a.order), Param("per_page", IntToString(a.perPage)), Param("page", IntToString(a.page)),
     Param("sparkline", BoolText(a.sparkline)), Param("price_change_percentage", a.priceChange),
     Param("locale", a.locale)]
  }

  /** Neither the ids nor the precision is among them. */
  lemma MiddleSkips(a: Args)
    ensures Lookup(Middle(a), "ids") == None && Lookup(Middle(a), "precision") == None
  {
    var mid := Middle(a);
    assert forall k :: 0 <= k < |mid| ==> |mid[k].name| != 3 && mid[k].name != "precision";
    LookupMissing(mid, "ids");
    LookupMissing(mid, "precision");
  }

  /** The text the server receives under `name`, if any. */
  function Lookup(ps: seq<Param>, name: string): (r: Option<string>)
    ensures r.Some? ==> Param(name, r.value) in ps
    ensures r.None? ==> forall k :: 0 <= k < |ps| ==> ps[k].name != name
  {
    if |ps| == 0 then None
    else if ps[0].name == name then Some(ps[0].text)
    else Lookup(ps[1..], name)
  }

  lemma {:induction false} LookupAppend(a: seq<Param>, b: seq<Param>, name: string)
    ensures Lookup(a + b, name) == if Lookup(a, name).Some? then Lookup(a, name) else Lookup(b, name)
  {
    if |a| > 0 {
      assert (a + b)[0] == a[0];
      assert (a + b)[1..] == a[1..] + b;
      LookupAppend(a[1..], b, name);
    } else {
      assert a + b == b;
    }
  }

  /** The ids travel only when the list is non-empty; an empty list is
      sent like `None`. */
  lemma ParamsIds(a: Args)
    requires Check(a).None?
    ensures Lookup(Params(a), "ids") == IdsParam(a.ids)
  {
    var head := Entry("vs_currency", Some(a.vsCurrency.s));
    var ids := Entry("ids", IdsParam(a.ids));
    var mid := Middle(a);
    var tail := Entry("precision", a.precision);
    assert Params(a) == head + (ids + (mid + tail));
    LookupAppend(head, ids + (mid + tail), "ids");
    LookupMissing(head, "ids");
    LookupAppend(ids, mid + tail, "ids");
    if IdsParam(a.ids).None? {
      LookupAppend(mid, tail, "ids");
      MiddleSkips(a);
      LookupMissing(tail, "ids");
    }
  }

  lemma {:induction false} LookupMissing(ps: seq<Param>, name: string)
    requires forall k :: 0 <= k < |ps| ==> ps[k].name != name
    ensures Lookup(ps, name) == None
  {
    if |ps| > 0 {
      LookupMissing(ps[1..], name);
    }
  }

  /** The page size reads back as the same integer. */
  lemma ParamsPerPage(a: Args)
    requires Check(a).None?
    ensures Lookup(Params(a), "per_page") == Some(IntToString(a.perPage))
    ensures ParseIntLiteral(IntToString(a.perPage)) == Some(a.perPage)
  {
    var ids := Entry("ids", IdsParam(a.ids));
    var mid := Middle(a);
    var tail := Entry("precision", a.precision);
    LookupAppend(Entry("vs_currency", Some(a.vsCurrency.s)), ids + (mid + tail), "per_page");
    LookupAppend(ids, mid + tail, "per_page");
    LookupAppend(mid, tail, "per_page");
    ParseIntToString(a.perPage);
  }

  /** The sparkline flag travels as 'true' or 'false'. */
  lemma ParamsSparkline(a: Args)
    requires Check(a).None?
    ensures Lookup(Params(a), "sparkline") == Some(if a.sparkline then "true" else "false")
  {
    var ids := Entry("ids", IdsParam(a.ids));
    var mid := Middle(a);
    var tail := Entry("precision", a.precision);
    LookupAppend(Entry("vs_currency", Some(a.vsCurrency.s)), ids + (mid + tail), "sparkline");
    LookupAppend(ids, mid + tail, "sparkline");
    LookupAppend(mid, tail, "sparkline");
    assert Lookup(mid, "sparkline") == Lookup(mid[1..], "sparkline") == Lookup(mid[2..], "sparkline")
        == Lookup(mid[3..], "sparkline");
  }

  /** The precision is sent only when given. */
  lemma ParamsPrecision(a: Args)
    requires Check(a).None?
    ensures Lookup(Params(a), "precision") == a.precision
  {
    var ids := Entry("ids", IdsParam(a.ids));
    var mid := Middle(a);
    var tail := Entry("precision", a.precision);
    LookupAppend(Entry("vs_currency", Some(a.vsCurrency.s)), ids + (mid + tail), "precision");
    LookupAppend(ids, mid + tail, "precision");
    LookupAppend(mid, tail, "precision");
    MiddleSkips(a);
  }

  /** An empty id list and no list send the same request. */
  lemma EmptyIdsAsNone(a: Args)
    requires Check(a).None? && a.ids == Some([])
    ensures Check(a.(ids := None)).None? && Params(a) == Params(a.(ids := None))
  {
  }

  /** The server splits the ids back into the list sent, as long as no id
      holds a comma. */
  lemma IdsRoundTrip(a: Args)
    requires Check(a).None? && a.ids.Some? && |a.ids.value| > 0
    requires forall k :: 0 <= k < |a.ids.value| ==> ',' !in a.ids.value[k].s
    ensures Lookup(Params(a), "ids").Some? && Split(Lookup(Params(a), "ids").value, ',') == IdTexts(a.ids.value)
  {
    ParamsIds(a);
    SplitJoin(IdTexts(a.ids.value), ',');
  }

  // ---------------------------------------------------------------- columns

  /** The required columns after the two inserted ones. */
  const Fields: seq<string> := [
    "id", "symbol", "name", "image", "current_price", "market_cap",
    "market_cap_rank", "fully_diluted_valuation", "total_volume",
    "high_24h", "low_24h", "price_change_24h",
    "price_change_percentage_24h", "market_cap_change_24h",
    "market_cap_change_percentage_24h", "circulating_supply",
    "total_supply", "max_supply", "ath", "ath_change_percentage",
    "ath_date", "atl", "atl_change_percentage", "atl_date", "roi", "last_updated",
    "price_change_percentage_1h_in_currency",
    "price_change_percentage_24h_in_currency",
    "price_change_percentage_7d_in_currency",
    "price_change_percentage_14d_in_currency",
    "price_change_percentage_30d_in_currency",
    "price_change_percentage_200d_in_currency",
    "price_change_percentage_1y_in_currency"]

  const Required: seq<string> := ["data_ts", "currency"] + Fields

  /** The columns the percentage loop names: the prefixed labels, which do
      not exist until the columns are renamed. */
  const PercentLabels: seq<string> := [
    "cmrk_price_change_24h",
    "cmrk_price_change_percentage_24h",
    "cmrk_market_cap_change_24h",
    "cmrk_market_cap_change_percentage_24h",
    "cmrk_ath_change_percentage",
    "cmrk_price_change_percentage_1h_in_currency",
    "cmrk_price_change_percentage_24h_in_currency",
    "cmrk_price_change_percentage_7d_in_currency",
    "cmrk_price_change_percentage_14d_in_currency",
    "cmrk_price_change_percentage_30d_in_currency",
    "cmrk_price_change_percentage_200d_in_currency",
    "cmrk_price_change_percentage_1y_in_currency"]

  /** The same twelve columns under the labels they carry at that point. */
  const PercentColumns: seq<string> := [
    "price_change_24h",
    "price_change_percentage_24h",
    "market_cap_change_24h",
    "market_cap_change_percentage_24h",
    "ath_change_percentage",
    "price_change_percentage_1h_in_currency",
    "price_change_percentage_24h_in_currency",
    "price_change_percentage_7d_in_currency",
    "price_change_percentage_14d_in_currency",
    "price_change_percentage_30d_in_currency",
    "price_change_percentage_200d_in_currency",
    "price_change_percentage_1y_in_currency"]

  const Dates: seq<string> := ["ath_date", "atl_date", "last_updated"]

  const Floats: seq<string> := [
    "current_price", "market_cap", "fully_diluted_valuation", "total_volume",
    "high_24h", "low_24h", "price_change_24h", "price_change_percentage_24h",
    "market_cap_change_24h", "market_cap_change_percentage_24h", "circulating_supply",
    "total_supply", "max_supply", "ath", "ath_change_percentage", "atl", "atl_change_percentage",
    "price_change_percentage_14d_in_currency", "price_change_percentage_1h_in_currency",
    "price_change_percentage_24h_in_currency", "price_change_percentage_7d_in_currency",
    "price_change_percentage_30d_in_currency", "price_change_percentage_200d_in_currency",
    "price_change_percentage_1y_in_currency"]

  function DateStep(parse: string -> Option<int>): Value -> Cast {
    v => DateCell(parse, v)
  }

  function DumpStep(dumps: seq<Field> -> string): Value -> Cast {
    v => Cast(DumpObject(dumps, v))
  }

  /** The rank cast, the case rules and the `roi` serialisation. */
  function Finish(dumps: seq<Field> -> string): seq<Step> {
    [Step("market_cap_rank", IntCast), Step("id", Lift(LowerCell)), Step("symbol", Lift(UpperCell)),
     Step("name", Lift(UpperCell)), Step("roi", DumpStep(dumps))]
  }

  /** The cleaning statements in source order: the percentage loop over
      `percent`, the date and float loops, then `Finish`. */
  function Cleaning(parse: string -> Option<int>, dumps: seq<Field> -> string, percent: seq<string>): seq<Step> {
    Each(percent, Percent) + (Each(Dates, DateStep(parse)) + (Each(Floats, FloatCast) + Finish(dumps)))
  }

  /** Line 131: every label but `id`, `symbol` and `name` gets `cmrk_`. */
  function Prefix(c: string): string {
    if c == "id" || c == "symbol" || c == "name" then c else "cmrk_" + c
  }

  const Renames: map<string, string> := map["id" := "coin_id", "symbol" := "coin_symbol", "name" := "coin_name"]

  /** Lines 131-139: the prefix, then the rename of the three key columns. */
  function Relabelled(f: Frame): (r: Frame)
    ensures |r.columns| == |f.columns| && r.rows == f.rows
  {
    var g := SetColumns(f, seq(|f.columns|, j requires 0 <= j < |f.columns| => Prefix(f.columns[j])));
    Rename(g, Renames)
  }

  /** The final label of each source column, as one rule. */
  function Label(c: string): (r: string)
    ensures c == "id" ==> r == "coin_id"
    ensures c == "symbol" ==> r == "coin_symbol"
    ensures c == "name" ==> r == "coin_name"
    ensures c != "id" && c != "symbol" && c != "name" ==> r == "cmrk_" + c
  {
    assert ("cmrk_" + c)[0] == 'c';
    Relabel(Renames, Prefix(c))
  }

  predicate IsKey(c: string) {
    c == "id" || c == "symbol" || c == "name"
  }

  lemma LabelPrefix(c: string)
    ensures |Label(c)| >= 5 && Label(c)[..5] == if IsKey(c) then "coin_" else "cmrk_"
  {
  }

  /** Different columns keep different labels. */
  lemma LabelInjective(a: string, b: string)
    requires Label(a) == Label(b)
    ensures a == b
  {
    LabelPrefix(a);
    LabelPrefix(b);
    assert "coin_" != "cmrk_";
    if !IsKey(a) {
      assert a == Label(a)[5..] && b == Label(b)[5..];
    }
  }

  /** Relabelling moves each cell to its column's new label. */
  lemma RelabelledCells(f: Frame, i: nat, c: string)
    requires c in f.columns
    ensures forall j :: 0 <= j < |f.columns| ==> Relabelled(f).columns[j] == Label(f.columns[j])
    ensures Label(c) in Relabelled(f).columns && At(Relabelled(f), i, Label(c)) == At(f, i, c)
  {
    var out := Relabelled(f);
    forall a, b | a in f.columns && b in f.columns && Label(a) == Label(b) ensures a == b {
      LabelInjective(a, b);
    }
    IndexOfRelabelled(f.columns, out.columns, Label, c);
  }

  // ---------------------------------------------------------------- fetch

  function Heads(now: int, vs: string): seq<Field> {
    [Field("data_ts", Stamp(now)), Field("currency", VStr(vs))]
  }

  /** The columns lines 124-126 take the `.str` accessor on. */
  const CaseKeys: seq<string> := ["id", "symbol", "name"]

  /** Lines 64-139 on a decoded body, with the percentage loop over
      `percent`. The accessor of lines 124-126 is checked once the
      statements have run, on the staged table: no statement before it
      touches those three columns and none after it raises, so each column
      is judged on the cells it holds when its statement is reached, and
      the first error raised is the same. */
  function Process(body: Value, now: int, vs: string, parse: string -> Option<int>,
                   dumps: seq<Field> -> string, percent: seq<string>): (r: Result<Frame, FrameError>)
  {
    var records :- Records(body);
    var staged :- Stage(FromRecords(records), Heads(now, vs), Required);
    var cleaned :- ApplySteps(staged, Cleaning(parse, dumps, percent));
    var checked :- StrColumns(staged, CaseKeys);
    Success(Relabelled(cleaned))
  }

  /** `cg_fetch_coins_markets` as written: the percentage loop indexes the
      prefixed labels. `Failure` is an exception raised to the caller; a
      `Success` is the returned table. */
  function CoinsMarketsAsWritten(a: Args, now: int, resp: Response, parse: string -> Option<int>,
                                 dumps: seq<Field> -> string): (r: Result<Frame, ArgError>)
    ensures Check(a).Some? <==> r.Failure?
  {
    match Check(a)
    case Some(e) => Failure(e)
    case None =>
      match resp
      case RequestFailed => Success(Empty())
      case Payload(body) => Success(Settle(Process(body, now, a.vsCurrency.s, parse, dumps, PercentLabels)))
  }

  /** `cg_fetch_coins_markets` with the percentage loop over the labels the
      columns carry at that point. */
  function CoinsMarkets(a: Args, now: int, resp: Response, parse: string -> Option<int>,
                        dumps: seq<Field> -> string): (r: Result<Frame, ArgError>)
    ensures Check(a).Some? <==> r.Failure?
  {
    match Check(a)
    case Some(e) => Failure(e)
    case None =>
      match resp
      case RequestFailed => Success(Empty())
      case Payload(body) => Success(Settle(Process(body, now, a.vsCurrency.s, parse, dumps, PercentColumns)))
  }

  /** The checks run before any request: a bad argument raises the same
      error whatever the server would have answered. */
  lemma ValidationFirst(a: Args, now: int, r1: Response, r2: Response, parse: string -> Option<int>,
                        dumps: seq<Field> -> string)
    requires Check(a).Some?
    ensures CoinsMarkets(a, now, r1, parse, dumps) == CoinsMarkets(a, now, r2, parse, dumps) == Failure(Check(a).value)
    ensures CoinsMarketsAsWritten(a, now, r1, parse, dumps) == Failure(Check(a).value)
    ensures MarketData(a, now, r1) == Failure(Check(a).value)
  {
  }

  /** The percentage loop's first statement names a prefixed label. */
  lemma AsWrittenFirstStep(parse: string -> Option<int>, dumps: seq<Field> -> string)
    ensures Cleaning(parse, dumps, PercentLabels)[0] == Step("cmrk_price_change_24h", Percent)
    ensures "cmrk_price_change_24h" !in Required
  {
  }

  /** As written, processing always raises: a payload that gets as far as
      the percentage loop meets its first label, which is absent. */
  lemma AsWrittenRaises(body: Value, now: int, vs: string, parse: string -> Option<int>, dumps: seq<Field> -> string)
    ensures Process(body, now, vs, parse, dumps, PercentLabels).Failure?
  {
    var records := Records(body);
    if records.Success? {
      var staged := Stage(FromRecords(records.value), Heads(now, vs), Required);
      if staged.Success? {
        AsWrittenFirstStep(parse, dumps);
        ApplyStepsMissingLabel(staged.value, Cleaning(parse, dumps, PercentLabels), 0);
      }
    }
  }

  /** So the fetcher as written never returns data. */
  lemma AsWrittenAlwaysEmpty(a: Args, now: int, resp: Response, parse: string -> Option<int>,
                             dumps: seq<Field> -> string)
    requires Check(a).None?
    ensures CoinsMarketsAsWritten(a, now, resp, parse, dumps) == Success(Empty())
  {
    if resp.Payload? {
      AsWrittenRaises(resp.body, now, a.vsCurrency.s, parse, dumps);
    }
  }

  // ---------------------------------------------------------------- cells

  /** What cleaning does to one cell of column `c`, column by column. */
  function CleanCell(parse: string -> Option<int>, dumps: seq<Field> -> string, c: string, v: Value): Cast {
    if c in Dates then DateCell(parse, v)
    else if c in PercentColumns then (match Percent(v) case Cast(w) => FloatCast(w) case e => e)
    else if c in Floats then FloatCast(v)
    else if c == "market_cap_rank" then IntCast(v)
    else if c == "id" then Cast(LowerCell(v))
    else if c == "symbol" || c == "name" then Cast(UpperCell(v))
    else if c == "roi" then Cast(DumpObject(dumps, v))
    else Cast(v)
  }

  lemma ListsDistinct()
    ensures Distinct(PercentColumns) && Distinct(Dates) && Distinct(Floats)
  {
    PercentsDistinct();
    FloatsDistinct();
  }

  lemma PercentsDistinct()
    ensures Distinct(PercentColumns)
  {
  }

  lemma FloatsDistinct()
    ensures Distinct(Floats)
  {
    var a := ["current_price", "market_cap", "fully_diluted_valuation", "total_volume",
              "high_24h", "low_24h", "price_change_24h", "price_change_percentage_24h",
              "market_cap_change_24h", "market_cap_change_percentage_24h", "circulating_supply",
              "total_supply"];
    var b := ["max_supply", "ath", "ath_change_percentage", "atl", "atl_change_percentage",
              "price_change_percentage_14d_in_currency", "price_change_percentage_1h_in_currency",
              "price_change_percentage_24h_in_currency", "price_change_percentage_7d_in_currency",
              "price_change_percentage_30d_in_currency", "price_change_percentage_200d_in_currency",
              "price_change_percentage_1y_in_currency"];
    assert Floats == a + b;
    FloatsApart(a, b);
    DistinctJoin(a, b);
  }

  lemma FloatsApart(a: seq<string>, b: seq<string>)
    requires a == ["current_price", "market_cap", "fully_diluted_valuation", "total_volume",
                   "high_24h", "low_24h", "price_change_24h", "price_change_percentage_24h",
                   "market_cap_change_24h", "market_cap_change_percentage_24h", "circulating_supply",
                   "total_supply"]
    requires b == ["max_supply", "ath", "ath_change_percentage", "atl", "atl_change_percentage",
                   "price_change_percentage_14d_in_currency", "price_change_percentage_1h_in_currency",
                   "price_change_percentage_24h_in_currency", "price_change_percentage_7d_in_currency",
                   "price_change_percentage_30d_in_currency", "price_change_percentage_200d_in_currency",
                   "price_change_percentage_1y_in_currency"]
    ensures Distinct(a) && Distinct(b)
    ensures forall k :: 0 <= k < |a| ==> a[k] !in b
  {
    forall k | 0 <= k < |a| ensures a[k] !in b {
      FloatApart(a[k], b);
    }
  }

  /** No label of the first half of `Floats` is one of the second. */
  lemma FloatApart(x: string, b: seq<string>)
    requires x in ["current_price", "market_cap", "fully_diluted_valuation", "total_volume",
                   "high_24h", "low_24h", "price_change_24h", "price_change_percentage_24h",
                   "market_cap_change_24h", "market_cap_change_percentage_24h", "circulating_supply",
                   "total_supply"]
    requires b == ["max_supply", "ath", "ath_change_percentage", "atl", "atl_change_percentage",
                   "price_change_percentage_14d_in_currency", "price_change_percentage_1h_in_currency",
                   "price_change_percentage_24h_in_currency", "price_change_percentage_7d_in_currency",
                   "price_change_percentage_30d_in_currency", "price_change_percentage_200d_in_currency",
                   "price_change_percentage_1y_in_currency"]
    ensures x !in b
  {
  }

  lemma PercentsAreFloats(c: string)
    requires c in PercentColumns
    ensures c in Floats && c !in Dates
  {
  }

  lemma DatesApart(c: string)
    requires c in Dates
    ensures c !in Floats && c !in PercentColumns
  {
  }

  lemma FinishApart(c: string)
    requires c in Dates || c in Floats
    ensures c != "market_cap_rank" && c != "id" && c != "symbol" && c != "name" && c != "roi"
  {
  }

  /** The closing statements, column by column. */
  lemma FinishByColumn(dumps: seq<Field> -> string, c: string, v: Value)
    ensures Convert(Finish(dumps), c, v) ==
              if c == "market_cap_rank" then IntCast(v)
              else if c == "id" then Cast(LowerCell(v))
              else if c == "symbol" || c == "name" then Cast(UpperCell(v))
              else if c == "roi" then Cast(DumpObject(dumps, v))
              else Cast(v)
  {
    var f := Finish(dumps);
    var f1, f2, f3, f4 := f[1..], f[2..], f[3..], f[4..];
    assert f1[1..] == f2 && f2[1..] == f3 && f3[1..] == f4 && f4[1..] == [];
    assert f1[0] == f[1] && f2[0] == f[2] && f3[0] == f[3] && f4[0] == f[4];
    if c == "market_cap_rank" {
      if IntCast(v).Cast? {
        ConvertHit(f, c, v);
        ConvertUntouched(f1, c, IntCast(v).v);
      } else {
        ConvertRaise(f, c, v);
      }
    } else {
      ConvertSkip(f, c, v);
      if c == "id" {
        assert f1[0].cast(v) == Cast(LowerCell(v));
        ConvertHit(f1, c, v);
        ConvertUntouched(f2, c, LowerCell(v));
      } else {
        ConvertSkip(f1, c, v);
        if c == "symbol" {
          assert f2[0].cast(v) == Cast(UpperCell(v));
          ConvertHit(f2, c, v);
          ConvertUntouched(f3, c, UpperCell(v));
        } else {
          ConvertSkip(f2, c, v);
          if c == "name" {
            assert f3[0].cast(v) == Cast(UpperCell(v));
            ConvertHit(f3, c, v);
            ConvertUntouched(f4, c, UpperCell(v));
          } else {
            ConvertSkip(f3, c, v);
            if c == "roi" {
              assert f4[0].cast(v) == Cast(DumpObject(dumps, v));
              ConvertHit(f4, c, v);
            } else {
              ConvertSkip(f4, c, v);
            }
          }
        }
      }
    }
  }

  /** The statements, run in order, convert each column as the per-column
      table says. */
  lemma CleaningByColumn(parse: string -> Option<int>, dumps: seq<Field> -> string, c: string, v: Value)
    ensures Convert(Cleaning(parse, dumps, PercentColumns), c, v) == CleanCell(parse, dumps, c, v)
  {
    ListsDistinct();
    var p, d, fl, rest := Each(PercentColumns, Percent), Each(Dates, DateStep(parse)), Each(Floats, FloatCast), Finish(dumps);
    ConvertAppend(p, d + (fl + rest), c, v);
    ConvertEachOnce(PercentColumns, Percent, c, v);
    if c in PercentColumns {
      PercentsAreFloats(c);
    }
    if c in Dates {
      DatesApart(c);
    }
    if c in Dates || c in Floats {
      FinishApart(c);
    }
    var v1 := Convert(p, c, v);
    if v1.Cast? {
      ConvertAppend(d, fl + rest, c, v1.v);
      ConvertEachOnce(Dates, DateStep(parse), c, v1.v);
      var v2 := Convert(d, c, v1.v);
      if v2.Cast? {
        ConvertAppend(fl, rest, c, v2.v);
        ConvertEachOnce(Floats, FloatCast, c, v2.v);
        var v3 := Convert(fl, c, v2.v);
        if v3.Cast? {
          FinishByColumn(dumps, c, v3.v);
        }
      }
    }
  }

  lemma CleaningRule(parse: string -> Option<int>, dumps: seq<Field> -> string)
    ensures forall c, v :: Convert(Cleaning(parse, dumps, PercentColumns), c, v) == CleanCell(parse, dumps, c, v)
  {
    forall c, v ensures Convert(Cleaning(parse, dumps, PercentColumns), c, v) == CleanCell(parse, dumps, c, v) {
      CleaningByColumn(parse, dumps, c, v);
    }
  }

  /** The cell a record supplies to column `c`: the stamp, the currency,
      or the record's value (missing when it lacks the key). */
  function SourceCell(rec: seq<Field>, now: int, vs: string, c: string): Value {
    if c == "data_ts" then Stamp(now)
    else if c == "currency" then VStr(vs)
    else Get(rec, c).GetOr(VNull)
  }

  lemma HeadsFacts(now: int, vs: string)
    ensures Distinct(Labels(Heads(now, vs)))
    ensures forall c :: HasKey(Heads(now, vs), c) <==> c == "data_ts" || c == "currency"
    ensures forall rec, c :: RecordCell(Heads(now, vs), rec, c) == SourceCell(rec, now, vs, c)
  {
    var heads := Heads(now, vs);
    assert Labels(heads) == ["data_ts", "currency"];
    forall c ensures HasKey(heads, c) <==> c == "data_ts" || c == "currency" {
      if c == "data_ts" {
        assert heads[0].key == c;
      } else if c == "currency" {
        assert heads[1].key == c;
      }
    }
  }

  lemma FieldsApart()
    ensures "data_ts" !in Fields && "currency" !in Fields
  {
  }

  /** Lines 64-87: the inserts and the projection succeed exactly when the
      records do not already carry the inserted keys and every other
      required key occurs in some record; each cell is then the stamp, the
      currency, or the record's own value. */
  lemma StagedCells(records: seq<seq<Field>>, now: int, vs: string)
    ensures var s := Stage(FromRecords(records), Heads(now, vs), Required);
            s.Success? <==>
              Absent(records, "data_ts") && Absent(records, "currency") && forall c :: c in Fields ==> Present(records, c)
    ensures var s := Stage(FromRecords(records), Heads(now, vs), Required);
            s.Success? ==>
              forall i, c :: 0 <= i < |records| && c in Required ==> At(s.value, i, c) == SourceCell(records[i], now, vs, c)
  {
    var heads := Heads(now, vs);
    HeadsFacts(now, vs);
    FieldsApart();
    StageRecords(records, heads, Required);
    assert forall c :: c in Required && !HasKey(heads, c) <==> c in Fields;
    assert (forall k :: 0 <= k < |heads| ==> Absent(records, heads[k].key))
       <==> Absent(records, "data_ts") && Absent(records, "currency");
  }

  /** Cleaning a table converts each of its cells by the column rule. */
  lemma CleanedByRule(g: Frame, parse: string -> Option<int>, dumps: seq<Field> -> string)
    requires Labelled(Cleaning(parse, dumps, PercentColumns), g)
    ensures var r := ApplySteps(g, Cleaning(parse, dumps, PercentColumns));
            r.Success? <==>
              forall i, c :: 0 <= i < |g.rows| && c in g.columns ==> CleanCell(parse, dumps, c, At(g, i, c)).Cast?
    ensures var r := ApplySteps(g, Cleaning(parse, dumps, PercentColumns));
            r.Success? ==>
              forall i, c :: 0 <= i < |g.rows| && c in g.columns ==> At(r.value, i, c) == CleanCell(parse, dumps, c, At(g, i, c)).v
  {
    var rule := (c, v) => CleanCell(parse, dumps, c, v);
    CleaningRule(parse, dumps);
    ApplyStepsByRule(g, Cleaning(parse, dumps, PercentColumns), rule);
  }

  lemma CleaningLabelled(g: Frame, parse: string -> Option<int>, dumps: seq<Field> -> string)
    requires g.columns == Required
    ensures Labelled(Cleaning(parse, dumps, PercentColumns), g)
  {
    var p, d, fl, rest := Each(PercentColumns, Percent), Each(Dates, DateStep(parse)), Each(Floats, FloatCast), Finish(dumps);
    assert forall k :: 0 <= k < |p| ==> p[k].column in Fields;
    assert forall k :: 0 <= k < |d| ==> d[k].column in Fields;
    assert forall k :: 0 <= k < |fl| ==> fl[k].column in Fields;
    assert forall k :: 0 <= k < |rest| ==> rest[k].column in Fields;
  }

  /** Every record converts: no cell raises during cleaning. */
  predicate AllClean(records: seq<seq<Field>>, now: int, vs: string, parse: string -> Option<int>, dumps: seq<Field> -> string) {
    forall i, c :: 0 <= i < |records| && c in Required ==>
      CleanCell(parse, dumps, c, SourceCell(records[i], now, vs, c)).Cast?
  }

  /** Lines 89-128 on the staged table: they succeed exactly when no cell
      raises, and each cell is converted by its column's rule. */
  lemma CleanedCells(g: Frame, records: seq<seq<Field>>, now: int, vs: string, parse: string -> Option<int>,
                     dumps: seq<Field> -> string)
    requires g.columns == Required && |g.rows| == |records|
    requires forall i, c :: 0 <= i < |records| && c in Required ==> At(g, i, c) == SourceCell(records[i], now, vs, c)
    ensures var r := ApplySteps(g, Cleaning(parse, dumps, PercentColumns));
            r.Success? <==> AllClean(records, now, vs, parse, dumps)
    ensures var r := ApplySteps(g, Cleaning(parse, dumps, PercentColumns));
            r.Success? ==>
              forall i, c :: 0 <= i < |records| && c in Required ==>
                At(r.value, i, c) == CleanCell(parse, dumps, c, SourceCell(records[i], now, vs, c)).v
  {
    CleaningLabelled(g, parse, dumps);
    CleanedByRule(g, parse, dumps);
    if AllClean(records, now, vs, parse, dumps) {
      forall i, c | 0 <= i < |g.rows| && c in g.columns
        ensures CleanCell(parse, dumps, c, At(g, i, c)).Cast?
      {
        assert At(g, i, c) == SourceCell(records[i], now, vs, c);
      }
    } else {
      var i, c :| 0 <= i < |records| && c in Required && !CleanCell(parse, dumps, c, SourceCell(records[i], now, vs, c)).Cast?;
      assert At(g, i, c) == SourceCell(records[i], now, vs, c);
    }
  }

  /** Relabelling moves every cell to its column's new label. */
  lemma RelabelledAll(f: Frame)
    ensures forall j :: 0 <= j < |f.columns| ==> Relabelled(f).columns[j] == Label(f.columns[j])
    ensures forall i, c :: 0 <= i < |f.rows| && c in f.columns ==>
              Label(c) in Relabelled(f).columns && At(Relabelled(f), i, Label(c)) == At(f, i, c)
  {
    forall i, c | 0 <= i < |f.rows| && c in f.columns
      ensures Label(c) in Relabelled(f).columns && At(Relabelled(f), i, Label(c)) == At(f, i, c)
    {
      RelabelledCells(f, i, c);
    }
  }

  /** The values the records hold under key `c`, missing where absent. */
  function KeyColumn(records: seq<seq<Field>>, c: string): (r: seq<Value>)
    ensures |r| == |records| && forall i :: 0 <= i < |records| ==> r[i] == Get(records[i], c).GetOr(VNull)
  {
    seq(|records|, i requires 0 <= i < |records| => Get(records[i], c).GetOr(VNull))
  }

  /** The `.str` accessor accepts what the records hold under `id`,
      `symbol` and `name`. */
  predicate TextOk(records: seq<seq<Field>>) {
    forall c :: c in CaseKeys ==> StrAccepts(KeyColumn(records, c))
  }

  /** On the staged table the accessor judges the records' own values. */
  lemma StagedText(records: seq<seq<Field>>, now: int, vs: string, staged: Frame)
    requires Stage(FromRecords(records), Heads(now, vs), Required) == Success(staged)
    ensures StrColumns(staged, CaseKeys).Success? <==> TextOk(records)
  {
    forall c | c in CaseKeys ensures Column(staged, c) == Success(KeyColumn(records, c)) {
      StagedKey(records, now, vs, staged, c);
    }
  }

  lemma CaseKeysRequired(c: string)
    requires c in CaseKeys
    ensures c in Required && c != "data_ts" && c != "currency"
  {
    assert Required[2] == "id" && Required[3] == "symbol" && Required[4] == "name";
  }

  lemma StagedKey(records: seq<seq<Field>>, now: int, vs: string, staged: Frame, c: string)
    requires Stage(FromRecords(records), Heads(now, vs), Required) == Success(staged)
    requires c in CaseKeys
    ensures Column(staged, c) == Success(KeyColumn(records, c))
  {
    StagedCells(records, now, vs);
    CaseKeysRequired(c);
    ColumnCells(staged, c);
    SameColumn(ColumnOf(staged, c), KeyColumn(records, c));
  }

  /** The payload yields a table exactly when its records carry no
      `data_ts` or `currency` key, together hold every other required key,
      no cell raises during cleaning, and the `.str` accessor accepts the
      id, symbol and name columns. */
  lemma ProcessSucceeds(body: Value, now: int, vs: string, parse: string -> Option<int>, dumps: seq<Field> -> string)
    requires Records(body).Success?
    ensures var records := Records(body).value;
            Process(body, now, vs, parse, dumps, PercentColumns).Success? <==>
              Absent(records, "data_ts") && Absent(records, "currency") && (forall c :: c in Fields ==> Present(records, c))
              && AllClean(records, now, vs, parse, dumps) && TextOk(records)
  {
    var records := Records(body).value;
    StagedCells(records, now, vs);
    var staged := Stage(FromRecords(records), Heads(now, vs), Required);
    if staged.Success? {
      CleanedCells(staged.value, records, now, vs, parse, dumps);
      StagedText(records, now, vs, staged.value);
    }
  }

  /** A table from the payload is the cleaned staged table, relabelled. */
  lemma ProcessSteps(body: Value, now: int, vs: string, parse: string -> Option<int>, dumps: seq<Field> -> string)
    requires Process(body, now, vs, parse, dumps, PercentColumns).Success?
    ensures Records(body).Success?
    ensures var records := Records(body).value;
            var staged := Stage(FromRecords(records), Heads(now, vs), Required);
            staged.Success? && ApplySteps(staged.value, Cleaning(parse, dumps, PercentColumns)).Success?
            && Process(body, now, vs, parse, dumps, PercentColumns).value
               == Relabelled(ApplySteps(staged.value, Cleaning(parse, dumps, PercentColumns)).value)
  {
  }

  /** A table from the payload has one row per record and the relabelled
      required columns in order. */
  lemma ProcessColumns(body: Value, now: int, vs: string, parse: string -> Option<int>, dumps: seq<Field> -> string)
    requires Process(body, now, vs, parse, dumps, PercentColumns).Success?
    ensures Records(body).Success?
    ensures var f := Process(body, now, vs, parse, dumps, PercentColumns).value;
            |f.columns| == |Required| && |f.rows| == |Records(body).value|
            && forall j :: 0 <= j < |Required| ==> f.columns[j] == Label(Required[j])
  {
    ProcessSteps(body, now, vs, parse, dumps);
    var staged := Stage(FromRecords(Records(body).value), Heads(now, vs), Required).value;
    var cleaned := ApplySteps(staged, Cleaning(parse, dumps, PercentColumns)).value;
    RelabelledAll(cleaned);
  }

  /** One cell after staging and cleaning. */
  lemma CleanedCell(records: seq<seq<Field>>, now: int, vs: string, parse: string -> Option<int>,
                    dumps: seq<Field> -> string, staged: Frame, cleaned: Frame, i: nat, c: string)
    requires Stage(FromRecords(records), Heads(now, vs), Required) == Success(staged)
    requires ApplySteps(staged, Cleaning(parse, dumps, PercentColumns)) == Success(cleaned)
    requires i < |records| && c in Required
    ensures c in cleaned.columns && i < |cleaned.rows|
    ensures CleanCell(parse, dumps, c, SourceCell(records[i], now, vs, c)) == Cast(At(cleaned, i, c))
  {
    StagedCells(records, now, vs);
    CleanedCells(staged, records, now, vs, parse, dumps);
  }

  /** Each cell of a table from the payload is the record's value
      converted by its column's rule, under the column's new label. */
  lemma ProcessCells(body: Value, now: int, vs: string, parse: string -> Option<int>, dumps: seq<Field> -> string,
                     f: Frame, i: nat, c: string)
    requires Process(body, now, vs, parse, dumps, PercentColumns) == Success(f)
    requires Records(body).Success? && i < |Records(body).value| && c in Required
    ensures Label(c) in f.columns
    ensures CleanCell(parse, dumps, c, SourceCell(Records(body).value[i], now, vs, c)) == Cast(At(f, i, Label(c)))
  {
    ProcessSteps(body, now, vs, parse, dumps);
    var records := Records(body).value;
    var staged := Stage(FromRecords(records), Heads(now, vs), Required).value;
    var cleaned := ApplySteps(staged, Cleaning(parse, dumps, PercentColumns)).value;
    assert f == Relabelled(cleaned);
    CleanedCell(records, now, vs, parse, dumps, staged, cleaned, i, c);
    RelabelledCells(cleaned, i, c);
  }

  /** What the column rules guarantee of a cell that converted: lower-case
      ids, upper-case symbols and names, integer ranks, numeric or missing
      prices, percentages divided by 100, timestamps or missing dates, no
      nested `roi` object, and the inserted columns unchanged. */
  lemma CleanCellShapes(parse: string -> Option<int>, dumps: seq<Field> -> string, c: string, v: Value, w: Value)
    requires CleanCell(parse, dumps, c, v) == Cast(w)
    ensures c == "id" ==> w.VNull? || (w.VStr? && IsLowerCase(w.s))
    ensures c == "symbol" || c == "name" ==> w.VNull? || (w.VStr? && IsUpperCase(w.s))
    ensures c == "market_cap_rank" ==> w.VInt? && !v.VNull?
    ensures c in Floats ==> w.VNull? || w.VNum?
    ensures c in PercentColumns && v.VNum? ==> w == VNum(v.r / 100.0)
    ensures c in PercentColumns && v.VInt? ==> w == VNum(v.i as real / 100.0)
    ensures c in Floats && c !in PercentColumns && v.VNum? ==> w == v
    ensures c in Dates ==> w.VTime? || w.VNull?
    ensures c == "roi" ==> !w.VObj?
    ensures c == "data_ts" || c == "currency" || c == "image" ==> w == v
  {
    if c in PercentColumns {
      PercentsAreFloats(c);
    }
    if c in Dates {
      DatesApart(c);
    }
    if c in Dates || c in Floats {
      FinishApart(c);
    }
  }

  /** A date column of numbers and missing values, read as epoch
      nanoseconds, never stops the cleaning: every cell converts, a number
      to the millisecond containing it. */
  lemma NumericDates(parse: string -> Option<int>, dumps: seq<Field> -> string, c: string, cells: seq<Value>)
    requires c in Dates
    requires forall i :: 0 <= i < |cells| ==> cells[i].VInt? || cells[i].VNull?
    ensures forall i :: 0 <= i < |cells| ==> CleanCell(parse, dumps, c, cells[i]).Cast?
    ensures forall i :: 0 <= i < |cells| && cells[i].VInt? ==>
              CleanCell(parse, dumps, c, cells[i]).v.VTime? &&
              CleanCell(parse, dumps, c, cells[i]).v.ms == cells[i].i / NanosPerMilli
    ensures CleanCell(parse, dumps, c, VInt(1700000000000000000)) == Cast(VTime(1700000000000))
  {
  }

  /** `cg_fetch_coins_markets` end to end: a failed request or a payload
      that is not a list of objects gives the empty table; otherwise the
      table is non-empty exactly when the records pass staging, every
      cell converts and the `.str` accessor accepts the id, symbol and
      name columns, and its cells are then as `ProcessCells` says. */
  lemma CoinsMarketsResult(a: Args, now: int, resp: Response, parse: string -> Option<int>, dumps: seq<Field> -> string)
    requires Check(a).None?
    ensures CoinsMarkets(a, now, resp, parse, dumps).Success?
    ensures resp.RequestFailed? || !Records(resp.body).Success? ==> CoinsMarkets(a, now, resp, parse, dumps).value == Empty()
    ensures resp.Payload? && Records(resp.body).Success? ==>
              var records := Records(resp.body).value;
              (CoinsMarkets(a, now, resp, parse, dumps).value != Empty() <==>
                 Absent(records, "data_ts") && Absent(records, "currency") && (forall c :: c in Fields ==> Present(records, c))
                 && AllClean(records, now, a.vsCurrency.s, parse, dumps) && TextOk(records))
  {
    if resp.Payload? && Records(resp.body).Success? {
      var vs := a.vsCurrency.s;
      ProcessSucceeds(resp.body, now, vs, parse, dumps);
      if Process(resp.body, now, vs, parse, dumps, PercentColumns).Success? {
        ProcessColumns(resp.body, now, vs, parse, dumps);
      }
    }
  }

  /** A record without a market-cap rank (or with a null one) empties the
      whole result: the int64 cast of a missing value raises. */
  lemma NullRankEmpties(a: Args, now: int, body: Value, parse: string -> Option<int>, dumps: seq<Field> -> string, i: nat)
    requires Check(a).None? && Records(body).Success? && i < |Records(body).value|
    requires Get(Records(body).value[i], "market_cap_rank").GetOr(VNull) == VNull
    ensures CoinsMarkets(a, now, Payload(body), parse, dumps) == Success(Empty())
  {
    var records := Records(body).value;
    var vs := a.vsCurrency.s;
    RankRaisesOnNull(parse, dumps);
    assert SourceCell(records[i], now, vs, "market_cap_rank") == VNull;
    assert !AllClean(records, now, vs, parse, dumps) by {
      assert "market_cap_rank" in Required;
    }
    ProcessSucceeds(body, now, vs, parse, dumps);
  }

  lemma RankRaisesOnNull(parse: string -> Option<int>, dumps: seq<Field> -> string)
    ensures !CleanCell(parse, dumps, "market_cap_rank", VNull).Cast?
  {
  }

  // ---------------------------------------------------------------- legacy

  const LegacyFields: seq<string> := [
    "id", "symbol", "name", "image", "current_price", "market_cap",
    "market_cap_rank", "fully_diluted_valuation", "total_volume",
    "high_24h", "low_24h", "price_change_24h",
    "price_change_percentage_24h", "market_cap_change_24h",
    "market_cap_change_percentage_24h", "circulating_supply",
    "total_supply", "max_supply", "ath", "ath_change_percentage",
    "ath_date", "atl", "atl_change_percentage", "atl_date", "roi",
    "last_updated", "price_change_percentage_14d_in_currency",
    "price_change_percentage_1h_in_currency",
    "price_change_percentage_24h_in_currency",
    "price_change_percentage_7d_in_currency",
    "price_change_percentage_30d_in_currency",
    "price_change_percentage_200d_in_currency",
    "price_change_percentage_1y_in_currency"]

  const LegacyRequired: seq<string> := ["data_ts"] + LegacyFields

  /** `cg_fetch_market_data`: the same checks and request, then only the
      stamp and the projection; nothing is cast or renamed. */
  function MarketData(a: Args, now: int, resp: Response): (r: Result<Frame, ArgError>)
    ensures Check(a).Some? <==> r.Failure?
  {
    match Check(a)
    case Some(e) => Failure(e)
    case None =>
      match resp
      case RequestFailed => Success(Empty())
      case Payload(body) =>
        Success(Settle(
          var records :- Records(body);
          Stage(FromRecords(records), [Field("data_ts", Stamp(now))], LegacyRequired)))
  }

  /** The older fetcher returns the records' own values under the required
      labels, stamped, or the empty table when a record already carries
      `data_ts` or a required key is absent from every record. */
  lemma MarketDataCells(a: Args, now: int, body: Value)
    requires Check(a).None? && Records(body).Success?
    ensures var records := Records(body).value;
            var f := MarketData(a, now, Payload(body)).value;
            f != Empty() <==> Absent(records, "data_ts") && forall c :: c in LegacyFields ==> Present(records, c)
    ensures var records := Records(body).value;
            var f := MarketData(a, now, Payload(body)).value;
            f != Empty() ==>
              f.columns == LegacyRequired && |f.rows| == |records|
              && forall i, c :: 0 <= i < |records| && c in LegacyRequired ==>
                   At(f, i, c) == if c == "data_ts" then Stamp(now) else Get(records[i], c).GetOr(VNull)
  {
    var records := Records(body).value;
    var heads := [Field("data_ts", Stamp(now))];
    assert Labels(heads) == ["data_ts"];
    forall c ensures HasKey(heads, c) <==> c == "data_ts" {
      if c == "data_ts" {
        assert heads[0].key == c;
      }
    }
    assert "data_ts" !in LegacyFields;
    StageRecords(records, heads, LegacyRequired);
    assert forall c :: c in LegacyRequired && !HasKey(heads, c) <==> c in LegacyFields;
    var staged := Stage(FromRecords(records), heads, LegacyRequired);
    if staged.Success? {
      assert staged.value.columns != [];
    }
  }
}

=== FILE: ohlc.dfy ===
/** `cg_fetch_coins_ohlc`: each candle of the payload becomes a row of
    `timestamp, open, high, low, close`, the timestamp is read as epoch
    milliseconds, the stamp, the currency and the coin id go in front, the
    prices are cast to float, and only `id` is renamed (to `coin_id`): no
    prefix, and the time column stays `timestamp`. */
module Ohlc {
  import opened Wrappers
  import opened Text
  import opened Values
  import opened Frames
  import opened Steps
  import opened Fetch
  import opened Charts

  /** The `columns=` of the candle table. */
  const OhlcColumns: seq<string> := ["timestamp", "open", "high", "low", "close"]

  const OhlcPrices: seq<string> := ["open", "high", "low", "close"]

  /** `required_columns`. */
  const OhlcRequired: seq<string> := ["data_ts", "currency", "id"] + OhlcColumns

  /** The labels after `rename(columns={"id": "coin_id"})`. */
  const OhlcLabels: seq<string> := ["data_ts", "currency", "coin_id", "timestamp", "open", "high", "low", "close"]

  const IdRename: map<string, string> := map["id" := "coin_id"]

  /** A candle pandas accepts: an array of at most five items. */
  predicate Candle(entry: Value) {
    entry.VList? && |entry.items| <= 5
  }

  /** Some candle has all five items. */
  predicate Widest(entries: seq<Value>) {
    exists k :: 0 <= k < |entries| && Candle(entries[k]) && |entries[k].items| == 5
  }

  /** `pd.DataFrame(data, columns=[...])` for an array of arrays: the
      widest candle must have exactly five items, shorter ones are padded
      with missing cells, and an empty array gives a table without rows. */
  function Candles(body: Value): (r: Result<Frame, FrameError>)
    ensures r.Success? <==>
              body.VList? && (forall k :: 0 <= k < |body.items| ==> Candle(body.items[k]))
              && (|body.items| == 0 || Widest(body.items))
    ensures r.Success? ==> r.value.columns == OhlcColumns && WellFormed(r.value) && |r.value.rows| == |body.items|
    ensures r.Success? ==> forall k :: 0 <= k < |body.items| ==> r.value.rows[k] == Padded(body.items[k].items)
  {
    if !body.VList? || !(forall k :: 0 <= k < |body.items| ==> Candle(body.items[k])) then Failure(Malformed)
    else if |body.items| > 0 && !Widest(body.items) then Failure(Malformed)
    else
      var entries := body.items;
      Success(Frame(OhlcColumns, seq(|entries|, k requires 0 <= k < |entries| => Padded(entries[k].items))))
  }

  /** A candle's items padded to five cells. */
  function Padded(items: seq<Value>): (r: Row)
    ensures |r| == 5
  {
    seq(5, j requires 0 <= j < 5 => Cell(items, j))
  }

  /** The `try` block on a decoded body. */
  function OhlcProcess(body: Value, now: int, vs: string, id: string): Result<Frame, FrameError> {
    var f :- Candles(body);
    var t :- CastColumn(f, "timestamp", MillisCast);
    CastAndRename(Prepend(t, ChartHeads(now, vs, id)), "timestamp", OhlcPrices, IdRename)
  }

  /** `cg_fetch_coins_ohlc`. */
  function OhlcChart(now: int, vs: string, id: string, resp: Response): (r: Frame)
    ensures resp.RequestFailed? ==> r == Empty()
    ensures resp.Payload? ==> (r == Empty() <==> OhlcProcess(resp.body, now, vs, id).Failure?)
    ensures r != Empty() ==> resp.body.VList? && r.columns == OhlcLabels && |r.rows| == |resp.body.items|
  {
    match resp
    case RequestFailed => Empty()
    case Payload(body) =>
      var p := OhlcProcess(body, now, vs, id);
      if p.Success? then
        OhlcRows(body, now, vs, id, p.value);
        p.value
      else Empty()
  }

  // ---------------------------------------------------------------- properties

  /** Candle row `k` holds the entry's items in order. */
  lemma CandleCells(body: Value, f: Frame, k: nat)
    requires Candles(body) == Success(f) && k < |f.rows|
    ensures At(f, k, "timestamp") == Cell(body.items[k].items, 0)
    ensures At(f, k, "open") == Cell(body.items[k].items, 1)
    ensures At(f, k, "high") == Cell(body.items[k].items, 2)
    ensures At(f, k, "low") == Cell(body.items[k].items, 3)
    ensures At(f, k, "close") == Cell(body.items[k].items, 4)
  {
    OhlcIndexes();
    var row := Padded(body.items[k].items);
    assert f.rows[k] == row;
    assert row[0] == Cell(body.items[k].items, 0) && row[1] == Cell(body.items[k].items, 1);
    assert row[2] == Cell(body.items[k].items, 2) && row[3] == Cell(body.items[k].items, 3);
    assert row[4] == Cell(body.items[k].items, 4);
  }

  lemma OhlcIndexes()
    ensures IndexOf(OhlcColumns, "timestamp") == Some(0) && IndexOf(OhlcColumns, "open") == Some(1)
    ensures IndexOf(OhlcColumns, "high") == Some(2) && IndexOf(OhlcColumns, "low") == Some(3)
    ensures IndexOf(OhlcColumns, "close") == Some(4)
  {
  }

  /** `unit='ms'` converts the timestamp and leaves the prices alone. */
  lemma TimedCells(f: Frame, t: Frame, k: nat)
    requires f.columns == OhlcColumns && CastColumn(f, "timestamp", MillisCast) == Success(t) && k < |f.rows|
    ensures t.columns == OhlcColumns && |t.rows| == |f.rows| && WellFormed(t)
    ensures MillisCast(At(f, k, "timestamp")) == Cast(At(t, k, "timestamp"))
    ensures forall c :: c in OhlcPrices ==> At(t, k, c) == At(f, k, c)
  {
    assert IndexOf(OhlcColumns, "timestamp") == Some(0);
  }

  lemma OhlcRequiredFacts()
    ensures ChartShape(OhlcRequired, "timestamp", OhlcPrices)
    ensures RenamesTo(OhlcRequired, IdRename, OhlcLabels)
    ensures Distinct(["data_ts", "currency", "id"] + OhlcColumns)
  {
  }

  /** Output row `i` is payload candle `i`: the stamp, the currency, the
      lower-cased coin id, the timestamp read as milliseconds and the four
      prices cast to float. */
  predicate Carried(out: Frame, i: nat, now: int, vs: string, id: string, entry: Value) {
    out.columns == OhlcLabels && i < |out.rows| && entry.VList?
    && At(out, i, "data_ts") == Stamp(now) && At(out, i, "currency") == VStr(vs)
    && At(out, i, "coin_id") == VStr(Lower(id))
    && MillisCast(Cell(entry.items, 0)) == Cast(At(out, i, "timestamp"))
    && FloatCast(Cell(entry.items, 1)) == Cast(At(out, i, "open"))
    && FloatCast(Cell(entry.items, 2)) == Cast(At(out, i, "high"))
    && FloatCast(Cell(entry.items, 3)) == Cast(At(out, i, "low"))
    && FloatCast(Cell(entry.items, 4)) == Cast(At(out, i, "close"))
  }

  /** Staged row `i` holds the stamp, the currency, the coin id and
      candle `i` with its timestamp converted. */
  lemma StagedCandle(body: Value, f: Frame, t: Frame, now: int, vs: string, id: string, i: nat)
    requires Candles(body) == Success(f) && CastColumn(f, "timestamp", MillisCast) == Success(t) && i < |f.rows|
    ensures var s := Prepend(t, ChartHeads(now, vs, id));
            s.columns == OhlcRequired && |s.rows| == |f.rows| && body.VList?
            && At(s, i, "data_ts") == Stamp(now) && At(s, i, "currency") == VStr(vs) && At(s, i, "id") == VStr(id)
            && MillisCast(Cell(body.items[i].items, 0)) == Cast(At(s, i, "timestamp"))
            && At(s, i, "open") == Cell(body.items[i].items, 1) && At(s, i, "high") == Cell(body.items[i].items, 2)
            && At(s, i, "low") == Cell(body.items[i].items, 3) && At(s, i, "close") == Cell(body.items[i].items, 4)
  {
    OhlcRequiredFacts();
    CandleCells(body, f, i);
    TimedCells(f, t, i);
    Prepended(t, now, vs, id, i);
  }

  /** One staged cell read back through the cast and the rename. */
  lemma CandleCell(s: Frame, out: Frame, i: nat, c: string, l: string)
    requires s.columns == OhlcRequired && CastAndRename(s, "timestamp", OhlcPrices, IdRename) == Success(out)
    requires i < |s.rows| && c in OhlcRequired && Relabel(IdRename, c) == l
    ensures out.columns == OhlcLabels && |out.rows| == |s.rows|
    ensures ChartCell(OhlcPrices, c, At(s, i, c)) == Cast(At(out, i, l))
  {
    OhlcRequiredFacts();
    CastAndRenameCells(s, "timestamp", OhlcPrices, IdRename, OhlcLabels, out, i, c);
  }

  /** A price is cast to float under its own label. */
  lemma CandlePrice(s: Frame, out: Frame, i: nat, c: string)
    requires s.columns == OhlcRequired && CastAndRename(s, "timestamp", OhlcPrices, IdRename) == Success(out)
    requires i < |s.rows| && c in OhlcPrices
    ensures out.columns == OhlcLabels
    ensures FloatCast(At(s, i, c)) == Cast(At(out, i, c))
  {
    CandleCell(s, out, i, c, c);
  }

  /** The stamp, the currency and the timestamp keep label and value. */
  lemma CandleKept(s: Frame, out: Frame, i: nat, c: string)
    requires s.columns == OhlcRequired && CastAndRename(s, "timestamp", OhlcPrices, IdRename) == Success(out)
    requires i < |s.rows| && (c == "data_ts" || c == "currency" || c == "timestamp")
    ensures out.columns == OhlcLabels
    ensures At(out, i, c) == At(s, i, c)
  {
    assert c in OhlcRequired && c !in OhlcPrices && c != "id";
    assert Relabel(IdRename, c) == c;
    CandleCell(s, out, i, c, c);
    assert ChartCell(OhlcPrices, c, At(s, i, c)) == Cast(At(s, i, c));
  }

  /** The coin id is lower-cased under `coin_id`. */
  lemma CandleId(s: Frame, out: Frame, i: nat)
    requires s.columns == OhlcRequired && CastAndRename(s, "timestamp", OhlcPrices, IdRename) == Success(out)
    requires i < |s.rows|
    ensures out.columns == OhlcLabels
    ensures At(out, i, "coin_id") == LowerCell(At(s, i, "id"))
  {
    assert "id" in OhlcRequired && "id" !in OhlcPrices;
    CandleCell(s, out, i, "id", "coin_id");
  }

  /** A staged candle row read back through the cast and the rename. */
  lemma CastCandle(s: Frame, out: Frame, now: int, vs: string, id: string, entry: Value, i: nat)
    requires s.columns == OhlcRequired && CastAndRename(s, "timestamp", OhlcPrices, IdRename) == Success(out)
    requires i < |s.rows| && entry.VList?
    requires At(s, i, "data_ts") == Stamp(now) && At(s, i, "currency") == VStr(vs) && At(s, i, "id") == VStr(id)
    requires MillisCast(Cell(entry.items, 0)) == Cast(At(s, i, "timestamp"))
    requires At(s, i, "open") == Cell(entry.items, 1) && At(s, i, "high") == Cell(entry.items, 2)
    requires At(s, i, "low") == Cell(entry.items, 3) && At(s, i, "close") == Cell(entry.items, 4)
    ensures Carried(out, i, now, vs, id, entry)
  {
    CandleKept(s, out, i, "data_ts");
    CandleKept(s, out, i, "currency");
    CandleId(s, out, i);
    assert LowerCell(VStr(id)) == VStr(Lower(id));
    CandleKept(s, out, i, "timestamp");
    CandlePrice(s, out, i, "open");
    CandlePrice(s, out, i, "high");
    CandlePrice(s, out, i, "low");
    CandlePrice(s, out, i, "close");
  }

  /** The three steps after the payload, as facts about their results. */
  predicate OhlcChain(body: Value, now: int, vs: string, id: string, f: Frame, t: Frame, out: Frame) {
    Candles(body) == Success(f) && CastColumn(f, "timestamp", MillisCast) == Success(t)
    && CastAndRename(Prepend(t, ChartHeads(now, vs, id)), "timestamp", OhlcPrices, IdRename) == Success(out)
  }

  lemma ChainCarried(body: Value, now: int, vs: string, id: string, f: Frame, t: Frame, out: Frame, i: nat)
    requires OhlcChain(body, now, vs, id, f, t, out) && i < |f.rows|
    ensures Carried(out, i, now, vs, id, body.items[i])
  {
    var s := Prepend(t, ChartHeads(now, vs, id));
    StagedCandle(body, f, t, now, vs, id, i);
    CastCandle(s, out, now, vs, id, body.items[i], i);
  }

  /** A successful run went through all three steps. */
  lemma OhlcSplit(body: Value, now: int, vs: string, id: string, out: Frame) returns (f: Frame, t: Frame)
    requires OhlcProcess(body, now, vs, id) == Success(out)
    ensures OhlcChain(body, now, vs, id, f, t, out)
  {
    f := Candles(body).value;
    t := CastColumn(f, "timestamp", MillisCast).value;
  }

  lemma ChainColumns(body: Value, now: int, vs: string, id: string, f: Frame, t: Frame, out: Frame)
    requires OhlcChain(body, now, vs, id, f, t, out)
    ensures body.VList? && out.columns == OhlcLabels && |out.rows| == |f.rows| == |body.items|
  {
    var s := Prepend(t, ChartHeads(now, vs, id));
    OhlcRequiredFacts();
    assert s.columns == OhlcRequired;
    CastAndRenameColumns(s, "timestamp", OhlcPrices, IdRename, OhlcLabels, out);
  }

  lemma OhlcLabelFacts()
    ensures "date" !in OhlcLabels && "coin_id" in OhlcLabels && "id" !in OhlcLabels && "timestamp" in OhlcLabels
  {
  }

  /** One row per candle, in order, under exactly the eight labels: the key
      is `coin_id` and the time column is `timestamp`, never `date`. */
  lemma OhlcRows(body: Value, now: int, vs: string, id: string, out: Frame)
    requires OhlcProcess(body, now, vs, id) == Success(out)
    ensures body.VList? && out.columns == OhlcLabels && |out.rows| == |body.items|
    ensures "date" !in out.columns && "coin_id" in out.columns && "id" !in out.columns
    ensures forall i :: 0 <= i < |out.rows| ==> Carried(out, i, now, vs, id, body.items[i])
  {
    var f, t := OhlcSplit(body, now, vs, id, out);
    ChainColumns(body, now, vs, id, f, t, out);
    OhlcLabelFacts();
    forall i | 0 <= i < |out.rows| ensures Carried(out, i, now, vs, id, body.items[i]) {
      ChainCarried(body, now, vs, id, f, t, out, i);
    }
  }

  /** The inserts and the projection amount to putting the stamp, the
      currency and the coin id in front. */
  lemma OhlcStaged(t: Frame, now: int, vs: string, id: string)
    requires t.columns == OhlcColumns && WellFormed(t)
    ensures Stage(t, ChartHeads(now, vs, id), OhlcRequired) == Success(Prepend(t, ChartHeads(now, vs, id)))
  {
    OhlcRequiredFacts();
    Staged(t, now, vs, id);
  }

  /** `unit='ms'` succeeds exactly when every timestamp converts. */
  lemma TimestampsConvert(f: Frame)
    requires f.columns == OhlcColumns
    ensures CastColumn(f, "timestamp", MillisCast).Success? <==>
              forall i :: 0 <= i < |f.rows| ==> MillisCast(At(f, i, "timestamp")).Cast?
  {
    OhlcIndexes();
    var r := CastColumn(f, "timestamp", MillisCast);
    if forall i :: 0 <= i < |f.rows| ==> MillisCast(At(f, i, "timestamp")).Cast? {
      forall i | 0 <= i < |f.rows| ensures MillisCast(Cell(f.rows[i], 0)).Cast? {
        assert At(f, i, "timestamp") == Cell(f.rows[i], 0);
      }
    } else {
      var i :| 0 <= i < |f.rows| && !MillisCast(At(f, i, "timestamp")).Cast?;
      assert At(f, i, "timestamp") == Cell(f.rows[i], 0);
    }
  }

  /** Past the timestamps, the fetcher returns a table exactly when every
      open, high, low and close converts to float. */
  lemma OhlcSucceeds(body: Value, now: int, vs: string, id: string, f: Frame, t: Frame)
    requires Candles(body) == Success(f) && CastColumn(f, "timestamp", MillisCast) == Success(t)
    ensures OhlcProcess(body, now, vs, id).Success? <==>
              forall i, c :: 0 <= i < |f.rows| && c in OhlcPrices ==> FloatCast(At(f, i, c)).Cast?
  {
    ProcessOfStaged(body, now, vs, id, f, t);
    CandlesCastSucceed(f, t, now, vs, id);
  }

  lemma CandlesCastSucceed(f: Frame, t: Frame, now: int, vs: string, id: string)
    requires f.columns == OhlcColumns && WellFormed(f) && CastColumn(f, "timestamp", MillisCast) == Success(t)
    ensures CastAndRename(Prepend(t, ChartHeads(now, vs, id)), "timestamp", OhlcPrices, IdRename).Success? <==>
              forall i, c :: 0 <= i < |f.rows| && c in OhlcPrices ==> FloatCast(At(f, i, c)).Cast?
  {
    var s := Prepend(t, ChartHeads(now, vs, id));
    OhlcRequiredFacts();
    CastAndRenameSucceeds(s, "timestamp", OhlcPrices, IdRename);
    StagedPricesCast(f, t, now, vs, id);
  }

  lemma ProcessOfStaged(body: Value, now: int, vs: string, id: string, f: Frame, t: Frame)
    requires Candles(body) == Success(f) && CastColumn(f, "timestamp", MillisCast) == Success(t)
    ensures OhlcProcess(body, now, vs, id) == CastAndRename(Prepend(t, ChartHeads(now, vs, id)), "timestamp", OhlcPrices, IdRename)
  {
  }

  /** The float casts meet the candles' own prices. */
  lemma StagedPricesCast(f: Frame, t: Frame, now: int, vs: string, id: string)
    requires f.columns == OhlcColumns && WellFormed(f) && CastColumn(f, "timestamp", MillisCast) == Success(t)
    ensures var s := Prepend(t, ChartHeads(now, vs, id));
            (forall i, c :: 0 <= i < |s.rows| && c in OhlcPrices ==> FloatCast(At(s, i, c)).Cast?) <==>
            (forall i, c :: 0 <= i < |f.rows| && c in OhlcPrices ==> FloatCast(At(f, i, c)).Cast?)
  {
    StagedPrices(f, t, now, vs, id);
  }

  /** The staged table holds the candles' prices unchanged. */
  lemma StagedPrices(f: Frame, t: Frame, now: int, vs: string, id: string)
    requires f.columns == OhlcColumns && WellFormed(f) && CastColumn(f, "timestamp", MillisCast) == Success(t)
    ensures |Prepend(t, ChartHeads(now, vs, id)).rows| == |f.rows|
    ensures forall i, c :: 0 <= i < |f.rows| && c in OhlcPrices ==>
              c in f.columns && At(Prepend(t, ChartHeads(now, vs, id)), i, c) == At(f, i, c)
  {
    OhlcRequiredFacts();
    forall i, c | 0 <= i < |f.rows| && c in OhlcPrices
      ensures c in f.columns && At(Prepend(t, ChartHeads(now, vs, id)), i, c) == At(f, i, c)
    {
      TimedCells(f, t, i);
      Prepended(t, now, vs, id, i);
    }
  }

  /** Line 67's `.str.lower()` meets the coin id in every row, so it
      cannot raise there. */
  lemma OhlcIdText(body: Value, now: int, vs: string, id: string, f: Frame, t: Frame)
    requires Candles(body) == Success(f) && CastColumn(f, "timestamp", MillisCast) == Success(t)
    ensures "id" in Prepend(t, ChartHeads(now, vs, id)).columns
    ensures StrAccepts(ColumnOf(Prepend(t, ChartHeads(now, vs, id)), "id"))
  {
    OhlcRequiredFacts();
    PrependIdText(t, now, vs, id);
  }
}

=== FILE: pipeline.dfy ===
/** `cg_data_a_merge_init`: the market list, the trending list, the
    supplementary market fetch for trending coins outside the market list,
    the coin universe, the per-coin OHLC and market-chart loops, and the
    three left joins that record their provenance. The fetchers are
    parameters: the per-coin ones return a table or raise, the market and
    trending fetchers return a table. */
module Pipeline {
  import opened Wrappers
  import opened Values
  import opened Frames
  import opened Join
  import opened Fetch
  import Charts
  import Ohlc
  import Markets

  // ---------------------------------------------------------------- the OHLC window

  /** `max([num for num in options if num <= last])`, or `None` where
      `max` of the empty list raises. */
  function SnapDays(options: seq<int>, last: int): (r: Option<int>)
    ensures r.None? <==> forall o :: o in options ==> o > last
    ensures r.Some? ==> r.value in options && r.value <= last
    ensures r.Some? ==> forall o :: o in options && o <= last ==> o <= r.value
  {
    if |options| == 0 then None
    else
      var rest := SnapDays(options[1..], last);
      assert forall o :: o in options[1..] ==> o in options;
      assert forall o :: o in options ==> o == options[0] || o in options[1..];
      assert options[0] in options;
      if options[0] > last then rest
      else if rest.Some? && rest.value >= options[0] then rest
      else Some(options[0])
  }

  /** No allowed option lies strictly between the window and the request. */
  lemma SnapDaysTight(options: seq<int>, last: int, o: int)
    requires SnapDays(options, last).Some? && o in options
    ensures !(SnapDays(options, last).value < o <= last)
  {
  }

  /** The windows the OHLC endpoint accepts, in days. */
  const OhlcDays: seq<int> := [1, 7, 14, 30, 90, 180, 365]

  /** A request for 100 days is served from the 90-day window. */
  lemma SnapHundred()
    ensures SnapDays(OhlcDays, 100) == Some(90)
  {
    var r := SnapDays(OhlcDays, 100);
    assert 90 in OhlcDays;
    assert r.value in OhlcDays;
  }

  /** A request for no whole day has no window. */
  lemma SnapNone()
    ensures SnapDays(OhlcDays, 0) == None
  {
  }

  // ---------------------------------------------------------------- the fetch loop

  /** One fetcher call inside the loop's `try`: the table it returned, or
      an exception. */
  datatype Call = Gave(frame: Frame) | Raised

  /** The reference for `fetch_loop`'s `all_data`: the tables of the calls
      that returned, in coin order. */
  function Gathered<T>(coins: seq<T>, call: T -> Call): (r: seq<Frame>)
    ensures |r| <= |coins|
  {
    if |coins| == 0 then []
    else Gathered(coins[..|coins| - 1], call) + Outcome(call(coins[|coins| - 1]))
  }

  function Outcome(c: Call): (r: seq<Frame>)
    ensures c.Raised? <==> r == []
  {
    match c
    case Gave(f) => [f]
    case Raised => []
  }

  /** Gathering over two runs of coins is gathering each in turn. */
  lemma {:induction false} GatheredAppend<T>(a: seq<T>, b: seq<T>, call: T -> Call)
    ensures Gathered(a + b, call) == Gathered(a, call) + Gathered(b, call)
    decreases |b|
  {
    if |b| == 0 {
      assert a + b == a;
    } else {
      var b' := b[..|b| - 1];
      assert (a + b)[..|a + b| - 1] == a + b';
      assert (a + b)[|a + b| - 1] == b[|b| - 1];
      GatheredAppend(a, b', call);
    }
  }

  /** A coin whose call raises contributes nothing; one whose call
      returned contributes its table, even an empty one. */
  lemma GatheredOne<T>(coin: T, call: T -> Call)
    ensures Gathered([coin], call) == Outcome(call(coin))
  {
    assert [coin][..0] == [];
  }

  /** When every call raises, nothing is gathered. */
  lemma {:induction false} GatheredNone<T>(coins: seq<T>, call: T -> Call)
    requires forall k :: 0 <= k < |coins| ==> call(coins[k]).Raised?
    ensures Gathered(coins, call) == []
    decreases |coins|
  {
    if |coins| > 0 {
      GatheredNone(coins[..|coins| - 1], call);
    }
  }

  /** When every call returns, one table per coin is gathered, in order. */
  lemma {:induction false} GatheredAll<T>(coins: seq<T>, call: T -> Call)
    requires forall k :: 0 <= k < |coins| ==> call(coins[k]).Gave?
    ensures |Gathered(coins, call)| == |coins|
    ensures forall k :: 0 <= k < |coins| ==> Gathered(coins, call)[k] == call(coins[k]).frame
    decreases |coins|
  {
    if |coins| > 0 {
      GatheredAll(coins[..|coins| - 1], call);
    }
  }

  /** `fetch_loop`: every coin is tried in order; a call that returns is
      appended, counted and followed by a sleep, a call that raises is
      skipped without either. */
  method FetchLoop<T>(coins: seq<T>, call: T -> Call) returns (all: seq<Frame>, count: nat, slept: nat)
    ensures all == Gathered(coins, call)
    ensures count == |all| + 1 && slept == |all|
  {
    all, count, slept := [], 1, 0;
    var k := 0;
    while k < |coins|
      invariant 0 <= k <= |coins|
      invariant all == Gathered(coins[..k], call)
      invariant count == |all| + 1 && slept == |all|
    {
      GatheredStep(coins, call, k);
      match call(coins[k]) {
        case Gave(f) =>
          all := all + [f];
          count := count + 1;
          slept := slept + 1;
        case Raised =>
      }
      k := k + 1;
    }
    assert coins[..|coins|] == coins;
  }

  /** One more coin adds its outcome to what was gathered. */
  lemma GatheredStep<T>(coins: seq<T>, call: T -> Call, k: nat)
    requires k < |coins|
    ensures Gathered(coins[..k + 1], call) == Gathered(coins[..k], call) + Outcome(call(coins[k]))
  {
    assert coins[..k + 1][..k] == coins[..k];
  }

  /** `pd.concat(all_data, ignore_index=True)` after the loop: it raises
      when no call returned, since nothing guards the empty list. */
  function LoopTable<T>(coins: seq<T>, call: T -> Call): (r: Result<Frame, FrameError>)
    ensures r.Failure? <==> Gathered(coins, call) == []
    ensures r.Success? ==> |r.value.rows| == TotalRows(Gathered(coins, call))
  {
    var all := Gathered(coins, call);
    if |all| == 0 then Concat(all)
    else ConcatRowCount(all); Concat(all)
  }

  /** The OHLC call for one coin: the window is computed inside the `try`,
      so an empty choice raises for that coin. */
  function OhlcCall(options: seq<int>, last: int, ohlc: (Value, int) -> Call): Value -> Call {
    coin => match SnapDays(options, last)
            case None => Raised
            case Some(d) => ohlc(coin, d)
  }

  /** With no window at or below the request, every coin is skipped and
      the concatenation raises. */
  lemma NoWindowRaises(options: seq<int>, last: int, ohlc: (Value, int) -> Call, coins: seq<Value>)
    requires forall o :: o in options ==> o > last
    ensures Gathered(coins, OhlcCall(options, last, ohlc)) == []
    ensures LoopTable(coins, OhlcCall(options, last, ohlc)).Failure?
  {
    assert SnapDays(options, last).None?;
    forall k | 0 <= k < |coins| ensures OhlcCall(options, last, ohlc)(coins[k]).Raised? {
    }
    GatheredNone(coins, OhlcCall(options, last, ohlc));
  }

  /** Otherwise every coin is asked for the same snapped window. */
  lemma WindowPerCoin(options: seq<int>, last: int, ohlc: (Value, int) -> Call, coin: Value)
    requires exists o :: o in options && o <= last
    ensures SnapDays(options, last).Some?
    ensures OhlcCall(options, last, ohlc)(coin) == ohlc(coin, SnapDays(options, last).value)
  {
  }

  // ---------------------------------------------------------------- the coin universe

  /** `unique().tolist()`: each value once, in order of first appearance. */
  function Unique<T(==,!new)>(s: seq<T>): (r: seq<T>)
    ensures Distinct(r)
    ensures forall x :: x in r <==> x in s
    ensures |r| <= |s|
  {
    if |s| == 0 then []
    else
      var u := Unique(s[..|s| - 1]);
      assert forall x :: x in s <==> x in s[..|s| - 1] || x == s[|s| - 1];
      if s[|s| - 1] in u then u else u + [s[|s| - 1]]
  }

  /** The position of the first occurrence of `x`. */
  function First<T(==,!new)>(s: seq<T>, x: T): (k: nat)
    requires x in s
    ensures k < |s| && s[k] == x && forall j :: 0 <= j < k ==> s[j] != x
  {
    if s[0] == x then 0 else 1 + First(s[1..], x)
  }

  lemma FirstPrefix<T(!new)>(s: seq<T>, n: nat, x: T)
    requires n <= |s| && x in s[..n]
    ensures x in s && First(s, x) == First(s[..n], x)
  {
    var k := First(s[..n], x);
    var f := First(s, x);
    assert s[k] == s[..n][k];
    assert f <= k;
    assert s[..n][f] == s[f];
  }

  /** `Unique` keeps the order of first appearance: of two values, the one
      seen first in `s` comes first. */
  lemma {:induction false} UniqueOrder<T(!new)>(s: seq<T>, i: nat, j: nat)
    requires i < j < |Unique(s)|
    ensures First(s, Unique(s)[i]) < First(s, Unique(s)[j])
    decreases |s|
  {
    var init := s[..|s| - 1];
    var u := Unique(init);
    var x := s[|s| - 1];
    if j < |u| {
      assert Unique(s)[i] == u[i] && Unique(s)[j] == u[j];
      UniqueOrder(init, i, j);
      FirstPrefix(s, |s| - 1, u[i]);
      FirstPrefix(s, |s| - 1, u[j]);
    } else {
      assert x !in u && Unique(s)[j] == x;
      assert Unique(s)[i] == u[i] && u[i] in init;
      FirstPrefix(s, |s| - 1, u[i]);
      assert x !in init;
      assert First(s, x) == |s| - 1;
    }
  }

  /** The values seen in `a` come first, in their own order: `Unique(a)`
      is a prefix of `Unique(a + b)`. */
  lemma {:induction false} UniquePrefix<T(!new)>(a: seq<T>, b: seq<T>)
    ensures Unique(a) <= Unique(a + b)
    decreases |b|
  {
    if |b| == 0 {
      assert a + b == a;
    } else {
      var b' := b[..|b| - 1];
      assert (a + b)[..|a + b| - 1] == a + b';
      UniquePrefix(a, b');
    }
  }

  /** A duplicate-free list is its own `Unique`. */
  lemma {:induction false} UniqueDistinct<T(!new)>(s: seq<T>)
    requires Distinct(s)
    ensures Unique(s) == s
    decreases |s|
  {
    if |s| > 0 {
      var init := s[..|s| - 1];
      assert Distinct(init);
      UniqueDistinct(init);
      assert s[|s| - 1] !in init;
      assert s == init + [s[|s| - 1]];
    }
  }

  /** `[id for id in xs if id not in ys]`. */
  function Outside<T(==,!new)>(xs: seq<T>, ys: seq<T>): (r: seq<T>)
    ensures forall x :: x in r <==> x in xs && x !in ys
    ensures |r| <= |xs|
  {
    if |xs| == 0 then []
    else
      var rest := Outside(xs[..|xs| - 1], ys);
      var x := xs[|xs| - 1];
      assert forall z :: z in xs <==> z in xs[..|xs| - 1] || z == x;
      if x in ys then rest else rest + [x]
  }

  /** The gap keeps the order of `xs`: filtering two runs is filtering each. */
  lemma {:induction false} OutsideAppend<T(!new)>(a: seq<T>, b: seq<T>, ys: seq<T>)
    ensures Outside(a + b, ys) == Outside(a, ys) + Outside(b, ys)
    decreases |b|
  {
    if |b| == 0 {
      assert a + b == a;
    } else {
      var b' := b[..|b| - 1];
      assert (a + b)[..|a + b| - 1] == a + b';
      assert (a + b)[|a + b| - 1] == b[|b| - 1];
      OutsideAppend(a, b', ys);
    }
  }

  /** The gap of a duplicate-free list is duplicate-free. */
  lemma {:induction false} OutsideDistinct<T(!new)>(xs: seq<T>, ys: seq<T>)
    requires Distinct(xs)
    ensures Distinct(Outside(xs, ys))
    decreases |xs|
  {
    if |xs| > 0 {
      var init := xs[..|xs| - 1];
      assert Distinct(init);
      OutsideDistinct(init, ys);
      assert xs[|xs| - 1] !in init;
    }
  }

  /** The column `c` of `f` as a concatenation sees it: missing in every
      row when `f` has no such column. */
  function Padded(f: Frame, c: string): (r: seq<Value>)
    ensures |r| == |f.rows|
    ensures c !in f.columns ==> forall i :: 0 <= i < |r| ==> r[i] == VNull
  {
    match Column(f, c)
    case Success(col) => col
    case Failure(_) => seq(|f.rows|, _ => VNull)
  }

  /** The column of a two-frame concatenation: the first frame's cells,
      then the second's, missing where it has no such column. */
  lemma ConcatTwoColumn(a: Frame, b: Frame, c: string)
    requires c in a.columns
    ensures Concat([a, b]).Success? && Column(Concat([a, b]).value, c).Success?
    ensures Column(Concat([a, b]).value, c).value == Column(a, c).value + Padded(b, c)
  {
    var cols := UnionColumns([a, b]);
    var rows := AlignRows(a, cols) + AlignRows(b, cols);
    ConcatTwo(a, b);
    assert [a, b][0] == a;
    assert c in cols;
    var j := IndexOf(cols, c).value;
    var col := Column(Frame(cols, rows), c).value;
    var want := Column(a, c).value + Padded(b, c);
    forall i | 0 <= i < |col| ensures col[i] == want[i] {
      ConcatTwoCell(a, b, c, cols, j, i);
    }
  }

  lemma ConcatTwo(a: Frame, b: Frame)
    ensures Concat([a, b]) == Success(Frame(UnionColumns([a, b]),
              AlignRows(a, UnionColumns([a, b])) + AlignRows(b, UnionColumns([a, b]))))
  {
    var cols := UnionColumns([a, b]);
    assert [a, b][..1] == [a] && [a][..0] == [];
    assert StackRows([a], cols) == AlignRows(a, cols);
  }

  lemma ConcatTwoCell(a: Frame, b: Frame, c: string, cols: seq<string>, j: nat, i: nat)
    requires c in a.columns && IndexOf(cols, c) == Some(j)
    requires i < |a.rows| + |b.rows|
    ensures Cell((AlignRows(a, cols) + AlignRows(b, cols))[i], j) == (Column(a, c).value + Padded(b, c))[i]
  {
    if i < |a.rows| {
      assert (AlignRows(a, cols) + AlignRows(b, cols))[i] == AlignRow(a, a.rows[i], cols);
    } else {
      assert (AlignRows(a, cols) + AlignRows(b, cols))[i] == AlignRow(b, b.rows[i - |a.rows|], cols);
    }
  }

  /** `df['coin_id'].unique().tolist()`. */
  function CoinIds(f: Frame): (r: Result<seq<Value>, FrameError>)
    ensures r.Success? <==> "coin_id" in f.columns
    ensures r.Success? ==> Distinct(r.value) && forall x :: x in r.value <==> x in Column(f, "coin_id").value
  {
    var col :- Column(f, "coin_id");
    Success(Unique(col))
  }

  /** The coin universe: the market ids first, in their order, then the
      ids new in the supplementary rows; every market id is in it, and it
      holds each id once. */
  lemma CoinList(markets: Frame, extra: Frame)
    requires "coin_id" in markets.columns
    ensures Concat([markets, extra]).Success? && CoinIds(Concat([markets, extra]).value).Success?
    ensures CoinIds(markets).value <= CoinIds(Concat([markets, extra]).value).value
    ensures Distinct(CoinIds(Concat([markets, extra]).value).value)
  {
    ConcatTwoColumn(markets, extra, "coin_id");
    var a := Column(markets, "coin_id").value;
    var b := Padded(extra, "coin_id");
    UniquePrefix(a, b);
  }

  // ---------------------------------------------------------------- tagged joins

  /** `pd.merge(left, right, on=on, how='left', indicator=True)` with
      `_merge` renamed to `status`. */
  function Tagged(left: Frame, right: Frame, on: seq<string>, status: string): (r: Result<Frame, FrameError>)
    ensures r.Success? <==> MergeLeft(left, right, on).Success?
    ensures r.Failure? ==> r.error == MergeLeft(left, right, on).error
  {
    var m :- MergeLeft(left, right, on);
    Success(Rename(m, map[Indicator := status]))
  }

  /** The key cells of a row of `f` that a merge on `on` compares. */
  function KeyOf(f: Frame, on: seq<string>): Row -> Row
    requires forall k :: 0 <= k < |on| ==> on[k] in f.columns
  {
    (row: Row) => Pick(row, KeyPositions(f.columns, on))
  }

  /** Some row of `right` has the key cells of `lrow`, a row of `left`. */
  predicate KeyMatched(left: Frame, right: Frame, on: seq<string>, lrow: Row)
    requires forall k :: 0 <= k < |on| ==> on[k] in left.columns && on[k] in right.columns
  {
    exists x :: x in right.rows && Pick(x, KeyPositions(right.columns, on)) == Pick(lrow, KeyPositions(left.columns, on))
  }

  /** A tagged left join keeps every left row, in order, each repeated
      max(1, number of matches) times, and nothing else. */
  lemma TaggedRows(left: Frame, right: Frame, on: seq<string>, status: string)
    requires Tagged(left, right, on, status).Success?
    ensures var out := Tagged(left, right, on, status).value;
            var ps := MergePairs(left, right, on);
            |out.rows| == |ps| == Sum(Fanout(left.rows, right.rows, KeyOf(left, on), KeyOf(right, on)))
            && Lefts(ps) == Repeat(left.rows, Fanout(left.rows, right.rows, KeyOf(left, on), KeyOf(right, on)))
  {
    LeftJoinSize(left.rows, right.rows, KeyOf(left, on), KeyOf(right, on));
    LeftJoinKeepsLeft(left.rows, right.rows, KeyOf(left, on), KeyOf(right, on));
  }

  /** The status of an output row is `left_only` exactly when no right row
      has its left row's key cells, and `both` otherwise. */
  lemma TaggedStatus(left: Frame, right: Frame, on: seq<string>, status: string, p: nat)
    requires Tagged(left, right, on, status).Success?
    requires FreshStatus(left, right, status)
    requires p < |Tagged(left, right, on, status).value.rows|
    ensures var out := Tagged(left, right, on, status).value;
            var lrow := MergePairs(left, right, on)[p].left;
            status in out.columns
            && (At(out, p, status) == VStr(Both) <==> KeyMatched(left, right, on, lrow))
            && (At(out, p, status) == VStr(LeftOnly) <==> !KeyMatched(left, right, on, lrow))
  {
    var m := MergeLeft(left, right, on).value;
    var out := Tagged(left, right, on, status).value;
    assert out == Rename(m, map[Indicator := status]);
    StatusLast(left, right, on, status, m);
    MergeStatus(left, right, on, p);
    var row := m.rows[p];
    assert At(out, p, status) == row[|row| - 1];
    assert row[|row| - 1] == VStr(Both) || row[|row| - 1] == VStr(LeftOnly);
  }

  /** A status label no merged column can already carry: new to both
      sides, not `_merge`, and not ending in a suffix letter. */
  predicate FreshStatus(left: Frame, right: Frame, status: string) {
    status !in left.columns && status !in right.columns && status != Indicator
    && |status| > 0 && status[|status| - 1] != 'x' && status[|status| - 1] != 'y'
  }

  /** The renamed indicator is the last column, and the only one so
      labelled. */
  lemma StatusLast(left: Frame, right: Frame, on: seq<string>, status: string, m: Frame)
    requires MergeLeft(left, right, on) == Success(m)
    requires FreshStatus(left, right, status)
    ensures var out := Rename(m, map[Indicator := status]);
            status in out.columns && out.rows == m.rows
            && IndexOf(out.columns, status) == Some(|m.columns| - 1)
  {
    StatusColumns(left, right, on, status, m);
  }

  lemma StatusColumns(left: Frame, right: Frame, on: seq<string>, status: string, m: Frame)
    requires m.columns == MergedColumns(left, right, on)
    requires FreshStatus(left, right, status) && Indicator !in left.columns && Indicator !in right.columns
    ensures var out := Rename(m, map[Indicator := status]);
            status in out.columns && out.rows == m.rows
            && IndexOf(out.columns, status) == Some(|m.columns| - 1)
  {
    var cols := MergedColumns(left, right, on);
    var n := |cols|;
    assert cols[n - 1] == Indicator;
    forall j | 0 <= j < n - 1 ensures Relabel(map[Indicator := status], cols[j]) != status {
      LabelNotStatus(left, right, on, status, j);
    }
    RenamedLast(m, status);
  }

  /** Renaming the last label, which no other label renames onto, makes the
      new label the last column's alone. */
  lemma RenamedLast(m: Frame, status: string)
    requires |m.columns| > 0 && m.columns[|m.columns| - 1] == Indicator
    requires forall j :: 0 <= j < |m.columns| - 1 ==> Relabel(map[Indicator := status], m.columns[j]) != status
    ensures var out := Rename(m, map[Indicator := status]);
            status in out.columns && out.rows == m.rows
            && IndexOf(out.columns, status) == Some(|m.columns| - 1)
  {
    var out := Rename(m, map[Indicator := status]);
    OnlyLast(out.columns, status);
  }

  lemma OnlyLast(cols: seq<string>, c: string)
    requires |cols| > 0 && cols[|cols| - 1] == c
    requires forall j :: 0 <= j < |cols| - 1 ==> cols[j] != c
    ensures c in cols && IndexOf(cols, c) == Some(|cols| - 1)
  {
  }

  lemma LabelNotStatus(left: Frame, right: Frame, on: seq<string>, status: string, j: nat)
    requires FreshStatus(left, right, status)
    requires Indicator !in left.columns && Indicator !in right.columns
    requires j < |MergedColumns(left, right, on)| - 1
    ensures Relabel(map[Indicator := status], MergedColumns(left, right, on)[j]) != status
  {
    var rk := KeptPositions(right.columns, on);
    var c := MergedColumns(left, right, on)[j];
    assert Indicator[|Indicator| - 1] == 'e';
    if j < |left.columns| {
      var l := left.columns[j];
      assert c == LeftLabel(right, on, l);
      if c == l + "_x" {
        assert c[|c| - 1] == 'x';
      }
      assert c != Indicator && c != status;
    } else {
      var r := right.columns[rk[j - |left.columns|]];
      assert c == RightLabel(left, r);
      if c == r + "_y" {
        assert c[|c| - 1] == 'y';
      }
      assert c != Indicator && c != status;
    }
  }

  /** Each of `s`'s counts is at least one, so they sum to at least its
      length. */
  lemma {:induction false} SumAtLeast(s: seq<nat>)
    requires forall i :: 0 <= i < |s| ==> s[i] >= 1
    ensures Sum(s) >= |s|
  {
    if |s| > 0 {
      SumAtLeast(s[..|s| - 1]);
    }
  }

  /** Repeating each row at least once loses none of them. */
  lemma {:induction false} RepeatKeeps<L>(left: seq<L>, counts: seq<nat>, i: nat)
    requires |counts| == |left| && i < |left|
    requires forall k :: 0 <= k < |counts| ==> counts[k] >= 1
    ensures left[i] in Repeat(left, counts)
    decreases |left|
  {
    var n := |left| - 1;
    var tail := seq(counts[n], _ => left[n]);
    assert Repeat(left, counts) == Repeat(left[..n], counts[..n]) + tail;
    if i == n {
      assert tail[0] == left[n];
    } else {
      RepeatKeeps(left[..n], counts[..n], i);
      assert left[..n][i] == left[i];
    }
  }

  /** No left row is lost: the output has at least as many rows as the
      left table, and every left row is the left part of one of them. */
  lemma TaggedKeepsLeft(left: Frame, right: Frame, on: seq<string>, status: string)
    requires Tagged(left, right, on, status).Success?
    ensures |Tagged(left, right, on, status).value.rows| >= |left.rows|
    ensures forall i :: 0 <= i < |left.rows| ==> left.rows[i] in Lefts(MergePairs(left, right, on))
  {
    var counts := Fanout(left.rows, right.rows, KeyOf(left, on), KeyOf(right, on));
    TaggedRows(left, right, on, status);
    SumAtLeast(counts);
    forall i | 0 <= i < |left.rows| ensures left.rows[i] in Lefts(MergePairs(left, right, on)) {
      RepeatKeeps(left.rows, counts, i);
    }
  }

  /** Whatever the other labels, the renamed indicator is present. */
  lemma StatusPresent(left: Frame, right: Frame, on: seq<string>, status: string, m: Frame)
    requires MergeLeft(left, right, on) == Success(m)
    ensures status in Rename(m, map[Indicator := status]).columns
  {
    var n := |m.columns|;
    assert m.columns[n - 1] == Indicator;
    assert Rename(m, map[Indicator := status]).columns[n - 1] == status;
  }

  // ---------------------------------------------------------------- join 1: markets and trending

  /** The trending labels dropped before the first join. */
  const TrendingDrops: seq<string> := ["coin_symbol", "coin_name"]

  const Key: seq<string> := ["coin_id"]

  /** Lines 106-108: the market table left-joined with the trending table
      on `coin_id`, the indicator renamed `merge_status_1`, and
      `trending_flag` set to 1 on `both` rows and 0 otherwise. */
  function TrendingMerge(all: Frame, drop: Frame): (r: Result<Frame, FrameError>)
    ensures r.Success? <==> MergeLeft(all, drop, Key).Success?
  {
    var m :- Tagged(all, drop, Key, "merge_status_1");
    StatusPresent(all, drop, Key, "merge_status_1", MergeLeft(all, drop, Key).value);
    FlagBoth(m, "merge_status_1", "trending_flag")
  }

  /** The flag of an output row is 1 exactly when its market row's coin
      appears among the trending rows, and 0 exactly when it does not. */
  lemma TrendingFlag(all: Frame, drop: Frame, p: nat)
    requires TrendingMerge(all, drop).Success?
    requires FreshStatus(all, drop, "merge_status_1")
    requires p < |TrendingMerge(all, drop).value.rows|
    ensures var out := TrendingMerge(all, drop).value;
            var lrow := MergePairs(all, drop, Key)[p].left;
            "trending_flag" in out.columns
            && (At(out, p, "trending_flag") == VInt(1) <==> KeyMatched(all, drop, Key, lrow))
            && (At(out, p, "trending_flag") == VInt(0) <==> !KeyMatched(all, drop, Key, lrow))
  {
    var m := Tagged(all, drop, Key, "merge_status_1").value;
    TaggedStatus(all, drop, Key, "merge_status_1", p);
    assert At(m, p, "merge_status_1") == Cell(m.rows[p], IndexOf(m.columns, "merge_status_1").value);
  }

  /** Every market row survives the first join, at least once. */
  lemma TrendingKeepsMarkets(all: Frame, drop: Frame)
    requires TrendingMerge(all, drop).Success?
    ensures |TrendingMerge(all, drop).value.rows| >= |all.rows|
    ensures forall i :: 0 <= i < |all.rows| ==> all.rows[i] in Lefts(MergePairs(all, drop, Key))
  {
    TaggedKeepsLeft(all, drop, Key, "merge_status_1");
  }

  // ---------------------------------------------------------------- join 2: chart and candles

  const ChartKeys: seq<string> := ["coin_id", "date"]

  /** Line 111 as written: the chart table joined with the candle table on
      `coin_id` and `date`. */
  function Join2AsWritten(chart: Frame, ohlc: Frame): (r: Result<Frame, FrameError>)
    ensures r.Failure? && ("coin_id" !in chart.columns || "date" !in ohlc.columns) ==> r.error.KeyNotFound?
  {
    Tagged(chart, ohlc, ChartKeys, "merge_status_2")
  }

  /** The labels that carry the same meaning under the names the join
      uses: the chart table's coin is `id`, the candle table's time is
      `timestamp`. */
  const ChartIdRename: map<string, string> := map["id" := "coin_id"]
  const CandleTimeRename: map<string, string> := map["timestamp" := "date"]

  /** The join the line evidently intends: the chart rows matched with the
      candles of the same coin at the same time. */
  function Join2(chart: Frame, ohlc: Frame): (r: Result<Frame, FrameError>)
    ensures r.Success? <==> MergeLeft(Rename(chart, ChartIdRename), Rename(ohlc, CandleTimeRename), ChartKeys).Success?
  {
    Tagged(Rename(chart, ChartIdRename), Rename(ohlc, CandleTimeRename), ChartKeys, "merge_status_2")
  }

  /** The as-written join raises whenever a key is missing on its side. */
  lemma Join2AsWrittenFails(chart: Frame, ohlc: Frame)
    requires "coin_id" !in chart.columns || "date" !in ohlc.columns
    ensures Join2AsWritten(chart, ohlc).Failure? && Join2AsWritten(chart, ohlc).error.KeyNotFound?
  {
    assert "coin_id" in ChartKeys && "date" in ChartKeys;
  }

  /** The chart table under the join's names has both keys. */
  lemma ChartRenamed(chart: Frame)
    requires chart.columns == Charts.ChartRequired
    ensures var c := Rename(chart, ChartIdRename);
            "coin_id" in c.columns && "date" in c.columns && Indicator !in c.columns
  {
    var c := Rename(chart, ChartIdRename);
    assert Indicator !in Charts.ChartRequired;
    assert c.columns[2] == "coin_id" && c.columns[3] == "date";
    forall j | 0 <= j < |c.columns| ensures c.columns[j] != Indicator {
      assert chart.columns[j] in Charts.ChartRequired;
    }
  }

  /** The candle table under the join's names has both keys. */
  lemma CandlesRenamed(ohlc: Frame)
    requires ohlc.columns == Ohlc.OhlcLabels
    ensures var o := Rename(ohlc, CandleTimeRename);
            "coin_id" in o.columns && "date" in o.columns && Indicator !in o.columns
  {
    var o := Rename(ohlc, CandleTimeRename);
    assert Indicator !in Ohlc.OhlcLabels;
    assert o.columns[2] == "coin_id" && o.columns[3] == "date";
    forall j | 0 <= j < |o.columns| ensures o.columns[j] != Indicator {
      assert ohlc.columns[j] in Ohlc.OhlcLabels;
    }
  }

  /** On the two shapes the fetchers produce, the as-written join raises
      and the corrected one succeeds. */
  lemma Join2Shapes(chart: Frame, ohlc: Frame)
    requires chart.columns == Charts.ChartRequired && ohlc.columns == Ohlc.OhlcLabels
    ensures Join2AsWritten(chart, ohlc).Failure?
    ensures Join2(chart, ohlc).Success?
  {
    assert "coin_id" !in Charts.ChartRequired;
    Join2AsWrittenFails(chart, ohlc);
    ChartRenamed(chart);
    CandlesRenamed(ohlc);
    var c := Rename(chart, ChartIdRename);
    var o := Rename(ohlc, CandleTimeRename);
    assert forall k :: k in ChartKeys ==> k in c.columns && k in o.columns;
  }

  /** The corrected join keeps every chart row. */
  lemma Join2Keeps(chart: Frame, ohlc: Frame)
    requires Join2(chart, ohlc).Success?
    ensures |Join2(chart, ohlc).value.rows| >= |chart.rows|
  {
    TaggedKeepsLeft(Rename(chart, ChartIdRename), Rename(ohlc, CandleTimeRename), ChartKeys, "merge_status_2");
  }

  // ---------------------------------------------------------------- the root fetchers in the loops

  /** The top-level chart fetcher as the loop calls it, with the text of
      each coin id and the response it receives as parameters. It catches
      every failure, so it never raises. */
  function RootChartCall(now: int, vs: string, name: Value -> string, resp: Value -> Response): Value -> Call {
    coin => Gave(Charts.LegacyChart(now, vs, name(coin), resp(coin)))
  }

  /** The OHLC fetcher as the loop calls it. */
  function RootOhlcCall(now: int, vs: string, name: Value -> string, resp: (Value, int) -> Response): (Value, int) -> Call {
    (coin, d) => Gave(Ohlc.OhlcChart(now, vs, name(coin), resp(coin, d)))
  }

  /** The top-level chart fetcher never returns a `coin_id` column. */
  lemma ChartNeverKeyed(now: int, vs: string, id: string, resp: Response)
    ensures "coin_id" !in Charts.LegacyChart(now, vs, id, resp).columns
  {
    match resp
    case RequestFailed =>
    case Payload(body) =>
      Charts.LegacyChartFails(body, now, vs, id);
      if Charts.Zip(body).Success? {
        Charts.LegacyChartRows(body, now, vs, id, Charts.Zip(body).value, Charts.LegacyChart(now, vs, id, resp));
      }
  }

  /** The OHLC fetcher never returns a `date` column. */
  lemma CandlesNeverDated(now: int, vs: string, id: string, resp: Response)
    ensures "date" !in Ohlc.OhlcChart(now, vs, id, resp).columns
  {
    match resp
    case RequestFailed =>
    case Payload(body) =>
      if Ohlc.OhlcProcess(body, now, vs, id).Success? {
        Ohlc.OhlcRows(body, now, vs, id, Ohlc.OhlcProcess(body, now, vs, id).value);
      }
  }

  /** Every gathered table is one some coin's call returned. */
  lemma {:induction false} GatheredFrom<T>(coins: seq<T>, call: T -> Call, k: nat)
    requires k < |Gathered(coins, call)|
    ensures exists j :: 0 <= j < |coins| && call(coins[j]) == Gave(Gathered(coins, call)[k])
    decreases |coins|
  {
    var init := coins[..|coins| - 1];
    if k < |Gathered(init, call)| {
      GatheredFrom(init, call, k);
      var j :| 0 <= j < |init| && call(init[j]) == Gave(Gathered(init, call)[k]);
      assert coins[j] == init[j];
    } else {
      assert call(coins[|coins| - 1]) == Gave(Gathered(coins, call)[k]);
    }
  }

  /** A label no returned table carries is missing from the loop's table. */
  lemma LoopLacks<T>(coins: seq<T>, call: T -> Call, c: string)
    requires forall j :: 0 <= j < |coins| && call(coins[j]).Gave? ==> c !in call(coins[j]).frame.columns
    requires LoopTable(coins, call).Success?
    ensures c !in LoopTable(coins, call).value.columns
  {
    var all := Gathered(coins, call);
    forall k | 0 <= k < |all| ensures c !in all[k].columns {
      GatheredFrom(coins, call, k);
    }
  }

  // ---------------------------------------------------------------- the run

  /** The fetchers the run calls: the market list for an optional id list,
      the trending table, and the two per-coin fetchers. */
  datatype Fetchers = Fetchers(
    markets: Option<seq<Value>> -> Frame,
    trending: Frame,
    ohlc: (Value, int) -> Call,
    chart: Value -> Call)

  /** The tables of lines 64-84. */
  datatype Universe = Universe(
    markets: Frame, trending: Frame, drop: Frame, gap: seq<Value>, all: Frame, coins: seq<Value>)

  /** Lines 64-84: the market list, the trending table without its symbol
      and name, the gap, the supplementary market fetch (always made, even
      for an empty gap) and the coin universe. */
  function Resolve(fx: Fetchers): (r: Result<Universe, FrameError>)
    ensures r.Success? ==> r.value.markets == fx.markets(None) && r.value.trending == fx.trending
  {
    var dfm := fx.markets(None);
    var marketIds :- CoinIds(dfm);
    var trendingIds :- CoinIds(fx.trending);
    var drop :- DropStrict(fx.trending, TrendingDrops);
    var gap := Outside(trendingIds, marketIds);
    var all := Concat([dfm, fx.markets(Some(gap))]).value;
    var coins :- CoinIds(all);
    Success(Universe(dfm, fx.trending, drop, gap, all, coins))
  }

  /** The coin universe: the gap is the trending ids outside the market
      ids, duplicate-free; the universe lists the market ids first and
      holds every coin once; the trending table keeps its key. */
  lemma Resolved(fx: Fetchers, u: Universe)
    requires Resolve(fx) == Success(u)
    ensures CoinIds(u.markets).Success? && CoinIds(u.trending).Success?
    ensures u.gap == Outside(CoinIds(u.trending).value, CoinIds(u.markets).value)
    ensures Distinct(u.gap) && Distinct(u.coins)
    ensures forall x :: x in u.gap <==> x in CoinIds(u.trending).value && x !in CoinIds(u.markets).value
    ensures u.all == Concat([u.markets, fx.markets(Some(u.gap))]).value
    ensures CoinIds(u.markets).value <= u.coins
    ensures "coin_id" in u.drop.columns && "coin_symbol" !in u.drop.columns && "coin_name" !in u.drop.columns
  {
    OutsideDistinct(CoinIds(u.trending).value, CoinIds(u.markets).value);
    CoinList(u.markets, fx.markets(Some(u.gap)));
  }

  /** The tables of lines 64-97. */
  datatype Collected = Collected(universe: Universe, ohlc: Frame, chart: Frame)

  /** Lines 64-97: the universe, then the OHLC loop and the chart loop over
      its coins. */
  function Collect(fx: Fetchers, options: seq<int>, last: int): (r: Result<Collected, FrameError>)
    ensures r.Success? ==> Resolve(fx) == Success(r.value.universe)
  {
    var u :- Resolve(fx);
    var ohlc :- LoopTable(u.coins, OhlcCall(options, last, fx.ohlc));
    var chart :- LoopTable(u.coins, fx.chart);
    Success(Collected(u, ohlc, chart))
  }

  /** The loops run over the universe and hold the tables of the calls
      that returned, in coin order. */
  lemma LoopsOverUniverse(fx: Fetchers, options: seq<int>, last: int, c: Collected)
    requires Collect(fx, options, last) == Success(c)
    ensures Gathered(c.universe.coins, OhlcCall(options, last, fx.ohlc)) != []
    ensures Gathered(c.universe.coins, fx.chart) != []
    ensures c.ohlc == Concat(Gathered(c.universe.coins, OhlcCall(options, last, fx.ohlc))).value
    ensures c.chart == Concat(Gathered(c.universe.coins, fx.chart)).value
  {
  }

  /** The tables the run ends with. */
  datatype Tables = Tables(collected: Collected, merged: Frame, charted: Frame, final: Frame)

  /** Lines 64-116 with the second join as written. */
  function MergeInitAsWritten(fx: Fetchers, options: seq<int>, last: int): (r: Result<Tables, FrameError>)
    ensures r.Success? ==> Collect(fx, options, last) == Success(r.value.collected)
  {
    var c :- Collect(fx, options, last);
    var m1 :- TrendingMerge(c.universe.all, c.universe.drop);
    var m2 :- Join2AsWritten(c.chart, c.ohlc);
    var fin :- Tagged(m2, m1, Key, "merge_status_3");
    Success(Tables(c, m1, m2, fin))
  }

  /** Lines 64-116 with the corrected second join. */
  function MergeInit(fx: Fetchers, options: seq<int>, last: int): (r: Result<Tables, FrameError>)
    ensures r.Success? ==> Collect(fx, options, last) == Success(r.value.collected)
  {
    var c :- Collect(fx, options, last);
    var m1 :- TrendingMerge(c.universe.all, c.universe.drop);
    var m2 :- Join2(c.chart, c.ohlc);
    var fin :- Tagged(m2, m1, Key, "merge_status_3");
    Success(Tables(c, m1, m2, fin))
  }

  /** The three joins of a successful run, one after the other. */
  lemma MergeInitSteps(fx: Fetchers, options: seq<int>, last: int, t: Tables)
    requires MergeInit(fx, options, last) == Success(t)
    ensures TrendingMerge(t.collected.universe.all, t.collected.universe.drop) == Success(t.merged)
    ensures Join2(t.collected.chart, t.collected.ohlc) == Success(t.charted)
    ensures Tagged(t.charted, t.merged, Key, "merge_status_3") == Success(t.final)
  {
  }

  /** With the top-level chart fetcher in the loop, the as-written run
      raises whatever the market, trending, OHLC and chart responses are. */
  lemma RootChartRunFails(markets: Option<seq<Value>> -> Frame, trending: Frame, ohlc: (Value, int) -> Call,
                          options: seq<int>, last: int, now: int, vs: string, name: Value -> string, resp: Value -> Response)
    ensures MergeInitAsWritten(Fetchers(markets, trending, ohlc, RootChartCall(now, vs, name, resp)), options, last).Failure?
  {
    var fx := Fetchers(markets, trending, ohlc, RootChartCall(now, vs, name, resp));
    var r := Collect(fx, options, last);
    if r.Success? {
      var c := r.value;
      var coins := c.universe.coins;
      forall j | 0 <= j < |coins| ensures "coin_id" !in fx.chart(coins[j]).frame.columns {
        ChartNeverKeyed(now, vs, name(coins[j]), resp(coins[j]));
      }
      LoopLacks(coins, fx.chart, "coin_id");
      Join2AsWrittenFails(c.chart, c.ohlc);
    }
  }

  /** With the OHLC fetcher in the loop, the as-written run raises whatever
      the responses are. */
  lemma RootOhlcRunFails(markets: Option<seq<Value>> -> Frame, trending: Frame, chart: Value -> Call,
                         options: seq<int>, last: int, now: int, vs: string, name: Value -> string,
                         resp: (Value, int) -> Response)
    ensures MergeInitAsWritten(Fetchers(markets, trending, RootOhlcCall(now, vs, name, resp), chart), options, last).Failure?
  {
    var fx := Fetchers(markets, trending, RootOhlcCall(now, vs, name, resp), chart);
    var r := Collect(fx, options, last);
    if r.Success? {
      var c := r.value;
      var coins := c.universe.coins;
      var call := OhlcCall(options, last, fx.ohlc);
      forall j | 0 <= j < |coins| && call(coins[j]).Gave? ensures "date" !in call(coins[j]).frame.columns {
        OhlcCallUndated(options, last, now, vs, name, resp, coins[j]);
      }
      LoopLacks(coins, call, "date");
      Join2AsWrittenFails(c.chart, c.ohlc);
    }
  }

  lemma OhlcCallUndated(options: seq<int>, last: int, now: int, vs: string, name: Value -> string,
                        resp: (Value, int) -> Response, coin: Value)
    ensures var call := OhlcCall(options, last, RootOhlcCall(now, vs, name, resp));
            call(coin).Gave? ==> "date" !in call(coin).frame.columns
  {
    if SnapDays(options, last).Some? {
      var d := SnapDays(options, last).value;
      CandlesNeverDated(now, vs, name(coin), resp(coin, d));
    }
  }

  /** Every market row reaches the merged table and every chart row the
      final table: each join keeps all of its left rows. */
  lemma MergeInitKeeps(fx: Fetchers, options: seq<int>, last: int, t: Tables)
    requires MergeInit(fx, options, last) == Success(t)
    ensures |t.merged.rows| >= |t.collected.universe.all.rows|
    ensures |t.charted.rows| >= |t.collected.chart.rows|
    ensures |t.final.rows| >= |t.charted.rows|
    ensures "trending_flag" in t.merged.columns
  {
    var c := t.collected;
    MergeInitSteps(fx, options, last, t);
    TrendingKeepsMarkets(c.universe.all, c.universe.drop);
    Join2Keeps(c.chart, c.ohlc);
    TaggedKeepsLeft(t.charted, t.merged, Key, "merge_status_3");
  }

  /** Line 77 always calls the market fetcher; an empty gap sends no `ids`
      at all, the same query as the first call. */
  lemma EmptyGapQuery(gap: seq<Value>)
    requires Markets.AllText(gap)
    ensures Markets.IdsParam(Some(gap)) == Markets.IdsParam(None) <==> |gap| == 0
  {
  }
}

=== FILE: range.dfy ===
/** `cg_fetch_coins_market_chart_range`: the two calendar dates become
    epoch seconds at midnight UTC through `convert_unix` (outside the
    `try`, so a bad date raises to the caller), then the arrays are zipped,
    staged, cast and renamed with the `mrag_` prefix. No row is dropped. */
module ChartRange {
  import opened Wrappers
  import opened Text
  import opened Values
  import opened Frames
  import opened Steps
  import opened Fetch
  import opened Charts
  import opened Calendar
  import UnixTime

  /** `convert_unix('human_date', date + " 00:00:00", unix_output_format='seconds')`. */
  function DayStart(date: string): (r: Result<int, UnixTime.ConvertError>)
    ensures r.Success? <==> UnixTime.Strptime(date + " 00:00:00").Some?
    ensures r.Success? ==> r.value == ToEpoch(UnixTime.Strptime(date + " 00:00:00").value)
    ensures r.Failure? ==> r.error == UnixTime.BadHumanDate
  {
    match UnixTime.ConvertUnix("human_date", UnixTime.StrArg(date + " 00:00:00"), "seconds")
    case Success(c) => Success(c.n)
    case Failure(e) => Failure(e)
  }

  /** The `params` of the request: `requests` writes the two integers in
      decimal. */
  function RangeQuery(vs: string, start: int, end: int, precision: string, interval: string): (r: seq<Param>)
    ensures |r| == 5 && r[1] == Param("from", IntToString(start)) && r[2] == Param("to", IntToString(end))
  {
    [Param("vs_currency", vs), Param("from", IntToString(start)), Param("to", IntToString(end)),
     Param("precision", precision), Param("interval", interval)]
  }

  /** The `try` block on a decoded body. */
  function RangeProcess(body: Value, now: int, vs: string, id: string): Result<Frame, FrameError> {
    var z :- Zip(body);
    CastAndRename(Prepend(z, ChartHeads(now, vs, id)), "date", PriceColumns, MragRenames)
  }

  /** `cg_fetch_coins_market_chart_range`, with the API call a function of
      the query it is sent: a date `strptime` rejects raises before any
      request; otherwise a failed request or processing yields the empty
      table. */
  function MarketChartRange(fetch: seq<Param> -> Response, now: int, id: string, fromDate: string, toDate: string,
                            vs: string, precision: string, interval: string): (r: Result<Frame, UnixTime.ConvertError>)
    ensures r.Failure? <==> DayStart(fromDate).Failure? || DayStart(toDate).Failure?
    ensures r.Success? && r.value != Empty() ==> r.value.columns == ChartLabels("mrag_")
  {
    var start :- DayStart(fromDate);
    var end :- DayStart(toDate);
    match fetch(RangeQuery(vs, start, end, precision, interval))
    case RequestFailed => Success(Empty())
    case Payload(body) =>
      var p := RangeProcess(body, now, vs, id);
      if p.Success? then
        RangeRows(body, now, vs, id, Zip(body).value, p.value);
        Success(p.value)
      else Success(Empty())
  }

  // ---------------------------------------------------------------- properties

  /** A malformed date raises to the caller whatever the API would answer,
      and a well-formed pair never raises: the request carries both
      midnights. */
  lemma RangeRaisesOnDates(fetch: seq<Param> -> Response, now: int, id: string, fromDate: string, toDate: string,
                           vs: string, precision: string, interval: string)
    ensures MarketChartRange(fetch, now, id, fromDate, toDate, vs, precision, interval).Failure? <==>
              DayStart(fromDate).Failure? || DayStart(toDate).Failure?
    ensures DayStart(fromDate).Success? && DayStart(toDate).Success? ==>
              var q := RangeQuery(vs, DayStart(fromDate).value, DayStart(toDate).value, precision, interval);
              MarketChartRange(fetch, now, id, fromDate, toDate, vs, precision, interval)
              == Success(match fetch(q) case RequestFailed => Empty() case Payload(body) => Settle(RangeProcess(body, now, vs, id)))
  {
  }

  /** The text of a calendar day as `strftime('%Y-%m-%d')` writes it. */
  function DayText(d: Date): (r: string)
    requires UnixTime.FourDigitYear(DateTime(d, 0, 0, 0))
    ensures |r| == 10
  {
    UnixTime.Format(DateTime(d, 0, 0, 0))[..10]
  }

  lemma MidnightText(d: Date)
    requires UnixTime.FourDigitYear(DateTime(d, 0, 0, 0))
    ensures DayText(d) + " 00:00:00" == UnixTime.Format(DateTime(d, 0, 0, 0))
  {
    var f := UnixTime.Format(DateTime(d, 0, 0, 0));
    assert UnixTime.Two(0) == "00";
    assert f[10..] == " 00:00:00";
    assert f == f[..10] + f[10..];
  }

  /** A day written `YYYY-MM-DD` becomes the epoch second of its midnight,
      86400 times the days since 1970-01-01. */
  lemma DayStartOfDay(d: Date)
    requires UnixTime.FourDigitYear(DateTime(d, 0, 0, 0))
    ensures DayStart(DayText(d)) == Success(ToDays(d) * 86400)
  {
    var t := DateTime(d, 0, 0, 0);
    MidnightText(d);
    UnixTime.SecondsRoundTrip(t, "seconds");
  }

  /** The documented starting date `'2024-10-14'` is sent as 1728864000,
      and text that is not a date raises before the request. */
  lemma DayStartExamples()
    ensures DayStart("2024-10-14") == Success(1728864000)
    ensures DayStart("").Failure?
  {
    var d := Date(2024, 10, 14);
    assert DayText(d) == "2024-10-14";
    assert ToDays(d) == 20010;
    DayStartOfDay(d);
  }

  /** Lines 126-134: the `mrag_` renaming of the range fetcher. */
  const MragRenames: map<string, string> :=
    map["id" := "coin_id", "data_ts" := "mrag_data_ts", "currency" := "mrag_currency",
        "price" := "mrag_price", "market_cap" := "mrag_market_cap", "volume" := "mrag_volume"]

  lemma MragLabels()
    ensures ChartLabels("mrag_") == ["mrag_data_ts", "mrag_currency", "coin_id", "date", "mrag_price", "mrag_market_cap", "mrag_volume"]
  {
    assert "mrag_" + "data_ts" == "mrag_data_ts";
    assert "mrag_" + "currency" == "mrag_currency";
    assert "mrag_" + "price" == "mrag_price";
    assert "mrag_" + "market_cap" == "mrag_market_cap";
    assert "mrag_" + "volume" == "mrag_volume";
  }

  lemma MragRenamesTo()
    ensures RenamesTo(ChartRequired, MragRenames, ChartLabels("mrag_"))
  {
    MragLabels();
  }

  /** The range fetcher keeps every zip row, in order: row `i` is zip row
      `i` with the stamp, the currency and the lower-cased coin id in front,
      the prices cast to float and the labels renamed with `mrag_`. */
  lemma RangeRows(body: Value, now: int, vs: string, id: string, z: Frame, out: Frame)
    requires Zip(body) == Success(z) && RangeProcess(body, now, vs, id) == Success(out)
    ensures out.columns == ChartLabels("mrag_") && |out.rows| == |z.rows|
    ensures forall i :: 0 <= i < |z.rows| ==> Carries(out, i, "mrag_", now, vs, id, z, i)
  {
    var s := Prepend(z, ChartHeads(now, vs, id));
    PreparedChart(z, now, vs, id);
    ChartRequiredShape();
    MragRenamesTo();
    assert CastAndRename(s, "date", PriceColumns, MragRenames) == Success(out);
    CastAndRenameColumns(s, "date", PriceColumns, MragRenames, ChartLabels("mrag_"), out);
    forall i | 0 <= i < |z.rows| ensures Carries(out, i, "mrag_", now, vs, id, z, i) {
      CarriesRow(s, "mrag_", MragRenames, out, now, vs, id, z, i, i);
    }
  }

  /** The range fetcher returns a table exactly when every price, market
      cap and volume converts to float. */
  lemma RangeSucceeds(body: Value, now: int, vs: string, id: string, z: Frame)
    requires Zip(body) == Success(z)
    ensures RangeProcess(body, now, vs, id).Success? <==>
              forall j, c :: 0 <= j < |z.rows| && c in PriceColumns ==> FloatCast(At(z, j, c)).Cast?
  {
    var s := Prepend(z, ChartHeads(now, vs, id));
    PreparedChart(z, now, vs, id);
    ChartRequiredShape();
    assert RangeProcess(body, now, vs, id) == CastAndRename(s, "date", PriceColumns, MragRenames);
    CastAndRenameSucceeds(s, "date", PriceColumns, MragRenames);
  }

  /** Line 123's `.str.lower()` meets the coin id in every row, so it
      cannot raise there. */
  lemma RangeIdText(body: Value, now: int, vs: string, id: string, z: Frame)
    requires Zip(body) == Success(z)
    ensures "id" in Prepend(z, ChartHeads(now, vs, id)).columns
    ensures StrAccepts(ColumnOf(Prepend(z, ChartHeads(now, vs, id)), "id"))
  {
    ChartRequiredShape();
    PrependIdText(z, now, vs, id);
  }
}

=== FILE: simpleprice.dfy ===
/** `cg_fetch_simple_price`: the `simple/price` answer is an object keyed by
    coin id whose values are objects keyed by the currency-derived names.
    Each top-level key becomes one row whose `coin` is that key; the update
    time is read as epoch seconds, the stamp and the currency go in front,
    the eight required columns are projected, the four currency columns are
    cast to float, `coin` is lower-cased and renamed to `coin_id`. */
module SimplePrice {
  import opened Wrappers
  import opened Text
  import opened Values
  import opened Frames
  import opened Steps
  import opened Fetch

  const Updated: string := "last_updated_at"

  /** The `params` of the request, the four flags as `str(flag).lower()`. */
  function PriceQuery(ids: string, vs: string, marketCap: bool, volume: bool, change: bool, updated: bool,
                      precision: string): (r: seq<Param>)
    ensures |r| == 7 && r[0] == Param("ids", ids) && r[1] == Param("vs_currencies", vs) && r[6] == Param("precision", precision)
    ensures r[2].name == "include_market_cap" && (r[2].text == "true" <==> marketCap)
    ensures r[3].name == "include_24hr_vol" && (r[3].text == "true" <==> volume)
    ensures r[4].name == "include_24hr_change" && (r[4].text == "true" <==> change)
    ensures r[5].name == "include_last_updated_at" && (r[5].text == "true" <==> updated)
    ensures forall k :: 2 <= k < 6 ==> r[k].text == "true" || r[k].text == "false"
  {
    [Param("ids", ids), Param("vs_currencies", vs),
     Param("include_market_cap", BoolText(marketCap)), Param("include_24hr_vol", BoolText(volume)),
     Param("include_24hr_change", BoolText(change)), Param("include_last_updated_at", BoolText(updated)),
     Param("precision", precision)]
  }

  /** The four column names derived from the currency argument. */
  function Derived(vs: string): (r: seq<string>)
    ensures |r| == 4 && r[0] == vs
    ensures forall k :: 1 <= k < 4 ==> |vs| < |r[k]| && r[k][..|vs|] == vs
  {
    [vs, vs + "_market_cap", vs + "_24h_vol", vs + "_24h_change"]
  }

  /** `required_columns`. */
  function PriceRequired(vs: string): seq<string> {
    ["data_ts", "currency", "coin"] + Derived(vs) + [Updated]
  }

  /** The labels of the returned table. */
  function PriceLabels(vs: string): seq<string> {
    ["data_ts", "currency", "coin_id"] + Derived(vs) + [Updated]
  }

  const CoinRename: map<string, string> := map["coin" := "coin_id"]

  /** The two inserted columns. */
  function PriceHeads(now: int, vs: string): seq<Field> {
    [Field("data_ts", Stamp(now)), Field("currency", VStr(vs))]
  }

  /** The casts of lines 67-70, in order. */
  function PriceSteps(vs: string): seq<Step> {
    Each(Derived(vs), FloatCast) + [Step("coin", Lift(LowerCell))]
  }

  // ---------------------------------------------------------------- rows of the answer

  /** The answer as Python holds it: an object whose values are all
      objects, each coin id once. */
  predicate Nested(body: Value) {
    body.VObj? && Distinct(Keys(body.fields)) && forall k :: 0 <= k < |body.fields| ==> body.fields[k].val.VObj?
  }

  /** The fields of an object, none for anything else. */
  function FieldsOf(v: Value): seq<Field> {
    if v.VObj? then v.fields else []
  }

  /** The coin objects, in the answer's order. */
  function Inner(coins: seq<Field>): (r: seq<seq<Field>>)
    ensures |r| == |coins| && forall k :: 0 <= k < |coins| ==> r[k] == FieldsOf(coins[k].val)
  {
    seq(|coins|, k requires 0 <= k < |coins| => FieldsOf(coins[k].val))
  }

  /** The columns of `from_dict(orient='index')` on nested objects: the
      inner keys, each at its first appearance. */
  function InnerLabels(coins: seq<Field>): (r: seq<string>)
    ensures Distinct(r)
    ensures forall c :: c in r <==> exists k :: 0 <= k < |coins| && HasKey(FieldsOf(coins[k].val), c)
  {
    RecordLabels(Inner(coins))
  }

  /** The ids of the coins whose object carries `col`, in order: the keys
      of that column's inner dictionary. */
  function Carriers(coins: seq<Field>, col: string): (r: seq<string>)
    ensures forall c :: c in r <==> exists k :: 0 <= k < |coins| && coins[k].key == c && HasKey(FieldsOf(coins[k].val), col)
    decreases |coins|
  {
    if |coins| == 0 then []
    else
      var rest := Carriers(coins[1..], col);
      assert forall k :: 1 <= k < |coins| ==> coins[k] == coins[1..][k - 1];
      (if HasKey(FieldsOf(coins[0].val), col) then [coins[0].key] else []) + rest
  }

  /** Every column's coin list, one after the other. */
  function Gathered(coins: seq<Field>, cols: seq<string>): (r: seq<string>)
    ensures forall c :: c in r <==> exists j :: 0 <= j < |cols| && c in Carriers(coins, cols[j])
    decreases |cols|
  {
    if |cols| == 0 then []
    else
      var rest := Gathered(coins, cols[1..]);
      assert forall j :: 1 <= j < |cols| ==> cols[j] == cols[1..][j - 1];
      Carriers(coins, cols[0]) + rest
  }

  /** The row labels pandas gives the nested answer: the union of the
      columns' coin lists, column by column, each coin at its first
      appearance. A coin is a row exactly when its object is not empty. */
  function CoinIndex(coins: seq<Field>): (r: seq<string>)
    ensures Distinct(r)
    ensures forall c :: c in r <==> exists k :: 0 <= k < |coins| && coins[k].key == c && FieldsOf(coins[k].val) != []
  {
    var cols := InnerLabels(coins);
    IndexMembers(coins, cols);
    AddNew([], Gathered(coins, cols))
  }

  lemma IndexMembers(coins: seq<Field>, cols: seq<string>)
    requires cols == InnerLabels(coins)
    ensures forall c :: c in Gathered(coins, cols) <==> exists k :: 0 <= k < |coins| && coins[k].key == c && FieldsOf(coins[k].val) != []
  {
    forall c | c in Gathered(coins, cols)
      ensures exists k :: 0 <= k < |coins| && coins[k].key == c && FieldsOf(coins[k].val) != []
    {
      var j :| 0 <= j < |cols| && c in Carriers(coins, cols[j]);
      var k :| 0 <= k < |coins| && coins[k].key == c && HasKey(FieldsOf(coins[k].val), cols[j]);
    }
    forall c | exists k :: 0 <= k < |coins| && coins[k].key == c && FieldsOf(coins[k].val) != []
      ensures c in Gathered(coins, cols)
    {
      var k :| 0 <= k < |coins| && coins[k].key == c && FieldsOf(coins[k].val) != [];
      var col := FieldsOf(coins[k].val)[0].key;
      assert HasKey(Inner(coins)[k], col);
      assert col in cols;
      var j :| 0 <= j < |cols| && cols[j] == col;
      assert c in Carriers(coins, cols[j]);
    }
  }

  /** A column every coin object carries lists every coin, in the
      answer's order. */
  lemma {:induction false} CarriersAll(coins: seq<Field>, col: string)
    requires forall k :: 0 <= k < |coins| ==> HasKey(FieldsOf(coins[k].val), col)
    ensures Carriers(coins, col) == Keys(coins)
    decreases |coins|
  {
    if |coins| > 0 {
      CarriersAll(coins[1..], col);
      assert Keys(coins) == [coins[0].key] + Keys(coins[1..]);
    }
  }

  lemma GatheredKeys(coins: seq<Field>, cols: seq<string>)
    ensures forall c :: c in Gathered(coins, cols) ==> c in Keys(coins)
  {
    forall c | c in Gathered(coins, cols) ensures c in Keys(coins) {
      var j :| 0 <= j < |cols| && c in Carriers(coins, cols[j]);
      var k :| 0 <= k < |coins| && coins[k].key == c && HasKey(FieldsOf(coins[k].val), cols[j]);
      assert Keys(coins)[k] == c;
    }
  }

  /** When every coin object leads with the same key, as the service's
      objects lead with the price in the requested currency, the rows keep
      the answer's order of coins. */
  lemma CommonKeyKeepsOrder(body: Value, col: string)
    requires Nested(body)
    requires forall k :: 0 <= k < |body.fields| ==> |FieldsOf(body.fields[k].val)| > 0 && FieldsOf(body.fields[k].val)[0].key == col
    ensures CoinIndex(body.fields) == Keys(body.fields)
  {
    var coins := body.fields;
    var cols := InnerLabels(coins);
    if |coins| == 0 {
      assert cols == [];
    } else {
      FirstLabel(Inner(coins));
      assert cols[0] == col;
      forall k | 0 <= k < |coins| ensures HasKey(FieldsOf(coins[k].val), col) {
        assert FieldsOf(coins[k].val)[0].key == col;
      }
      CarriersAll(coins, col);
      var rest := Gathered(coins, cols[1..]);
      assert Gathered(coins, cols) == Keys(coins) + rest;
      AddNewAppend([], Keys(coins), rest);
      AddNewFresh([], Keys(coins));
      GatheredKeys(coins, cols[1..]);
      assert [] + Keys(coins) == Keys(coins);
      AddNewSubset(Keys(coins), rest);
    }
  }

  /** Coins `a: {x}`, `b: {y}`, `c: {x, y}`, `d: {}` give the rows `a`,
      `c`, `b`: first the coins carrying `x`, then the new ones carrying
      `y`; the empty object gives no row. */
  lemma ColumnWiseOrder()
    ensures CoinIndex(OrderCoins()) == ["a", "c", "b"]
  {
    OrderLabels();
    OrderGathered();
    OrderAdded();
  }

  lemma OrderGathered()
    ensures Gathered(OrderCoins(), ["x", "y"]) == ["a", "c", "b", "c"]
  {
    OrderCarriers();
    assert ["x", "y"][1..] == ["y"] && ["y"][1..] == [];
  }

  lemma OrderAdded()
    ensures AddNew([], ["a", "c", "b", "c"]) == ["a", "c", "b"]
  {
    AddNewAppend([], ["a", "c", "b"], ["c"]);
    assert ["a", "c", "b"] + ["c"] == ["a", "c", "b", "c"];
    AddNewFresh([], ["a", "c", "b"]);
    assert [] + ["a", "c", "b"] == ["a", "c", "b"];
    AddNewSubset(["a", "c", "b"], ["c"]);
  }

  function OrderCoins(): seq<Field> {
    [Field("a", VObj([Field("x", VInt(1))])), Field("b", VObj([Field("y", VInt(2))])),
     Field("c", VObj([Field("x", VInt(3)), Field("y", VInt(4))])), Field("d", VObj([]))]
  }

  lemma OrderLabels()
    ensures InnerLabels(OrderCoins()) == ["x", "y"]
  {
    var inner := Inner(OrderCoins());
    OrderInner();
    OrderPrefix(inner);
    assert inner[..4] == inner;
  }

  lemma OrderInner()
    ensures var inner := Inner(OrderCoins());
            |inner| == 4 && Keys(inner[0]) == ["x"] && Keys(inner[1]) == ["y"] && Keys(inner[2]) == ["x", "y"] && inner[3] == []
  {
    var inner := Inner(OrderCoins());
    assert inner == [[Field("x", VInt(1))], [Field("y", VInt(2))], [Field("x", VInt(3)), Field("y", VInt(4))], []];
  }

  lemma OrderPrefix(inner: seq<seq<Field>>)
    requires |inner| == 4 && Keys(inner[0]) == ["x"] && Keys(inner[1]) == ["y"] && Keys(inner[2]) == ["x", "y"] && inner[3] == []
    ensures RecordLabels(inner[..4]) == ["x", "y"]
  {
    assert RecordLabels(inner[..1]) == ["x"] by {
      assert inner[..1][..0] == [];
      AddNewFresh([], ["x"]);
    }
    assert RecordLabels(inner[..2]) == ["x", "y"] by {
      assert inner[..2][..1] == inner[..1];
      AddNewFresh(["x"], ["y"]);
    }
    assert RecordLabels(inner[..3]) == ["x", "y"] by {
      assert inner[..3][..2] == inner[..2];
      AddNewSame(["x", "y"]);
    }
    assert inner[..4][..3] == inner[..3];
  }

  lemma OrderCarriers()
    ensures Carriers(OrderCoins(), "x") == ["a", "c"] && Carriers(OrderCoins(), "y") == ["b", "c"]
  {
    var coins := OrderCoins();
    var x1, y2 := [Field("x", VInt(1))], [Field("y", VInt(2))];
    var xy := [Field("x", VInt(3)), Field("y", VInt(4))];
    assert x1[0].key == "x" && y2[0].key == "y" && xy[0].key == "x" && xy[1].key == "y";
    assert HasKey(x1, "x") && !HasKey(x1, "y") && HasKey(y2, "y") && !HasKey(y2, "x");
    assert HasKey(xy, "x") && HasKey(xy, "y") && !HasKey([], "x") && !HasKey([], "y");
    assert coins[1..][1..] == coins[2..] && coins[2..][1..] == coins[3..] && coins[3..][1..] == [];
    assert Carriers(coins[3..], "x") == [] && Carriers(coins[3..], "y") == [];
    assert Carriers(coins[2..], "x") == ["c"] && Carriers(coins[2..], "y") == ["c"];
    assert Carriers(coins[1..], "x") == ["c"] && Carriers(coins[1..], "y") == ["b", "c"];
  }

  /** The object of coin `key`. */
  function ObjectOf(coins: seq<Field>, key: string): seq<Field> {
    FieldsOf(Get(coins, key).GetOr(VNull))
  }

  /** Some coin object carries the key `index`, so `reset_index` names the
      column of coin ids `level_0`, and the rename to `coin` takes the
      payload's `index` column instead. */
  predicate Shifted(coins: seq<Field>) {
    "index" in InnerLabels(coins)
  }

  /** Each `index` key renamed to `coin`. */
  function RenameIndex(fields: seq<Field>): (r: seq<Field>)
    ensures !HasKey(fields, "coin") ==> Get(r, "coin") == Get(fields, "index")
    ensures Get(r, "index") == None
    ensures forall c :: c != "coin" && c != "index" ==> Get(r, c) == Get(fields, c)
    decreases |fields|
  {
    if |fields| == 0 then []
    else
      var f := fields[0];
      var head := if f.key == "index" then Field("coin", f.val) else f;
      var rest := RenameIndex(fields[1..]);
      GetCons(head, rest);
      GetCons(f, fields[1..]);
      assert fields == [f] + fields[1..];
      assert !HasKey(fields, "coin") ==> !HasKey(fields[1..], "coin") by {
        if HasKey(fields[1..], "coin") {
          var i :| 0 <= i < |fields[1..]| && fields[1..][i].key == "coin";
          assert fields[i + 1].key == "coin";
        }
      }
      [head] + rest
  }

  /** The row of coin `key` after `reset_index` and the rename: the coin id
      under `coin` and the coin's object; when `shifted`, the coin id under
      `level_0` and the object with `index` renamed to `coin`. */
  function CoinRecord(key: string, obj: seq<Field>, shifted: bool): (r: seq<Field>)
    ensures !shifted ==> Get(r, "coin") == Some(VStr(key))
    ensures !shifted ==> forall c :: c != "coin" ==> Get(r, c) == Get(obj, c)
    ensures shifted && !HasKey(obj, "coin") ==> Get(r, "coin") == Get(obj, "index")
    ensures shifted ==> Get(r, "level_0") == Some(VStr(key)) && Get(r, "index") == None
    ensures shifted ==> forall c :: c != "coin" && c != "index" && c != "level_0" ==> Get(r, c) == Get(obj, c)
  {
    if shifted then
      var r := [Field("level_0", VStr(key))] + RenameIndex(obj);
      GetCons(Field("level_0", VStr(key)), RenameIndex(obj));
      r
    else
      GetCons(Field("coin", VStr(key)), obj);
      [Field("coin", VStr(key))] + obj
  }

  /** `from_dict(data, orient='index').reset_index()` with `index` renamed
      to `coin`: one row per coin whose object is not empty, in the order of
      `CoinIndex`. An answer that is not an object of objects raises (pandas
      either calls `.items()` on a value that is no dictionary or builds a
      table without `last_updated_at`); a coin object carrying `coin`
      duplicates that label once renamed, and `.str` on the two-column
      selection raises; objects carrying both `index` and `level_0` make
      `reset_index` raise. */
  function CoinRows(body: Value): (r: Result<seq<seq<Field>>, FrameError>)
    ensures r.Success? <==>
              Nested(body) && "coin" !in InnerLabels(body.fields)
              && !("index" in InnerLabels(body.fields) && "level_0" in InnerLabels(body.fields))
    ensures r.Success? ==> |r.value| == |CoinIndex(body.fields)|
    ensures r.Success? && !Shifted(body.fields) ==>
              forall i :: 0 <= i < |r.value| ==> Get(r.value[i], "coin") == Some(VStr(CoinIndex(body.fields)[i]))
    ensures r.Success? && Shifted(body.fields) ==>
              forall i :: 0 <= i < |r.value| ==> Get(r.value[i], "coin") == Get(ObjectOf(body.fields, CoinIndex(body.fields)[i]), "index")
    ensures r.Success? ==>
              forall i, c :: 0 <= i < |r.value| && c != "coin" && c != "index" && c != "level_0" ==>
                Get(r.value[i], c) == Get(ObjectOf(body.fields, CoinIndex(body.fields)[i]), c)
  {
    if Nested(body) && "coin" !in InnerLabels(body.fields)
       && !("index" in InnerLabels(body.fields) && "level_0" in InnerLabels(body.fields)) then
      var coins := body.fields;
      var index := CoinIndex(coins);
      var shifted := Shifted(coins);
      forall i | 0 <= i < |index| ensures !HasKey(ObjectOf(coins, index[i]), "coin") {
        ObjectInAnswer(coins, index[i]);
      }
      Success(seq(|index|, i requires 0 <= i < |index| => CoinRecord(index[i], ObjectOf(coins, index[i]), shifted)))
    else Failure(Malformed)
  }

  /** A coin's object is one of the answer's objects. */
  lemma ObjectInAnswer(coins: seq<Field>, key: string)
    requires forall k :: 0 <= k < |coins| ==> coins[k].val.VObj?
    ensures HasKey(coins, key) ==> exists k :: 0 <= k < |coins| && coins[k].key == key && ObjectOf(coins, key) == FieldsOf(coins[k].val)
    ensures forall c :: HasKey(ObjectOf(coins, key), c) ==> c in InnerLabels(coins)
  {
    if HasKey(coins, key) {
      var k :| 0 <= k < |coins| && coins[k] == Field(key, Get(coins, key).value);
      assert Inner(coins)[k] == ObjectOf(coins, key);
    }
  }

  /** With each coin id once, coin `k`'s object is the one under its id. */
  lemma ObjectOfKey(coins: seq<Field>, k: nat)
    requires Distinct(Keys(coins)) && k < |coins|
    ensures ObjectOf(coins, coins[k].key) == FieldsOf(coins[k].val)
  {
    var j :| 0 <= j < |coins| && coins[j] == Field(coins[k].key, Get(coins, coins[k].key).value);
    assert Keys(coins)[j] == Keys(coins)[k];
  }

  /** The `try` block on a decoded body. `astype('datetime64[us]')` leaves
      a millisecond time as it is. */
  function PriceProcess(body: Value, now: int, vs: string): Result<Frame, FrameError> {
    var records :- CoinRows(body);
    PriceTable(records, now, vs)
  }

  /** Lines 53-76 on the rows of the answer. The accessor of line 70 is
      checked once the float casts have run, on the table they start from:
      they leave `coin` alone under a plain currency. */
  function PriceTable(records: seq<seq<Field>>, now: int, vs: string): Result<Frame, FrameError> {
    var f :- CastColumn(FromRecords(records), Updated, SecondsCast);
    var s :- Stage(f, PriceHeads(now, vs), PriceRequired(vs));
    var t :- ApplySteps(s, PriceSteps(vs));
    var checked :- StrColumns(s, ["coin"]);
    Success(Rename(t, CoinRename))
  }

  /** `cg_fetch_simple_price`, with the API call a function of the query it
      is sent: a failed request or processing yields the empty table. */
  function FetchSimplePrice(fetch: seq<Param> -> Response, now: int, ids: string, vs: string, marketCap: bool,
                            volume: bool, change: bool, updated: bool, precision: string): (r: Frame)
    ensures fetch(PriceQuery(ids, vs, marketCap, volume, change, updated, precision)).RequestFailed? ==> r == Empty()
  {
    match fetch(PriceQuery(ids, vs, marketCap, volume, change, updated, precision))
    case RequestFailed => Empty()
    case Payload(body) => Settle(PriceProcess(body, now, vs))
  }

  // ---------------------------------------------------------------- the reference cell

  /** One cell of the returned table as the source describes it, by the
      required label it comes from: the stamp, the currency, the update
      time read as seconds, the currency columns as floats, the coin key
      lower-cased. */
  function Expected(rec: seq<Field>, now: int, vs: string, c: string): Cast {
    if c == "data_ts" then Cast(Stamp(now))
    else if c == "currency" then Cast(VStr(vs))
    else if c == Updated then SecondsCast(Get(rec, c).GetOr(VNull))
    else if c in Derived(vs) then FloatCast(Get(rec, c).GetOr(VNull))
    else if c == "coin" then Cast(LowerCell(Get(rec, c).GetOr(VNull)))
    else Cast(Get(rec, c).GetOr(VNull))
  }

  /** A currency whose derived names keep apart from the fixed labels. */
  predicate PlainCurrency(vs: string) {
    forall k :: 0 <= k < 4 ==> Derived(vs)[k] !in ["data_ts", "currency", "coin", "coin_id", Updated, "index", "level_0"]
  }

  /** The payload keys the table needs: the update time and the four
      currency columns occur, the inserted labels do not. */
  predicate KeysOk(records: seq<seq<Field>>, vs: string) {
    Present(records, Updated) && Absent(records, "data_ts") && Absent(records, "currency")
    && forall k :: 0 <= k < 4 ==> Present(records, Derived(vs)[k])
  }

  predicate CastsOk(records: seq<seq<Field>>, now: int, vs: string) {
    forall i, c :: 0 <= i < |records| && c in PriceRequired(vs) ==> Expected(records[i], now, vs, c).Cast?
  }

  // ---------------------------------------------------------------- label facts

  lemma DerivedDistinct(vs: string)
    ensures Distinct(Derived(vs))
  {
    var d := Derived(vs);
    assert d[1][|vs| + 1] == 'm' && d[3][|vs| + 1] == '2';
  }

  /** The fixed labels are none of the derived ones. */
  lemma PlainFacts(vs: string)
    requires PlainCurrency(vs)
    ensures "data_ts" !in Derived(vs) && "currency" !in Derived(vs) && "coin" !in Derived(vs)
    ensures "coin_id" !in Derived(vs) && Updated !in Derived(vs)
    ensures "index" !in Derived(vs) && "level_0" !in Derived(vs)
  {
    var d := Derived(vs);
    assert forall k :: 0 <= k < 4 ==> d[k] != "data_ts" && d[k] != "currency" && d[k] != "coin" && d[k] != "coin_id" && d[k] != Updated;
    assert forall k :: 0 <= k < 4 ==> d[k] != "index" && d[k] != "level_0";
  }

  lemma RequiredParts(vs: string)
    ensures forall c :: c in PriceRequired(vs) <==> c == "data_ts" || c == "currency" || c == "coin" || c in Derived(vs) || c == Updated
  {
  }

  lemma LabelsDistinct(vs: string)
    requires PlainCurrency(vs)
    ensures Distinct(PriceRequired(vs)) && Distinct(PriceLabels(vs))
  {
    DerivedDistinct(vs);
    PlainFacts(vs);
  }

  /** `coin` alone is renamed, onto `coin_id`. */
  lemma PriceRenamed(vs: string)
    requires PlainCurrency(vs)
    ensures RenamesTo(PriceRequired(vs), CoinRename, PriceLabels(vs))
  {
    LabelsDistinct(vs);
    PlainFacts(vs);
    var req, lab := PriceRequired(vs), PriceLabels(vs);
    assert forall j :: 0 <= j < 8 && j != 2 ==> req[j] != "coin" && req[j] == lab[j];
  }

  /** A three-letter code, as every currency the API knows is, is plain. */
  lemma ThreeLetterPlain(vs: string)
    requires |vs| == 3
    ensures PlainCurrency(vs)
  {
    var d := Derived(vs);
    assert |d[0]| == 3 && |d[1]| == 14 && |d[2]| == 11 && |d[3]| == 14;
  }

  /** The statements of lines 67-70 convert each column as the reference
      cell says. */
  lemma PriceStepsRule(vs: string, c: string, v: Value)
    requires PlainCurrency(vs)
    ensures Convert(PriceSteps(vs), c, v) == PriceRule(vs, c, v)
  {
    var floats, coin := Each(Derived(vs), FloatCast), [Step("coin", Lift(LowerCell))];
    DerivedDistinct(vs);
    PlainFacts(vs);
    ConvertAppend(floats, coin, c, v);
    ConvertEachOnce(Derived(vs), FloatCast, c, v);
    var w := Convert(floats, c, v);
    if w.Cast? {
      assert coin[1..] == [];
      if c == "coin" {
        assert Lift(LowerCell)(w.v) == Cast(LowerCell(w.v));
      }
    }
  }

  function PriceRule(vs: string, c: string, v: Value): Cast {
    if c in Derived(vs) then FloatCast(v) else if c == "coin" then Cast(LowerCell(v)) else Cast(v)
  }

  // ---------------------------------------------------------------- the stages

  /** Two columns put in front of a table, by label. */
  lemma TwoHeads(a: string, b: string, x: Value, y: Value)
    requires a != b
    ensures Labels([Field(a, x), Field(b, y)]) == [a, b] && Distinct([a, b])
    ensures forall d :: HasKey([Field(a, x), Field(b, y)], d) <==> d == a || d == b
    ensures Get([Field(a, x), Field(b, y)], a) == Some(x) && Get([Field(a, x), Field(b, y)], b) == Some(y)
  {
    var h := [Field(a, x), Field(b, y)];
    assert h[1..] == [Field(b, y)];
    forall d ensures HasKey(h, d) <==> d == a || d == b {
      if d == a {
        assert h[0].key == d;
      } else if d == b {
        assert h[1].key == d;
      }
    }
  }

  /** Staging two new columns in front of a table whose labels are the
      keys some record carries. */
  lemma StageTwo(records: seq<seq<Field>>, f: Frame, a: string, b: string, x: Value, y: Value, req: seq<string>)
    requires a != b && forall c :: c in f.columns <==> Present(records, c)
    ensures Stage(f, [Field(a, x), Field(b, y)], req).Success? <==>
              Absent(records, a) && Absent(records, b) && forall c :: c in req && c != a && c != b ==> Present(records, c)
  {
    var heads := [Field(a, x), Field(b, y)];
    TwoHeads(a, b, x, y);
    FrontSucceeds(f, heads);
    StageCells(f, heads, req);
    assert Present(records, a) <==> !Absent(records, a);
    assert Present(records, b) <==> !Absent(records, b);
  }

  lemma StageTwoCell(f: Frame, a: string, b: string, x: Value, y: Value, req: seq<string>, s: Frame, i: nat, c: string)
    requires a != b && Stage(f, [Field(a, x), Field(b, y)], req) == Success(s) && i < |f.rows| && c in req
    ensures s.columns == req && |s.rows| == |f.rows|
    ensures c == a ==> At(s, i, c) == x
    ensures c == b ==> At(s, i, c) == y
    ensures c != a && c != b ==> c in f.columns && At(s, i, c) == At(f, i, c)
  {
    TwoHeads(a, b, x, y);
    StageCells(f, [Field(a, x), Field(b, y)], req);
  }

  /** Some row carries `coin` once there are rows: the coin id, or the
      payload's `index` of the coin that has one. */
  lemma CoinPresent(records: seq<seq<Field>>, body: Value)
    requires CoinRows(body) == Success(records)
    ensures |records| > 0 ==> Present(records, "coin")
  {
    var coins := body.fields;
    var index := CoinIndex(coins);
    if |records| > 0 {
      if !Shifted(coins) {
        assert HasKey(records[0], "coin") by {
          assert Get(records[0], "coin").Some?;
        }
      } else {
        ShiftedCoinPresent(records, body);
      }
    }
  }

  lemma ShiftedCoinPresent(records: seq<seq<Field>>, body: Value)
    requires CoinRows(body) == Success(records) && Shifted(body.fields)
    ensures Present(records, "coin")
  {
    var coins := body.fields;
    var k :| 0 <= k < |coins| && HasKey(FieldsOf(coins[k].val), "index");
    var i := RowOfCoin(coins, k);
    assert Get(records[i], "coin") == Get(FieldsOf(coins[k].val), "index");
  }

  /** A coin with a non-empty object has a row, and that row's object is
      the coin's. */
  lemma RowOfCoin(coins: seq<Field>, k: nat) returns (i: nat)
    requires Distinct(Keys(coins)) && k < |coins| && FieldsOf(coins[k].val) != []
    ensures i < |CoinIndex(coins)| && CoinIndex(coins)[i] == coins[k].key
    ensures ObjectOf(coins, CoinIndex(coins)[i]) == FieldsOf(coins[k].val)
  {
    var index := CoinIndex(coins);
    assert coins[k].key in index;
    i :| 0 <= i < |index| && index[i] == coins[k].key;
    ObjectOfKey(coins, k);
  }

  /** Reading the update time succeeds exactly when some coin object has
      it and every present value converts. */
  lemma UpdatedSucceeds(records: seq<seq<Field>>)
    ensures CastColumn(FromRecords(records), Updated, SecondsCast).Success? <==>
              Present(records, Updated)
              && forall i :: 0 <= i < |records| ==> SecondsCast(Get(records[i], Updated).GetOr(VNull)).Cast?
  {
    var f := FromRecords(records);
    if Present(records, Updated) {
      forall i | 0 <= i < |records|
        ensures Cell(f.rows[i], IndexOf(f.columns, Updated).value) == Get(records[i], Updated).GetOr(VNull)
      {
        FromRecordsAt(records, i, Updated);
      }
    }
  }

  /** After the update time is read, each cell is the record's value under
      its label, the update time converted. */
  lemma UpdatedCells(records: seq<seq<Field>>, f: Frame, i: nat, c: string)
    requires CastColumn(FromRecords(records), Updated, SecondsCast) == Success(f) && i < |records|
    ensures c in f.columns && c != Updated ==> At(f, i, c) == Get(records[i], c).GetOr(VNull)
    ensures c == Updated ==> SecondsCast(Get(records[i], c).GetOr(VNull)) == Cast(At(f, i, c))
  {
    var g := FromRecords(records);
    if c in g.columns {
      FromRecordsAt(records, i, c);
    }
  }

  lemma UpdatedColumns(records: seq<seq<Field>>, f: Frame)
    requires CastColumn(FromRecords(records), Updated, SecondsCast) == Success(f)
    ensures |f.rows| == |records| && forall c :: c in f.columns <==> Present(records, c)
  {
  }

  /** The staged frame exists exactly when the payload keys are as the
      table needs them. */
  lemma StagedPrice(records: seq<seq<Field>>, body: Value, now: int, vs: string, f: Frame)
    requires CoinRows(body) == Success(records)
    requires CastColumn(FromRecords(records), Updated, SecondsCast) == Success(f)
    requires PlainCurrency(vs)
    ensures Stage(f, PriceHeads(now, vs), PriceRequired(vs)).Success? <==> KeysOk(records, vs)
  {
    UpdatedColumns(records, f);
    StageTwo(records, f, "data_ts", "currency", Stamp(now), VStr(vs), PriceRequired(vs));
    CoinPresent(records, body);
    RequiredPresent(records, vs);
  }

  /** With `coin` in some row whenever there are rows, the required
      payload keys occur exactly when the update time and the currency
      columns do. */
  lemma RequiredPresent(records: seq<seq<Field>>, vs: string)
    requires PlainCurrency(vs)
    requires |records| > 0 ==> Present(records, "coin")
    ensures (forall c :: c in PriceRequired(vs) && c != "data_ts" && c != "currency" ==> Present(records, c)) <==>
              Present(records, Updated) && forall k :: 0 <= k < 4 ==> Present(records, Derived(vs)[k])
  {
    RequiredParts(vs);
  }

  /** Each staged cell is the reference cell before the casts of lines
      67-70. */
  lemma StagedPriceCell(records: seq<seq<Field>>, now: int, vs: string, f: Frame, s: Frame, i: nat, c: string)
    requires CastColumn(FromRecords(records), Updated, SecondsCast) == Success(f)
    requires Stage(f, PriceHeads(now, vs), PriceRequired(vs)) == Success(s)
    requires i < |records| && c in PriceRequired(vs)
    ensures s.columns == PriceRequired(vs) && |s.rows| == |records|
    ensures c == "data_ts" ==> At(s, i, c) == Stamp(now)
    ensures c == "currency" ==> At(s, i, c) == VStr(vs)
    ensures c == Updated ==> SecondsCast(Get(records[i], c).GetOr(VNull)) == Cast(At(s, i, c))
    ensures c != "data_ts" && c != "currency" && c != Updated ==> At(s, i, c) == Get(records[i], c).GetOr(VNull)
  {
    UpdatedColumns(records, f);
    StageTwoCell(f, "data_ts", "currency", Stamp(now), VStr(vs), PriceRequired(vs), s, i, c);
    UpdatedCells(records, f, i, c);
  }

  /** The casts of lines 67-70 on the staged frame. */
  lemma CastPrices(s: Frame, vs: string)
    requires PlainCurrency(vs) && s.columns == PriceRequired(vs)
    ensures ApplySteps(s, PriceSteps(vs)).Success? <==>
              forall i, c :: 0 <= i < |s.rows| && c in s.columns ==> PriceRule(vs, c, At(s, i, c)).Cast?
    ensures ApplySteps(s, PriceSteps(vs)).Success? ==>
              forall i, c :: 0 <= i < |s.rows| && c in s.columns ==>
                PriceRule(vs, c, At(s, i, c)) == Cast(At(ApplySteps(s, PriceSteps(vs)).value, i, c))
  {
    var steps := PriceSteps(vs);
    forall c, v ensures Convert(steps, c, v) == PriceRule(vs, c, v) {
      PriceStepsRule(vs, c, v);
    }
    assert forall k :: 0 <= k < |steps| ==> steps[k].column in s.columns;
    ApplyStepsByRule(s, steps, (c, v) => PriceRule(vs, c, v));
  }

  /** A staged cell under the casts is the reference cell. */
  lemma ExpectedOfStaged(records: seq<seq<Field>>, now: int, vs: string, f: Frame, s: Frame, i: nat, c: string)
    requires PlainCurrency(vs)
    requires CastColumn(FromRecords(records), Updated, SecondsCast) == Success(f)
    requires Stage(f, PriceHeads(now, vs), PriceRequired(vs)) == Success(s)
    requires i < |records| && c in PriceRequired(vs)
    ensures Expected(records[i], now, vs, c) == PriceRule(vs, c, At(s, i, c))
  {
    StagedPriceCell(records, now, vs, f, s, i, c);
    PlainFacts(vs);
    var v := At(s, i, c);
    if c == "data_ts" || c == "currency" || c == Updated {
      assert c !in Derived(vs) && c != "coin";
      assert PriceRule(vs, c, v) == Cast(v);
    } else if c in Derived(vs) {
      assert PriceRule(vs, c, v) == FloatCast(v);
    }
  }

  // ---------------------------------------------------------------- properties

  /** What the rows hold under `coin`, missing where absent. */
  function CoinColumn(records: seq<seq<Field>>): (r: seq<Value>)
    ensures |r| == |records| && forall i :: 0 <= i < |records| ==> r[i] == Get(records[i], "coin").GetOr(VNull)
  {
    seq(|records|, i requires 0 <= i < |records| => Get(records[i], "coin").GetOr(VNull))
  }

  /** Unless some coin object carries `index`, the `coin` column holds the
      coin ids, which the `.str` accessor accepts. */
  lemma IdsAreText(body: Value, records: seq<seq<Field>>)
    requires CoinRows(body) == Success(records) && !Shifted(body.fields)
    ensures StrAccepts(CoinColumn(records))
  {
    StrAcceptsCases(CoinColumn(records));
    if |records| > 0 {
      assert CoinColumn(records)[0].VStr?;
    }
  }

  /** The fetcher returns a table exactly when the answer is an object of
      objects whose inner keys include neither `coin` nor both `index` and
      `level_0`, the update time and the four currency columns occur, the
      two inserted labels do not, every reference cell converts, and the
      `.str` accessor accepts the `coin` column. */
  lemma PriceSucceeds(body: Value, now: int, vs: string, records: seq<seq<Field>>)
    requires CoinRows(body) == Success(records) && PlainCurrency(vs)
    ensures PriceProcess(body, now, vs).Success? <==>
              KeysOk(records, vs) && CastsOk(records, now, vs) && StrAccepts(CoinColumn(records))
  {
    UpdatedSucceeds(records);
    var r := CastColumn(FromRecords(records), Updated, SecondsCast);
    if r.Success? {
      var f := r.value;
      StagedPrice(records, body, now, vs, f);
      var st := Stage(f, PriceHeads(now, vs), PriceRequired(vs));
      if st.Success? {
        OnStaged(records, now, vs, f, st.value);
        StagedCoin(records, now, vs, f, st.value);
        var t := ApplySteps(st.value, PriceSteps(vs));
        var g := StrColumns(st.value, ["coin"]);
        assert PriceTable(records, now, vs) ==
               if t.Failure? then Failure(t.error) else if g.Failure? then Failure(g.error) else Success(Rename(t.value, CoinRename));
      } else {
        assert PriceProcess(body, now, vs) == Failure(st.error);
      }
    } else {
      UpdatedOfCasts(records, now, vs);
      ReadFails(body, now, vs, records);
    }
  }

  /** On the staged table the accessor judges the rows' `coin` values. */
  lemma StagedCoin(records: seq<seq<Field>>, now: int, vs: string, f: Frame, s: Frame)
    requires PlainCurrency(vs)
    requires CastColumn(FromRecords(records), Updated, SecondsCast) == Success(f)
    requires Stage(f, PriceHeads(now, vs), PriceRequired(vs)) == Success(s)
    ensures StrColumns(s, ["coin"]).Success? <==> StrAccepts(CoinColumn(records))
  {
    StagedCoinColumn(records, now, vs, f, s);
    assert ["coin"][0] == "coin";
  }

  lemma StagedCoinColumn(records: seq<seq<Field>>, now: int, vs: string, f: Frame, s: Frame)
    requires PlainCurrency(vs)
    requires CastColumn(FromRecords(records), Updated, SecondsCast) == Success(f)
    requires Stage(f, PriceHeads(now, vs), PriceRequired(vs)) == Success(s)
    ensures Column(s, "coin") == Success(CoinColumn(records))
  {
    StagedCoinCells(records, now, vs, f, s);
    CoinColumnOf(records, s);
  }

  lemma CoinColumnOf(records: seq<seq<Field>>, s: Frame)
    requires "coin" in s.columns && |s.rows| == |records|
    requires forall i :: 0 <= i < |records| ==> At(s, i, "coin") == CoinColumn(records)[i]
    ensures Column(s, "coin") == Success(CoinColumn(records))
  {
    ColumnCells(s, "coin");
    SameColumn(ColumnOf(s, "coin"), CoinColumn(records));
  }

  lemma StagedCoinCells(records: seq<seq<Field>>, now: int, vs: string, f: Frame, s: Frame)
    requires PlainCurrency(vs)
    requires CastColumn(FromRecords(records), Updated, SecondsCast) == Success(f)
    requires Stage(f, PriceHeads(now, vs), PriceRequired(vs)) == Success(s)
    ensures "coin" in s.columns && |s.rows| == |records|
    ensures forall i :: 0 <= i < |records| ==> At(s, i, "coin") == CoinColumn(records)[i]
  {
    RequiredParts(vs);
    CoinApart();
    UpdatedColumns(records, f);
    forall i | 0 <= i < |records| ensures At(s, i, "coin") == CoinColumn(records)[i] {
      StagedPriceCell(records, now, vs, f, s, i, "coin");
    }
  }

  lemma CoinApart()
    ensures "coin" != "data_ts" && "coin" != "currency" && "coin" != Updated
  {
  }

  lemma ReadFails(body: Value, now: int, vs: string, records: seq<seq<Field>>)
    requires CoinRows(body) == Success(records)
    requires CastColumn(FromRecords(records), Updated, SecondsCast).Failure?
    ensures PriceProcess(body, now, vs).Failure?
  {
  }

  /** The reference cells include the update time read as seconds. */
  lemma UpdatedOfCasts(records: seq<seq<Field>>, now: int, vs: string)
    ensures CastsOk(records, now, vs) ==> forall i :: 0 <= i < |records| ==> SecondsCast(Get(records[i], Updated).GetOr(VNull)).Cast?
  {
    assert Updated in PriceRequired(vs);
    forall i | 0 <= i < |records| && CastsOk(records, now, vs) ensures SecondsCast(Get(records[i], Updated).GetOr(VNull)).Cast? {
      assert Expected(records[i], now, vs, Updated).Cast?;
    }
  }

  /** On the staged frame the casts of lines 67-70 succeed exactly when
      every reference cell converts. */
  lemma OnStaged(records: seq<seq<Field>>, now: int, vs: string, f: Frame, s: Frame)
    requires PlainCurrency(vs)
    requires CastColumn(FromRecords(records), Updated, SecondsCast) == Success(f)
    requires Stage(f, PriceHeads(now, vs), PriceRequired(vs)) == Success(s)
    ensures ApplySteps(s, PriceSteps(vs)).Success? <==> CastsOk(records, now, vs)
  {
    CastsOnStaged(records, now, vs, f, s);
    CastPrices(s, vs);
  }

  lemma CastsOnStaged(records: seq<seq<Field>>, now: int, vs: string, f: Frame, s: Frame)
    requires PlainCurrency(vs)
    requires CastColumn(FromRecords(records), Updated, SecondsCast) == Success(f)
    requires Stage(f, PriceHeads(now, vs), PriceRequired(vs)) == Success(s)
    ensures s.columns == PriceRequired(vs)
    ensures CastsOk(records, now, vs) <==>
              forall i, c :: 0 <= i < |s.rows| && c in s.columns ==> PriceRule(vs, c, At(s, i, c)).Cast?
  {
    UpdatedColumns(records, f);
    assert s.columns == PriceRequired(vs) && |s.rows| == |records|;
    if CastsOk(records, now, vs) {
      forall i, c | 0 <= i < |s.rows| && c in s.columns
        ensures PriceRule(vs, c, At(s, i, c)).Cast?
      {
        ExpectedOfStaged(records, now, vs, f, s, i, c);
      }
    } else {
      var i, c :| 0 <= i < |records| && c in PriceRequired(vs) && !Expected(records[i], now, vs, c).Cast?;
      ExpectedOfStaged(records, now, vs, f, s, i, c);
    }
  }

  /** On success the table has the eight labels, `coin` renamed to
      `coin_id`, one row per row of the answer, and every cell is the
      reference cell of its label. */
  lemma PriceCells(records: seq<seq<Field>>, now: int, vs: string, out: Frame, i: nat, c: string)
    requires PlainCurrency(vs) && PriceTable(records, now, vs) == Success(out)
    requires i < |records| && c in PriceRequired(vs)
    ensures out.columns == PriceLabels(vs) && |out.rows| == |records|
    ensures Relabel(CoinRename, c) in out.columns
    ensures Expected(records[i], now, vs, c) == Cast(At(out, i, Relabel(CoinRename, c)))
  {
    var f := CastColumn(FromRecords(records), Updated, SecondsCast).value;
    var s := Stage(f, PriceHeads(now, vs), PriceRequired(vs)).value;
    var t := ApplySteps(s, PriceSteps(vs)).value;
    StagedPriceCell(records, now, vs, f, s, i, c);
    CastPrices(s, vs);
    ExpectedOfStaged(records, now, vs, f, s, i, c);
    PriceRenamed(vs);
    RenamesToCells(t, CoinRename, PriceLabels(vs), i, c);
  }

  lemma LabelsApart()
    ensures "currency" != "coin" && "data_ts" != "coin" && Updated != "coin"
    ensures Updated != "index" && Updated != "level_0"
  {
  }

  lemma RenameFacts()
    ensures Relabel(CoinRename, "coin") == "coin_id"
    ensures forall c :: c != "coin" ==> Relabel(CoinRename, c) == c
  {
  }

  /** Row `i` of the answer's rows, and the table built from them. */
  lemma RowOf(body: Value, now: int, vs: string, records: seq<seq<Field>>, out: Frame, i: nat)
    requires CoinRows(body) == Success(records) && PriceProcess(body, now, vs) == Success(out) && i < |records|
    ensures PriceTable(records, now, vs) == Success(out)
    ensures i < |CoinIndex(body.fields)|
    ensures !Shifted(body.fields) ==> Get(records[i], "coin") == Some(VStr(CoinIndex(body.fields)[i]))
    ensures Shifted(body.fields) ==> Get(records[i], "coin") == Get(ObjectOf(body.fields, CoinIndex(body.fields)[i]), "index")
    ensures forall c :: c != "coin" && c != "index" && c != "level_0" ==>
              Get(records[i], c) == Get(ObjectOf(body.fields, CoinIndex(body.fields)[i]), c)
  {
  }

  /** Row `i` belongs to the `i`-th coin of `CoinIndex`: its `coin_id` is
      that coin id lower-cased (or, when some coin object carries `index`,
      the coin's own `index` value lower-cased), its `currency` is the
      argument verbatim, and it carries the stamp. */
  lemma PriceRowKeys(body: Value, now: int, vs: string, records: seq<seq<Field>>, out: Frame, i: nat)
    requires CoinRows(body) == Success(records) && PlainCurrency(vs)
    requires PriceProcess(body, now, vs) == Success(out) && i < |records|
    ensures "coin_id" in out.columns && "currency" in out.columns && "data_ts" in out.columns
    ensures !Shifted(body.fields) ==> At(out, i, "coin_id") == VStr(Lower(CoinIndex(body.fields)[i]))
    ensures Shifted(body.fields) ==>
              At(out, i, "coin_id") == LowerCell(Get(ObjectOf(body.fields, CoinIndex(body.fields)[i]), "index").GetOr(VNull))
    ensures At(out, i, "currency") == VStr(vs) && At(out, i, "data_ts") == Stamp(now)
  {
    RowOf(body, now, vs, records, out, i);
    PlainFacts(vs);
    RenameFacts();
    LabelsApart();
    PriceCells(records, now, vs, out, i, "coin");
    PriceCells(records, now, vs, out, i, "currency");
    PriceCells(records, now, vs, out, i, "data_ts");
  }

  /** The currency columns hold the coin object's values as floats and the
      update time its seconds as a time. */
  lemma PriceRowValues(body: Value, now: int, vs: string, records: seq<seq<Field>>, out: Frame, i: nat, k: nat)
    requires CoinRows(body) == Success(records) && PlainCurrency(vs)
    requires PriceProcess(body, now, vs) == Success(out) && i < |records| && k < 4
    ensures Derived(vs)[k] in out.columns && Updated in out.columns
    ensures var obj := ObjectOf(body.fields, CoinIndex(body.fields)[i]);
            FloatCast(Get(obj, Derived(vs)[k]).GetOr(VNull)) == Cast(At(out, i, Derived(vs)[k]))
    ensures var obj := ObjectOf(body.fields, CoinIndex(body.fields)[i]);
            SecondsCast(Get(obj, Updated).GetOr(VNull)) == Cast(At(out, i, Updated))
  {
    RowOf(body, now, vs, records, out, i);
    var obj := ObjectOf(body.fields, CoinIndex(body.fields)[i]);
    PlainFacts(vs);
    LabelsApart();
    ValueCells(records, now, vs, out, i, Derived(vs)[k], obj);
  }

  /** The cells of a currency column and of the update time in row `i`,
      for a row that agrees with `obj` on both labels. */
  lemma ValueCells(records: seq<seq<Field>>, now: int, vs: string, out: Frame, i: nat, c: string, obj: seq<Field>)
    requires PlainCurrency(vs) && PriceTable(records, now, vs) == Success(out) && i < |records| && c in Derived(vs)
    requires Get(records[i], c) == Get(obj, c) && Get(records[i], Updated) == Get(obj, Updated)
    ensures c in out.columns && Updated in out.columns
    ensures FloatCast(Get(obj, c).GetOr(VNull)) == Cast(At(out, i, c))
    ensures SecondsCast(Get(obj, Updated).GetOr(VNull)) == Cast(At(out, i, Updated))
  {
    DerivedCell(records, now, vs, out, i, c);
    UpdatedCell(records, now, vs, out, i);
  }

  lemma DerivedCell(records: seq<seq<Field>>, now: int, vs: string, out: Frame, i: nat, c: string)
    requires PlainCurrency(vs) && PriceTable(records, now, vs) == Success(out) && i < |records| && c in Derived(vs)
    ensures c in out.columns && FloatCast(Get(records[i], c).GetOr(VNull)) == Cast(At(out, i, c))
  {
    PlainFacts(vs);
    RequiredParts(vs);
    RenameFacts();
    PriceCells(records, now, vs, out, i, c);
  }

  lemma UpdatedCell(records: seq<seq<Field>>, now: int, vs: string, out: Frame, i: nat)
    requires PlainCurrency(vs) && PriceTable(records, now, vs) == Success(out) && i < |records|
    ensures Updated in out.columns && SecondsCast(Get(records[i], Updated).GetOr(VNull)) == Cast(At(out, i, Updated))
  {
    RequiredParts(vs);
    RenameFacts();
    LabelsApart();
    assert Updated != "data_ts" && Updated != "currency";
    PriceCells(records, now, vs, out, i, Updated);
  }

  /** When no coin object carries the currency argument as a key — as
      with a comma-separated list, whose currencies the answer keys one by
      one — the fetcher returns the empty table. */
  lemma UnknownCurrencyEmpty(fetch: seq<Param> -> Response, now: int, ids: string, vs: string, marketCap: bool,
                             volume: bool, change: bool, updated: bool, precision: string)
    requires PlainCurrency(vs)
    requires var resp := fetch(PriceQuery(ids, vs, marketCap, volume, change, updated, precision));
             resp.Payload? && resp.body.VObj?
             && forall k :: 0 <= k < |resp.body.fields| ==> !(resp.body.fields[k].val.VObj? && HasKey(resp.body.fields[k].val.fields, vs))
    ensures FetchSimplePrice(fetch, now, ids, vs, marketCap, volume, change, updated, precision) == Empty()
  {
    var body := fetch(PriceQuery(ids, vs, marketCap, volume, change, updated, precision)).body;
    var rows := CoinRows(body);
    if rows.Success? {
      var records := rows.value;
      PriceSucceeds(body, now, vs, records);
      PlainFacts(vs);
      assert vs != "coin" by {
        assert Derived(vs)[0] == vs;
      }
      var coins := body.fields;
      var index := CoinIndex(coins);
      assert vs != "index" && vs != "level_0" by {
        assert Derived(vs)[0] == vs;
      }
      forall i | 0 <= i < |records| ensures !HasKey(records[i], vs) {
        assert Get(records[i], vs) == Get(ObjectOf(coins, index[i]), vs);
        assert index[i] in index;
        var k :| 0 <= k < |coins| && coins[k].key == index[i] && FieldsOf(coins[k].val) != [];
        ObjectOfKey(coins, k);
      }
      assert !KeysOk(records, vs);
    }
  }

}

=== FILE: steps.dfy ===
/** The shape every fetcher shares: scalar columns inserted at the front,
    the required columns selected, then a run of per-column cell
    conversions (`astype`, `pd.to_datetime`, the `.str` methods, `apply`).
    The lemmas here describe each stage cell by cell, naming a cell by its
    column label (`df[c].iloc[i]`), so that no lemma needs the labels to be
    distinct. */
module Steps {
  import opened Wrappers
  import opened Values
  import opened Frames

  // ---------------------------------------------------------------- conversions

  /** One statement `df[column] = <conversion of df[column]>`. */
  datatype Step = Step(column: string, cast: Value -> Cast)

  /** The statements in order; the first that raises ends the run. */
  function ApplySteps(f: Frame, steps: seq<Step>): (r: Result<Frame, FrameError>)
    ensures r.Success? ==> r.value.columns == f.columns && |r.value.rows| == |f.rows|
    decreases |steps|
  {
    if |steps| == 0 then Success(f)
    else
      var g :- CastColumn(f, steps[0].column, steps[0].cast);
      ApplySteps(g, steps[1..])
  }

  /** What the statements labelled `c` do to one cell of column `c`, taken
      on its own: each conversion in turn, or the first exception. */
  function Convert(steps: seq<Step>, c: string, v: Value): Cast
    decreases |steps|
  {
    if |steps| == 0 then Cast(v)
    else if steps[0].column != c then Convert(steps[1..], c, v)
    else match steps[0].cast(v)
      case Cast(w) => Convert(steps[1..], c, w)
      case e => e
  }

  /** Every cell of `f` survives the conversions of its column. */
  predicate Converts(steps: seq<Step>, f: Frame) {
    forall i, c :: 0 <= i < |f.rows| && c in f.columns ==> Convert(steps, c, At(f, i, c)).Cast?
  }

  predicate Labelled(steps: seq<Step>, f: Frame) {
    forall k :: 0 <= k < |steps| ==> steps[k].column in f.columns
  }

  /** Running the statements column by column is converting every cell on
      its own: the run succeeds exactly when no cell raises, and each cell
      ends as its own conversion. */
  lemma {:induction false} ApplyStepsCells(f: Frame, steps: seq<Step>)
    requires Labelled(steps, f)
    ensures ApplySteps(f, steps).Success? <==> Converts(steps, f)
    ensures ApplySteps(f, steps).Success? ==>
              forall i, c :: 0 <= i < |f.rows| && c in f.columns ==>
                At(ApplySteps(f, steps).value, i, c) == Convert(steps, c, At(f, i, c)).v
    decreases |steps|
  {
    if |steps| > 0 {
      var l, cast := steps[0].column, steps[0].cast;
      var rest := steps[1..];
      match CastColumn(f, l, cast)
      case Failure(_) =>
        var i :| 0 <= i < |f.rows| && !cast(Cell(f.rows[i], IndexOf(f.columns, l).value)).Cast?;
        assert !Convert(steps, l, At(f, i, l)).Cast?;
      case Success(g) =>
        assert Labelled(rest, g) by {
          forall k | 0 <= k < |rest| ensures rest[k].column in g.columns {
            assert rest[k] == steps[k + 1];
          }
        }
        ApplyStepsCells(g, rest);
        forall i, c | 0 <= i < |f.rows| && c in f.columns
          ensures Convert(steps, c, At(f, i, c)) == Convert(rest, c, At(g, i, c))
        {
          if c == l {
            assert cast(At(f, i, l)) == Cast(At(g, i, l));
          }
        }
    }
  }

  /** A statement naming an absent column raises KeyError, whatever runs
      before it. */
  lemma {:induction false} ApplyStepsMissingLabel(f: Frame, steps: seq<Step>, k: nat)
    requires k < |steps| && steps[k].column !in f.columns
    ensures ApplySteps(f, steps).Failure?
    decreases |steps|
  {
    if k > 0 {
      match CastColumn(f, steps[0].column, steps[0].cast)
      case Failure(_) =>
      case Success(g) =>
        assert steps[1..][k - 1] == steps[k];
        ApplyStepsMissingLabel(g, steps[1..], k - 1);
    }
  }

  /** The same conversion for each listed column, in list order (the
      fetchers' `for f in float_list:` loops). */
  function Each(names: seq<string>, cast: Value -> Cast): (r: seq<Step>)
    ensures |r| == |names| && forall k :: 0 <= k < |names| ==> r[k] == Step(names[k], cast)
  {
    seq(|names|, k requires 0 <= k < |names| => Step(names[k], cast))
  }

  /** Two runs of statements convert a cell in sequence. */
  lemma {:induction false} ConvertAppend(a: seq<Step>, b: seq<Step>, c: string, v: Value)
    ensures Convert(a + b, c, v) == match Convert(a, c, v)
              case Cast(w) => Convert(b, c, w)
              case e => e
    decreases |a|
  {
    if |a| == 0 {
      assert a + b == b;
    } else {
      assert (a + b)[1..] == a[1..] + b;
      if a[0].column != c {
        ConvertAppend(a[1..], b, c, v);
      } else if a[0].cast(v).Cast? {
        ConvertAppend(a[1..], b, c, a[0].cast(v).v);
      }
    }
  }

  /** One statement about another column leaves the cell to the rest. */
  lemma ConvertSkip(steps: seq<Step>, c: string, v: Value)
    requires |steps| > 0 && steps[0].column != c
    ensures Convert(steps, c, v) == Convert(steps[1..], c, v)
  {
  }

  /** One statement about the cell's column that succeeds hands its result on. */
  lemma ConvertHit(steps: seq<Step>, c: string, v: Value)
    requires |steps| > 0 && steps[0].column == c && steps[0].cast(v).Cast?
    ensures Convert(steps, c, v) == Convert(steps[1..], c, steps[0].cast(v).v)
  {
  }

  /** One statement about the cell's column that raises ends the run. */
  lemma ConvertRaise(steps: seq<Step>, c: string, v: Value)
    requires |steps| > 0 && steps[0].column == c && !steps[0].cast(v).Cast?
    ensures Convert(steps, c, v) == steps[0].cast(v)
  {
  }

  /** Statements about other columns leave a cell alone. */
  lemma {:induction false} ConvertUntouched(steps: seq<Step>, c: string, v: Value)
    requires forall k :: 0 <= k < |steps| ==> steps[k].column != c
    ensures Convert(steps, c, v) == Cast(v)
    decreases |steps|
  {
    if |steps| > 0 {
      ConvertUntouched(steps[1..], c, v);
    }
  }

  /** A column listed once in a loop is converted once. */
  lemma {:induction false} ConvertEachOnce(names: seq<string>, cast: Value -> Cast, c: string, v: Value)
    requires Distinct(names)
    ensures c !in names ==> Convert(Each(names, cast), c, v) == Cast(v)
    ensures c in names ==> Convert(Each(names, cast), c, v) == cast(v)
    decreases |names|
  {
    if |names| > 0 {
      assert Each(names, cast)[1..] == Each(names[1..], cast);
      if names[0] == c {
        assert c !in names[1..];
        ConvertEachOnce(names[1..], cast, c, v);
        if cast(v).Cast? {
          ConvertEachOnce(names[1..], cast, c, cast(v).v);
        }
      } else {
        ConvertEachOnce(names[1..], cast, c, v);
      }
    }
  }

  // ---------------------------------------------------------------- relabelling

  /** Under an injective relabelling the cell named `c` is found under the
      new label of `c`. */
  lemma {:induction false} IndexOfRelabelled(cols: seq<string>, labels: seq<string>, relabel: string -> string, c: string)
    requires |labels| == |cols| && forall j :: 0 <= j < |cols| ==> labels[j] == relabel(cols[j])
    requires forall a, b :: a in cols && b in cols && relabel(a) == relabel(b) ==> a == b
    requires c in cols
    ensures relabel(c) in labels && IndexOf(labels, relabel(c)) == IndexOf(cols, c)
    decreases |cols|
  {
    if cols[0] != c {
      assert relabel(cols[0]) != relabel(c);
      IndexOfRelabelled(cols[1..], labels[1..], relabel, c);
    }
  }

  // ---------------------------------------------------------------- front columns

  function Labels(heads: seq<Field>): (r: seq<string>)
    ensures |r| == |heads| && forall k :: 0 <= k < |heads| ==> r[k] == heads[k].key
  {
    seq(|heads|, k requires 0 <= k < |heads| => heads[k].key)
  }

  /** The first front label that is already taken, by the frame or by an
      earlier front label. */
  function Clash(cols: seq<string>, heads: seq<Field>): Option<string>
    decreases |heads|
  {
    if |heads| == 0 then None
    else
      var n := |heads| - 1;
      match Clash(cols, heads[..n])
      case Some(x) => Some(x)
      case None => if heads[n].key in Labels(heads[..n]) + cols then Some(heads[n].key) else None
  }

  /** Scalar columns placed in front, raising on the first label that is
      taken; `FrontIsInserts` shows this is the run of `df.insert` calls. */
  function Front(f: Frame, heads: seq<Field>): (r: Result<Frame, FrameError>)
    ensures r.Success? ==> r.value.columns == Labels(heads) + f.columns && |r.value.rows| == |f.rows|
  {
    match Clash(f.columns, heads)
    case Some(name) => Failure(AlreadyExists(name))
    case None => Success(Prepend(f, heads))
  }

  /** `df.insert(k, heads[k].key, heads[k].val)` for k = 0, 1, ... in
      turn, each raising when its label is taken. */
  function Inserts(f: Frame, heads: seq<Field>): (r: Result<Frame, FrameError>)
    decreases |heads|
  {
    if |heads| == 0 then Success(f)
    else
      var n := |heads| - 1;
      var g :- Inserts(f, heads[..n]);
      Insert(g, n, heads[n].key, heads[n].val)
  }

  /** On a well-formed frame the inserts, one by one, amount to `Front`:
      the same error on the same label, or the same table. */
  lemma {:induction false} FrontIsInserts(f: Frame, heads: seq<Field>)
    requires WellFormed(f)
    ensures Inserts(f, heads) == Front(f, heads)
    decreases |heads|
  {
    if |heads| == 0 {
      PrependNothing(f);
    } else {
      var n := |heads| - 1;
      var init, last := heads[..n], heads[n];
      assert heads == init + [last];
      FrontIsInserts(f, init);
      if Clash(f.columns, init).None? {
        InsertsStep(f, init, last);
      }
    }
  }

  /** Nothing put in front leaves a well-formed frame as it is. */
  lemma PrependNothing(f: Frame)
    requires WellFormed(f)
    ensures Front(f, []) == Success(f)
  {
    var p := Prepend(f, []);
    assert Labels([]) + f.columns == f.columns;
    forall i | 0 <= i < |f.rows| ensures p.rows[i] == f.rows[i] {
      assert FrontValues([]) == [];
    }
    assert p.columns == f.columns && p.rows == f.rows;
  }

  /** One more insert after a clash-free front is the longer front. */
  lemma InsertsStep(f: Frame, init: seq<Field>, last: Field)
    requires WellFormed(f) && Clash(f.columns, init).None?
    ensures Insert(Prepend(f, init), |init|, last.key, last.val) == Front(f, init + [last])
  {
    var h := Insert(Prepend(f, init), |init|, last.key, last.val);
    ClashStep(f.columns, init, last);
    if h.Success? {
      InsertPrependSame(f, init, last);
    }
  }

  /** The longer front clashes only on its last label, when that is taken. */
  lemma ClashStep(cols: seq<string>, init: seq<Field>, last: Field)
    requires Clash(cols, init).None?
    ensures Clash(cols, init + [last]) == if last.key in Labels(init) + cols then Some(last.key) else None
  {
    var heads := init + [last];
    assert heads[..|init|] == init && heads[|init|] == last;
  }

  /** A successful insert after the front is the longer front. */
  lemma InsertPrependSame(f: Frame, init: seq<Field>, last: Field)
    requires WellFormed(f) && Insert(Prepend(f, init), |init|, last.key, last.val).Success?
    ensures Insert(Prepend(f, init), |init|, last.key, last.val).value == Prepend(f, init + [last])
  {
    var heads := init + [last];
    var h := Insert(Prepend(f, init), |init|, last.key, last.val).value;
    var p := Prepend(f, heads);
    assert Labels(heads) == Labels(init) + [last.key] by {
      assert heads[..|init|] == init && heads[|init|] == last;
    }
    forall i | 0 <= i < |f.rows| ensures h.rows[i] == p.rows[i] {
      InsertFrontRow(f, init, last, i);
    }
    assert h.columns == p.columns && h.rows == p.rows;
  }

  /** Inserting one more front column into a prepended row. */
  lemma InsertFrontRow(f: Frame, init: seq<Field>, last: Field, i: nat)
    requires WellFormed(f) && i < |f.rows| && Insert(Prepend(f, init), |init|, last.key, last.val).Success?
    ensures Insert(Prepend(f, init), |init|, last.key, last.val).value.rows[i] == Prepend(f, init + [last]).rows[i]
  {
    var n := |init|;
    var g := Prepend(f, init);
    var row := Insert(g, n, last.key, last.val).value.rows[i];
    var want := Prepend(f, init + [last]).rows[i];
    assert g.rows[i] == FrontValues(init) + f.rows[i];
    assert want == FrontValues(init + [last]) + f.rows[i];
    assert |row| == |want|;
    forall j | 0 <= j < |want| ensures row[j] == want[j] {
      if j < n {
        InsertCell(g, n, last.key, last.val, i, j);
        assert (init + [last])[j] == init[j];
      } else if j > n {
        InsertCell(g, n, last.key, last.val, i, j - 1);
      }
    }
  }

  /** The inserts succeed exactly when the front labels are distinct and
      new to the frame. */
  lemma {:induction false} FrontSucceeds(f: Frame, heads: seq<Field>)
    ensures Front(f, heads).Success? <==>
              Distinct(Labels(heads)) && forall k :: 0 <= k < |heads| ==> heads[k].key !in f.columns
    decreases |heads|
  {
    if |heads| > 0 {
      var n := |heads| - 1;
      var init := heads[..n];
      assert Labels(heads) == Labels(init) + [heads[n].key];
      FrontSucceeds(f, init);
      var g := Front(f, init);
      if g.Failure? {
        if !Distinct(Labels(init)) {
          var a, b :| 0 <= a < b < n && Labels(init)[a] == Labels(init)[b];
          assert Labels(heads)[a] == Labels(heads)[b];
        } else {
          var k :| 0 <= k < n && init[k].key in f.columns;
          assert heads[k].key in f.columns;
        }
      } else if heads[n].key in Labels(init) {
        var a :| 0 <= a < n && Labels(init)[a] == heads[n].key;
        assert Labels(heads)[a] == Labels(heads)[n];
      }
    }
  }

  /** Row `i` starts with the front values and continues with its own
      cells. */
  lemma FrontRow(f: Frame, heads: seq<Field>, i: nat)
    requires Front(f, heads).Success? && i < |f.rows|
    ensures forall k :: 0 <= k < |heads| ==> Cell(Front(f, heads).value.rows[i], k) == heads[k].val
    ensures forall j :: 0 <= j < |f.columns| ==> Cell(Front(f, heads).value.rows[i], |heads| + j) == Cell(f.rows[i], j)
  {
    assert Front(f, heads).value.rows[i] == FrontValues(heads) + f.rows[i];
  }

  /** Each row starts with the front values and continues with the row's
      own cells. */
  lemma FrontCells(f: Frame, heads: seq<Field>)
    requires Front(f, heads).Success?
    ensures forall i, k :: 0 <= i < |f.rows| && 0 <= k < |heads| ==> Cell(Front(f, heads).value.rows[i], k) == heads[k].val
    ensures forall i, j :: 0 <= i < |f.rows| && 0 <= j < |f.columns| ==>
              Cell(Front(f, heads).value.rows[i], |heads| + j) == Cell(f.rows[i], j)
  {
    forall i | 0 <= i < |f.rows|
      ensures forall k :: 0 <= k < |heads| ==> Cell(Front(f, heads).value.rows[i], k) == heads[k].val
      ensures forall j :: 0 <= j < |f.columns| ==> Cell(Front(f, heads).value.rows[i], |heads| + j) == Cell(f.rows[i], j)
    {
      FrontRow(f, heads, i);
    }
  }

  /** One cell of `Insert`, read through `Cell`. */
  lemma InsertCell(f: Frame, pos: nat, name: string, v: Value, i: nat, j: nat)
    requires Insert(f, pos, name, v).Success? && i < |f.rows| && j < |f.columns|
    ensures Cell(Insert(f, pos, name, v).value.rows[i], if j < pos then j else j + 1) == Cell(f.rows[i], j)
  {
  }

  /** The value of a front column, or else the source frame's cell. */
  function Source(f: Frame, heads: seq<Field>, i: nat, c: string): Value {
    if HasKey(heads, c) then Get(heads, c).value
    else if c in f.columns then At(f, i, c)
    else VNull
  }

  /** The scalar columns inserted in front, then `df[required]`. */
  function Stage(f: Frame, heads: seq<Field>, required: seq<string>): (r: Result<Frame, FrameError>)
    ensures r.Success? ==> r.value.columns == required && |r.value.rows| == |f.rows|
  {
    var g :- Front(f, heads);
    Project(g, required)
  }

  /** The staged frame succeeds exactly when the front labels are new and
      every required label is a front label or a source column; each of
      its cells is the front value or the source cell under that label. */
  lemma StageCells(f: Frame, heads: seq<Field>, required: seq<string>)
    ensures Stage(f, heads, required).Success? <==>
              Front(f, heads).Success? && forall c :: c in required ==> HasKey(heads, c) || c in f.columns
    ensures Stage(f, heads, required).Success? ==> WellFormed(Stage(f, heads, required).value)
    ensures Stage(f, heads, required).Success? ==>
              forall i, c :: 0 <= i < |f.rows| && c in required ==>
                At(Stage(f, heads, required).value, i, c) == Source(f, heads, i, c)
  {
    assert forall c :: HasKey(heads, c) <==> c in Labels(heads);
    if Front(f, heads).Success? {
      var g := Front(f, heads).value;
      var r := Project(g, required);
      if r.Success? {
        forall i, c | 0 <= i < |f.rows| && c in required
          ensures At(r.value, i, c) == Source(f, heads, i, c)
        {
          var j := IndexOf(required, c).value;
          assert At(r.value, i, c) == At(g, i, c);
          FrontAt(f, heads, i, c);
        }
      }
    }
  }

  lemma FrontAt(f: Frame, heads: seq<Field>, i: nat, c: string)
    requires Front(f, heads).Success? && i < |f.rows|
    requires HasKey(heads, c) || c in f.columns
    ensures At(Front(f, heads).value, i, c) == Source(f, heads, i, c)
  {
    var g := Front(f, heads).value;
    if HasKey(heads, c) {
      FrontAtHead(f, heads, g, i, c);
    } else {
      LabelsHasKey(heads, c);
      FrontRow(f, heads, i);
      ShiftedAt(g, Labels(heads), f, i, c);
    }
  }

  /** A front label reads as its front value. */
  lemma FrontAtHead(f: Frame, heads: seq<Field>, g: Frame, i: nat, c: string)
    requires Front(f, heads) == Success(g) && i < |f.rows| && HasKey(heads, c)
    ensures c in g.columns && At(g, i, c) == Get(heads, c).value
  {
    var labels := Labels(heads);
    var h :| 0 <= h < |heads| && heads[h].key == c;
    assert labels[h] == c;
    IndexOfConcat(labels, f.columns, c);
    var k := IndexOf(labels, c).value;
    GetFirst(heads, c, k);
    FrontRow(f, heads, i);
    assert At(g, i, c) == Cell(g.rows[i], k);
  }

  /** A label is a front label exactly when some front field has it. */
  lemma LabelsHasKey(heads: seq<Field>, c: string)
    ensures c in Labels(heads) <==> HasKey(heads, c)
  {
    if c in Labels(heads) {
      var h :| 0 <= h < |heads| && Labels(heads)[h] == c;
      assert heads[h].key == c;
    }
  }

  /** A frame whose columns are `a` followed by `f`'s, and whose row `i`
      continues with `f`'s row `i` after `|a|` cells, reads `f`'s labels
      as `f` does. */
  lemma ShiftedAt(g: Frame, a: seq<string>, f: Frame, i: nat, c: string)
    requires g.columns == a + f.columns && c !in a && c in f.columns && i < |g.rows| && i < |f.rows|
    requires forall j :: 0 <= j < |f.columns| ==> Cell(g.rows[i], |a| + j) == Cell(f.rows[i], j)
    ensures c in g.columns && At(g, i, c) == At(f, i, c)
  {
    IndexOfConcat(a, f.columns, c);
  }

  lemma {:induction false} IndexOfConcat(a: seq<string>, b: seq<string>, c: string)
    requires c in a || c in b
    ensures c in a ==> IndexOf(a + b, c) == IndexOf(a, c)
    ensures c !in a ==> IndexOf(a + b, c).value == |a| + IndexOf(b, c).value
    decreases |a|
  {
    if |a| == 0 {
      assert a + b == b;
    } else {
      assert (a + b)[0] == a[0];
      assert (a + b)[1..] == a[1..] + b;
      if a[0] != c {
        assert c in a ==> c in a[1..];
        IndexOfConcat(a[1..], b, c);
      }
    }
  }

  /** `Get` reads the first field carrying the key. */
  lemma GetFirst(fields: seq<Field>, key: string, k: nat)
    requires IndexOf(Labels(fields), key) == Some(k)
    ensures Get(fields, key) == Some(fields[k].val)
  {
    if fields[0].key != key {
      assert Labels(fields[1..]) == Labels(fields)[1..];
      GetFirst(fields[1..], key, k - 1);
    }
  }

  /** A frame built from records reads each record's value (or a missing
      cell) under each label. */
  lemma FromRecordsAt(records: seq<seq<Field>>, i: nat, c: string)
    requires i < |records| && c in FromRecords(records).columns
    ensures At(FromRecords(records), i, c) == Get(records[i], c).GetOr(VNull)
  {
  }

  /** Some record carries key `c`. */
  predicate Present(records: seq<seq<Field>>, c: string) {
    exists i :: 0 <= i < |records| && HasKey(records[i], c)
  }

  /** No record carries key `c`. */
  predicate Absent(records: seq<seq<Field>>, c: string) {
    forall i :: 0 <= i < |records| ==> !HasKey(records[i], c)
  }

  /** The value a record supplies under label `c` once `heads` are put in
      front. */
  function RecordCell(heads: seq<Field>, rec: seq<Field>, c: string): Value {
    if HasKey(heads, c) then Get(heads, c).value else Get(rec, c).GetOr(VNull)
  }

  /** Staging records: it succeeds exactly when no record carries a front
      label and every other required label occurs in some record; each
      cell is then the front value or the record's own value. */
  lemma StageRecords(records: seq<seq<Field>>, heads: seq<Field>, required: seq<string>)
    requires Distinct(Labels(heads))
    ensures Stage(FromRecords(records), heads, required).Success? <==>
              (forall k :: 0 <= k < |heads| ==> Absent(records, heads[k].key))
              && forall c :: c in required && !HasKey(heads, c) ==> Present(records, c)
    ensures Stage(FromRecords(records), heads, required).Success? ==>
              forall i, c :: 0 <= i < |records| && c in required ==>
                At(Stage(FromRecords(records), heads, required).value, i, c) == RecordCell(heads, records[i], c)
  {
    var src := FromRecords(records);
    FrontSucceeds(src, heads);
    StageCells(src, heads, required);
    var s := Stage(src, heads, required);
    if s.Success? {
      forall i, c | 0 <= i < |records| && c in required
        ensures At(s.value, i, c) == RecordCell(heads, records[i], c)
      {
        if !HasKey(heads, c) {
          FromRecordsAt(records, i, c);
        }
      }
    }
  }

  /** When the statements convert every column as `rule` says, running
      them succeeds exactly when no cell raises under `rule`, and leaves
      each cell converted by it. */
  lemma ApplyStepsByRule(f: Frame, steps: seq<Step>, rule: (string, Value) -> Cast)
    requires Labelled(steps, f)
    requires forall c, v :: Convert(steps, c, v) == rule(c, v)
    ensures ApplySteps(f, steps).Success? <==>
              forall i, c :: 0 <= i < |f.rows| && c in f.columns ==> rule(c, At(f, i, c)).Cast?
    ensures ApplySteps(f, steps).Success? ==>
              forall i, c :: 0 <= i < |f.rows| && c in f.columns ==>
                At(ApplySteps(f, steps).value, i, c) == rule(c, At(f, i, c)).v
  {
    ApplyStepsCells(f, steps);
  }

  /** A rename that keeps the labels of `f` apart moves every cell to its
      new label. */
  lemma RenameCells(f: Frame, m: map<string, string>, i: nat, c: string)
    requires c in f.columns
    requires forall a, b :: a in f.columns && b in f.columns && Relabel(m, a) == Relabel(m, b) ==> a == b
    ensures Relabel(m, c) in Rename(f, m).columns && At(Rename(f, m), i, Relabel(m, c)) == At(f, i, c)
  {
    IndexOfRelabelled(f.columns, Rename(f, m).columns, d => Relabel(m, d), c);
  }

  /** `m` sends the labels `cols`, in order, to the distinct labels
      `labels`. */
  predicate RenamesTo(cols: seq<string>, m: map<string, string>, labels: seq<string>) {
    |labels| == |cols| && Distinct(labels) && forall j :: 0 <= j < |cols| ==> Relabel(m, cols[j]) == labels[j]
  }

  /** A rename onto distinct labels gives the table exactly those labels
      and moves every cell to its column's new label. */
  lemma RenamesToCells(f: Frame, m: map<string, string>, labels: seq<string>, i: nat, c: string)
    requires RenamesTo(f.columns, m, labels) && c in f.columns
    ensures Rename(f, m).columns == labels && Rename(f, m).rows == f.rows
    ensures Relabel(m, c) in labels && At(Rename(f, m), i, Relabel(m, c)) == At(f, i, c)
  {
    forall a, b | a in f.columns && b in f.columns && Relabel(m, a) == Relabel(m, b)
      ensures a == b
    {
      var ja :| 0 <= ja < |f.columns| && f.columns[ja] == a;
      var jb :| 0 <= jb < |f.columns| && f.columns[jb] == b;
      assert labels[ja] == labels[jb];
    }
    RenameCells(f, m, i, c);
  }

  /** The front values, in order. */
  function FrontValues(heads: seq<Field>): (r: seq<Value>)
    ensures |r| == |heads| && forall k :: 0 <= k < |heads| ==> r[k] == heads[k].val
  {
    seq(|heads|, k requires 0 <= k < |heads| => heads[k].val)
  }

  /** Every row with the front values put before its own cells. */
  function Prepend(f: Frame, heads: seq<Field>): (r: Frame)
    ensures r.columns == Labels(heads) + f.columns && |r.rows| == |f.rows|
  {
    Frame(Labels(heads) + f.columns, seq(|f.rows|, i requires 0 <= i < |f.rows| => FrontValues(heads) + f.rows[i]))
  }

  /** Distinct labels split into distinct parts with nothing in common. */
  lemma DistinctParts(a: seq<string>, b: seq<string>)
    requires Distinct(a + b)
    ensures Distinct(a) && forall k :: 0 <= k < |a| ==> a[k] !in b
  {
    forall x, y | 0 <= x < y < |a| ensures a[x] != a[y] {
      assert (a + b)[x] == a[x] && (a + b)[y] == a[y];
    }
    forall k, j | 0 <= k < |a| && 0 <= j < |b| ensures a[k] != b[j] {
      assert (a + b)[k] == a[k] && (a + b)[|a| + j] == b[j];
    }
  }

  /** The converse: distinct parts with nothing in common join into
      distinct labels. */
  lemma DistinctJoin(a: seq<string>, b: seq<string>)
    requires Distinct(a) && Distinct(b)
    requires forall k :: 0 <= k < |a| ==> a[k] !in b
    ensures Distinct(a + b)
  {
    forall x, y | 0 <= x < y < |a + b| ensures (a + b)[x] != (a + b)[y] {
      if y < |a| {
        assert (a + b)[x] == a[x] && (a + b)[y] == a[y];
      } else if x < |a| {
        assert (a + b)[x] == a[x] && (a + b)[y] == b[y - |a|];
      } else {
        assert (a + b)[x] == b[x - |a|] && (a + b)[y] == b[y - |a|];
      }
    }
  }

  /** When the front labels are new and the projection keeps every column
      in order, staging is prepending: the fetchers' missing-column check
      cannot fire. */
  lemma StagePrepend(f: Frame, heads: seq<Field>)
    requires WellFormed(f) && Distinct(Labels(heads) + f.columns)
    ensures Stage(f, heads, Labels(heads) + f.columns) == Success(Prepend(f, heads))
  {
    DistinctParts(Labels(heads), f.columns);
    FrontSucceeds(f, heads);
    var p := Prepend(f, heads);
    assert Front(f, heads) == Success(p);
    forall i | 0 <= i < |p.rows| ensures |p.rows[i]| == |p.columns| {
      assert p.rows[i] == FrontValues(heads) + f.rows[i];
    }
    ProjectSelf(p);
  }

  /** Selecting all of a well-formed frame's distinct labels, in order,
      gives the frame back. */
  lemma ProjectSelf(g: Frame)
    requires WellFormed(g) && Distinct(g.columns)
    ensures Project(g, g.columns) == Success(g)
  {
    var r := Project(g, g.columns).value;
    forall i | 0 <= i < |g.rows| ensures r.rows[i] == g.rows[i] {
      forall j | 0 <= j < |g.columns| ensures r.rows[i][j] == g.rows[i][j] {
        IndexOfDistinct(g.columns, j);
      }
    }
    assert r.rows == g.rows;
  }

  /** Prepending keeps each cell under its label and fills the front
      labels with their values. */
  lemma PrependCells(f: Frame, heads: seq<Field>, i: nat)
    requires WellFormed(f) && Distinct(Labels(heads) + f.columns) && i < |f.rows|
    ensures forall c :: c in f.columns ==> At(Prepend(f, heads), i, c) == At(f, i, c)
    ensures forall k :: 0 <= k < |heads| ==> At(Prepend(f, heads), i, heads[k].key) == heads[k].val
  {
    var req := Labels(heads) + f.columns;
    var p := Prepend(f, heads);
    forall c | c in f.columns ensures At(p, i, c) == At(f, i, c) {
      var j := IndexOf(f.columns, c).value;
      IndexOfDistinct(req, |heads| + j);
      assert req[|heads| + j] == c;
      assert p.rows[i] == FrontValues(heads) + f.rows[i];
    }
    forall k | 0 <= k < |heads| ensures At(p, i, heads[k].key) == heads[k].val {
      IndexOfDistinct(req, k);
      assert req[k] == heads[k].key;
      assert p.rows[i] == FrontValues(heads) + f.rows[i];
    }
  }
}

=== FILE: text.dfy ===
/** Character and string helpers: ASCII case mapping (`str.lower`,
    `str.upper`), comma joining, character removal (`str.replace(c, '')`),
    `str.strip`, decimal rendering of integers (`str(int)`) and the decimal
    parsers behind `int(str)` and `float(str)`. Case and digits follow the
    ASCII tables; whitespace follows `str.isspace`. */
module Text {
  import opened Wrappers

  // ---------------------------------------------------------------- case

  predicate IsUpper(c: char) { 'A' <= c <= 'Z' }
  predicate IsLower(c: char) { 'a' <= c <= 'z' }

  function LowerChar(c: char): char {
    if IsUpper(c) then (c as int + 32) as char else c
  }

  function UpperChar(c: char): char {
    if IsLower(c) then (c as int - 32) as char else c
  }

  /** No upper-case letter occurs in `s`. */
  predicate IsLowerCase(s: string) {
    forall i :: 0 <= i < |s| ==> !IsUpper(s[i])
  }

  /** No lower-case letter occurs in `s`. */
  predicate IsUpperCase(s: string) {
    forall i :: 0 <= i < |s| ==> !IsLower(s[i])
  }

  /** `s.lower()`: the same string up to case, with no upper-case letter left. */
  function Lower(s: string): (r: string)
    ensures |r| == |s| && IsLowerCase(r)
    ensures forall i :: 0 <= i < |s| ==> LowerChar(r[i]) == LowerChar(s[i])
    ensures forall i :: 0 <= i < |s| && !IsUpper(s[i]) ==> r[i] == s[i]
  {
    seq(|s|, i requires 0 <= i < |s| => LowerChar(s[i]))
  }

  /** `s.upper()`: the same string up to case, with no lower-case letter left. */
  function Upper(s: string): (r: string)
    ensures |r| == |s| && IsUpperCase(r)
    ensures forall i :: 0 <= i < |s| ==> UpperChar(r[i]) == UpperChar(s[i])
    ensures forall i :: 0 <= i < |s| && !IsLower(s[i]) ==> r[i] == s[i]
  {
    seq(|s|, i requires 0 <= i < |s| => UpperChar(s[i]))
  }

  lemma LowerIdempotent(s: string)
    ensures Lower(Lower(s)) == Lower(s)
  {
  }

  lemma UpperIdempotent(s: string)
    ensures Upper(Upper(s)) == Upper(s)
  {
  }

  // ---------------------------------------------------------------- joining

  /** `sep.join(parts)`. */
  function Join(parts: seq<string>, sep: char): string {
    if |parts| == 0 then ""
    else if |parts| == 1 then parts[0]
    else parts[0] + [sep] + Join(parts[1..], sep)
  }

  /** The text before the first `sep` (all of `s` when there is none). */
  function Before(s: string, sep: char): (r: string)
    ensures |r| <= |s| && r == s[..|r|]
    ensures sep !in r
    ensures |r| < |s| ==> s[|r|] == sep
  {
    if |s| == 0 || s[0] == sep then "" else [s[0]] + Before(s[1..], sep)
  }

  /** `s.split(sep)`. */
  function Split(s: string, sep: char): (r: seq<string>)
    ensures |r| >= 1
    decreases |s|
  {
    var head := Before(s, sep);
    if |head| == |s| then [s] else [head] + Split(s[|head| + 1..], sep)
  }

  lemma BeforeJoined(p: string, rest: string, sep: char)
    requires sep !in p
    ensures Before(p + [sep] + rest, sep) == p
  {
    if |p| > 0 {
      assert (p + [sep] + rest)[1..] == p[1..] + [sep] + rest;
      BeforeJoined(p[1..], rest, sep);
    }
  }

  lemma BeforeWhole(p: string, sep: char)
    requires sep !in p
    ensures Before(p, sep) == p
  {
    if |p| > 0 {
      BeforeWhole(p[1..], sep);
    }
  }

  /** Splitting a comma-joined list gives the list back when no part holds
      the separator. */
  lemma {:induction false} SplitJoin(parts: seq<string>, sep: char)
    requires |parts| >= 1
    requires forall k :: 0 <= k < |parts| ==> sep !in parts[k]
    ensures Split(Join(parts, sep), sep) == parts
  {
    if |parts| == 1 {
      BeforeWhole(parts[0], sep);
    } else {
      var rest := Join(parts[1..], sep);
      var s := parts[0] + [sep] + rest;
      assert Join(parts, sep) == s;
      BeforeJoined(parts[0], rest, sep);
      assert Before(s, sep) == parts[0];
      assert |parts[0]| < |s|;
      assert s[|parts[0]| + 1..] == rest;
      assert Split(s, sep) == [parts[0]] + Split(rest, sep);
      SplitJoin(parts[1..], sep);
      assert parts == [parts[0]] + parts[1..];
    }
  }

  // ---------------------------------------------------------------- removal

  /** `s` with every character of `bad` removed, the others kept in order
      (a chain of `str.replace(c, '')`). */
  function RemoveChars(s: string, bad: set<char>): (r: string)
    ensures |r| <= |s|
    ensures forall i :: 0 <= i < |r| ==> r[i] !in bad
  {
    if |s| == 0 then ""
    else if s[0] in bad then RemoveChars(s[1..], bad)
    else [s[0]] + RemoveChars(s[1..], bad)
  }

  lemma RemoveCharsNoop(s: string, bad: set<char>)
    requires forall i :: 0 <= i < |s| ==> s[i] !in bad
    ensures RemoveChars(s, bad) == s
  {
    if |s| > 0 {
      RemoveCharsNoop(s[1..], bad);
    }
  }

  // ---------------------------------------------------------------- digits

  predicate IsDigit(c: char) { '0' <= c <= '9' }

  predicate AllDigits(s: string) {
    forall i :: 0 <= i < |s| ==> IsDigit(s[i])
  }

  function DigitChar(d: int): (c: char)
    requires 0 <= d <= 9
    ensures IsDigit(c)
  {
    ('0' as int + d) as char
  }

  function DigitValue(c: char): (d: int)
    requires IsDigit(c)
    ensures 0 <= d <= 9 && DigitChar(d) == c
  {
    c as int - '0' as int
  }

  /** The value of a string of decimal digits, read left to right. */
  function DigitsValue(s: string): nat
    requires AllDigits(s)
  {
    if |s| == 0 then 0 else DigitsValue(s[..|s| - 1]) * 10 + DigitValue(s[|s| - 1])
  }

  function Pow10(k: nat): (p: nat)
    ensures p >= 1
  {
    if k == 0 then 1 else 10 * Pow10(k - 1)
  }

  /** `str(n)` for a natural number: its digits without leading zeros. */
  function NatToString(n: nat): (r: string)
    ensures |r| >= 1 && AllDigits(r)
    ensures |r| > 1 ==> r[0] != '0'
  {
    if n < 10 then [DigitChar(n)]
    else NatToString(n / 10) + [DigitChar(n % 10)]
  }

  /** The digits of `str(n)` read back as `n`. */
  lemma {:induction false} NatToStringValue(n: nat)
    ensures DigitsValue(NatToString(n)) == n
  {
    if n >= 10 {
      var r := NatToString(n);
      assert r[..|r| - 1] == NatToString(n / 10);
      NatToStringValue(n / 10);
    }
  }

  /** A number has at most `k` digits exactly when it is below 10^k. */
  lemma {:induction false} NatToStringLength(n: nat, k: nat)
    requires k >= 1
    ensures |NatToString(n)| <= k <==> n < Pow10(k)
  {
    if n >= 10 {
      if k == 1 {
        assert Pow10(1) == 10;
      } else {
        NatToStringLength(n / 10, k - 1);
      }
    } else {
      assert Pow10(k) >= Pow10(1) == 10 by { Pow10Monotone(1, k); }
    }
  }

  lemma {:induction false} Pow10Monotone(a: nat, b: nat)
    requires a <= b
    ensures Pow10(a) <= Pow10(b)
  {
    if a < b {
      Pow10Monotone(a, b - 1);
    }
  }

  /** `str(i)` for any integer. */
  function IntToString(i: int): (r: string)
    ensures |r| >= 1
    ensures i < 0 <==> r[0] == '-'
  {
    if i < 0 then "-" + NatToString(-i) else NatToString(i)
  }

  /** The number of characters of `str(i)`. */
  lemma IntToStringLength(i: int, k: nat)
    requires k >= 2
    ensures |IntToString(i)| == k <==>
              (Pow10(k - 1) <= i < Pow10(k)) || (-(Pow10(k - 1) as int) < i <= -(Pow10(k - 2) as int))
  {
    if i < 0 {
      NegativeLength(i, k);
    } else {
      NonNegativeLength(i, k);
    }
  }

  lemma NegativeLength(i: int, k: nat)
    requires k >= 2 && i < 0
    ensures |IntToString(i)| == k <==> -(Pow10(k - 1) as int) < i <= -(Pow10(k - 2) as int)
  {
    var n: nat := -i;
    assert |IntToString(i)| == 1 + |NatToString(n)|;
    NatBand(n, k - 1);
  }

  /** A positive number has `j` digits exactly when it lies in
      [10^(j-1), 10^j). */
  lemma NatBand(n: nat, j: nat)
    requires j >= 1 && n >= 1
    ensures |NatToString(n)| == j <==> Pow10(j - 1) <= n < Pow10(j)
  {
    NatToStringLength(n, j);
    if j == 1 {
      assert Pow10(0) == 1;
    } else {
      NatToStringLength(n, j - 1);
    }
  }

  lemma NonNegativeLength(i: int, k: nat)
    requires k >= 2 && i >= 0
    ensures |IntToString(i)| == k <==> Pow10(k - 1) <= i < Pow10(k)
  {
    assert |IntToString(i)| == |NatToString(i)|;
    NatToStringLength(i, k);
    NatToStringLength(i, k - 1);
  }

  // ---------------------------------------------------------------- whitespace

  /** The characters `str.isspace` accepts (and `\s` matches in a `str`
      pattern). */
  predicate IsSpace(c: char) {
    var n := c as int;
    n == 0x20 || 0x09 <= n <= 0x0D || 0x1C <= n <= 0x1F || n == 0x85 || n == 0xA0 || n == 0x1680
    || 0x2000 <= n <= 0x200A || n == 0x2028 || n == 0x2029 || n == 0x202F || n == 0x205F || n == 0x3000
  }

  /** The number of whitespace characters `s` starts with. */
  function LeadingSpaces(s: string): (n: nat)
    ensures n <= |s| && (n == |s| || !IsSpace(s[n]))
    ensures forall k :: 0 <= k < n ==> IsSpace(s[k])
  {
    if |s| == 0 || !IsSpace(s[0]) then 0 else 1 + LeadingSpaces(s[1..])
  }

  /** The position where the whitespace `s` ends with begins. */
  function TrailingStart(s: string): (n: nat)
    ensures n <= |s| && (n == 0 || !IsSpace(s[n - 1]))
    ensures forall k :: n <= k < |s| ==> IsSpace(s[k])
  {
    if |s| == 0 || !IsSpace(s[|s| - 1]) then |s| else TrailingStart(s[..|s| - 1])
  }

  /** `s.strip()`: the part of `s` between its leading and its trailing
      whitespace, which starts and ends with other characters. */
  function Trim(s: string): (r: string)
    ensures LeadingSpaces(s) + |r| <= |s| && r == s[LeadingSpaces(s)..LeadingSpaces(s) + |r|]
    ensures forall k :: LeadingSpaces(s) + |r| <= k < |s| ==> IsSpace(s[k])
    ensures |r| > 0 ==> !IsSpace(r[0]) && !IsSpace(r[|r| - 1])
  {
    var lead := LeadingSpaces(s);
    var t := s[lead..];
    var r := t[..TrailingStart(t)];
    assert forall k :: lead + |r| <= k < |s| ==> s[k] == t[k - lead];
    r
  }

  /** Text that neither starts nor ends with whitespace is its own strip. */
  lemma TrimPlain(s: string)
    requires |s| > 0 ==> !IsSpace(s[0]) && !IsSpace(s[|s| - 1])
    ensures Trim(s) == s
  {
  }

  /** Stripping twice is stripping once. */
  lemma TrimIdempotent(s: string)
    ensures Trim(Trim(s)) == Trim(s)
  {
    TrimPlain(Trim(s));
  }

  /** No decimal digit, sign, point or exponent marker is whitespace. */
  lemma NumberCharsNotSpace(s: string)
    requires forall k :: 0 <= k < |s| ==> IsDigit(s[k]) || s[k] in "+-.eE"
    ensures |s| > 0 ==> !IsSpace(s[0]) && !IsSpace(s[|s| - 1])
  {
  }

  // ---------------------------------------------------------------- parsing

  /** An optional sign followed by decimal digits, with nothing around. */
  function ParseSignedDigits(s: string): (r: Option<int>)
    ensures r.Some? ==> |s| >= 1
  {
    if |s| >= 2 && (s[0] == '-' || s[0] == '+') && AllDigits(s[1..]) then
      Some(if s[0] == '-' then -(DigitsValue(s[1..]) as int) else DigitsValue(s[1..]))
    else if |s| >= 1 && AllDigits(s) then Some(DigitsValue(s))
    else None
  }

  /** `int(s)`: surrounding whitespace, an optional sign and decimal
      digits. */
  function ParseIntLiteral(s: string): Option<int> {
    ParseSignedDigits(Trim(s))
  }

  lemma ParseIntToString(i: int)
    ensures ParseIntLiteral(IntToString(i)) == Some(i)
  {
    var s := IntToString(i);
    SignedDigitsInt(i);
    NumberCharsNotSpace(s);
    TrimPlain(s);
  }

  /** `10 ** e` applied to `m`, for an integer exponent of either sign. */
  function Scale(m: real, e: int): (r: real)
    ensures e >= 0 ==> r == m * Pow10(e) as real
    ensures e < 0 ==> r * Pow10(-e) as real == m
  {
    if e >= 0 then m * Pow10(e) as real else m / Pow10(-e) as real
  }

  /** The position of the first exponent marker `e` or `E`, or the length. */
  function MarkAt(s: string): (k: nat)
    ensures k <= |s| && (k < |s| ==> s[k] == 'e' || s[k] == 'E')
    ensures forall j :: 0 <= j < k ==> s[j] != 'e' && s[j] != 'E'
  {
    if |s| == 0 || s[0] == 'e' || s[0] == 'E' then 0 else 1 + MarkAt(s[1..])
  }

  /** `float(s)` for decimal text: surrounding whitespace, an optional
      sign, digits with an optional fractional part (`12`, `-3.5`, `7.`,
      `.25`) and an optional exponent (`1e-05`, `1.2E+3`). */
  function ParseDecimal(s: string): Option<real> {
    ParseSignedFloat(Trim(s))
  }

  function ParseSignedFloat(t: string): (r: Option<real>)
    ensures r.Some? ==> |t| >= 1
  {
    if |t| >= 1 && (t[0] == '-' || t[0] == '+') then
      match ParseUnsignedFloat(t[1..])
      case Some(v) => Some(if t[0] == '-' then -v else v)
      case None => None
    else ParseUnsignedFloat(t)
  }

  /** A mantissa, then an exponent when a marker follows it. */
  function ParseUnsignedFloat(t: string): (r: Option<real>)
    ensures r.Some? ==> |t| >= 1 && r.value >= 0.0
  {
    var k := MarkAt(t);
    match ParseUnsignedDecimal(t[..k])
    case None => None
    case Some(m) =>
      if k == |t| then Some(m)
      else match ParseSignedDigits(t[k + 1..])
        case Some(e) => Some(Scale(m, e))
        case None => None
  }

  /** Digits with an optional fractional part, at least one digit in all. */
  function ParseUnsignedDecimal(s: string): (r: Option<real>)
    ensures r.Some? ==> r.value >= 0.0
  {
    var whole := Before(s, '.');
    var frac := if |whole| < |s| then s[|whole| + 1..] else "";
    if AllDigits(whole) && AllDigits(frac) && |whole| + |frac| >= 1 then
      Some(DigitsValue(whole) as real + DigitsValue(frac) as real / Pow10(|frac|) as real)
    else None
  }

  /** The digits of `str(n)` are a mantissa worth `n`. */
  lemma UnsignedDecimalNat(n: nat)
    ensures ParseUnsignedDecimal(NatToString(n)) == Some(n as real)
  {
    NatToStringValue(n);
    BeforeWhole(NatToString(n), '.');
  }

  lemma ParseDecimalNat(n: nat)
    ensures ParseDecimal(NatToString(n)) == Some(n as real)
  {
    var s := NatToString(n);
    UnsignedDecimalNat(n);
    NumberCharsNotSpace(s);
    TrimPlain(s);
    NoMark(s);
    assert s[..|s|] == s;
  }

  /** Text that starts with anything but a digit, a sign or a point, and
      has no whitespace around it, is no number. */
  lemma LeadNotNumber(s: string)
    requires |s| > 0 && !IsSpace(s[0]) && !IsSpace(s[|s| - 1])
    requires !IsDigit(s[0]) && s[0] != '+' && s[0] != '-' && s[0] != '.'
    ensures ParseDecimal(s).None?
  {
    TrimPlain(s);
    var k := MarkAt(s);
    var t := s[..k];
    if k > 0 {
      assert t[0] == s[0];
      var whole := Before(t, '.');
      assert |whole| > 0 && whole[0] == s[0];
    }
  }

  lemma NoMark(s: string)
    requires AllDigits(s)
    ensures MarkAt(s) == |s|
  {
    if |s| > 0 {
      NoMark(s[1..]);
    }
  }

  /** A mantissa, a marker and an exponent make a scaled value. */
  lemma FloatParts(t: string, k: nat, m: real, e: int)
    requires MarkAt(t) == k < |t|
    requires ParseUnsignedDecimal(t[..k]) == Some(m) && ParseSignedDigits(t[k + 1..]) == Some(e)
    ensures ParseUnsignedFloat(t) == Some(Scale(m, e))
  {
  }

  /** `str(e)` is an exponent worth `e`. */
  lemma SignedDigitsInt(e: int)
    ensures ParseSignedDigits(IntToString(e)) == Some(e)
  {
    if e < 0 {
      NegativeDigits(e);
    } else {
      var s := NatToString(e);
      NatToStringValue(e);
      assert s[0] != '-' && s[0] != '+' by {
        assert IsDigit(s[0]);
      }
    }
  }

  lemma NegativeDigits(e: int)
    requires e < 0
    ensures ParseSignedDigits(IntToString(e)) == Some(e)
  {
    var d := NatToString(-e);
    var s := IntToString(e);
    assert s == "-" + d;
    assert s[1..] == d && |s| >= 2 && s[0] == '-';
    NatToStringValue(-e);
    assert ParseSignedDigits(s) == Some(-(DigitsValue(d) as int));
  }

  /** Digits, `e` and a signed exponent read as the digits' value scaled
      by that power of ten. */
  lemma ParseDecimalExponent(m: nat, e: int)
    ensures ParseDecimal(NatToString(m) + "e" + IntToString(e)) == Some(Scale(m as real, e))
  {
    var d, x := NatToString(m), IntToString(e);
    assert IsDigit(x[|x| - 1]) by {
      if e < 0 {
        assert x[|x| - 1] == NatToString(-e)[|NatToString(-e)| - 1];
      }
    }
    ExponentText(d, x);
    UnsignedDecimalNat(m);
    SignedDigitsInt(e);
    FloatParts(d + "e" + x, |d|, m as real, e);
  }

  /** Where the mantissa and the exponent of `d e x` lie. */
  lemma ExponentText(d: string, x: string)
    requires |d| >= 1 && AllDigits(d) && |x| >= 1 && IsDigit(x[|x| - 1])
    ensures var s := d + "e" + x;
            Trim(s) == s && MarkAt(s) == |d| && s[..|d|] == d && s[|d| + 1..] == x
            && ParseDecimal(s) == ParseUnsignedFloat(s)
  {
    var s := d + "e" + x;
    assert s[0] == d[0] && s[|s| - 1] == x[|x| - 1];
    TrimPlain(s);
    MarkAtDigits(d, "e" + x);
    assert d + ("e" + x) == s;
    assert s[..|d|] == d && s[|d| + 1..] == x;
  }

  lemma MarkAtDigits(d: string, rest: string)
    requires AllDigits(d) && |rest| > 0 && rest[0] == 'e'
    ensures MarkAt(d + rest) == |d|
  {
    if |d| > 0 {
      assert (d + rest)[1..] == d[1..] + rest;
      MarkAtDigits(d[1..], rest);
    } else {
      assert d + rest == rest;
    }
  }

  /** Exponent text and whitespace around a number, as `float` and `int`
      read them. */
  lemma ParseDecimalExamples()
    ensures ParseDecimal("1e-05") == Some(0.00001)
    ensures ParseDecimal(" 12 ") == Some(12.0)
    ensures ParseIntLiteral(" 12 ") == Some(12)
  {
    ExponentExample();
    PaddedExample();
  }

  lemma ExponentExample()
    ensures ParseDecimal("1e-05") == Some(0.00001)
  {
    var s := "1e-05";
    NumberCharsNotSpace(s);
    TrimPlain(s);
    MarkAtDigits("1", "e-05");
    assert s == "1" + "e-05" && s[..1] == "1" && s[2..] == "-05";
    UnsignedDecimalNat(1);
    assert NatToString(1) == "1";
    MinusFive();
    FloatParts(s, 1, 1.0, -5);
    assert Pow10(5) == 100000;
  }

  lemma MinusFive()
    ensures ParseSignedDigits("-05") == Some(-5)
  {
    assert "-05"[1..] == "05" && "05"[..1] == "0";
    assert DigitsValue("05") == 5;
  }

  lemma PaddedExample()
    ensures ParseDecimal(" 12 ") == Some(12.0)
    ensures ParseIntLiteral(" 12 ") == Some(12)
  {
    PaddedTrim();
    TwelveParses();
  }

  lemma PaddedTrim()
    ensures Trim(" 12 ") == "12"
  {
    var s := " 12 ";
    assert LeadingSpaces(s) == 1 by {
      assert s[1..] == "12 " && !IsSpace("12 "[0]);
    }
    var t := s[1..];
    assert t == "12 " && t[..2] == "12";
    assert TrailingStart(t) == 2;
  }

  lemma TwelveParses()
    ensures ParseSignedFloat("12") == Some(12.0) && ParseSignedDigits("12") == Some(12)
  {
    ParseDecimalNat(12);
    assert NatToString(12) == "12";
    ParseIntToString(12);
    assert IntToString(12) == "12";
    TrimPlain("12");
  }
}

=== FILE: trending.dfy ===
/** `cg_fetch_search_trending` (the root file and its line-for-line copy
    under `fetch_data/`) and the legacy `cg_fetch_trending_search`: the
    trending coins of the search endpoint, with each coin's 24-hour
    price-change dictionary cut down to `btc` and `usd`, the nested `item`
    objects flattened `json_normalize`-style, a few columns dropped, the
    rest renamed in one simultaneous map, a stamp inserted in front and the
    required columns selected. The current fetcher then casts prices
    (stripping `$` and `,` when a direct cast fails), ranks and scores, and
    normalises the case of ids, symbols and names. */
module Trending {
  import opened Wrappers
  import opened Text
  import opened Values
  import opened Frames
  import opened Steps
  import opened Fetch

  // ---------------------------------------------------------------- price-change filter

  /** The quote currencies `filter_price_changes` keeps. */
  predicate Quoted(key: string) {
    key == "btc" || key == "usd"
  }

  /** `{key: value for key, value in price_changes.items() if key in ['btc', 'usd']}`. */
  function FilterPriceChanges(fields: seq<Field>): (r: seq<Field>)
    ensures forall j :: 0 <= j < |r| ==> Quoted(r[j].key) && r[j] in fields
    ensures |r| <= |fields|
  {
    if |fields| == 0 then []
    else if Quoted(fields[0].key) then [fields[0]] + FilterPriceChanges(fields[1..])
    else FilterPriceChanges(fields[1..])
  }

  lemma HasKeyCons(fields: seq<Field>, k: string)
    requires |fields| > 0
    ensures HasKey(fields, k) <==> fields[0].key == k || HasKey(fields[1..], k)
  {
    if HasKey(fields, k) && fields[0].key != k {
      var j :| 0 <= j < |fields| && fields[j].key == k;
      assert fields[1..][j - 1] == fields[j];
    }
    if HasKey(fields[1..], k) {
      var j :| 0 <= j < |fields[1..]| && fields[1..][j].key == k;
      assert fields[j + 1].key == k;
    }
  }

  /** The filter keeps exactly the `btc` and `usd` entries, with their
      values. */
  lemma {:induction false} FilterExact(fields: seq<Field>, k: string)
    ensures HasKey(FilterPriceChanges(fields), k) <==> HasKey(fields, k) && Quoted(k)
    ensures Quoted(k) ==> Get(FilterPriceChanges(fields), k) == Get(fields, k)
  {
    if |fields| > 0 {
      FilterExact(fields[1..], k);
      HasKeyCons(fields, k);
      var rest := FilterPriceChanges(fields[1..]);
      if Quoted(fields[0].key) {
        var r := [fields[0]] + rest;
        assert r[1..] == rest;
        HasKeyCons(r, k);
      }
    }
  }

  /** Filtering twice is filtering once. */
  lemma {:induction false} FilterIdempotent(fields: seq<Field>)
    ensures FilterPriceChanges(FilterPriceChanges(fields)) == FilterPriceChanges(fields)
  {
    if |fields| > 0 {
      FilterIdempotent(fields[1..]);
      var rest := FilterPriceChanges(fields[1..]);
      if Quoted(fields[0].key) {
        assert ([fields[0]] + rest)[1..] == rest;
      }
    }
  }

  /** A dictionary that holds only `btc` and `usd` entries is left as it
      is. */
  lemma {:induction false} FilterKeepsQuoted(fields: seq<Field>)
    requires forall j :: 0 <= j < |fields| ==> Quoted(fields[j].key)
    ensures FilterPriceChanges(fields) == fields
  {
    if |fields| > 0 {
      FilterKeepsQuoted(fields[1..]);
      assert [fields[0]] + fields[1..] == fields;
    }
  }

  // ---------------------------------------------------------------- the coin loop (lines 32-38)

  const ChangeKey: string := "price_change_percentage_24h"

  /** The object `d.get(key, {})` reads, or `None` when the value there is
      not a dictionary (a later `.get` or `.items()` raises). */
  function SubObject(fields: seq<Field>, key: string): (r: Option<seq<Field>>)
    ensures !HasKey(fields, key) ==> r == Some([])
    ensures HasKey(fields, key) ==> (r.Some? <==> Get(fields, key).value.VObj?)
    ensures r.Some? && HasKey(fields, key) ==> Get(fields, key) == Some(VObj(r.value))
  {
    match Get(fields, key).GetOr(VObj([]))
    case VObj(inner) => Some(inner)
    case _ => None
  }

  /** One pass of the loop on `coin`: `coin["item"]`, then the
      price-change dictionary read with `.get(..., {})` defaults, filtered,
      and written back through `item["data"]`, which raises KeyError when
      the item has no `data`. The result is the item's new fields. */
  function TrimItem(coin: Value): Result<seq<Field>, FrameError>
  {
    if !coin.VObj? then Failure(Malformed)
    else match Get(coin.fields, "item")
      case None => Failure(KeyNotFound("item"))
      case Some(item) =>
        if !item.VObj? then Failure(Malformed)
        else match SubObject(item.fields, "data")
          case None => Failure(Malformed)
          case Some(data) =>
            match SubObject(data, ChangeKey)
            case None => Failure(Malformed)
            case Some(changes) =>
              if !HasKey(item.fields, "data") then Failure(KeyNotFound("data"))
              else Success(Put(item.fields, "data", VObj(Put(data, ChangeKey, VObj(FilterPriceChanges(changes))))))
  }

  /** The loop body raises exactly when the coin is not an object with an
      object `item` holding a `data` object whose price-change entry, if
      any, is an object; otherwise only the price-change entry of `data`
      changes, to its `btc`/`usd` part. */
  lemma TrimItemSpec(coin: Value)
    ensures TrimItem(coin).Success? <==>
              coin.VObj? && HasKey(coin.fields, "item") && Get(coin.fields, "item").value.VObj?
              && var item := Get(coin.fields, "item").value.fields;
                 HasKey(item, "data") && Get(item, "data").value.VObj?
                 && SubObject(Get(item, "data").value.fields, ChangeKey).Some?
    ensures TrimItem(coin).Success? ==>
              var item := Get(coin.fields, "item").value.fields;
              var data := Get(item, "data").value.fields;
              (forall k :: k != "data" ==> Get(TrimItem(coin).value, k) == Get(item, k))
              && Get(TrimItem(coin).value, "data") == Some(VObj(Put(data, ChangeKey, VObj(FilterPriceChanges(SubObject(data, ChangeKey).value)))))
  {
  }

  /** The loop over `trending_coins`: every coin trimmed, in order, or the
      first exception. */
  function TrimCoins(coins: seq<Value>): (r: Result<seq<seq<Field>>, FrameError>)
    ensures r.Success? <==> forall k :: 0 <= k < |coins| ==> TrimItem(coins[k]).Success?
    ensures r.Success? ==> |r.value| == |coins| && forall k :: 0 <= k < |coins| ==> TrimItem(coins[k]) == Success(r.value[k])
  {
    if |coins| == 0 then Success([])
    else
      var item :- TrimItem(coins[0]);
      var rest :- TrimCoins(coins[1..]);
      TrimCoinsTail(coins, item, rest);
      Success([item] + rest)
  }

  lemma TrimCoinsTail(coins: seq<Value>, item: seq<Field>, rest: seq<seq<Field>>)
    requires |coins| > 0 && TrimItem(coins[0]) == Success(item)
    requires |rest| == |coins| - 1 && forall k :: 0 <= k < |rest| ==> TrimItem(coins[1..][k]) == Success(rest[k])
    ensures forall k :: 0 <= k < |coins| ==> TrimItem(coins[k]) == Success(([item] + rest)[k])
  {
    ConsAll(coins, item, rest, TrimItem);
  }

  lemma ConsAll<A, B, E>(xs: seq<A>, y: B, ys: seq<B>, g: A -> Result<B, E>)
    requires |xs| > 0 && g(xs[0]) == Success(y)
    requires |ys| == |xs| - 1 && forall k :: 0 <= k < |ys| ==> g(xs[1..][k]) == Success(ys[k])
    ensures forall k :: 0 <= k < |xs| ==> g(xs[k]) == Success(([y] + ys)[k])
  {
    forall k | 0 <= k < |xs| ensures g(xs[k]) == Success(([y] + ys)[k]) {
      if k > 0 {
        assert xs[k] == xs[1..][k - 1];
      }
    }
  }

  // ---------------------------------------------------------------- json_normalize (lines 40-41)

  /** The nested dictionaries flattened depth first, keys joined with `.`;
      an empty dictionary leaves nothing behind. */
  function Flatten(prefix: string, fields: seq<Field>): (r: seq<Field>)
    ensures forall j :: 0 <= j < |r| ==> !r[j].val.VObj?
    ensures forall j :: 0 <= j < |r| ==> |prefix| <= |r[j].key| && r[j].key[..|prefix|] == prefix
    decreases fields
  {
    if |fields| == 0 then []
    else
      var f := fields[0];
      var head := if f.val.VObj? then Flatten(prefix + f.key + ".", f.val.fields) else [Field(prefix + f.key, f.val)];
      assert forall j :: 0 <= j < |head| ==> |prefix| <= |head[j].key| && head[j].key[..|prefix|] == prefix by {
        forall j | 0 <= j < |head| ensures |prefix| <= |head[j].key| && head[j].key[..|prefix|] == prefix {
          if f.val.VObj? {
            var p := prefix + f.key + ".";
            assert head[j].key[..|p|] == p;
            assert p[..|prefix|] == prefix;
          } else {
            assert head[j].key == prefix + f.key;
          }
        }
      }
      head + Flatten(prefix, fields[1..])
  }

  /** The fields whose value is (or is not) a dictionary, in order. */
  function Scalars(fields: seq<Field>): (r: seq<Field>)
    ensures forall j :: 0 <= j < |r| ==> !r[j].val.VObj? && r[j] in fields
    ensures (forall j :: 0 <= j < |fields| ==> !fields[j].val.VObj?) ==> r == fields
  {
    if |fields| == 0 then []
    else if fields[0].val.VObj? then Scalars(fields[1..])
    else [fields[0]] + Scalars(fields[1..])
  }

  function Nested(fields: seq<Field>): (r: seq<Field>)
    ensures forall j :: 0 <= j < |r| ==> r[j].val.VObj? && r[j] in fields
    ensures (forall j :: 0 <= j < |fields| ==> !fields[j].val.VObj?) ==> r == []
  {
    if |fields| == 0 then []
    else if fields[0].val.VObj? then [fields[0]] + Nested(fields[1..])
    else Nested(fields[1..])
  }

  /** One record of `pd.json_normalize`: the top-level scalar fields in
      place, then the nested ones flattened. A flat item is its own
      record. */
  function Normalize(item: seq<Field>): (r: seq<Field>)
    ensures forall j :: 0 <= j < |r| ==> !r[j].val.VObj?
    ensures (forall j :: 0 <= j < |item| ==> !item[j].val.VObj?) ==> r == item
  {
    var top := Scalars(item);
    var rest := Flatten("", Nested(item));
    if forall j :: 0 <= j < |item| ==> !item[j].val.VObj? then
      assert top + rest == item;
      top + rest
    else top + rest
  }

  /** Lines 31-41: the records of the flattened table, or the exception.
      `data.get("coins", [])` needs an object payload; an empty list leaves
      `pd.DataFrame([])` without an `item` column, so `raw_df['item']`
      raises. */
  function TrendingRecords(body: Value): (r: Result<seq<seq<Field>>, FrameError>)
  {
    if !body.VObj? then Failure(Malformed)
    else match Get(body.fields, "coins").GetOr(VList([]))
      case VList(coins) =>
        var items :- TrimCoins(coins);
        if |items| == 0 then Failure(KeyNotFound("item"))
        else Success(seq(|items|, k requires 0 <= k < |items| => Normalize(items[k])))
      case _ => Failure(Malformed)
  }

  /** The coins of an object payload. */
  function Coins(body: Value): seq<Value> {
    if body.VObj? then
      match Get(body.fields, "coins").GetOr(VList([]))
      case VList(coins) => coins
      case _ => []
    else []
  }

  /** The records are the trimmed items, flattened, one per coin; no coin
      at all, or one the loop cannot trim, is an exception. */
  lemma RecordsOfCoins(body: Value)
    requires body.VObj? && Get(body.fields, "coins").GetOr(VList([])).VList?
    ensures TrendingRecords(body).Success? <==>
              |Coins(body)| > 0 && forall k :: 0 <= k < |Coins(body)| ==> TrimItem(Coins(body)[k]).Success?
    ensures TrendingRecords(body).Success? ==>
              var coins := Coins(body);
              |TrendingRecords(body).value| == |coins|
              && forall k :: 0 <= k < |coins| ==> TrendingRecords(body).value[k] == Normalize(TrimItem(coins[k]).value)
  {
  }

  /** Lines 35-38: a coin whose item has no `data` key (even one the
      defaults let through the `.get` chain) makes the loop raise, so the
      whole payload yields no records. */
  lemma MissingDataRaises(body: Value, k: nat)
    requires body.VObj? && k < |Coins(body)|
    requires var coin := Coins(body)[k];
             coin.VObj? && HasKey(coin.fields, "item") && Get(coin.fields, "item").value.VObj?
             && !HasKey(Get(coin.fields, "item").value.fields, "data")
    ensures TrendingRecords(body).Failure?
    ensures TrimItem(Coins(body)[k]) == Failure(KeyNotFound("data"))
  {
  }

  // ---------------------------------------------------------------- drop, rename, stamp, project (lines 44-82)

  const Drops: seq<string> := ["price_btc", "data.content", "data.content.title", "data.content.description"]

  /** `rename_columns`: one map applied to every label at once. */
  const Renames: map<string, string> := map[
    "coin_id" := "trdg_id",
    "id" := "coin_id",
    "name" := "coin_name",
    "symbol" := "coin_symbol",
    "market_cap_rank" := "trdg_market_cap_rank",
    "thumb" := "trdg_img_thumb",
    "small" := "trdg_img_small",
    "large" := "trdg_img_large",
    "slug" := "trdg_slug",
    "score" := "trdg_score",
    "data.price" := "trdg_price_usd",
    "data.price_btc" := "trdg_price_btc",
    "data.price_change_percentage_24h.usd" := "trdg_price_change_percentage_24h_usd",
    "data.price_change_percentage_24h.btc" := "trdg_price_change_percentage_24h_btc",
    "data.market_cap" := "trdg_market_cap_usd",
    "data.market_cap_btc" := "trdg_market_cap_btc",
    "data.total_volume" := "trdg_total_volume_usd",
    "data.total_volume_btc" := "trdg_total_volume_btc",
    "data.sparkline" := "trdg_sparkline"]

  /** The required columns after the stamp, in output order. */
  const Fields: seq<string> := [
    "trdg_id", "coin_id", "coin_name", "coin_symbol", "trdg_market_cap_rank",
    "trdg_img_thumb", "trdg_img_small", "trdg_img_large", "trdg_slug",
    "trdg_score", "trdg_price_usd", "trdg_price_btc",
    "trdg_price_change_percentage_24h_btc", "trdg_price_change_percentage_24h_usd",
    "trdg_market_cap_usd", "trdg_market_cap_btc", "trdg_total_volume_usd",
    "trdg_total_volume_btc", "trdg_sparkline"]

  const Stamped: string := "trdg_data_ts"

  const Required: seq<string> := [Stamped] + Fields

  /** The payload key each required label is read from: the rename map
      read backwards. */
  const Origins: map<string, string> := map[
    "trdg_id" := "coin_id",
    "coin_id" := "id",
    "coin_name" := "name",
    "coin_symbol" := "symbol",
    "trdg_market_cap_rank" := "market_cap_rank",
    "trdg_img_thumb" := "thumb",
    "trdg_img_small" := "small",
    "trdg_img_large" := "large",
    "trdg_slug" := "slug",
    "trdg_score" := "score",
    "trdg_price_usd" := "data.price",
    "trdg_price_btc" := "data.price_btc",
    "trdg_price_change_percentage_24h_usd" := "data.price_change_percentage_24h.usd",
    "trdg_price_change_percentage_24h_btc" := "data.price_change_percentage_24h.btc",
    "trdg_market_cap_usd" := "data.market_cap",
    "trdg_market_cap_btc" := "data.market_cap_btc",
    "trdg_total_volume_usd" := "data.total_volume",
    "trdg_total_volume_btc" := "data.total_volume_btc",
    "trdg_sparkline" := "data.sparkline"]

  /** The payload key a label is read from (itself when it is not renamed). */
  function Origin(origins: map<string, string>, c: string): string {
    if c in origins then origins[c] else c
  }

  predicate Injective(m: map<string, string>) {
    forall a, b :: a in m && b in m && m[a] == m[b] ==> a == b
  }

  /** What the staging needs of a rename table: every required label is
      the new name of one payload key that is not dropped, the map is
      one-to-one, and the stamp label is new. */
  predicate Renaming(m: map<string, string>, origins: map<string, string>, fields: seq<string>,
                     drops: seq<string>, head: string) {
    head !in fields && head !in m && head !in m.Values && head !in drops
    && (forall c :: c in fields ==> Relabel(m, Origin(origins, c)) == c && Origin(origins, c) !in drops)
    && (forall k :: k in m ==> Origin(origins, m[k]) == k)
  }

  lemma RenamingInjective(m: map<string, string>, origins: map<string, string>, fields: seq<string>,
                          drops: seq<string>, head: string)
    requires Renaming(m, origins, fields, drops, head)
    ensures Injective(m)
  {
    forall a, b | a in m && b in m && m[a] == m[b] ensures a == b {
      assert Origin(origins, m[a]) == a && Origin(origins, m[b]) == b;
    }
  }

  /** No payload key that the map leaves alone is one of its new names:
      the renamed labels stay apart from the untouched ones. */
  predicate NoClash(m: map<string, string>, records: seq<seq<Field>>) {
    forall i, k :: 0 <= i < |records| && HasKey(records[i], k) && k !in m ==> k !in m.Values
  }

  /** Lines 40-67: the flattened table, dropped and renamed. */
  function Shaped(records: seq<seq<Field>>, drops: seq<string>, m: map<string, string>): Frame {
    Rename(DropIgnoring(FromRecords(records), drops), m)
  }

  /** A payload key that is not dropped lands, with its values, under its
      new name. */
  lemma ShapedCell(records: seq<seq<Field>>, drops: seq<string>, m: map<string, string>, i: nat, k: string)
    requires Injective(m) && NoClash(m, records)
    requires Present(records, k) && k !in drops && i < |records|
    ensures Relabel(m, k) in Shaped(records, drops, m).columns
    ensures At(Shaped(records, drops, m), i, Relabel(m, k)) == Get(records[i], k).GetOr(VNull)
  {
    var f := FromRecords(records);
    var d := DropIgnoring(f, drops);
    DropCells(f, drops, i, k);
    FromRecordsAt(records, i, k);
    forall a, b | a in d.columns && b in d.columns && Relabel(m, a) == Relabel(m, b) ensures a == b {
      var ia :| 0 <= ia < |records| && HasKey(records[ia], a);
      var ib :| 0 <= ib < |records| && HasKey(records[ib], b);
      assert a in m ==> m[a] in m.Values;
      assert b in m ==> m[b] in m.Values;
    }
    RenameCells(d, m, i, k);
  }

  /** Every label of the shaped table is the new name of a payload key
      that is not dropped. */
  lemma ShapedFrom(records: seq<seq<Field>>, drops: seq<string>, m: map<string, string>, c: string) returns (k: string)
    requires c in Shaped(records, drops, m).columns
    ensures Present(records, k) && k !in drops && Relabel(m, k) == c
  {
    var d := DropIgnoring(FromRecords(records), drops);
    var j :| 0 <= j < |d.columns| && Shaped(records, drops, m).columns[j] == c;
    k := d.columns[j];
  }

  /** Under a rename table and no clash, each required label is present
      exactly when its payload key is, and reads that key's values; the
      stamp label is present exactly when the payload carries it. */
  lemma ShapedLabel(records: seq<seq<Field>>, drops: seq<string>, m: map<string, string>,
                    origins: map<string, string>, fields: seq<string>, head: string, c: string)
    requires Renaming(m, origins, fields, drops, head) && NoClash(m, records)
    requires c in fields || c == head
    ensures c in fields ==> (c in Shaped(records, drops, m).columns <==> Present(records, Origin(origins, c)))
    ensures c == head ==> (c in Shaped(records, drops, m).columns <==> Present(records, head))
    ensures c in fields && c in Shaped(records, drops, m).columns ==>
              forall i :: 0 <= i < |records| ==> At(Shaped(records, drops, m), i, c) == Get(records[i], Origin(origins, c)).GetOr(VNull)
  {
    RenamingInjective(m, origins, fields, drops, head);
    var g := Shaped(records, drops, m);
    var o := if c == head then head else Origin(origins, c);
    assert Relabel(m, o) == c && o !in drops;
    if c in g.columns {
      var k := ShapedFrom(records, drops, m, c);
      if k in m {
        assert Origin(origins, m[k]) == k;
      } else {
        assert k !in m.Values;
        if Origin(origins, c) in m {
          assert m[Origin(origins, c)] in m.Values;
        }
      }
      assert k == o;
    }
    if Present(records, o) {
      forall i | 0 <= i < |records| ensures At(g, i, c) == Get(records[i], o).GetOr(VNull) {
        ShapedCell(records, drops, m, i, o);
      }
      ShapedCell(records, drops, m, 0, o);
    }
  }

  /** The value a record supplies to label `c`: the stamp, or the record's
      value under the payload key the label comes from. */
  function Supplied(rec: seq<Field>, now: int, head: string, origins: map<string, string>, c: string): Value {
    if c == head then Stamp(now) else Get(rec, Origin(origins, c)).GetOr(VNull)
  }

  lemma HeadFacts(head: string, now: int)
    ensures Labels([Field(head, Stamp(now))]) == [head]
    ensures forall c :: HasKey([Field(head, Stamp(now))], c) <==> c == head
    ensures Get([Field(head, Stamp(now))], head) == Some(Stamp(now))
  {
    var heads := [Field(head, Stamp(now))];
    forall c | c == head ensures HasKey(heads, c) {
      assert heads[0].key == c;
    }
  }

  /** Lines 68-82 on the shaped table: the stamp is inserted first and the
      required labels projected. This succeeds exactly when no record
      carries the stamp label and every required payload key occurs in
      some record. */
  lemma StagedSucceeds(records: seq<seq<Field>>, drops: seq<string>, m: map<string, string>,
                       origins: map<string, string>, fields: seq<string>, head: string, now: int)
    requires Renaming(m, origins, fields, drops, head) && NoClash(m, records)
    ensures Stage(Shaped(records, drops, m), [Field(head, Stamp(now))], [head] + fields).Success? <==>
              Absent(records, head) && forall c :: c in fields ==> Present(records, Origin(origins, c))
  {
    var g := Shaped(records, drops, m);
    var heads := [Field(head, Stamp(now))];
    FrontSucceeds(g, heads);
    StageCells(g, heads, [head] + fields);
    HeadFacts(head, now);
    ShapedLabel(records, drops, m, origins, fields, head, head);
    forall c | c in fields
      ensures c in g.columns <==> Present(records, Origin(origins, c))
    {
      ShapedLabel(records, drops, m, origins, fields, head, c);
    }
    assert Present(records, head) <==> !Absent(records, head);
  }

  /** Each cell of the staged table is the stamp or the record's value. */
  lemma StagedCells(records: seq<seq<Field>>, drops: seq<string>, m: map<string, string>,
                    origins: map<string, string>, fields: seq<string>, head: string, now: int, s: Frame)
    requires Renaming(m, origins, fields, drops, head) && NoClash(m, records)
    requires Stage(Shaped(records, drops, m), [Field(head, Stamp(now))], [head] + fields) == Success(s)
    ensures s.columns == [head] + fields && |s.rows| == |records| && WellFormed(s)
    ensures forall i, c :: 0 <= i < |records| && c in [head] + fields ==>
              At(s, i, c) == Supplied(records[i], now, head, origins, c)
  {
    var g := Shaped(records, drops, m);
    var heads := [Field(head, Stamp(now))];
    StageCells(g, heads, [head] + fields);
    forall i, c | 0 <= i < |records| && c in [head] + fields
      ensures At(s, i, c) == Supplied(records[i], now, head, origins, c)
    {
      StagedCell(records, drops, m, origins, fields, head, now, s, i, c);
    }
  }

  lemma StagedCell(records: seq<seq<Field>>, drops: seq<string>, m: map<string, string>,
                   origins: map<string, string>, fields: seq<string>, head: string, now: int, s: Frame,
                   i: nat, c: string)
    requires Renaming(m, origins, fields, drops, head) && NoClash(m, records)
    requires Stage(Shaped(records, drops, m), [Field(head, Stamp(now))], [head] + fields) == Success(s)
    requires i < |records| && c in [head] + fields
    ensures c in s.columns && At(s, i, c) == Supplied(records[i], now, head, origins, c)
  {
    var g := Shaped(records, drops, m);
    var heads := [Field(head, Stamp(now))];
    StageCells(g, heads, [head] + fields);
    HeadFacts(head, now);
    if c != head {
      ShapedLabel(records, drops, m, origins, fields, head, c);
    }
  }

  lemma RenamesOrigins()
    ensures forall k :: k in Renames ==> Origin(Origins, Renames[k]) == k
  {
  }

  lemma FieldsRenamedFirst()
    ensures forall c :: c in Fields[..5] ==> Relabel(Renames, Origin(Origins, c)) == c
  {
  }

  lemma FieldsRenamedSecond()
    ensures forall c :: c in Fields[5..10] ==> Relabel(Renames, Origin(Origins, c)) == c
  {
  }

  lemma FieldsRenamedThird()
    ensures forall c :: c in Fields[10..15] ==> Relabel(Renames, Origin(Origins, c)) == c
  {
  }

  lemma FieldsRenamedLast()
    ensures forall c :: c in Fields[15..] ==> Relabel(Renames, Origin(Origins, c)) == c
  {
  }

  lemma FieldsRenamed()
    ensures forall c :: c in Fields ==> Relabel(Renames, Origin(Origins, c)) == c
  {
    FieldsRenamedFirst();
    FieldsRenamedSecond();
    FieldsRenamedThird();
    FieldsRenamedLast();
    assert Fields == Fields[..5] + Fields[5..10] + Fields[10..15] + Fields[15..];
  }

  lemma FieldsKept()
    ensures forall c :: c in Fields ==> Origin(Origins, c) !in Drops
  {
  }

  lemma StampedApart()
    ensures Stamped !in Fields && Stamped !in Renames && Stamped !in Renames.Values && Stamped !in Drops
  {
  }

  /** The current fetcher's table is a rename table. */
  lemma CurrentRenaming()
    ensures Renaming(Renames, Origins, Fields, Drops, Stamped)
  {
    RenamesOrigins();
    FieldsRenamed();
    FieldsKept();
    StampedApart();
  }

  // ---------------------------------------------------------------- price columns (lines 85-94)

  const FloatColumns: seq<string> := [
    "trdg_price_usd", "trdg_price_btc", "trdg_price_change_percentage_24h_btc", "trdg_price_change_percentage_24h_usd",
    "trdg_market_cap_usd", "trdg_market_cap_btc", "trdg_total_volume_usd", "trdg_total_volume_btc"]

  /** Every cell converts with `astype(float)`. */
  predicate AllFloat(cells: seq<Value>) {
    forall i :: 0 <= i < |cells| ==> FloatCast(cells[i]).Cast?
  }

  /** Every cell converts once `$` and `,` are stripped. */
  predicate AllStrippedFloat(cells: seq<Value>) {
    forall i :: 0 <= i < |cells| ==> FloatCast(StripMoney(cells[i])).Cast?
  }

  /** The first cell that does not convert raises ValueError (text that
      is not a number), not TypeError. */
  predicate ValueErrorFirst(cells: seq<Value>) {
    exists i :: 0 <= i < |cells| && RaisesFirst(cells, FloatCast, i) && FloatCast(cells[i]).RaisesValueError?
  }

  /** The column survives the `try`/`except ValueError` of lines 91-94. */
  predicate MoneyOk(cells: seq<Value>) {
    AllFloat(cells) || (ValueErrorFirst(cells) && AllStrippedFloat(cells))
  }

  /** One cell of a price column: cast directly when the whole column
      casts, otherwise stripped first. */
  function MoneyCell(direct: bool, v: Value): Cast {
    if direct then FloatCast(v) else FloatCast(StripMoney(v))
  }

  /** Lines 91-94 on column `c`. */
  function MoneyColumn(f: Frame, c: string): Result<Frame, FrameError> {
    match CastColumn(f, c, FloatCast)
    case Success(g) => Success(g)
    case Failure(e) =>
      if e == CastValueError(c) then
        var g :- MapColumn(f, c, StripMoney);
        CastColumn(g, c, FloatCast)
      else Failure(e)
  }

  /** A column cast to float: each cell converted, the others untouched. */
  predicate FloatCastOf(f: Frame, c: string, g: Frame, conv: Value -> Value)
    requires c in f.columns
  {
    g.columns == f.columns && |g.rows| == |f.rows|
    && (forall i :: 0 <= i < |f.rows| ==> FloatCast(conv(At(f, i, c))) == Cast(At(g, i, c)))
    && forall i, d :: 0 <= i < |f.rows| && d in f.columns && d != c ==> At(g, i, d) == At(f, i, d)
  }

  lemma CastColumnOf(f: Frame, c: string)
    requires c in f.columns
    ensures CastColumn(f, c, FloatCast).Success? <==> AllFloat(ColumnOf(f, c))
    ensures CastColumn(f, c, FloatCast).Success? ==> FloatCastOf(f, c, CastColumn(f, c, FloatCast).value, v => v)
    ensures CastColumn(f, c, FloatCast).Failure? ==>
              (CastColumn(f, c, FloatCast).error == CastValueError(c) <==> ValueErrorFirst(ColumnOf(f, c)))
  {
    var cells := ColumnOf(f, c);
    ColumnCells(f, c);
    if !AllFloat(cells) {
      var i := FirstRaising(cells, FloatCast);
      CastAllFirst(cells, FloatCast, i);
      if ValueErrorFirst(cells) {
        var j :| 0 <= j < |cells| && RaisesFirst(cells, FloatCast, j) && FloatCast(cells[j]).RaisesValueError?;
        assert !(j < i) && !(i < j);
      }
    }
  }

  /** The fallback: strip, then cast. */
  lemma StrippedCast(f: Frame, c: string, g: Frame)
    requires c in f.columns && MapColumn(f, c, StripMoney) == Success(g)
    ensures c in g.columns && ColumnOf(g, c) == seq(|f.rows|, i requires 0 <= i < |f.rows| => StripMoney(At(f, i, c)))
    ensures CastColumn(g, c, FloatCast).Success? <==> AllStrippedFloat(ColumnOf(f, c))
    ensures CastColumn(g, c, FloatCast).Success? ==> FloatCastOf(f, c, CastColumn(g, c, FloatCast).value, StripMoney)
  {
    CastColumnOf(g, c);
  }

  /** The fallback of line 94 is taken only after a ValueError, which
      only text or a list raises, so its `.str` accessor always accepts
      the column. */
  lemma FallbackAccepted(cells: seq<Value>)
    requires ValueErrorFirst(cells)
    ensures exists i :: 0 <= i < |cells| && (cells[i].VStr? || cells[i].VList?)
    ensures StrAccepts(cells)
  {
    var i :| 0 <= i < |cells| && RaisesFirst(cells, FloatCast, i) && FloatCast(cells[i]).RaisesValueError?;
    StrAcceptsCases(cells);
    assert cells[i].VStr? || cells[i].VList?;
  }

  /** Lines 90-94 on one column: they succeed exactly when the column
      casts directly, or its first failure is a ValueError and every
      stripped cell casts; the cells are cast directly in the first case
      and stripped first in the second (where a numeric cell, being no
      text, becomes missing); the other columns are untouched. */
  lemma MoneyColumnCells(f: Frame, c: string)
    requires c in f.columns
    ensures MoneyColumn(f, c).Success? <==> MoneyOk(ColumnOf(f, c))
    ensures MoneyColumn(f, c).Success? ==>
              FloatCastOf(f, c, MoneyColumn(f, c).value, v => if AllFloat(ColumnOf(f, c)) then v else StripMoney(v))
  {
    var cells := ColumnOf(f, c);
    CastColumnOf(f, c);
    if !AllFloat(cells) && ValueErrorFirst(cells) {
      var g := MapColumn(f, c, StripMoney).value;
      StrippedCast(f, c, g);
    }
  }

  /** The loop of lines 90-94 over `names`, in order. */
  function MoneyColumns(f: Frame, names: seq<string>): Result<Frame, FrameError>
    decreases |names|
  {
    if |names| == 0 then Success(f)
    else
      var g :- MoneyColumn(f, names[0]);
      MoneyColumns(g, names[1..])
  }

  /** The result of the loop: each listed column converted on its own
      terms, every other column untouched. */
  predicate MoneyOf(f: Frame, names: seq<string>, g: Frame)
    requires forall c :: c in names ==> c in f.columns
  {
    g.columns == f.columns && |g.rows| == |f.rows|
    && (forall i, c :: 0 <= i < |f.rows| && c in names ==> MoneyCell(AllFloat(ColumnOf(f, c)), At(f, i, c)) == Cast(At(g, i, c)))
    && forall i, d :: 0 <= i < |f.rows| && d in f.columns && d !in names ==> At(g, i, d) == At(f, i, d)
  }

  /** The loop succeeds exactly when each listed column survives its own
      `try`, judged on the column as it came in. */
  lemma {:induction false} MoneyColumnsCells(f: Frame, names: seq<string>)
    requires Distinct(names) && forall c :: c in names ==> c in f.columns
    ensures MoneyColumns(f, names).Success? <==> forall c :: c in names ==> MoneyOk(ColumnOf(f, c))
    ensures MoneyColumns(f, names).Success? ==> MoneyOf(f, names, MoneyColumns(f, names).value)
    decreases |names|
  {
    if |names| > 0 {
      var c0, rest := names[0], names[1..];
      DistinctTail(names);
      MoneyColumnCells(f, c0);
      var r := MoneyColumn(f, c0);
      if r.Success? {
        var g := r.value;
        OtherColumnsKept(f, c0, rest, g);
        MoneyColumnsCells(g, rest);
        var out := MoneyColumns(g, rest);
        if out.Success? {
          MoneyOfCons(f, c0, rest, g, out.value);
        }
      }
    }
  }

  lemma DistinctTail(names: seq<string>)
    requires Distinct(names) && |names| > 0
    ensures names == [names[0]] + names[1..]
    ensures forall c :: c in names <==> c == names[0] || c in names[1..]
    ensures names[0] !in names[1..] && Distinct(names[1..])
  {
    var c0, rest := names[0], names[1..];
    assert names == [c0] + rest;
    forall k | 0 <= k < |rest| ensures rest[k] != c0 {
      assert rest[k] == names[k + 1];
    }
    forall a, b | 0 <= a < b < |rest| ensures rest[a] != rest[b] {
      assert rest[a] == names[a + 1] && rest[b] == names[b + 1];
    }
  }

  /** Casting one column leaves the others' cells as they were. */
  lemma OtherColumnsKept(f: Frame, c0: string, rest: seq<string>, g: Frame)
    requires c0 in f.columns && c0 !in rest && forall c :: c in rest ==> c in f.columns
    requires FloatCastOf(f, c0, g, v => if AllFloat(ColumnOf(f, c0)) then v else StripMoney(v))
    ensures forall c :: c in rest ==> c in g.columns && ColumnOf(g, c) == ColumnOf(f, c)
  {
    forall c | c in rest ensures ColumnOf(g, c) == ColumnOf(f, c) {
      assert forall i :: 0 <= i < |f.rows| ==> At(g, i, c) == At(f, i, c);
    }
  }

  /** One column converted, then the rest: together, the whole loop. */
  lemma MoneyOfCons(f: Frame, c0: string, rest: seq<string>, g: Frame, h: Frame)
    requires c0 in f.columns && c0 !in rest && forall c :: c in rest ==> c in f.columns
    requires FloatCastOf(f, c0, g, v => if AllFloat(ColumnOf(f, c0)) then v else StripMoney(v))
    requires forall c :: c in rest ==> c in g.columns && ColumnOf(g, c) == ColumnOf(f, c)
    requires MoneyOf(g, rest, h)
    ensures MoneyOf(f, [c0] + rest, h)
  {
    var names := [c0] + rest;
    forall i, c | 0 <= i < |f.rows| && c in names
      ensures MoneyCell(AllFloat(ColumnOf(f, c)), At(f, i, c)) == Cast(At(h, i, c))
    {
      if c == c0 {
        assert At(h, i, c) == At(g, i, c);
      } else {
        assert At(g, i, c) == At(f, i, c);
      }
    }
  }

  // ---------------------------------------------------------------- integers and case (lines 96-101)

  const IntColumns: seq<string> := ["trdg_id", "trdg_market_cap_rank", "trdg_score"]

  function Finish(): seq<Step> {
    Each(IntColumns, IntCast)
    + [Step("coin_id", Lift(LowerCell)), Step("coin_symbol", Lift(UpperCell)), Step("coin_name", Lift(UpperCell))]
  }

  /** Lines 96-101 as one rule per column. */
  function FinishCell(c: string, v: Value): Cast {
    if c in IntColumns then IntCast(v)
    else if c == "coin_id" then Cast(LowerCell(v))
    else if c == "coin_symbol" || c == "coin_name" then Cast(UpperCell(v))
    else Cast(v)
  }

  lemma CaseByColumn(c: string, v: Value)
    ensures Convert([Step("coin_id", Lift(LowerCell)), Step("coin_symbol", Lift(UpperCell)), Step("coin_name", Lift(UpperCell))], c, v)
            == if c == "coin_id" then Cast(LowerCell(v))
               else if c == "coin_symbol" || c == "coin_name" then Cast(UpperCell(v))
               else Cast(v)
  {
    var f := [Step("coin_id", Lift(LowerCell)), Step("coin_symbol", Lift(UpperCell)), Step("coin_name", Lift(UpperCell))];
    var f1 := f[1..];
    var f2 := f1[1..];
    assert f2[1..] == [];
    if c == "coin_id" {
      assert Lift(LowerCell)(v) == Cast(LowerCell(v));
      ConvertHit(f, c, v);
      ConvertUntouched(f1, c, LowerCell(v));
    } else {
      ConvertSkip(f, c, v);
      if c == "coin_symbol" {
        assert Lift(UpperCell)(v) == Cast(UpperCell(v));
        ConvertHit(f1, c, v);
        ConvertUntouched(f2, c, UpperCell(v));
      } else {
        ConvertSkip(f1, c, v);
        if c == "coin_name" {
          assert Lift(UpperCell)(v) == Cast(UpperCell(v));
          ConvertHit(f2, c, v);
        } else {
          ConvertSkip(f2, c, v);
        }
      }
    }
  }

  /** The statements of lines 96-101 convert each column as `FinishCell`
      says. */
  lemma FinishByColumn(c: string, v: Value)
    ensures Convert(Finish(), c, v) == FinishCell(c, v)
  {
    var ints, cases := Each(IntColumns, IntCast), [Step("coin_id", Lift(LowerCell)), Step("coin_symbol", Lift(UpperCell)), Step("coin_name", Lift(UpperCell))];
    assert Distinct(IntColumns);
    ConvertAppend(ints, cases, c, v);
    ConvertEachOnce(IntColumns, IntCast, c, v);
    var w := Convert(ints, c, v);
    if w.Cast? {
      CaseByColumn(c, w.v);
    }
  }

  // ---------------------------------------------------------------- the fetcher

  /** The columns lines 99-101 take the `.str` accessor on. */
  const CaseColumns: seq<string> := ["coin_id", "coin_symbol", "coin_name"]

  /** Lines 85-101 on the staged table. The accessor of lines 99-101 is
      checked once the statements have run, on the table they start from:
      the integer casts before it touch other columns and the case
      conversions never raise, so each column is judged on the cells it
      holds when its statement is reached, and the first error raised is
      the same. */
  function Clean(s: Frame): Result<Frame, FrameError> {
    var m :- MoneyColumns(s, FloatColumns);
    var out :- ApplySteps(m, Finish());
    var checked :- StrColumns(m, CaseColumns);
    Success(out)
  }

  /** The body of the `try` on a decoded payload. */
  function TrendingProcess(body: Value, now: int): Result<Frame, FrameError> {
    var records :- TrendingRecords(body);
    var s :- Stage(Shaped(records, Drops, Renames), [Field(Stamped, Stamp(now))], Required);
    Clean(s)
  }

  /** `cg_fetch_search_trending`: any failure, of the request or of the
      processing, yields the empty table. */
  function SearchTrending(now: int, resp: Response): (r: Frame)
    ensures resp.RequestFailed? ==> r == Empty()
    ensures resp.Payload? && TrendingProcess(resp.body, now).Failure? ==> r == Empty()
  {
    match resp
    case RequestFailed => Empty()
    case Payload(body) => Settle(TrendingProcess(body, now))
  }

  // ---------------------------------------------------------------- properties of the fetcher

  /** One cell of the returned table, by column. */
  function TrendCell(direct: bool, c: string, v: Value): Cast {
    if c in FloatColumns then MoneyCell(direct, v) else FinishCell(c, v)
  }

  lemma ListsFacts()
    ensures Distinct(FloatColumns)
    ensures forall c :: c in FloatColumns ==> c in Required
    ensures forall c :: c in FloatColumns ==> FinishCell(c, VNull) == Cast(VNull) && c !in IntColumns
    ensures forall c :: c in FloatColumns ==> c != "coin_id" && c != "coin_symbol" && c != "coin_name"
  {
  }

  lemma FinishLabelled(m: Frame)
    requires m.columns == Required
    ensures Labelled(Finish(), m)
  {
    var ints, cases := Each(IntColumns, IntCast), [Step("coin_id", Lift(LowerCell)), Step("coin_symbol", Lift(UpperCell)), Step("coin_name", Lift(UpperCell))];
    assert forall k :: 0 <= k < |ints| ==> ints[k].column in Fields;
    assert forall k :: 0 <= k < |cases| ==> cases[k].column in Fields;
  }

  lemma FinishRule()
    ensures forall c, v :: Convert(Finish(), c, v) == FinishCell(c, v)
  {
    forall c, v ensures Convert(Finish(), c, v) == FinishCell(c, v) {
      FinishByColumn(c, v);
    }
  }

  /** Lines 90-101 on a staged table: they succeed exactly when every
      price column survives its `try`, no integer cast meets a missing or
      non-numeric cell, and the `.str` accessor accepts the id, symbol and
      name columns; each cell is then converted by its column's rule. */
  lemma CleanCells(s: Frame)
    requires s.columns == Required
    ensures Clean(s).Success? <==>
              (forall c :: c in FloatColumns ==> MoneyOk(ColumnOf(s, c)))
              && (forall i, c :: 0 <= i < |s.rows| && c in Required ==> FinishCell(c, At(s, i, c)).Cast?)
              && forall c :: c in CaseColumns ==> StrAccepts(ColumnOf(s, c))
    ensures Clean(s).Success? ==> Clean(s).value.columns == Required && |Clean(s).value.rows| == |s.rows|
    ensures Clean(s).Success? ==>
              forall i, c :: 0 <= i < |s.rows| && c in Required ==>
                TrendCell(AllFloat(ColumnOf(s, c)), c, At(s, i, c)) == Cast(At(Clean(s).value, i, c))
  {
    ListsFacts();
    MoneyColumnsCells(s, FloatColumns);
    var mr := MoneyColumns(s, FloatColumns);
    if mr.Success? {
      var m := mr.value;
      FinishOnMoney(s, m);
      CaseColumnsKept(s, m);
    }
  }

  /** The integer and case statements on the price loop's result. */
  lemma FinishOnMoney(s: Frame, m: Frame)
    requires s.columns == Required && forall c :: c in FloatColumns ==> c in s.columns
    requires MoneyOf(s, FloatColumns, m)
    ensures ApplySteps(m, Finish()).Success? <==>
              forall i, c :: 0 <= i < |s.rows| && c in Required ==> FinishCell(c, At(s, i, c)).Cast?
    ensures ApplySteps(m, Finish()).Success? ==>
              ApplySteps(m, Finish()).value.columns == Required && |ApplySteps(m, Finish()).value.rows| == |s.rows|
    ensures ApplySteps(m, Finish()).Success? ==>
              forall i, c :: 0 <= i < |s.rows| && c in Required ==>
                TrendCell(AllFloat(ColumnOf(s, c)), c, At(s, i, c)) == Cast(At(ApplySteps(m, Finish()).value, i, c))
  {
    ListsFacts();
    FinishLabelled(m);
    FinishRule();
    ApplyStepsByRule(m, Finish(), (c, v) => FinishCell(c, v));
    forall i, c | 0 <= i < |s.rows| && c in Required
      ensures FinishCell(c, At(m, i, c)).Cast? <==> FinishCell(c, At(s, i, c)).Cast?
    {
      if c !in FloatColumns {
        assert At(m, i, c) == At(s, i, c);
      }
    }
    var out := ApplySteps(m, Finish());
    if out.Success? {
      forall i, c | 0 <= i < |s.rows| && c in Required
        ensures TrendCell(AllFloat(ColumnOf(s, c)), c, At(s, i, c)) == Cast(At(out.value, i, c))
      {
        if c in FloatColumns {
          assert FinishCell(c, At(m, i, c)) == Cast(At(m, i, c));
        } else {
          assert At(m, i, c) == At(s, i, c);
        }
      }
    }
  }

  /** The price loop leaves the id, symbol and name columns as the
      accessor of lines 99-101 will find them. */
  lemma CaseColumnsKept(s: Frame, m: Frame)
    requires s.columns == Required && forall c :: c in FloatColumns ==> c in s.columns
    requires MoneyOf(s, FloatColumns, m)
    ensures StrColumns(m, CaseColumns).Success? <==> forall c :: c in CaseColumns ==> StrAccepts(ColumnOf(s, c))
  {
    CaseColumnsApart();
    UntouchedColumn(s, m, "coin_id");
    UntouchedColumn(s, m, "coin_symbol");
    UntouchedColumn(s, m, "coin_name");
    CaseText(m, ColumnOf(s, "coin_id"), ColumnOf(s, "coin_symbol"), ColumnOf(s, "coin_name"));
  }

  lemma CaseColumnsApart()
    ensures forall c :: c in CaseColumns ==> c in Required && c !in FloatColumns
    ensures "coin_id" in CaseColumns && "coin_symbol" in CaseColumns && "coin_name" in CaseColumns
  {
    assert Required[2] == "coin_id" && Required[3] == "coin_name" && Required[4] == "coin_symbol";
    ListsFacts();
  }

  lemma CaseText(m: Frame, a: seq<Value>, b: seq<Value>, c: seq<Value>)
    requires Column(m, "coin_id") == Success(a) && Column(m, "coin_symbol") == Success(b)
    requires Column(m, "coin_name") == Success(c)
    ensures StrColumns(m, CaseColumns).Success? <==> StrAccepts(a) && StrAccepts(b) && StrAccepts(c)
  {
    assert CaseColumns[0] == "coin_id" && CaseColumns[1] == "coin_symbol" && CaseColumns[2] == "coin_name";
  }

  /** A column outside the price loop reads the same after it. */
  lemma UntouchedColumn(s: Frame, m: Frame, c: string)
    requires s.columns == Required && forall c :: c in FloatColumns ==> c in s.columns
    requires MoneyOf(s, FloatColumns, m)
    requires c in Required && c !in FloatColumns
    ensures Column(m, c) == Success(ColumnOf(s, c))
  {
    ColumnCells(m, c);
    assert ColumnOf(m, c) == ColumnOf(s, c);
  }

  /** The column of values the records supply to label `c`. */
  function SuppliedColumn(records: seq<seq<Field>>, now: int, c: string): (r: seq<Value>)
    ensures |r| == |records| && forall i :: 0 <= i < |records| ==> r[i] == Supplied(records[i], now, Stamped, Origins, c)
  {
    seq(|records|, i requires 0 <= i < |records| => Supplied(records[i], now, Stamped, Origins, c))
  }

  /** The records carry every required payload key and not the stamp
      label. */
  predicate KeysOk(records: seq<seq<Field>>) {
    Absent(records, Stamped) && forall c :: c in Fields ==> Present(records, Origin(Origins, c))
  }

  /** Every price column survives its `try`, and no integer cast fails. */
  predicate CastsOk(records: seq<seq<Field>>, now: int) {
    (forall c :: c in FloatColumns ==> MoneyOk(SuppliedColumn(records, now, c)))
    && forall i, c :: 0 <= i < |records| && c in Required ==> FinishCell(c, Supplied(records[i], now, Stamped, Origins, c)).Cast?
  }

  /** The `.str` accessor accepts what the records supply to the id,
      symbol and name columns. */
  predicate TextOk(records: seq<seq<Field>>, now: int) {
    forall c :: c in CaseColumns ==> StrAccepts(SuppliedColumn(records, now, c))
  }

  predicate TrendingOk(records: seq<seq<Field>>, now: int) {
    KeysOk(records) && CastsOk(records, now) && TextOk(records, now)
  }

  /** The staged table reads the records' values. */
  lemma StagedColumns(records: seq<seq<Field>>, now: int, s: Frame)
    requires NoClash(Renames, records)
    requires Stage(Shaped(records, Drops, Renames), [Field(Stamped, Stamp(now))], Required) == Success(s)
    ensures s.columns == Required && |s.rows| == |records|
    ensures forall c :: c in Required ==> ColumnOf(s, c) == SuppliedColumn(records, now, c)
    ensures forall i, c :: 0 <= i < |records| && c in Required ==> At(s, i, c) == Supplied(records[i], now, Stamped, Origins, c)
  {
    CurrentRenaming();
    StagedCells(records, Drops, Renames, Origins, Fields, Stamped, now, s);
  }

  /** The processing after the records are read. */
  lemma ProcessRecords(body: Value, now: int, records: seq<seq<Field>>)
    requires TrendingRecords(body) == Success(records)
    ensures TrendingProcess(body, now) ==
              match Stage(Shaped(records, Drops, Renames), [Field(Stamped, Stamp(now))], Required)
              case Success(s) => Clean(s)
              case Failure(e) => Failure(e)
  {
  }

  /** Once staged, `CastsOk` and `TextOk` are the cleaning's own
      condition. */
  lemma OkOnStaged(records: seq<seq<Field>>, now: int, s: Frame)
    requires s.columns == Required && |s.rows| == |records|
    requires forall c :: c in Required ==> ColumnOf(s, c) == SuppliedColumn(records, now, c)
    requires forall i, c :: 0 <= i < |records| && c in Required ==> At(s, i, c) == Supplied(records[i], now, Stamped, Origins, c)
    ensures CastsOk(records, now) && TextOk(records, now) <==>
              (forall c :: c in FloatColumns ==> MoneyOk(ColumnOf(s, c)))
              && (forall i, c :: 0 <= i < |s.rows| && c in Required ==> FinishCell(c, At(s, i, c)).Cast?)
              && forall c :: c in CaseColumns ==> StrAccepts(ColumnOf(s, c))
  {
    assert forall c :: c in FloatColumns ==> c in Required by {
      ListsFacts();
    }
    assert forall c :: c in CaseColumns ==> c in Required;
  }

  /** Given records without clashing labels, the fetcher returns a table
      exactly when `TrendingOk` holds. */
  lemma TrendingSucceeds(body: Value, now: int, records: seq<seq<Field>>)
    requires TrendingRecords(body) == Success(records) && NoClash(Renames, records)
    ensures TrendingProcess(body, now).Success? <==> TrendingOk(records, now)
  {
    CurrentRenaming();
    StagedSucceeds(records, Drops, Renames, Origins, Fields, Stamped, now);
    ProcessRecords(body, now, records);
    var st := Stage(Shaped(records, Drops, Renames), [Field(Stamped, Stamp(now))], Required);
    if st.Success? {
      StagedColumns(records, now, st.value);
      OkOnStaged(records, now, st.value);
      CleanCells(st.value);
    }
  }

  /** The table has exactly the required columns, in order, and one row per
      trending coin. */
  lemma TrendingColumns(body: Value, now: int, out: Frame)
    requires TrendingProcess(body, now) == Success(out)
    ensures TrendingRecords(body).Success?
    ensures out.columns == Required && |out.rows| == |TrendingRecords(body).value|
  {
    var records := TrendingRecords(body).value;
    var s := Stage(Shaped(records, Drops, Renames), [Field(Stamped, Stamp(now))], Required).value;
    CleanCells(s);
  }

  /** Each cell of the table is the value the record supplies to its
      column (the stamp, or the value under the payload key the label is
      renamed from: `coin_id` for `trdg_id`, `id` for `coin_id`, ...),
      converted by the column's rule. */
  lemma TrendingCells(body: Value, now: int, out: Frame, i: nat, c: string)
    requires TrendingProcess(body, now) == Success(out)
    requires TrendingRecords(body).Success? && NoClash(Renames, TrendingRecords(body).value)
    requires i < |TrendingRecords(body).value| && c in Required
    ensures c in out.columns
    ensures var records := TrendingRecords(body).value;
            TrendCell(AllFloat(SuppliedColumn(records, now, c)), c, Supplied(records[i], now, Stamped, Origins, c))
            == Cast(At(out, i, c))
  {
    var records := TrendingRecords(body).value;
    var s := Stage(Shaped(records, Drops, Renames), [Field(Stamped, Stamp(now))], Required).value;
    StagedColumns(records, now, s);
    CleanCells(s);
  }

  /** The rename is simultaneous: `trdg_id` holds the payload's `coin_id`
      as an integer while `coin_id` holds the payload's `id`, lower-cased. */
  lemma SimultaneousRename(body: Value, now: int, out: Frame, i: nat)
    requires TrendingProcess(body, now) == Success(out)
    requires TrendingRecords(body).Success? && NoClash(Renames, TrendingRecords(body).value)
    requires i < |TrendingRecords(body).value|
    ensures "trdg_id" in out.columns && "coin_id" in out.columns
    ensures var rec := TrendingRecords(body).value[i];
            IntCast(Get(rec, "coin_id").GetOr(VNull)) == Cast(At(out, i, "trdg_id"))
            && At(out, i, "coin_id") == LowerCell(Get(rec, "id").GetOr(VNull))
  {
    var records := TrendingRecords(body).value;
    TrendingCells(body, now, out, i, "trdg_id");
    TrendingCells(body, now, out, i, "coin_id");
    IdOrigins(records[i], now);
    IdRules(AllFloat(SuppliedColumn(records, now, "trdg_id")), Supplied(records[i], now, Stamped, Origins, "trdg_id"));
    IdRules(AllFloat(SuppliedColumn(records, now, "coin_id")), Supplied(records[i], now, Stamped, Origins, "coin_id"));
  }

  lemma IdOrigins(rec: seq<Field>, now: int)
    ensures Supplied(rec, now, Stamped, Origins, "trdg_id") == Get(rec, "coin_id").GetOr(VNull)
    ensures Supplied(rec, now, Stamped, Origins, "coin_id") == Get(rec, "id").GetOr(VNull)
  {
    assert Origins["trdg_id"] == "coin_id" && Origins["coin_id"] == "id";
  }

  lemma IdRules(direct: bool, v: Value)
    ensures TrendCell(direct, "trdg_id", v) == IntCast(v)
    ensures TrendCell(direct, "coin_id", v) == Cast(LowerCell(v))
  {
    assert "trdg_id" !in FloatColumns && "coin_id" !in FloatColumns && "trdg_id" in IntColumns;
  }

  /** What the column rules guarantee of a converted cell: the stamp
      unchanged, lower-case ids, upper-case symbols and names, integer
      ranks and scores, numeric or missing prices. */
  lemma TrendCellShapes(direct: bool, c: string, v: Value, w: Value)
    requires TrendCell(direct, c, v) == Cast(w)
    ensures c == Stamped ==> w == v
    ensures c == "coin_id" ==> w.VNull? || (w.VStr? && IsLowerCase(w.s))
    ensures c == "coin_symbol" || c == "coin_name" ==> w.VNull? || (w.VStr? && IsUpperCase(w.s))
    ensures c in IntColumns ==> w.VInt?
    ensures c in FloatColumns ==> w.VNull? || w.VNum?
  {
    ListsFacts();
    StampedCells();
    if c in FloatColumns {
      assert MoneyCell(direct, v) == Cast(w);
    } else {
      assert FinishCell(c, v) == Cast(w);
    }
  }

  lemma StampedCells()
    ensures Stamped !in FloatColumns && Stamped !in IntColumns
    ensures Stamped != "coin_id" && Stamped != "coin_symbol" && Stamped != "coin_name"
    ensures forall c :: c in IntColumns ==> c !in FloatColumns
  {
  }

  /** A price column with text money in its first row falls back to
      stripping, and a number further down, being no text, comes out
      missing. */
  lemma MoneyExample()
    ensures var f := Frame(["p"], [[VStr("$1,234")], [VInt(5)]]);
            MoneyColumn(f, "p").Success?
            && At(MoneyColumn(f, "p").value, 0, "p") == VNum(1234.0)
            && At(MoneyColumn(f, "p").value, 1, "p") == VNull
  {
    var f := Frame(["p"], [[VStr("$1,234")], [VInt(5)]]);
    var cells := ColumnOf(f, "p");
    assert cells == [VStr("$1,234"), VInt(5)];
    MoneyCellsExample(cells);
    MoneyColumnCells(f, "p");
    var g := MoneyColumn(f, "p").value;
    assert FloatCast(StripMoney(cells[0])) == Cast(At(g, 0, "p"));
    assert FloatCast(StripMoney(cells[1])) == Cast(At(g, 1, "p"));
  }

  lemma MoneyCellsExample(cells: seq<Value>)
    requires cells == [VStr("$1,234"), VInt(5)]
    ensures ValueErrorFirst(cells) && !AllFloat(cells) && AllStrippedFloat(cells)
    ensures FloatCast(StripMoney(cells[0])) == Cast(VNum(1234.0)) && FloatCast(StripMoney(cells[1])) == Cast(VNull)
  {
    var a, b := cells[0], cells[1];
    MoneyText(a);
    NumberCellStripped(b);
    MoneyRaisesFirst(cells);
    TwoStripped(cells);
  }

  lemma TwoStripped(cells: seq<Value>)
    requires |cells| == 2 && FloatCast(StripMoney(cells[0])).Cast? && FloatCast(StripMoney(cells[1])).Cast?
    ensures AllStrippedFloat(cells)
  {
  }

  lemma MoneyRaisesFirst(cells: seq<Value>)
    requires |cells| > 0 && FloatCast(cells[0]).RaisesValueError?
    ensures ValueErrorFirst(cells) && !AllFloat(cells)
  {
    assert RaisesFirst(cells, FloatCast, 0);
  }

  lemma NumberCellStripped(v: Value)
    requires v == VInt(5)
    ensures StripMoney(v) == VNull && FloatCast(StripMoney(v)) == Cast(VNull)
  {
  }

  lemma MoneyText(a: Value)
    requires a == VStr("$1,234")
    ensures FloatCast(a).RaisesValueError? && FloatCast(StripMoney(a)) == Cast(VNum(1234.0))
  {
    StripMoneyExample();
  }

  /** A column with a list in it fails the direct cast with ValueError, so
      the fallback runs and the list, being no text, becomes missing. */
  lemma MoneyListExample()
    ensures var f := Frame(["p"], [[VList([VInt(1)])], [VStr("2")]]);
            MoneyColumn(f, "p").Success?
            && At(MoneyColumn(f, "p").value, 0, "p") == VNull
            && At(MoneyColumn(f, "p").value, 1, "p") == VNum(2.0)
  {
    var f := Frame(["p"], [[VList([VInt(1)])], [VStr("2")]]);
    var cells := ColumnOf(f, "p");
    assert cells == [VList([VInt(1)]), VStr("2")];
    ListCellsExample(cells);
    MoneyColumnCells(f, "p");
    var g := MoneyColumn(f, "p").value;
    assert FloatCast(StripMoney(cells[0])) == Cast(At(g, 0, "p"));
    assert FloatCast(StripMoney(cells[1])) == Cast(At(g, 1, "p"));
  }

  lemma ListCellsExample(cells: seq<Value>)
    requires cells == [VList([VInt(1)]), VStr("2")]
    ensures ValueErrorFirst(cells) && !AllFloat(cells) && AllStrippedFloat(cells)
    ensures FloatCast(StripMoney(cells[0])) == Cast(VNull) && FloatCast(StripMoney(cells[1])) == Cast(VNum(2.0))
  {
    MoneyRaisesFirst(cells);
    TwoParses(cells[1]);
    TwoStripped(cells);
  }

  lemma TwoParses(v: Value)
    requires v == VStr("2")
    ensures StripMoney(v) == v && FloatCast(v) == Cast(VNum(2.0))
  {
    RemoveCharsNoop("2", MoneyChars);
    assert NatToString(2) == "2";
    ParseDecimalNat(2);
  }

  /** A column of numbers casts directly. */
  lemma MoneyDirectExample()
    ensures var f := Frame(["p"], [[VInt(5)], [VNull]]);
            MoneyColumn(f, "p").Success?
            && At(MoneyColumn(f, "p").value, 0, "p") == VNum(5.0)
            && At(MoneyColumn(f, "p").value, 1, "p") == VNull
  {
    var f := Frame(["p"], [[VInt(5)], [VNull]]);
    assert ColumnOf(f, "p") == [VInt(5), VNull];
    MoneyColumnCells(f, "p");
  }

  // ---------------------------------------------------------------- the legacy fetcher

  /** `cg_fetch_trending_search`'s rename map: payload `id` and `coin_id`
      are left alone. */
  const LegacyRenames: map<string, string> := map[
    "name" := "coin_name",
    "symbol" := "coin_symbol",
    "market_cap_rank" := "coin_market_cap_rank",
    "thumb" := "coin_img_thumb",
    "small" := "coin_img_small",
    "large" := "coin_img_large",
    "slug" := "coin_slug",
    "score" := "coin_score",
    "data.price" := "data_price_usd",
    "data.price_btc" := "data_price_btc",
    "data.price_change_percentage_24h.usd" := "data_price_change_percentage_24h_usd",
    "data.price_change_percentage_24h.btc" := "data_price_change_percentage_24h_btc",
    "data.market_cap" := "data_market_cap_usd",
    "data.market_cap_btc" := "data_market_cap_btc",
    "data.total_volume" := "data_total_volume_usd",
    "data.total_volume_btc" := "data_total_volume_btc",
    "data.sparkline" := "data_sparkline"]

  const LegacyOrigins: map<string, string> := map[
    "coin_name" := "name",
    "coin_symbol" := "symbol",
    "coin_market_cap_rank" := "market_cap_rank",
    "coin_img_thumb" := "thumb",
    "coin_img_small" := "small",
    "coin_img_large" := "large",
    "coin_slug" := "slug",
    "coin_score" := "score",
    "data_price_usd" := "data.price",
    "data_price_btc" := "data.price_btc",
    "data_price_change_percentage_24h_usd" := "data.price_change_percentage_24h.usd",
    "data_price_change_percentage_24h_btc" := "data.price_change_percentage_24h.btc",
    "data_market_cap_usd" := "data.market_cap",
    "data_market_cap_btc" := "data.market_cap_btc",
    "data_total_volume_usd" := "data.total_volume",
    "data_total_volume_btc" := "data.total_volume_btc",
    "data_sparkline" := "data.sparkline"]

  const LegacyFields: seq<string> := [
    "id", "coin_id", "coin_name", "coin_symbol", "coin_market_cap_rank",
    "coin_img_thumb", "coin_img_small", "coin_img_large", "coin_slug",
    "coin_score", "data_price_usd", "data_price_btc",
    "data_price_change_percentage_24h_btc", "data_price_change_percentage_24h_usd",
    "data_market_cap_usd", "data_market_cap_btc", "data_total_volume_usd",
    "data_total_volume_btc", "data_sparkline"]

  const LegacyRequired: seq<string> := ["data_ts"] + LegacyFields

  /** The legacy `try` body: the same records, the legacy map, the stamp
      as `data_ts`, and the projection returned as it is. */
  function LegacyProcess(body: Value, now: int): Result<Frame, FrameError> {
    var records :- TrendingRecords(body);
    Stage(Shaped(records, Drops, LegacyRenames), [Field("data_ts", Stamp(now))], LegacyRequired)
  }

  /** `cg_fetch_trending_search`. */
  function TrendingSearch(now: int, resp: Response): (r: Frame)
    ensures resp.RequestFailed? ==> r == Empty()
    ensures resp.Payload? && LegacyProcess(resp.body, now).Failure? ==> r == Empty()
  {
    match resp
    case RequestFailed => Empty()
    case Payload(body) => Settle(LegacyProcess(body, now))
  }

  lemma LegacyRenamesOrigins()
    ensures forall k :: k in LegacyRenames ==> Origin(LegacyOrigins, LegacyRenames[k]) == k
  {
  }

  lemma LegacyHeadRenamed()
    ensures forall c :: c in LegacyFields[..10] ==> Relabel(LegacyRenames, Origin(LegacyOrigins, c)) == c
  {
  }

  lemma LegacyTailRenamed()
    ensures forall c :: c in LegacyFields[10..] ==> Relabel(LegacyRenames, Origin(LegacyOrigins, c)) == c
  {
  }

  lemma LegacyFieldsRenamed()
    ensures forall c :: c in LegacyFields ==> Relabel(LegacyRenames, Origin(LegacyOrigins, c)) == c
  {
    LegacyHeadRenamed();
    LegacyTailRenamed();
    assert LegacyFields == LegacyFields[..10] + LegacyFields[10..];
  }

  lemma LegacyFieldsKept()
    ensures forall c :: c in LegacyFields ==> Origin(LegacyOrigins, c) !in Drops
  {
  }

  lemma LegacyRenaming()
    ensures Renaming(LegacyRenames, LegacyOrigins, LegacyFields, Drops, "data_ts")
  {
    LegacyRenamesOrigins();
    LegacyFieldsRenamed();
    LegacyFieldsKept();
  }

  /** The legacy fetcher returns a table exactly when no record carries
      `data_ts` and every required payload key occurs; the table then has
      the legacy required columns, in order, and each cell is the stamp or
      the record's value under the payload key, uncast. Both `id` and
      `coin_id` are the payload's own. */
  lemma LegacyCells(body: Value, now: int, records: seq<seq<Field>>)
    requires TrendingRecords(body) == Success(records) && NoClash(LegacyRenames, records)
    ensures LegacyProcess(body, now).Success? <==>
              Absent(records, "data_ts") && forall c :: c in LegacyFields ==> Present(records, Origin(LegacyOrigins, c))
    ensures LegacyProcess(body, now).Success? ==>
              var out := LegacyProcess(body, now).value;
              out.columns == LegacyRequired && |out.rows| == |records|
              && forall i, c :: 0 <= i < |records| && c in LegacyRequired ==>
                   At(out, i, c) == Supplied(records[i], now, "data_ts", LegacyOrigins, c)
  {
    LegacyRenaming();
    StagedSucceeds(records, Drops, LegacyRenames, LegacyOrigins, LegacyFields, "data_ts", now);
    var st := Stage(Shaped(records, Drops, LegacyRenames), [Field("data_ts", Stamp(now))], LegacyRequired);
    assert LegacyProcess(body, now) == st;
    if st.Success? {
      StagedCells(records, Drops, LegacyRenames, LegacyOrigins, LegacyFields, "data_ts", now, st.value);
    }
  }

  /** In the legacy table `id` and `coin_id` are the payload's own
      values, and `coin_name` its `name`. */
  lemma LegacyIds(body: Value, now: int, records: seq<seq<Field>>, i: nat)
    requires TrendingRecords(body) == Success(records) && NoClash(LegacyRenames, records)
    requires LegacyProcess(body, now).Success? && i < |records|
    ensures var out := LegacyProcess(body, now).value;
            "id" in out.columns && "coin_id" in out.columns && "coin_name" in out.columns
            && At(out, i, "id") == Get(records[i], "id").GetOr(VNull)
            && At(out, i, "coin_id") == Get(records[i], "coin_id").GetOr(VNull)
            && At(out, i, "coin_name") == Get(records[i], "name").GetOr(VNull)
  {
    var out := LegacyProcess(body, now).value;
    LegacyCells(body, now, records);
    assert "id" in LegacyRequired && "coin_id" in LegacyRequired && "coin_name" in LegacyRequired;
    assert At(out, i, "id") == Supplied(records[i], now, "data_ts", LegacyOrigins, "id");
    assert At(out, i, "coin_id") == Supplied(records[i], now, "data_ts", LegacyOrigins, "coin_id");
    assert At(out, i, "coin_name") == Supplied(records[i], now, "data_ts", LegacyOrigins, "coin_name");
    LegacyIdOrigins(records[i], now);
  }

  lemma LegacyIdOrigins(rec: seq<Field>, now: int)
    ensures Supplied(rec, now, "data_ts", LegacyOrigins, "id") == Get(rec, "id").GetOr(VNull)
    ensures Supplied(rec, now, "data_ts", LegacyOrigins, "coin_id") == Get(rec, "coin_id").GetOr(VNull)
    ensures Supplied(rec, now, "data_ts", LegacyOrigins, "coin_name") == Get(rec, "name").GetOr(VNull)
  {
    assert "id" !in LegacyOrigins && "coin_id" !in LegacyOrigins && LegacyOrigins["coin_name"] == "name";
  }
}

=== FILE: unixtime.dfy ===
/** `convert_unix`: conversion between epoch seconds or milliseconds and
    UTC text of the form `YYYY-MM-DD HH:MM:SS`, with `strftime` and
    `strptime('%Y-%m-%d %H:%M:%S')` modelled character by character. */
module UnixTime {
  import opened Wrappers
  import opened Text
  import opened Calendar

  // ---------------------------------------------------------------- rendering

  /** `%m`, `%d`, `%H`, `%M`, `%S`: two zero-padded digits. */
  function Two(n: int): (r: string)
    requires 0 <= n < 100
    ensures |r| == 2 && AllDigits(r)
  {
    [DigitChar(n / 10), DigitChar(n % 10)]
  }

  /** `%Y` for a four-digit year. */
  function Four(n: int): (r: string)
    requires 1000 <= n < 10000
    ensures |r| == 4 && AllDigits(r)
  {
    var r3 := n % 1000;
    var r2 := r3 % 100;
    [DigitChar(n / 1000), DigitChar(r3 / 100), DigitChar(r2 / 10), DigitChar(r2 % 10)]
  }

  /** Fields that `%Y-%m-%d %H:%M:%S` writes in exactly 19 characters,
      whether or not they name a real calendar day. */
  predicate Renderable(t: DateTime) {
    1000 <= t.date.year <= 9999 && 1 <= t.date.month <= 12 && 1 <= t.date.day <= 31
    && 0 <= t.hour < 24 && 0 <= t.minute < 60 && 0 <= t.second < 60
  }

  predicate FourDigitYear(t: DateTime) {
    Valid(t) && 1000 <= t.date.year
  }

  /** `strftime("%Y-%m-%d %H:%M:%S")`. */
  function Format(t: DateTime): (r: string)
    requires Renderable(t)
    ensures |r| == 19
  {
    var y, mo, d := Four(t.date.year), Two(t.date.month), Two(t.date.day);
    var h, mi, s := Two(t.hour), Two(t.minute), Two(t.second);
    [y[0], y[1], y[2], y[3], '-', mo[0], mo[1], '-', d[0], d[1], ' ', h[0], h[1], ':', mi[0], mi[1], ':', s[0], s[1]]
  }

  /** The shape every rendered instant has. */
  predicate IsStamp(s: string) {
    |s| == 19 && s[4] == '-' && s[7] == '-' && s[10] == ' ' && s[13] == ':' && s[16] == ':'
    && forall k :: 0 <= k < 19 && k !in {4, 7, 10, 13, 16} ==> IsDigit(s[k])
  }

  lemma FormatIsStamp(t: DateTime)
    requires Renderable(t)
    ensures IsStamp(Format(t))
  {
  }

  // ---------------------------------------------------------------- parsing

  // `\s` in a `str` pattern matches the characters `Text.IsSpace` accepts.

  /** A field read by the format's regular expression: its value and the
      position after it. */
  datatype Scan = Scan(value: int, next: int)

  predicate At(s: string, i: int, lo: char, hi: char) {
    0 <= i < |s| && lo <= s[i] <= hi
  }

  function Dig(s: string, i: int): int
    requires At(s, i, '0', '9')
  {
    s[i] as int - '0' as int
  }

  /** `%Y`: exactly four digits. */
  function ScanYear(s: string, i: int): (r: Option<Scan>)
    ensures r.Some? ==> 0 <= r.value.value <= 9999 && r.value.next == i + 4
  {
    if At(s, i, '0', '9') && At(s, i + 1, '0', '9') && At(s, i + 2, '0', '9') && At(s, i + 3, '0', '9') then
      Some(Scan(1000 * Dig(s, i) + 100 * Dig(s, i + 1) + 10 * Dig(s, i + 2) + Dig(s, i + 3), i + 4))
    else None
  }

  /** `%m`: the alternatives `1[0-2]`, `0[1-9]`, `[1-9]`, first match wins. */
  function ScanMonth(s: string, i: int): (r: Option<Scan>)
    ensures r.Some? ==> 1 <= r.value.value <= 12 && i < r.value.next <= i + 2
  {
    if At(s, i, '1', '1') && At(s, i + 1, '0', '2') then Some(Scan(10 + Dig(s, i + 1), i + 2))
    else if At(s, i, '0', '0') && At(s, i + 1, '1', '9') then Some(Scan(Dig(s, i + 1), i + 2))
    else if At(s, i, '1', '9') then Some(Scan(Dig(s, i), i + 1))
    else None
  }

  /** `%d`: `3[01]`, `[12]\d`, `0[1-9]`, `[1-9]`, ` [1-9]`. */
  function ScanDay(s: string, i: int): (r: Option<Scan>)
    ensures r.Some? ==> 1 <= r.value.value <= 31 && i < r.value.next <= i + 2
  {
    if At(s, i, '3', '3') && At(s, i + 1, '0', '1') then Some(Scan(30 + Dig(s, i + 1), i + 2))
    else if At(s, i, '1', '2') && At(s, i + 1, '0', '9') then Some(Scan(10 * Dig(s, i) + Dig(s, i + 1), i + 2))
    else if At(s, i, '0', '0') && At(s, i + 1, '1', '9') then Some(Scan(Dig(s, i + 1), i + 2))
    else if At(s, i, '1', '9') then Some(Scan(Dig(s, i), i + 1))
    else if At(s, i, ' ', ' ') && At(s, i + 1, '1', '9') then Some(Scan(Dig(s, i + 1), i + 2))
    else None
  }

  /** `%H`: `2[0-3]`, `[0-1]\d`, `\d`. */
  function ScanHour(s: string, i: int): (r: Option<Scan>)
    ensures r.Some? ==> 0 <= r.value.value <= 23 && i < r.value.next <= i + 2
  {
    if At(s, i, '2', '2') && At(s, i + 1, '0', '3') then Some(Scan(20 + Dig(s, i + 1), i + 2))
    else if At(s, i, '0', '1') && At(s, i + 1, '0', '9') then Some(Scan(10 * Dig(s, i) + Dig(s, i + 1), i + 2))
    else if At(s, i, '0', '9') then Some(Scan(Dig(s, i), i + 1))
    else None
  }

  /** `%M`: `[0-5]\d`, `\d`. */
  function ScanMinute(s: string, i: int): (r: Option<Scan>)
    ensures r.Some? ==> 0 <= r.value.value <= 59 && i < r.value.next <= i + 2
  {
    if At(s, i, '0', '5') && At(s, i + 1, '0', '9') then Some(Scan(10 * Dig(s, i) + Dig(s, i + 1), i + 2))
    else if At(s, i, '0', '9') then Some(Scan(Dig(s, i), i + 1))
    else None
  }

  /** `%S`: `6[0-1]`, `[0-5]\d`, `\d` (leap seconds pass the pattern). */
  function ScanSecond(s: string, i: int): (r: Option<Scan>)
    ensures r.Some? ==> 0 <= r.value.value <= 61 && i < r.value.next <= i + 2
  {
    if At(s, i, '6', '6') && At(s, i + 1, '0', '1') then Some(Scan(60 + Dig(s, i + 1), i + 2))
    else if At(s, i, '0', '5') && At(s, i + 1, '0', '9') then Some(Scan(10 * Dig(s, i) + Dig(s, i + 1), i + 2))
    else if At(s, i, '0', '9') then Some(Scan(Dig(s, i), i + 1))
    else None
  }

  /** The end of the run of whitespace starting at `i` (`\s+` is greedy). */
  function SkipSpaces(s: string, i: nat): (j: nat)
    requires i <= |s|
    ensures i <= j <= |s| && (j == |s| || !IsSpace(s[j]))
    ensures forall k :: i <= k < j ==> IsSpace(s[k])
    decreases |s| - i
  {
    if i < |s| && IsSpace(s[i]) then SkipSpaces(s, i + 1) else i
  }

  predicate Lit(s: string, i: int, c: char) {
    0 <= i < |s| && s[i] == c
  }

  /** The match of `%Y-%m-%d\s+%H:%M:%S` against the whole of `s`, before
      the calendar checks. Each field takes its first matching alternative:
      the separator that follows every field rules out any other choice,
      so regular-expression backtracking cannot find another match. */
  function Match(s: string): (r: Option<DateTime>)
    ensures r.Some? ==> 1 <= r.value.date.month <= 12 && 1 <= r.value.date.day <= 31
    ensures r.Some? ==> 0 <= r.value.date.year <= 9999 && 0 <= r.value.hour < 24 && 0 <= r.value.minute < 60
    ensures r.Some? ==> 0 <= r.value.second <= 61
  {
    var y :- ScanYear(s, 0);
    if !Lit(s, y.next, '-') then None else
    var mo :- ScanMonth(s, y.next + 1);
    if !Lit(s, mo.next, '-') then None else
    var d :- ScanDay(s, mo.next + 1);
    if !(0 <= d.next < |s| && IsSpace(s[d.next])) then None else
    var h :- ScanHour(s, SkipSpaces(s, d.next));
    if !Lit(s, h.next, ':') then None else
    var mi :- ScanMinute(s, h.next + 1);
    if !Lit(s, mi.next, ':') then None else
    var sec :- ScanSecond(s, mi.next + 1);
    if sec.next != |s| then None
    else Some(DateTime(Date(y.value, mo.value, d.value), h.value, mi.value, sec.value))
  }

  /** `datetime.strptime(s, '%Y-%m-%d %H:%M:%S')`: the match, then the
      checks `datetime` makes (year 0, day past the month's end, leap
      second). Every failure is a ValueError. */
  function Strptime(s: string): (r: Option<DateTime>)
    ensures r.Some? ==> Valid(r.value)
  {
    match Match(s)
    case None => None
    case Some(t) =>
      if 1 <= t.date.year && t.date.day <= DaysInMonth(t.date.year, t.date.month) && t.second <= 59 then Some(t)
      else None
  }

  lemma ScanYearFour(s: string, i: int, n: int)
    requires 1000 <= n < 10000 && 0 <= i && i + 3 < |s|
    requires s[i] == Four(n)[0] && s[i + 1] == Four(n)[1] && s[i + 2] == Four(n)[2] && s[i + 3] == Four(n)[3]
    ensures ScanYear(s, i) == Some(Scan(n, i + 4))
  {
    var r3 := n % 1000;
    var r2 := r3 % 100;
    assert n == 1000 * (n / 1000) + r3;
    assert r3 == 100 * (r3 / 100) + r2;
    assert r2 == 10 * (r2 / 10) + r2 % 10;
  }

  /** The two digits of `Two(n)` at `i` and `i + 1`. */
  predicate TwoAt(s: string, i: int, n: int)
    requires 0 <= n < 100
  {
    0 <= i && i + 1 < |s| && s[i] == Two(n)[0] && s[i + 1] == Two(n)[1]
  }

  lemma ScanMonthTwo(s: string, i: int, n: int)
    requires 1 <= n <= 12 && TwoAt(s, i, n)
    ensures ScanMonth(s, i) == Some(Scan(n, i + 2))
  {
  }

  lemma ScanDayTwo(s: string, i: int, n: int)
    requires 1 <= n <= 31 && TwoAt(s, i, n)
    ensures ScanDay(s, i) == Some(Scan(n, i + 2))
  {
  }

  lemma ScanHourTwo(s: string, i: int, n: int)
    requires 0 <= n <= 23 && TwoAt(s, i, n)
    ensures ScanHour(s, i) == Some(Scan(n, i + 2))
  {
  }

  lemma ScanMinuteTwo(s: string, i: int, n: int)
    requires 0 <= n <= 59 && TwoAt(s, i, n)
    ensures ScanMinute(s, i) == Some(Scan(n, i + 2))
  {
  }

  lemma ScanSecondTwo(s: string, i: int, n: int)
    requires 0 <= n <= 59 && TwoAt(s, i, n)
    ensures ScanSecond(s, i) == Some(Scan(n, i + 2))
  {
  }

  /** Parsing undoes rendering for every real date and time, and rejects
      the rendering of fields that name no real date. */
  lemma StrptimeFormat(t: DateTime)
    requires Renderable(t)
    ensures Match(Format(t)) == Some(t)
    ensures Strptime(Format(t)) == if Valid(t) then Some(t) else None
  {
    var s := Format(t);
    ScanYearFour(s, 0, t.date.year);
    ScanMonthTwo(s, 5, t.date.month);
    ScanDayTwo(s, 8, t.date.day);
    assert SkipSpaces(s, 10) == 11 by {
      assert IsSpace(s[10]) && !IsSpace(s[11]);
      assert SkipSpaces(s, 11) == 11;
    }
    ScanHourTwo(s, 11, t.hour);
    ScanMinuteTwo(s, 14, t.minute);
    ScanSecondTwo(s, 17, t.second);
  }

  // ---------------------------------------------------------------- convert_unix

  /** The `value` argument: an integer or a text. */
  datatype Arg = IntArg(i: int) | StrArg(s: string)

  /** What `convert_unix` returns: date text or an epoch integer. */
  datatype Converted = Text(text: string) | Epoch(n: int)

  /** The exceptions `convert_unix` raises. */
  datatype ConvertError =
    | BadUnixLength     // ValueError: neither 10 nor 13 characters
    | NotAnInteger      // ValueError from `int(value)`
    | BadHumanDate      // ValueError: the fixed 'YYYY-MM-DD HH:MM:SS' message
    | NotAString        // TypeError from `strptime` on a non-string
    | BadOutputFormat   // ValueError: neither 'seconds' nor 'milliseconds'
    | BadOriFormat      // ValueError: neither 'unix' nor 'human_date'

  /** `str(value)`. */
  function Str(v: Arg): string {
    match v
    case IntArg(i) => IntToString(i)
    case StrArg(s) => s
  }

  /** `int(value)`. */
  function Int(v: Arg): Option<int> {
    match v
    case IntArg(i) => Some(i)
    case StrArg(s) => ParseIntLiteral(s)
  }

  /** The instant a `'unix'` value stands for, in whole seconds: ten
      characters are seconds, thirteen are milliseconds whose sub-second
      part `%S` never shows. */
  function UnixSeconds(v: Arg): (r: Result<int, ConvertError>)
    ensures r.Success? ==> -1000000000 <= r.value < 10000000000
  {
    var n := |Str(v)|;
    if n != 10 && n != 13 then Failure(BadUnixLength)
    else match Int(v)
      case None => Failure(NotAnInteger)
      case Some(i) =>
        UnixRange(v, n);
        Success(if n == 10 then i else i / 1000)
  }

  lemma UnixRange(v: Arg, n: nat)
    requires n == |Str(v)| && (n == 10 || n == 13) && Int(v).Some?
    ensures -(Pow10(n - 1) as int) < Int(v).value < Pow10(n)
  {
    match v
    case IntArg(i) =>
      if i >= 0 {
        NatToStringLength(i, n);
      } else {
        NatToStringLength(-i, n - 1);
        Pow10Monotone(n - 1, n);
      }
    case StrArg(s) =>
      TextRange(s, n);
  }

  lemma TextRange(s: string, n: nat)
    requires n == |s| && (n == 10 || n == 13) && ParseIntLiteral(s).Some?
    ensures -(Pow10(n - 1) as int) < ParseIntLiteral(s).value < Pow10(n)
  {
    var t := Trim(s);
    if |t| >= 2 && (t[0] == '-' || t[0] == '+') && AllDigits(t[1..]) {
      DigitsValueBound(t[1..]);
      Pow10Monotone(|t| - 1, n - 1);
      Pow10Monotone(n - 1, n);
    } else {
      DigitsValueBound(t);
      Pow10Monotone(|t|, n);
    }
  }

  lemma {:induction false} DigitsValueBound(s: string)
    requires AllDigits(s)
    ensures DigitsValue(s) < Pow10(|s|)
  {
    if |s| > 0 {
      DigitsValueBound(s[..|s| - 1]);
    }
  }

  /** Every instant `convert_unix` renders lies in the years 1938 to 2286. */
  lemma UnixYears(secs: int)
    requires -1000000000 <= secs < 10000000000
    ensures 1938 <= FromEpoch(secs).date.year <= 2286
  {
    assert DaysBeforeYear(1938) == -11688;
    assert DaysBeforeYear(2287) == 115782;
    FromEpochYear(secs, 1938, 2286);
  }

  /** `convert_unix(ori_format, value, unix_output_format)`. */
  function ConvertUnix(ori: string, value: Arg, outFmt: string): (r: Result<Converted, ConvertError>)
    ensures ori == "unix" && r.Success? ==> r.value.Text? && IsStamp(r.value.text)
    ensures ori == "human_date" && r.Success? ==> r.value.Epoch?
    ensures ori != "unix" && ori != "human_date" ==> r == Failure(BadOriFormat)
  {
    if ori == "unix" then
      var secs :- UnixSeconds(value);
      var t := FromEpoch(secs);
      UnixYears(secs);
      FormatIsStamp(t);
      Success(Text(Format(t)))
    else if ori == "human_date" then
      if value.IntArg? then Failure(NotAString)
      else match Strptime(value.s)
        case None => Failure(BadHumanDate)
        case Some(t) =>
          var secs := ToEpoch(t);
          if outFmt == "seconds" then Success(Epoch(secs))
          else if outFmt == "milliseconds" then Success(Epoch(secs * 1000))
          else Failure(BadOutputFormat)
    else Failure(BadOriFormat)
  }

  // ---------------------------------------------------------------- properties

  /** A `'unix'` integer converts exactly when it has ten or thirteen
      characters: 10^9..10^10-1 or -10^9+1..-10^8 seconds, 10^12..10^13-1
      or -10^12+1..-10^11 milliseconds. */
  lemma UnixLengthDispatch(i: int, outFmt: string)
    ensures ConvertUnix("unix", IntArg(i), outFmt).Success? <==>
              (1000000000 <= i < 10000000000) || (-1000000000 < i <= -100000000)
              || (1000000000000 <= i < 10000000000000) || (-1000000000000 < i <= -100000000000)
  {
    Pow10Values();
    IntToStringLength(i, 10);
    IntToStringLength(i, 13);
  }

  lemma Pow10Values()
    ensures Pow10(8) == 100000000 && Pow10(9) == 1000000000 && Pow10(10) == 10000000000
    ensures Pow10(11) == 100000000000 && Pow10(12) == 1000000000000 && Pow10(13) == 10000000000000
  {
    assert Pow10(4) == 10000;
    assert Pow10(8) == 100000000;
  }

  /** Round trip through seconds: a rendered date converts to its epoch
      seconds, and when those have ten digits they convert back to the same
      text. */
  lemma SecondsRoundTrip(t: DateTime, outFmt: string)
    requires FourDigitYear(t)
    ensures ConvertUnix("human_date", StrArg(Format(t)), "seconds") == Success(Epoch(ToEpoch(t)))
    ensures |IntToString(ToEpoch(t))| == 10 ==>
              ConvertUnix("unix", IntArg(ToEpoch(t)), outFmt) == Success(Text(Format(t)))
  {
    var e := ToEpoch(t);
    StrptimeFormat(t);
    HumanDateOf(Format(t), t);
    if |IntToString(e)| == 10 {
      UnixSecondsOf(e);
      ToEpochFromEpoch(t);
      UnixOf(e, outFmt, e);
    }
  }

  /** Round trip through milliseconds: the epoch is a thousand times the
      seconds, and a thirteen-digit value converts back to the same text. */
  lemma MillisecondsRoundTrip(t: DateTime, outFmt: string)
    requires FourDigitYear(t)
    ensures ConvertUnix("human_date", StrArg(Format(t)), "milliseconds") == Success(Epoch(ToEpoch(t) * 1000))
    ensures |IntToString(ToEpoch(t) * 1000)| == 13 ==>
              ConvertUnix("unix", IntArg(ToEpoch(t) * 1000), outFmt) == Success(Text(Format(t)))
  {
    var e := ToEpoch(t);
    var m := e * 1000;
    StrptimeFormat(t);
    HumanDateOf(Format(t), t);
    if |IntToString(m)| == 13 {
      UnixSecondsOf(m);
      assert m / 1000 == e;
      ToEpochFromEpoch(t);
      UnixOf(m, outFmt, e);
    }
  }

  /** What `'human_date'` gives for a text that parses. */
  lemma HumanDateOf(s: string, t: DateTime)
    requires Strptime(s) == Some(t)
    ensures ConvertUnix("human_date", StrArg(s), "seconds") == Success(Epoch(ToEpoch(t)))
    ensures ConvertUnix("human_date", StrArg(s), "milliseconds") == Success(Epoch(ToEpoch(t) * 1000))
  {
  }

  /** The seconds a ten- or thirteen-character integer stands for. */
  lemma UnixSecondsOf(i: int)
    ensures |IntToString(i)| == 10 ==> UnixSeconds(IntArg(i)) == Success(i)
    ensures |IntToString(i)| == 13 ==> UnixSeconds(IntArg(i)) == Success(i / 1000)
  {
  }

  /** What `'unix'` gives once the seconds are known. */
  lemma UnixOf(i: int, outFmt: string, secs: int)
    requires UnixSeconds(IntArg(i)) == Success(secs)
    ensures 1938 <= FromEpoch(secs).date.year <= 2286
    ensures ConvertUnix("unix", IntArg(i), outFmt) == Success(Text(Format(FromEpoch(secs))))
  {
    UnixYears(secs);
  }

  /** The other way round: the text of a ten-digit epoch parses back to the
      same seconds; the text of a thirteen-digit epoch parses back to the
      whole seconds, the milliseconds within the second being lost. */
  lemma UnixRoundTrip(i: int, outFmt: string)
    requires ConvertUnix("unix", IntArg(i), outFmt).Success?
    ensures var text := ConvertUnix("unix", IntArg(i), outFmt).value.text;
            && (|IntToString(i)| == 10 ==> ConvertUnix("human_date", StrArg(text), "seconds") == Success(Epoch(i)))
            && (|IntToString(i)| == 13 ==> ConvertUnix("human_date", StrArg(text), "seconds") == Success(Epoch(i / 1000)))
            && (|IntToString(i)| == 13 ==> ConvertUnix("human_date", StrArg(text), "milliseconds") == Success(Epoch(i - i % 1000)))
  {
    var secs := UnixSeconds(IntArg(i)).value;
    UnixOf(i, outFmt, secs);
    UnixYears(secs);
    var t := FromEpoch(secs);
    var text := Format(t);
    StrptimeFormat(t);
    FromEpochToEpoch(secs);
    HumanDateOf(text, t);
    UnixSecondsOf(i);
    if |IntToString(i)| == 13 {
      DropMillis(i);
    }
  }

  lemma DropMillis(i: int)
    ensures i - i % 1000 == i / 1000 * 1000
  {
  }

  /** `'milliseconds'` is always a thousand times `'seconds'`. */
  lemma MillisecondsAreSeconds(s: string)
    ensures ConvertUnix("human_date", StrArg(s), "milliseconds").Success? <==>
              ConvertUnix("human_date", StrArg(s), "seconds").Success?
    ensures ConvertUnix("human_date", StrArg(s), "milliseconds").Success? ==>
              ConvertUnix("human_date", StrArg(s), "milliseconds").value.n ==
              1000 * ConvertUnix("human_date", StrArg(s), "seconds").value.n
  {
  }

  /** The errors: a non-string date is a TypeError; an unknown output
      format is reported only once the date has parsed. */
  lemma HumanDateErrors(i: int, s: string, outFmt: string)
    ensures ConvertUnix("human_date", IntArg(i), outFmt) == Failure(NotAString)
    ensures Strptime(s).None? ==> ConvertUnix("human_date", StrArg(s), outFmt) == Failure(BadHumanDate)
    ensures Strptime(s).Some? && outFmt != "seconds" && outFmt != "milliseconds" ==>
              ConvertUnix("human_date", StrArg(s), outFmt) == Failure(BadOutputFormat)
  {
  }

  /** The example value of the documentation converts to 02:00 UTC, not to
      the 09:00 the documentation pairs it with. */
  lemma DocumentedExample(outFmt: string)
    ensures ConvertUnix("unix", IntArg(1692583200000), outFmt) == Success(Text("2023-08-21 02:00:00"))
  {
    var t := DateTime(Date(2023, 8, 21), 2, 0, 0);
    AugustTwentyFirst();
    assert ToEpoch(t) == 1692583200;
    assert Format(t) == "2023-08-21 02:00:00";
    Pow10Values();
    IntToStringLength(1692583200000, 13);
    ToEpochFromEpoch(t);
    assert UnixSeconds(IntArg(1692583200000)) == Success(1692583200);
  }

  /** 09:00 UTC on that day, the documentation's text, is seven hours
      later than the example value. */
  lemma DocumentedText()
    ensures ConvertUnix("human_date", StrArg("2023-08-21 09:00:00"), "milliseconds") == Success(Epoch(1692608400000))
    ensures 1692608400000 - 1692583200000 == 7 * 3600 * 1000
  {
    var t := DateTime(Date(2023, 8, 21), 9, 0, 0);
    AugustTwentyFirst();
    assert ToEpoch(t) == 1692608400;
    assert Format(t) == "2023-08-21 09:00:00";
    StrptimeFormat(t);
    HumanDateOf(Format(t), t);
  }

  lemma AugustTwentyFirst()
    ensures ToDays(Date(2023, 8, 21)) == 19590
  {
    assert DaysBeforeYear(2023) == 19358;
  }

  /** 2023 has no 29 February: the text matches the pattern but is not a
      date. */
  lemma NoLeapDay2023(outFmt: string)
    ensures Match("2023-02-29 00:00:00").Some?
    ensures ConvertUnix("human_date", StrArg("2023-02-29 00:00:00"), outFmt) == Failure(BadHumanDate)
  {
    var t := DateTime(Date(2023, 2, 29), 0, 0, 0);
    assert Format(t) == "2023-02-29 00:00:00";
    StrptimeFormat(t);
  }
}

=== FILE: values.dfy ===
/** Cell and JSON values, and the per-cell conversions pandas applies to a
    column: `astype(float)`, `astype('int64')`, the `.str` accessor
    (`lower`, `upper`, `replace`) and `pd.to_datetime(x, unit=...)`. */
module Values {
  import opened Wrappers
  import opened Text

  /** One decoded JSON value or one DataFrame cell. `VNull` stands for
      `None`, `NaN` and `NaT` alike; `VTime` is a timezone-naive instant in
      epoch milliseconds. Objects keep their keys in insertion order, as
      Python dictionaries do. */
  datatype Value =
    | VNull
    | VBool(b: bool)
    | VInt(i: int)
    | VNum(r: real)
    | VStr(s: string)
    | VTime(ms: int)
    | VList(items: seq<Value>)
    | VObj(fields: seq<Field>)

  datatype Field = Field(key: string, val: Value)

  // ---------------------------------------------------------------- objects

  predicate HasKey(fields: seq<Field>, key: string) {
    exists i :: 0 <= i < |fields| && fields[i].key == key
  }

  /** `d.get(key)`: the value under the first field named `key`. */
  function Get(fields: seq<Field>, key: string): (r: Option<Value>)
    ensures r.Some? <==> HasKey(fields, key)
    ensures r.Some? ==> exists i :: 0 <= i < |fields| && fields[i] == Field(key, r.value)
  {
    if |fields| == 0 then None
    else if fields[0].key == key then Some(fields[0].val)
    else
      var r := Get(fields[1..], key);
      assert HasKey(fields[1..], key) ==> HasKey(fields, key);
      assert HasKey(fields, key) ==> HasKey(fields[1..], key);
      r
  }

  /** `d[key] = v`: an existing field keeps its position and takes the new
      value, a new key is appended at the end. */
  function Put(fields: seq<Field>, key: string, v: Value): (r: seq<Field>)
    ensures Get(r, key) == Some(v)
    ensures forall k :: k != key ==> Get(r, k) == Get(fields, k)
    ensures HasKey(fields, key) ==> |r| == |fields|
    ensures !HasKey(fields, key) ==> r == fields + [Field(key, v)]
  {
    if |fields| == 0 then [Field(key, v)]
    else
      assert fields == [fields[0]] + fields[1..];
      GetCons(fields[0], fields[1..]);
      if fields[0].key == key then
        GetCons(Field(key, v), fields[1..]);
        [Field(key, v)] + fields[1..]
      else
        var rest := Put(fields[1..], key, v);
        GetCons(fields[0], rest);
        assert HasKey(fields[1..], key) <==> HasKey(fields, key);
        [fields[0]] + rest
  }

  /** A lookup reads the first field, or else the rest. */
  lemma GetCons(first: Field, rest: seq<Field>)
    ensures forall k :: Get([first] + rest, k) == if first.key == k then Some(first.val) else Get(rest, k)
  {
    forall k ensures Get([first] + rest, k) == if first.key == k then Some(first.val) else Get(rest, k) {
      assert ([first] + rest)[1..] == rest;
    }
  }

  // ---------------------------------------------------------------- casts

  /** What a cast does to one cell: a value, or the exception it raises. */
  datatype Cast = Cast(v: Value) | RaisesValueError | RaisesTypeError

  /** `float(x)` as applied by `astype(float)`: numbers and booleans
      convert, `None` becomes NaN, decimal text (with surrounding
      whitespace, a sign, a fraction and an exponent) parses, other text
      raises ValueError, and so does a list (numpy's "setting an array
      element with a sequence"); dates and objects raise TypeError. */
  function FloatCast(v: Value): (r: Cast)
    ensures r.Cast? ==> r.v.VNull? || r.v.VNum?
    ensures v.VInt? ==> r == Cast(VNum(v.i as real))
    ensures v.VStr? && ParseDecimal(v.s).Some? ==> r == Cast(VNum(ParseDecimal(v.s).value))
    ensures r.RaisesValueError? <==> (v.VStr? && ParseDecimal(v.s).None?) || v.VList?
    ensures r.RaisesTypeError? <==> v.VTime? || v.VObj?
  {
    match v
    case VNull => Cast(VNull)
    case VBool(b) => Cast(VNum(if b then 1.0 else 0.0))
    case VInt(i) => Cast(VNum(i as real))
    case VNum(x) => Cast(VNum(x))
    case VStr(s) => if ParseDecimal(s).Some? then Cast(VNum(ParseDecimal(s).value)) else RaisesValueError
    case VList(_) => RaisesValueError
    case _ => RaisesTypeError
  }

  /** Truncation toward zero, as a float-to-int64 cast does. */
  function Truncate(x: real): (n: int)
    ensures x >= 0.0 ==> n as real <= x < n as real + 1.0
    ensures x < 0.0 ==> n as real - 1.0 < x <= n as real
  {
    if x >= 0.0 then x.Floor else -((-x).Floor)
  }

  /** `astype('int64')` of one cell, through `int(x)` for text (a signed
      run of digits with whitespace around it): a missing value cannot be
      cast, and a list raises ValueError as in `FloatCast`. */
  function IntCast(v: Value): (r: Cast)
    ensures r.Cast? ==> r.v.VInt?
    ensures v.VNum? ==> r == Cast(VInt(Truncate(v.r)))
    ensures v.VStr? && ParseIntLiteral(v.s).Some? ==> r == Cast(VInt(ParseIntLiteral(v.s).value))
    ensures r.RaisesValueError? <==> v.VNull? || (v.VStr? && ParseIntLiteral(v.s).None?) || v.VList?
    ensures r.RaisesTypeError? <==> v.VTime? || v.VObj?
  {
    match v
    case VBool(b) => Cast(VInt(if b then 1 else 0))
    case VInt(i) => Cast(VInt(i))
    case VNum(x) => Cast(VInt(Truncate(x)))
    case VStr(s) => if ParseIntLiteral(s).Some? then Cast(VInt(ParseIntLiteral(s).value)) else RaisesValueError
    case VNull => RaisesValueError
    case VList(_) => RaisesValueError
    case _ => RaisesTypeError
  }

  /** `.str.lower()` on one cell: text is lower-cased, anything else
      becomes missing. */
  function LowerCell(v: Value): (r: Value)
    ensures r.VNull? || (r.VStr? && IsLowerCase(r.s))
    ensures v.VStr? <==> r.VStr?
  {
    if v.VStr? then VStr(Lower(v.s)) else VNull
  }

  /** `.str.upper()` on one cell. */
  function UpperCell(v: Value): (r: Value)
    ensures r.VNull? || (r.VStr? && IsUpperCase(r.s))
    ensures v.VStr? <==> r.VStr?
  {
    if v.VStr? then VStr(Upper(v.s)) else VNull
  }

  /** Some cell of the column is not missing. */
  predicate AnyPresent(cells: seq<Value>) {
    exists i :: 0 <= i < |cells| && !cells[i].VNull?
  }

  /** Every cell that is not missing is a number. */
  predicate OnlyNumbers(cells: seq<Value>) {
    AnyPresent(cells) && forall i :: 0 <= i < |cells| && !cells[i].VNull? ==> cells[i].VInt? || cells[i].VNum?
  }

  /** Every cell that is not missing is a boolean. */
  predicate OnlyBools(cells: seq<Value>) {
    AnyPresent(cells) && forall i :: 0 <= i < |cells| && !cells[i].VNull? ==> cells[i].VBool?
  }

  /** Every cell that is not missing is an instant. */
  predicate OnlyTimes(cells: seq<Value>) {
    AnyPresent(cells) && forall i :: 0 <= i < |cells| && !cells[i].VNull? ==> cells[i].VTime?
  }

  /** The `.str` accessor accepts the column: pandas infers the kind of
      the cells it holds, missing ones skipped, and raises AttributeError
      when that kind is integer, floating, mixed integer and floating,
      boolean or datetime. A column with nothing present is "empty", and
      any column holding text, a list, an object, or two kinds that are
      not both numbers, is accepted. */
  predicate StrAccepts(cells: seq<Value>) {
    !OnlyNumbers(cells) && !OnlyBools(cells) && !OnlyTimes(cells)
  }

  /** A column holding some text or some list is accepted, and so is one
      with nothing present; a column of numbers alone, booleans alone or
      instants alone is refused. */
  lemma StrAcceptsCases(cells: seq<Value>)
    ensures (exists i :: 0 <= i < |cells| && (cells[i].VStr? || cells[i].VList?)) ==> StrAccepts(cells)
    ensures !AnyPresent(cells) ==> StrAccepts(cells)
    ensures AnyPresent(cells) && (forall i :: 0 <= i < |cells| ==> cells[i].VNull? || cells[i].VInt?) ==> !StrAccepts(cells)
    ensures AnyPresent(cells) && (forall i :: 0 <= i < |cells| ==> cells[i].VNull? || cells[i].VBool?) ==> !StrAccepts(cells)
  {
    if exists i :: 0 <= i < |cells| && (cells[i].VStr? || cells[i].VList?) {
      var i :| 0 <= i < |cells| && (cells[i].VStr? || cells[i].VList?);
      assert !cells[i].VNull?;
    }
  }

  /** A column that repeats one text, as the inserted `id` columns do, is
      accepted. */
  lemma ConstantTextAccepted(n: nat, s: string)
    ensures StrAccepts(seq(n, _ => VStr(s)))
  {
    StrAcceptsCases(seq(n, _ => VStr(s)));
    if n > 0 {
      assert seq(n, _ => VStr(s))[0].VStr?;
    }
  }

  /** The trending payload's `"symbol": 123` gives a column `.str.upper()`
      refuses, while the same column with a name in it is accepted. */
  lemma NumberColumnRefused()
    ensures !StrAccepts([VInt(123)])
    ensures !StrAccepts([VInt(123), VNull, VNum(1.5)])
    ensures StrAccepts([VInt(123), VStr("btc")])
    ensures StrAccepts([VNull, VNull])
  {
    assert ![VInt(123)][0].VNull?;
    assert ![VInt(123), VNull, VNum(1.5)][0].VNull?;
    assert [VInt(123), VStr("btc")][1].VStr?;
    StrAcceptsCases([VInt(123), VStr("btc")]);
  }

  const MoneyChars: set<char> := {'$', ','}

  /** `.str.replace('$', '').str.replace(',', '')` on one cell. */
  function StripMoney(v: Value): (r: Value)
    ensures r.VNull? || (r.VStr? && forall i :: 0 <= i < |r.s| ==> r.s[i] != '$' && r.s[i] != ',')
    ensures v.VStr? <==> r.VStr?
  {
    if v.VStr? then VStr(RemoveChars(v.s, MoneyChars)) else VNull
  }

  /** The texts `pd.to_datetime` reads as a missing time. */
  predicate NoTimeText(s: string) {
    s == "" || s == "NaT" || s == "nat" || s == "NAT" || s == "nan" || s == "NaN" || s == "NAN"
  }

  /** `x` units of `per` milliseconds, truncated to a whole millisecond. */
  function Count(x: real, per: nat): int {
    Truncate(x * per as real)
  }

  /** `pd.to_datetime(x, unit=...)` of one cell, `per` milliseconds to the
      unit, kept to the millisecond: integers and floats are counts of the
      unit, text is read with `float` (the empty text and the `NaT`/`nan`
      spellings being missing), other text raises ValueError and other
      objects TypeError. */
  function UnitCast(v: Value, per: nat): (r: Cast)
    requires per > 0
    ensures r.Cast? ==> r.v.VTime? || r.v.VNull?
    ensures v.VInt? ==> r == Cast(VTime(v.i * per))
    ensures v.VNum? ==> r == Cast(VTime(Count(v.r, per)))
    ensures v.VStr? && !NoTimeText(v.s) && ParseDecimal(v.s).Some? ==>
              r == Cast(VTime(Count(ParseDecimal(v.s).value, per)))
    ensures r.RaisesValueError? <==> v.VStr? && !NoTimeText(v.s) && ParseDecimal(v.s).None?
    ensures r.RaisesTypeError? <==> v.VBool? || v.VTime? || v.VList? || v.VObj?
  {
    match v
    case VNull => Cast(VNull)
    case VInt(i) => Cast(VTime(i * per))
    case VNum(_) => Cast(VTime(Count(v.r, per)))
    case VStr(s) =>
      if NoTimeText(s) then Cast(VNull)
      else if ParseDecimal(s).Some? then Cast(VTime(Count(ParseDecimal(s).value, per)))
      else RaisesValueError
    case _ => RaisesTypeError
  }

  /** `pd.to_datetime(x, unit='ms')`. */
  function MillisCast(v: Value): (r: Cast)
    ensures r.Cast? && v.VInt? ==> r.v == VTime(v.i)
    ensures r.Cast? ==> r.v.VTime? || r.v.VNull?
    ensures r.RaisesValueError? <==> v.VStr? && !NoTimeText(v.s) && ParseDecimal(v.s).None?
    ensures r.RaisesTypeError? <==> v.VBool? || v.VTime? || v.VList? || v.VObj?
  {
    UnitCast(v, 1)
  }

  /** `pd.to_datetime(x, unit='s')`. */
  function SecondsCast(v: Value): (r: Cast)
    ensures r.Cast? && v.VInt? ==> r.v == VTime(v.i * 1000)
    ensures r.Cast? ==> r.v.VTime? || r.v.VNull?
    ensures r.RaisesValueError? <==> v.VStr? && !NoTimeText(v.s) && ParseDecimal(v.s).None?
    ensures r.RaisesTypeError? <==> v.VBool? || v.VTime? || v.VList? || v.VObj?
  {
    UnitCast(v, 1000)
  }

  /** A count of seconds converts to the instant its count of milliseconds
      does, for integer and float counts alike, and the two units accept
      and refuse the same cells. */
  lemma SecondsAreMillis(v: Value)
    ensures v.VInt? ==> SecondsCast(v) == MillisCast(VInt(v.i * 1000))
    ensures v.VNum? ==> SecondsCast(v) == MillisCast(VNum(v.r * 1000.0))
    ensures SecondsCast(v).Cast? <==> MillisCast(v).Cast?
  {
    if v.VNum? {
      assert v.r * 1000.0 * 1.0 == v.r * 1000.0;
    }
  }

  /** A conversion that never raises. */
  function Always(v: Value): Cast {
    Cast(v)
  }

  /** A CoinGecko-style market cap string fails the direct cast and
      converts once `$` and `,` are stripped. */
  lemma StripMoneyExample()
    ensures FloatCast(VStr("$1,234")).RaisesValueError?
    ensures FloatCast(StripMoney(VStr("$1,234"))) == Cast(VNum(1234.0))
  {
    DollarTextIsNotDecimal();
    DollarTextStripped();
    DigitsTextCast();
  }

  lemma DollarTextIsNotDecimal()
    ensures FloatCast(VStr("$1,234")).RaisesValueError?
  {
    LeadNotNumber("$1,234");
  }

  lemma DollarTextStripped()
    ensures StripMoney(VStr("$1,234")) == VStr("1234")
  {
    RemoveCharsNoop("234", MoneyChars);
    assert "1,234"[1..] == ",234";
    assert ",234"[1..] == "234";
    assert "$1,234"[1..] == "1,234";
  }

  lemma DigitsTextCast()
    ensures FloatCast(VStr("1234")) == Cast(VNum(1234.0))
  {
    DigitsTextParse();
  }

  lemma DigitsTextParse()
    ensures ParseDecimal("1234") == Some(1234.0)
  {
    FourDigits();
    ParseDecimalNat(1234);
  }

  lemma FourDigits()
    ensures NatToString(1234) == "1234"
  {
  }
}

=== FILE: wrappers.dfy ===
/** Failure-compatible wrappers used throughout the model: `Option` for a
    value that may be missing (a pandas NaN, an absent dictionary key) and
    `Result` for a computation that may raise. */
module Wrappers {

  datatype Option<+T> = None | Some(value: T) {

    predicate IsFailure() {
      None?
    }

    function PropagateFailure<U>(): Option<U>
      requires None?
    {
      None
    }

    function Extract(): T
      requires Some?
    {
      value
    }

    /** The value, or `default` when it is missing (pandas `fillna`). */
    function GetOr(default: T): T {
      match this
      case Some(v) => v
      case None => default
    }
  }

  datatype Result<+T, +E> = Success(value: T) | Failure(error: E) {

    predicate IsFailure() {
      Failure?
    }

    function PropagateFailure<U>(): Result<U, E>
      requires Failure?
    {
      Failure(error)
    }

    function Extract(): T
      requires Success?
    {
      value
    }
  }
}
